=== FILE: README.md ===
# Polygon fills and lab algorithms, modelled in Dafny

This project models the polygon scan-conversion and seed-fill engine of
`giis/6/main6.py` and the labs around it: the graphics-editor rasterisers,
the logic and coding labs, the hash table, the 16 x 16 matrix and the
airport lab. Each Dafny module follows one source file or component. The
model is written as pure functions over immutable values. Every Python
generator becomes a resumable state machine: `Step` runs from one `yield`
to the next, and `None` stands for `StopIteration`.

- `Bresenham`: `bresenham_line`. The pixels run from the first end point to
  the second, and each step moves one pixel along the major axis.
- `Canvas`: the canvas bounds, the pixel map `filled_pixels_display`, and
  the boundary set that rasterising the polygon's edges builds.
- `EdgeTable`: the non-horizontal edges, each with its upper end first;
  the exact intersection of an edge with a scanline; Python's `round`
  (half to even); and `ScanTarget`, the pixel set the even-odd rule gives.
- `ScanlineOel`: the ordered-edge-list filler. It collects every
  intersection, sorts them by row then x, and fills pairs of them.
- `ScanlineAel`: the active-edge-list filler. It keeps an edge table keyed
  by lower y and an active list that is sorted and advanced row by row.
- `SeedPixels`: what both seed fillers share.
  - The pixel test `_is_pixel_valid_for_seed`.
  - 4-adjacency.
  - The closed regions a seed fill is meant to stay inside.
- `SeedFillSimple`: the pixel-stack flood fill. It fills exactly the open
  pixels that are 4-connected to the seed.
- `SeedFillSpan`: the span-stack seed fill. It extends the span left and
  right, then searches the rows above and below for the right ends of runs.
- `FillController`: the application state of the polygon filler and its
  handlers.
  - Clicking vertices and seeds, and closing the polygon.
  - Starting a fill directly or in debug mode.
  - Advancing the debug generator.
  - Clearing the canvas.
- `Sorting`: a stable insertion sort that stands in for `list.sort`, and
  map and filter with the permutation facts the fill proofs use.
- `LineEditor`, `Circle`, `Geometry`, `ObjectFile`: the graphics labs.
  - The Bresenham tool of the line editor.
  - The midpoint circle.
  - Convexity, the Jarvis march and ray casting.
  - The object-file reader of the 3D viewer.
- `BinaryCodes`, `BinaryColumns`: the string codes of the `Binary` class
  (sign-magnitude, ones' complement and two's complement), and column
  addition and long multiplication over them.
- `TruthTable`: the truth table and its canonical forms, from
  `aois_lab_2/lab2.js`. These are the SDNF and SKNF, their number forms and
  the index form.
- `Gluing`, `Bcd`: the gluing and minimisation of terms, and the
  excess-two BCD converter with its SDNF.
- `HashTable`: the linear-probing hash table of surnames.
- `Matrix16`: the 16 x 16 matrix with its column, diagonal, logical and
  sum operations.
- `Airline`: airplanes, passengers, crew and service of the airport lab.
- `JsText`: the JavaScript string operations the labs lean on.
- `Outcomes`, `Arithmetic`: shared result types, and facts about division.

Floats are modelled as exact rationals. Integers are unbounded, and a
fixed width in the source is written out where it matters. Screen
drawing, dialogs and debug text are left out, as is everything the
handlers do for display only. A check that the source reports with a
dialog or an exception becomes an `Err` value.

Three behaviours of the fill code that the model keeps:
- The span seed fill searches the rows above and below only inside the
  current span's window. A seed already on the stack is not pushed again.
- `round` rounds halves to even.
- A direct fill started while a debug generator is live is possible in
  the model. The source prevents it only by disabling buttons.

## Model

| member | source | states |
|---|---|---|
| Bresenham.StepKeepsInv | giis/6/main6.py:29-35 | one iteration keeps the loop invariant, moves at least one axis and brings the point strictly nearer the end |
| Bresenham.StepArith | giis/6/main6.py:23-35 | in terms of the steps taken on each axis, an axis at its end never moves, some axis moves, and the error stays `dx - dy + j*dx - i*dy` |
| Bresenham.AdvanceAxis | giis/6/main6.py:30-35 | moving an axis that has not reached its end keeps it between the end points and one unit further along |
| Bresenham.WalkShape | giis/6/main6.py:25-36 | the walk from any state satisfying the invariant starts at that state's point and has the shape of a line |
| Bresenham.WalkNext | giis/6/main6.py:25-35 | one iteration appends the current point and moves by a unit step, with more progress and the invariant kept |
| Bresenham.ConsShape | giis/6/main6.py:25-36 | a unit step before a line-shaped walk, inside the box and nearer the start, extends it |
| Bresenham.ProgressOrdered | giis/6/main6.py:25-36 | progress grows along the whole walk, not just between neighbours |
| Bresenham.LineShape | giis/6/main6.py:16-36 | the points start at (x1, y1) and end at (x2, y2), which appears nowhere earlier; each step moves x by 0 or sx and y by 0 or sy, not both by 0; all points lie in the box of the end points and none repeats |
| Bresenham.EndsOnLine | giis/6/main6.py:16-36 | both end points are on the line |
| Canvas.PixelsExactly | giis/6/main6.py:115 | the canvas pixels are exactly those with 0 <= x < 600 and 0 <= y < 500 |
| Canvas.DrawPixel | giis/6/main6.py:112-126 | drawing records the position exactly when it is on the canvas and changes nothing else |
| Canvas.DrawPixelIdempotent | giis/6/main6.py:117-124 | drawing a pixel twice records it once |
| Canvas.DrawPixelClipped | giis/6/main6.py:115 | recorded positions stay on the canvas |
| Canvas.DrawRange | giis/6/main6.py:396 | `for fill_x in range(a, b)` adds the span [a, b) of row y, clipped to the canvas |
| Canvas.SpanPixelsOnCanvas | giis/6/main6.py:115 | a span's recorded pixels are the canvas pixels of row y with a <= x < b |
| Canvas.LinePixelsEnds | giis/6/main6.py:132-133 | both end points of an edge are boundary pixels |
| Canvas.AddEdge | giis/6/main6.py:128-133 | the boundary grows by pixels of the line only, including both ends, and is not clipped to the canvas |
| Canvas.OpenBoundaryMembers | giis/6/main6.py:150-154 | while drawing, a pixel is on the boundary exactly when it is on the line between some vertex and the next |
| Canvas.AppendVertex | giis/6/main6.py:150-154 | a click adds a vertex and, after the first, exactly the line from the previous vertex |
| Canvas.VerticesOnBoundary | giis/6/main6.py:173-180 | after the closing edge every vertex is a boundary pixel |
| Canvas.UnfilledShrinks | giis/6/main6.py:112-126 | filling an unfilled canvas pixel lowers the number of unfilled canvas pixels |
| EdgeTable.EdgeOf | giis/6/main6.py:326-336 | no edge exactly for equal y; otherwise y_min < y_max are the two end points' y, and the slope is vertical exactly when the x are equal |
| EdgeTable.EdgeOfThroughVertices | giis/6/main6.py:332-336 | the edge does not depend on the direction of the side, and passes through both of its vertices |
| EdgeTable.EdgesFrom | giis/6/main6.py:323-336 | every kept edge has y_min < y_max and comes from a side, and every non-horizontal side gives a kept edge |
| EdgeTable.RoundHalfEven | giis/6/main6.py:361 | Python's `round`: within a half of the number, and even at a tie |
| EdgeTable.RoundMonotone | giis/6/main6.py:361 | rounding never reverses the order of two numbers |
| EdgeTable.RoundNearest | giis/6/main6.py:361 | a number within less than a half of an integer rounds to it |
| EdgeTable.RoundInteger | giis/6/main6.py:361 | integers round to themselves |
| EdgeTable.MinYMin | giis/6/main6.py:342 | the least y_min of the edges |
| EdgeTable.MaxYMax | giis/6/main6.py:343 | the greatest y_max of the edges |
| EdgeTable.RowOutsideRange | giis/6/main6.py:353-356 | rows outside [min y_min, max y_max) meet no edge and have no intersections |
| EdgeTable.PairsFromFirst | giis/6/main6.py:392-397 | the spans of a row cover exactly the canvas pixels of that row lying in some span [x_2j, x_2j+1) |
| EdgeTable.PairsFromSplit | giis/6/main6.py:392-397 | the spans from pair j are pair j's span and those after it |
| EdgeTable.PairsFromDone | giis/6/main6.py:392 | an odd trailing intersection gives no span |
| Sorting.InsertSpec | giis/6/main6.py:372 | inserting into a sorted sequence keeps it sorted and adds exactly the one element |
| Sorting.SortSpec | giis/6/main6.py:372 | the sort is ordered and a permutation of its input |
| Sorting.SortInts | giis/6/main6.py:387 | sorting integers gives an ascending permutation |
| Sorting.SortedIntsUnique | giis/6/main6.py:387 | two ascending sequences with the same elements are equal, so any sort gives the same list |
| Sorting.SortIntsPerm | giis/6/main6.py:407 | lists with the same elements sort to the same list |
| Sorting.Filter | giis/6/main6.py:511-516 | the filter keeps only elements that pass and every element that passes |
| Sorting.MapPerm | giis/6/main6.py:500-505 | mapping permuted lists gives permuted results |
| Sorting.FilterPerm | giis/6/main6.py:500-505 | filtering permuted lists gives permuted results |
| ScanlineOel.SortHits | giis/6/main6.py:372 | `sort()` on the (y, x) pairs: sorted by y then x, and a permutation of the input |
| ScanlineOel.Step | giis/6/main6.py:318-422 | one resumption of the generator, up to its next `yield`: the state stays valid, strictly precedes the old one in a well-founded order, and only adds pixels |
| ScanlineOel.Scan | giis/6/main6.py:380-403 | the grouping loop stops at the next row to show, or ends; it fills nothing itself |
| ScanlineOel.SortedHitsByY | giis/6/main6.py:372 | the sorted list groups the intersections row by row |
| ScanlineOel.XsAtPerm | giis/6/main6.py:372-387 | sorting the list does not change any row's sorted intersections |
| ScanlineOel.XsAtHitsFrom | giis/6/main6.py:353-365 | the collected intersections of a row are that row's rounded intersections, and none outside [min y_min, max y_max) |
| ScanlineOel.RawTarget | giis/6/main6.py:353-365 | the pixels the raw intersections describe are the target fill of the edges |
| ScanlineOel.SortedTarget | giis/6/main6.py:372 | sorting keeps the described pixels |
| ScanlineOel.CloseRow | giis/6/main6.py:383-399 | when the row changes, the pending fill is the previous row's spans plus the rows still ahead |
| ScanlineOel.SameRow | giis/6/main6.py:402 | an intersection on the current row joins it and changes no pending pixel |
| ScanlineOel.NewRow | giis/6/main6.py:400-402 | an intersection on a new row starts it and changes no pending pixel |
| ScanlineOel.StartTarget | giis/6/main6.py:377-378 | the sentinel `current_y = -1` with nothing collected loses nothing, since the list is empty at the first intersection |
| ScanlineOel.StepPending | giis/6/main6.py:318-422 | each step keeps filled plus pending unchanged, and when the generator stops everything pending is already filled |
| ScanlineOel.RunPending | giis/6/main6.py:233 | draining a valid generator fills exactly what was already filled plus everything pending |
| ScanlineOel.RunFillsScanTarget | giis/6/main6.py:318-422 | run to completion, the filler records exactly the canvas pixels in the pairs [x_2j, x_2j+1) of each row's sorted rounded intersections, and nothing for fewer than three vertices |
| ScanlineOel.OddTrailingDropped | giis/6/main6.py:392-412 | an odd trailing intersection adds no pixel |
| ScanlineAel.AddEntry | giis/6/main6.py:460-462 | adding an edge to the edge table appends its record at its y_min and leaves the other rows alone |
| ScanlineAel.EtOfBuckets | giis/6/main6.py:439-462 | row y of the edge table holds the records of the edges starting on y, in side order |
| ScanlineAel.EtOfEmpty | giis/6/main6.py:467-469 | the edge table is empty exactly when no edge was kept |
| ScanlineAel.EntryIsFirstRow | giis/6/main6.py:455-458 | an edge's record starts at its x on its first row |
| ScanlineAel.BumpLiveAt | giis/6/main6.py:520-522 | advancing a record moves it to the edge's x on the next row; vertical edges stay put |
| ScanlineAel.SortLive | giis/6/main6.py:500 | the list sorted by `x_current`, a permutation of it |
| ScanlineAel.FillPairs | giis/6/main6.py:511-516 | filling the pairs from j adds the pixels of those spans |
| ScanlineAel.RowFrom | giis/6/main6.py:480-507 | the scan ends exactly at max y_max; otherwise the next row's list is the surviving records plus the row's new ones, and the row is shown empty exactly when that list is empty, or sorted |
| ScanlineAel.Step | giis/6/main6.py:425-527 | one resumption of the generator: the state stays valid, strictly precedes the old one, and only adds pixels |
| ScanlineAel.Rebuilt | giis/6/main6.py:485-492 | dropping expired records and adding the row's new ones gives exactly the records of the edges crossing the row |
| ScanlineAel.BumpCarried | giis/6/main6.py:520-522 | advancing the active records gives the records carried into the next row |
| ScanlineAel.ActiveXs | giis/6/main6.py:500-505 | the rounded x of the sorted list are the row's sorted rounded intersections, the same as the ordered edge list finds |
| ScanlineAel.RowsFromMin | giis/6/main6.py:480 | the rows from min y_min on hold the whole target fill |
| ScanlineAel.RowsBeyond | giis/6/main6.py:480 | no target pixel lies at or beyond max y_max |
| ScanlineAel.StepNoEdges | giis/6/main6.py:467-469 | with no non-horizontal edge the generator stops at once, and the target is empty |
| ScanlineAel.StepPending | giis/6/main6.py:425-527 | each step keeps the invariant and filled plus pending unchanged, and when the generator stops everything pending is already filled |
| ScanlineAel.AdvancePending | giis/6/main6.py:519-522 | after row y every active record advances by its slope, and from there the generator draws exactly the rows above y that are still due |
| ScanlineAel.RunPending | giis/6/main6.py:235 | draining a valid generator fills what was filled plus everything pending |
| ScanlineAel.RunFillsScanTarget | giis/6/main6.py:425-527 | run to completion, the active-edge-list filler records exactly the target fill of the polygon |
| ScanlineAel.ScanlinesAgree | giis/6/main6.py:233-235 | both scanline fillers record the same pixels for every vertex list |
| SeedPixels.ValidAntitone | giis/6/main6.py:530-549 | a pixel valid for the seed test stays valid when fewer pixels are filled |
| SeedPixels.NeighboursAdjacent | giis/6/main6.py:587-588 | the four neighbours tried are exactly the 4-adjacent pixels |
| SeedPixels.AdjacentSymmetric | giis/6/main6.py:587-588 | 4-adjacency is symmetric |
| SeedPixels.PrefixKeeps | giis/6/main6.py:593 | a stack that only grows at its end keeps what it held |
| SeedFillSimple.PushAll | giis/6/main6.py:590-594 | the stack keeps its old contents as a prefix; it gains exactly the valid neighbours not already on it, and never holds a pixel twice |
| SeedFillSimple.Step | giis/6/main6.py:551-609 | a seed on the boundary or off the canvas stops the generator at once; each step keeps the boundary, only adds pixels, strictly precedes the old state, and fills only the popped pixel when it is valid |
| SeedFillSimple.StepInv | giis/6/main6.py:568-604 | each step keeps the loop invariant, and when the generator stops the fill is final |
| SeedFillSimple.RunFinal | giis/6/main6.py:237 | draining the generator ends in a final fill |
| SeedFillSimple.StepWithin | giis/6/main6.py:573-604 | a step never leaves a region closed under 4-adjacent open pixels that holds the seed |
| SeedFillSimple.RunWithin | giis/6/main6.py:573-604 | neither does the whole run |
| SeedFillSimple.FillIsClosedRegion | giis/6/main6.py:551-609 | the fill holds only open pixels; nothing for a seed on the boundary or off the canvas; otherwise the seed, and every open pixel 4-adjacent to a filled one |
| SeedFillSimple.FillIsLeast | giis/6/main6.py:551-609 | the fill lies inside every closed region holding the seed, so it is exactly the 4-connected open region of the seed |
| SeedFillSpan.ExtendLeft | giis/6/main6.py:642-644 | the span's left end: every pixel from it to the seed is valid, and the pixel before it is not |
| SeedFillSpan.ExtendRight | giis/6/main6.py:647-649 | the span's right end: every pixel from the seed to it is valid, and the pixel after it is not |
| SeedFillSpan.FillSpan | giis/6/main6.py:658-661 | filling the span adds exactly the valid pixels of the row between the ends |
| SeedFillSpan.SkipInvalid | giis/6/main6.py:675-676 | the skip stops at the first valid pixel of the window, or just past it |
| SeedFillSpan.ScanRun | giis/6/main6.py:680-685 | the scan stops at the rightmost pixel of the run of valid pixels within the window |
| SeedFillSpan.RowSeeds | giis/6/main6.py:672-691 | the run ends found lie within the window |
| SeedFillSpan.RowSeedsSound | giis/6/main6.py:672-691 | every position found is the right end of a valid run within the window |
| SeedFillSpan.RowSeedsOrdered | giis/6/main6.py:672-691 | the positions come left to right with at least one invalid pixel between them |
| SeedFillSpan.RowSeedsComplete | giis/6/main6.py:672-691 | every right end of a valid run within the window is found |
| SeedFillSpan.PushNew | giis/6/main6.py:688-690 | the stack keeps its old contents as a prefix, gains the row's found positions not already on it, all of them, and never holds a pixel twice |
| SeedFillSpan.SeedRow | giis/6/main6.py:672-691 | the seeds pushed for one row lie on it within the window and never repeat a stacked pixel |
| SeedFillSpan.SeedRowSound | giis/6/main6.py:672-691 | every seed pushed for a row is valid and the right end of a run |
| SeedFillSpan.SeedRowComplete | giis/6/main6.py:672-691 | every right end of a valid run of the row within the window ends up on the stack |
| SeedFillSpan.SearchRow | giis/6/main6.py:666-668 | a row off the canvas is skipped; otherwise only valid pixels of that row within the window are appended |
| SeedFillSpan.PushSeedsShape | giis/6/main6.py:664-691 | the new seeds lie on the rows above and below within the window and are valid, and the stack has no repeats |
| SeedFillSpan.PushSeedsComplete | giis/6/main6.py:664-691 | every right end of a valid run on the rows above and below within the window is on the stack afterwards |
| SeedFillSpan.FillStep | giis/6/main6.py:656-662 | the fill step adds exactly the valid pixels of the span |
| SeedFillSpan.SeedStep | giis/6/main6.py:664-699 | the seed step keeps the state valid and makes progress |
| SeedFillSpan.Step | giis/6/main6.py:612-705 | a seed on the boundary or off the canvas stops the generator at once; each step keeps the boundary, progresses, and adds only pixels valid before it |
| SeedFillSpan.ChainLeft | giis/6/main6.py:642-644 | a closed region holding the seed holds the whole stretch to the left end |
| SeedFillSpan.ChainRight | giis/6/main6.py:647-649 | and the stretch to the right end |
| SeedFillSpan.StepWithin | giis/6/main6.py:633-699 | a step never leaves a region closed under 4-adjacent open pixels that holds the stacked seeds and the fill |
| SeedFillSpan.RunWithin | giis/6/main6.py:633-699 | neither does the whole run |
| SeedFillSpan.FillIsContained | giis/6/main6.py:612-705 | the span fill lies inside every closed region holding the seed, so inside the seed's 4-connected open region |
| SeedFillSpan.StepSeedInv | giis/6/main6.py:612-705 | each step keeps the fill open and the seed filled once the generator stops, exactly when the seed is open |
| SeedFillSpan.RunSeedInv | giis/6/main6.py:239 | the drained fill holds only open pixels, and the seed exactly when it is open |
| SeedFillSpan.FillOpenFromSeed | giis/6/main6.py:612-705 | the span fill holds only open pixels, holds the seed exactly when it is open, and is empty for a seed on the boundary or off the canvas |
| FillController.MStep | giis/6/main6.py:243-247 | one `next()` on any of the four generators keeps it a valid resume point of the same algorithm and only adds to the fill |
| FillController.MRunStep | giis/6/main6.py:229-236 | draining a generator gives what it has filled when it stops, and otherwise what draining after one more `next()` gives |
| FillController.Create | giis/6/main6.py:219-236 | the generator made for each algorithm is of that algorithm, valid, and has filled nothing yet |
| FillController.Initial | giis/6/main6.py:43-53 | the application starts in drawing mode with the ordered-edge-list filler selected, debug off, and no vertices, boundary, seed, fill, generator or steps |
| FillController.InitialClick | giis/6/main6.py:143-151 | the first click on a fresh application records the snapped point as the only vertex and changes nothing else |
| FillController.InitialIsCleared | giis/6/main6.py:135-141 | "Clear All" on a fresh application leaves it as it was |
| FillController.Snap | giis/6/main6.py:146-147 | a click snaps down to the largest multiple of the pixel size at or below it |
| FillController.ClearAll | giis/6/main6.py:135-141 | clearing leaves no vertices, no boundary, no fill, no seed and no generator, keeps the algorithm and the debug flag, and returns to drawing mode |
| FillController.Click | giis/6/main6.py:143-171 | a click while drawing appends the snapped vertex and extends the open outline; with a seed algorithm and no generator it sets the seed, or fails if no finished polygon exists; otherwise nothing changes |
| FillController.FinishPolygon | giis/6/main6.py:173-189 | closing fails for fewer than three vertices; otherwise it adds the closing edge to the outline, leaves drawing mode and changes nothing else |
| FillController.NextStep | giis/6/main6.py:243-256 | with no generator nothing changes; a stopped generator is dropped; otherwise one step is taken, the fill follows it and the step count grows by one |
| FillController.SelectMode | giis/6/main6.py:273-274 | choosing an algorithm or toggling debug mode records the choice, drops any generator, keeps the polygon, seed, fill and step count, and keeps the state consistent |
| FillController.SelectModeThenStart | giis/6/main6.py:193-236 | a fill started after a mode change, when it starts, leaves a consistent state |
| FillController.StartFill | giis/6/main6.py:193-236 | starting fails exactly when there are no vertices or no boundary pixels, or a seed algorithm has no seed; otherwise the polygon, seed, algorithm and mode are kept |
| FillController.Drain | giis/6/main6.py:229-236 | pressing "Next Step" until the generator stops leaves no generator and a consistent fill |
| FillController.DrainFills | giis/6/main6.py:229-256 | draining step by step fills exactly what running the generator to the end fills |
| FillController.DebugAgreesWithDirect | giis/6/main6.py:217-236 | a debug fill stepped to the end fills exactly what the direct fill does |
| FillController.StartFillResult | giis/6/main6.py:228-236 | the direct fill of a scanline filler is the polygon's scanline target; of the simple seed fill, the closed region of the seed; of the span seed fill, open pixels only, holding the seed exactly when it is open, inside every closed region holding the seed |
| LineEditor.FloorDiv | giis/1/lab1.py:72-75 | Python's `//` for a positive divisor: the quotient rounded down |
| LineEditor.Cell | giis/1/lab1.py:72-75 | the grid cell of a position: the cell of size 10 that contains it |
| LineEditor.Plotted | giis/1/lab1.py:67-116 | the points passed to `putpixel` start at the first end point (its cell in debug mode), stop exactly at the second and nowhere earlier, move by unit steps and never repeat |
| LineEditor.SameCellSinglePoint | giis/1/lab1.py:72-88 | in debug mode end points in the same cell give a single plotted cell |
| Circle.Next | giis/lab2.py:131-136 | after plotting, y grows by one and x shrinks by one exactly when the decision is positive |
| Circle.Walk | giis/lab2.py:122-136 | the iterations of `while x >= y`: none when x < y at the start, otherwise starting with the start state, every one with x >= y |
| Circle.WalkSteps | giis/lab2.py:122-136 | consecutive iterations are related by one update |
| Circle.NextKeepsDecision | giis/lab2.py:120-136 | the update keeps `decision_over_2` equal to `x(x-1) + (y+1)^2 - r^2` at the new point |
| Circle.WalkDecision | giis/lab2.py:120-136 | every iteration of a walk started with the right decision carries the right decision |
| Circle.NextNear | giis/lab2.py:131-136 | one update keeps the point within half a pixel of the circle while it stays in the octant |
| Circle.WalkNear | giis/lab2.py:122-136 | every iteration of a walk that starts near the circle stays near it |
| Circle.Points | giis/lab2.py:123-130 | the octant point of each iteration, in order |
| Circle.ReflectSymmetric | giis/lab2.py:123-130 | the eight pixels of an iteration start with the octant point, lie at its distance from the centre, and are symmetric about both axes and the diagonal through the centre |
| Circle.Plot | giis/lab2.py:122-130 | eight pixels per iteration, the k-th eight being the reflections of the k-th octant point |
| Circle.OctantMoves | giis/lab2.py:131-136 | from (radius, 0) each iteration raises y by one and lowers x exactly when the decision is positive |
| Circle.OctantDecision | giis/lab2.py:120-136 | the decision at every iteration is `x(x-1) + (y+1)^2 - r^2`, so x moves in exactly when the midpoint lies outside the circle |
| Circle.OctantNear | giis/lab2.py:118-136 | for a positive radius every octant point has x >= y >= 0 and lies within half a pixel of the circle |
| Circle.CircleShape | giis/lab2.py:117-136 | `draw_circle` for a positive radius starts at (radius, 0) with decision `1 - radius`, moves as above, stays in the octant near the circle, and plots the eight reflections of each octant point |
| Geometry.CrossAntisymmetric | giis/5/main5.py:16-18 | swapping the operands of the cross product negates it |
| Geometry.DistanceSq | giis/5/main5.py:23-27 | the squared distance is never negative and is zero exactly between equal points |
| Geometry.ClassifyConvexity | giis/5/main5.py:40-78 | fewer than three vertices are degenerate; otherwise concave exactly when the turns take both signs, convex_ccw exactly when some turn is positive and none negative, convex_cw the mirror case, and degenerate exactly when every turn is zero |
| Geometry.LowestPoint | giis/5/main5.py:186 | an input point whose (y, x) key is the least |
| Geometry.Better | giis/5/main5.py:206-215 | a candidate either replaces the current choice or leaves it |
| Geometry.Sweep | giis/5/main5.py:198-215 | the sweep's choice is the starting choice or some candidate, and once different from the current point it stays different |
| Geometry.NextHullPoint | giis/5/main5.py:193-217 | the next hull point is an input point |
| Geometry.March | giis/5/main5.py:191-223 | the loop extends the hull, appends the current point first, ends at most one longer than the input, and adds only input points |
| Geometry.JarvisMarch | giis/5/main5.py:177-223 | fewer than three points come back unchanged; otherwise the hull is non-empty, at most one longer than the input, starts at the lowest (then leftmost) point and holds only input points |
| Geometry.CrossRightExact | giis/5/main5.py:307-309 | the multiplied-out integer test says exactly that the crossing computed by division lies right of the point |
| Geometry.CrossingsStep | giis/5/main5.py:303-310 | each edge adds one to the count exactly when the ray crosses it |
| Geometry.CrossingAdded | giis/5/main5.py:303-310 | a crossed edge joins the crossings |
| Geometry.CrossingSkipped | giis/5/main5.py:303-310 | an edge the ray misses leaves the crossings as they were |
| Geometry.InPolygon | giis/5/main5.py:269-312 | false for fewer than three vertices; otherwise true exactly when the point is on a vertex or an axis-aligned edge, or the ray to the right crosses an odd number of edges under the half-open y test |
| ObjectFile.TrimLeft | giis/lab4.py:92 | leading white space removed: what is dropped is white space and what is left does not start with it |
| ObjectFile.TrimRight | giis/lab4.py:92 | trailing white space removed, likewise |
| ObjectFile.Strip | giis/lab4.py:92 | `strip` leaves a line that neither starts nor ends with white space |
| ObjectFile.TakeToken | giis/lab4.py:99 | the first token of a line without leading space and the rest, which starts with white space or is empty |
| ObjectFile.NonSpaceAppend | giis/lab4.py:99 | the non-space characters of a join are those of its parts |
| ObjectFile.Split | giis/lab4.py:99 | `split()`: tokens without white space, none exactly for a blank line, together holding the line's non-space characters in order |
| ObjectFile.SplitCons | giis/lab4.py:99 | the first token and the split of the rest form the split of the line |
| ObjectFile.TrimLeftNonSpace | giis/lab4.py:92-99 | trimming keeps every non-space character |
| ObjectFile.Classify | giis/lab4.py:92-99 | a line is skipped exactly when it strips to nothing or starts with '#', and is the marker exactly when not skipped and equal to 'edges' ignoring case |
| ObjectFile.LineVertices | giis/lab4.py:100-102 | only a line of three fields gives a vertex, at most one, with w = 1.0 |
| ObjectFile.LineEdges | giis/lab4.py:103-105 | only a line of two fields gives an edge, at most one |
| ObjectFile.Cat | giis/lab4.py:89-110 | the results of two parts combine exactly when both parsed |
| ObjectFile.CatAssoc | giis/lab4.py:89-110 | combining is associative |
| ObjectFile.CatEmpty | giis/lab4.py:89-110 | combining with nothing changes nothing |
| ObjectFile.Kinds | giis/lab4.py:91-99 | each line classified on its own, in file order |
| ObjectFile.FirstMarker | giis/lab4.py:95-97 | the first 'edges' marker from a line on, or the end |
| ObjectFile.VertexSectionFront | giis/lab4.py:100-102 | the vertices of a section are the first line's then the rest's |
| ObjectFile.EdgeSectionFront | giis/lab4.py:103-105 | the edges of a section are the first line's then the rest's |
| ObjectFile.LoadEdgeMode | giis/lab4.py:95-105 | once in edge mode every later line, markers included, is read only for edges |
| ObjectFile.LoadVertexMode | giis/lab4.py:95-105 | vertex mode reads vertices up to the first marker and then switches to edge mode for good |
| ObjectFile.LoadBySections | giis/lab4.py:85-110 | the load is the vertices before the first marker and the edges after it, or nothing when any number fails to parse |
| ObjectFile.DrawableEdges | giis/lab4.py:136-139 | exactly the edges whose indices both fall inside the vertex list |
| ObjectFile.DrawObject | giis/lab4.py:130-139 | no edges gives a dot for every point; otherwise exactly one segment per edge with both indices in range |
| BinaryCodes.Bits | aois_lab_1/lab_1.js:18-21 | the first loop of toBinary yields bit digits denoting m, starting with 1 for m > 0 and empty for 0 |
| BinaryCodes.ToString2 | aois_lab_7/lab7.js:105 | `m.toString(2)` is at least one binary digit, denotes m and has no leading zero |
| BinaryCodes.BitsLength | aois_lab_1/lab_1.js:18-21 | a number below 2^k has at most k binary digits |
| BinaryCodes.Pad8 | aois_lab_1/lab_1.js:22-24 | the second loop pads to at least eight digits without changing the value |
| BinaryCodes.ToBinary | aois_lab_1/lab_1.js:13-26 | toBinary(0) is '00000000'; otherwise the sign '1 ' or '0 ' by the sign of n, then at least eight digits denoting abs(n), exactly eight below 256 |
| BinaryCodes.ParseInt2 | aois_lab_1/lab_1.js:31 | `parseInt(s, 2)` of a non-empty string of binary digits is its value |
| BinaryCodes.BitPrefix | aois_lab_1/lab_1.js:31 | parseInt reads the longest prefix of binary digits |
| BinaryCodes.RoundTrip | aois_lab_1/lab_1.js:13-33 | fromBinary(toBinary(n)) == n for every integer n |
| BinaryCodes.ReverseCode | aois_lab_1/lab_1.js:39-47 | the ones' complement code is toBinary(n) for n >= 0 and has its length otherwise |
| BinaryCodes.ReverseCodeDigits | aois_lab_1/lab_1.js:39-47 | for n < 0 it reads '1 ' and its digits hold 2^width - 1 - abs(n); ten characters below 256 |
| BinaryCodes.FlipValue | aois_lab_1/lab_1.js:42-46 | flipping w bit digits turns value v into 2^w - 1 - v |
| BinaryCodes.AdditionalCode | aois_lab_1/lab_1.js:49-53 | additionalBinaryCode as written is toBinary(n) for n >= 0 and the ones' complement code of n + 1 otherwise |
| BinaryCodes.AdditionalCodeTwos | aois_lab_1/lab_1.js:49-53 | below -1 that code is the two's complement code: '1 ' and digits holding 2^width - abs(n) |
| BinaryCodes.AdditionalCodeMinusOne | aois_lab_1/lab_1.js:51-52 | for -1 the code as written is '00000000', which is not the two's complement code of -1 |
| BinaryCodes.AdditionalCodeFixed | aois_lab_1/lab_1.js:49-53 | corrected code: toBinary(n) for n >= 0, a two's complement code for every n < 0, and the written code below -1 |
| BinaryCodes.MinusOneCode | aois_lab_1/lab_1.js:49-53 | '1 11111111' is the two's complement code of -1 |
| BinaryCodes.Lsb | aois_lab_1/lab_1.js:59 | the digits reversed into numbers, least significant first |
| BinaryCodes.AddDigits | aois_lab_1/lab_1.js:59 | the column-wise sum of two digit arrays of one length |
| BinaryCodes.Propagate | aois_lab_1/lab_1.js:60-70 | the carry loop, with its restart after an end-around carry, ends with a bit array of the same length |
| BinaryCodes.ScanStep | aois_lab_1/lab_1.js:61-69 | one pass of the loop body: a digit at most 1 moves on, a digit above 1 carries into the next position, or from the top into position 0 with a restart; each carry lowers the digit sum |
| BinaryCodes.PropagateValue | aois_lab_1/lab_1.js:60-70 | the carries change the value only by a multiple of 2^width - 1 |
| BinaryCodes.PropagateBits | aois_lab_1/lab_1.js:60-70 | an array that is all bits is left unchanged |
| BinaryCodes.Carry | aois_lab_1/lab_1.js:62-68 | an inner carry keeps the value and lowers the digit sum by one |
| BinaryCodes.WrapAround | aois_lab_1/lab_1.js:62-66 | an end-around carry lowers the value by 2^width - 1 and the digit sum by one |
| BinaryCodes.AddOnes | aois_lab_1/lab_1.js:55-72 | addAdditionalBinary fails exactly when the second operand is 0, whose code has no part after a space |
| BinaryCodes.OnesSum | aois_lab_1/lab_1.js:59-71 | the digit-wise sum with end-around carry is a bit string of the operands' width whose value differs from the operands' total by a multiple of 2^width - 1 |
| BinaryCodes.OnesDigitsValue | aois_lab_1/lab_1.js:56-58 | an operand's magnitude digits are eight bits holding n for n >= 0 and 255 + n for n < 0 |
| BinaryCodes.OnesSumOfOperands | aois_lab_1/lab_1.js:59-70 | the sum's digits hold the sum when positive, 255 + sum when negative, and 0 or 255 when it is zero |
| BinaryCodes.CodeOfDigits | aois_lab_1/lab_1.js:71 | the return statement turns such digits into toBinary of the non-zero sum |
| BinaryCodes.AddOnesSum | aois_lab_1/lab_1.js:55-72 | for a non-zero second operand and a non-zero sum of magnitude below 255 the result is toBinary(x1 + x2) |
| BinaryCodes.ComplementOperands | aois_lab_1/lab_1.js:56-70 | the magnitude digits of x and -x sum, with carries, to eight ones |
| BinaryCodes.AddOnesNegativeZero | aois_lab_1/lab_1.js:71 | addAdditionalBinary(x, -x) is '0 11111111', a negative zero that reads back as 255 |
| BinaryCodes.SubOnes | aois_lab_1/lab_1.js:74-77 | substractAdditionalBinary fails exactly when the operands differ and the second is 0 |
| BinaryCodes.SubOnesDifference | aois_lab_1/lab_1.js:74-77 | for distinct operands, the second non-zero, and a difference of magnitude below 255 the result is toBinary(x1 - x2) |
| BinaryCodes.AddOnesFixed | aois_lab_1/lab_1.js:55-72 | corrected addition agrees with the written one whenever that one neither fails nor meets a zero sum |
| BinaryCodes.AddOnesFixedSum | aois_lab_1/lab_1.js:55-72 | corrected addition gives the sign-magnitude code of every sum of magnitude below 255, zero as '0 00000000' |
| BinaryCodes.SubFixedDifference | aois_lab_1/lab_1.js:74-77 | corrected subtraction gives the sign-magnitude code of every difference of magnitude below 255, subtracting 0 included |
| BinaryCodes.ValueLeadingZeros | aois_lab_1/lab_1.js:22-24 | leading zeros do not change the value of a digit string |
| BinaryCodes.BitsUnique | aois_lab_1/lab_1.js:13-26 | two bit strings of one length and value are equal |
| BinaryCodes.UnitAdd | aois_lab_1/1.test.js:10-12 | addAdditionalBinary(5, 4) is '0 00001001' |
| BinaryCodes.UnitSubtract | aois_lab_1/1.test.js:14-16 | substractAdditionalBinary(5, 4) is '0 00000001' |
| BinaryCodes.SubtractSame | aois_lab_1/lab_1.js:75 | subtracting a number from itself gives '0 00000000' |
| BinaryColumns.MaxLen | aois_lab_1/lab_1.js:81 | the length of the longest string: no string is longer and some string has it |
| BinaryColumns.LowSumStep | aois_lab_1/lab_1.js:84-92 | one more column adds that column's digits at their weight |
| BinaryColumns.LowSumTotal | aois_lab_1/lab_1.js:84-92 | once every digit is covered the low parts add up to the total of the strings |
| BinaryColumns.AddColumn | aois_lab_1/lab_1.js:85-89 | the inner loop's sum is the carry plus the digits of column i, reading 0 past the start of a shorter string |
| BinaryColumns.PartwayStep | aois_lab_1/lab_1.js:84-92 | writing a column's digit and keeping its half as carry keeps the loop invariant |
| BinaryColumns.Finished | aois_lab_1/lab_1.js:93-96 | after the last column, writing a carry of exactly one gives the column sum |
| BinaryColumns.FinalCarry | aois_lab_1/lab_1.js:93-95 | with no carry written the digits hold the total exactly when it fits, and otherwise lose a multiple of the top weight |
| BinaryColumns.AddBinaryArray | aois_lab_1/lab_1.js:79-97 | 'Array is empty' exactly for no strings; otherwise binary digits at most one longer than the longest input, worth the total exactly when the total is below 2^(maxLength + 1), and otherwise below 2^maxLength and short of the total by a multiple of 2^maxLength |
| BinaryColumns.Scale | aois_lab_1/lab_1.js:104-106 | each digit of x1 times the digit of x2 |
| BinaryColumns.ScaleBits | aois_lab_1/lab_1.js:104-106 | a bit string times 1 is itself, times 0 all zeros |
| BinaryColumns.Partial | aois_lab_1/lab_1.js:103-110 | a partial product is binary digits, \|d1\| + counter of them |
| BinaryColumns.PartialValue | aois_lab_1/lab_1.js:103-110 | a partial product is the magnitude of x1 times the digit, shifted counter places |
| BinaryColumns.Partials | aois_lab_1/lab_1.js:102-112 | one partial product per digit of x2 from the last, the c-th shifted by c |
| BinaryColumns.PartialsTotal | aois_lab_1/lab_1.js:102-113 | the partial products add up to the product of the magnitudes |
| BinaryColumns.PartialsLength | aois_lab_1/lab_1.js:102-112 | the longest partial product is \|d1\| + \|d2\| - 1 digits long |
| BinaryColumns.ProductBound | aois_lab_1/lab_1.js:113 | the product of the magnitudes is below 2^(\|d1\| + \|d2\|), so the column sum never loses a carry |
| BinaryColumns.ProductSign | aois_lab_1/lab_1.js:114 | the sign is '1 ' exactly when one operand's sign digit is '1' |
| BinaryColumns.MultiplyBinary | aois_lab_1/lab_1.js:99-115 | the result starts with the product's sign; when x2 has magnitude digits the rest are binary digits worth the product of the magnitudes, \|d1\| + \|d2\| - 1 or \|d1\| + \|d2\| of them; otherwise the rest is 'Array is empty' |
| TruthTable.Truth | aois_lab_2/lab2.js:7-15 | a truth value as the character '1' or '0' |
| TruthTable.And | aois_lab_2/lab2.js:7 | '1' exactly when both operands are '1' |
| TruthTable.Or | aois_lab_2/lab2.js:9 | '0' exactly when both operands are '0' |
| TruthTable.Not | aois_lab_2/lab2.js:11 | the other bit |
| TruthTable.Equals | aois_lab_2/lab2.js:13 | '1' exactly when the operands are equal |
| TruthTable.Impl | aois_lab_2/lab2.js:15 | '0' exactly for '1' implying '0' |
| TruthTable.ImplIsOrNot | aois_lab_2/lab2.js:9-15 | implication is the negated premise or the conclusion |
| TruthTable.EqualsIsBothImpl | aois_lab_2/lab2.js:13-15 | equivalence is implication both ways |
| TruthTable.Check | aois_lab_2/lab2.js:17-28 | an operator exactly for '&', '\|', '~' and '>' |
| TruthTable.CheckTables | aois_lab_2/lab2.js:17-28 | the operator `check` picks for each of '&', '\|', '~', '>' has the truth table of conjunction, disjunction, equivalence and implication |
| TruthTable.Variables | aois_lab_2/lab2.js:33-34 | the distinct lower-case letters of the expression: every one it holds, no other and none twice |
| TruthTable.VariablesInOrder | aois_lab_2/lab2.js:33 | the variables come in the order of their first occurrence, as a `Set` keeps them |
| TruthTable.Row | aois_lab_2/lab2.js:41-45 | row i holds bit n - 1 - k of i in place k |
| TruthTable.RowRoundTrip | aois_lab_2/lab2.js:40-46 | for i below 2^n the row is bits whose value read back is i |
| TruthTable.ValueRoundTrip | aois_lab_2/lab2.js:40-46 | every bit row of length n is the row of its own value, which is below 2^n |
| TruthTable.RowsDistinct | aois_lab_2/lab2.js:40-46 | different numbers give different rows, so the table lists every assignment once |
| TruthTable.Table | aois_lab_2/lab2.js:30-90 | 2^n lines for the n variables, line i holding the bits of i and F as the evaluator gives it |
| TruthTable.TableOfThree | aois_lab_2/lab2.js:30-90 | for three variables every line has three bits and F of 0 or 1, and equal bits have equal F |
| TruthTable.Term | aois_lab_2/lab2.js:97-132 | one literal per variable, named from 'abcde', negated for a 0 in the SDNF and for a 1 in the SKNF |
| TruthTable.Terms | aois_lab_2/lab2.js:94-118 | the terms are exactly those of the lines whose F is the value filtered for |
| TruthTable.MintermExact | aois_lab_2/lab2.js:121-132 | the conjunction of a line holds on an assignment exactly when the assignment is that line's |
| TruthTable.MaxtermExact | aois_lab_2/lab2.js:97-108 | the disjunction of a line fails on an assignment exactly when the assignment is that line's |
| TruthTable.SdnfMeaning | aois_lab_2/lab2.js:114-136 | on every line of the table some SDNF term holds exactly when F is 1 |
| TruthTable.SknfMeaning | aois_lab_2/lab2.js:92-112 | on every line of the table all SKNF terms hold exactly when F is 1 |
| TruthTable.TermTexts | aois_lab_2/lab2.js:98-107 | each term written in parentheses, its literals joined by the separator |
| TruthTable.Sdnf | aois_lab_2/lab2.js:114-136 | the texts of the F = 1 terms, literals joined by ' & ', terms joined by ' \| ' |
| TruthTable.Sknf | aois_lab_2/lab2.js:92-112 | the texts of the F = 0 terms, literals joined by ' \| ', terms joined by ' & ' |
| TruthTable.Indices | aois_lab_2/lab2.js:140-153 | the line numbers whose F has the given value, every one of them, in increasing order |
| TruthTable.NumberFormsPartition | aois_lab_2/lab2.js:138-158 | every line number is in exactly one of the two number forms |
| TruthTable.NumberForm | aois_lab_2/lab2.js:138-158 | the indices in decimal joined by ', ' in parentheses, then the tail; without indices the cut leaves only ') ' and the tail |
| TruthTable.NumberFormSdnf | aois_lab_2/lab2.js:138-147 | the numbers of all lines with F = 1, ascending, in decimal, joined by ', ' inside parentheses and followed by ' &'; only ') &' when F is never 1 |
| TruthTable.NumberFormSknf | aois_lab_2/lab2.js:149-158 | the numbers of all lines with F = 0, likewise, followed by ' \|'; only ') \|' when F is never 0 |
| TruthTable.SampleIndices | aois_lab_2/2.test.js:7 | in the table of '(a\|b)~(!c)' F is 1 on lines 1, 2, 4 and 6 and 0 on lines 0, 3, 5 and 7 |
| TruthTable.SdnfOfOnes | aois_lab_2/lab2.js:138-147 | any three-variable table with F = 1 on exactly lines 1, 2, 4 and 6 has the SDNF number form '(1, 2, 4, 6) &' |
| TruthTable.SknfOfZeros | aois_lab_2/lab2.js:149-158 | any three-variable table with F = 0 on exactly lines 0, 3, 5 and 7 has the SKNF number form '(0, 3, 5, 7) \|' |
| TruthTable.SampleNumberFormSdnf | aois_lab_2/2.test.js:33-34 | the SDNF number form of '(a\|b)~(!c)' is '(1, 2, 4, 6) &', as the unit test expects |
| TruthTable.SampleNumberFormSknf | aois_lab_2/2.test.js:40-41 | the SKNF number form of '(a\|b)~(!c)' is '(0, 3, 5, 7) \|', as the unit test expects |
| TruthTable.DecimalTexts | aois_lab_2/lab2.js:141-152 | each index written in decimal |
| TruthTable.FDigits | aois_lab_2/lab2.js:162-164 | one binary digit per line, the line's F |
| TruthTable.IndexForm | aois_lab_2/lab2.js:160-169 | the value of the F column read as a binary number |
| TruthTable.IndexFormRoundTrip | aois_lab_2/lab2.js:160-169 | the index form is below 2^lines and its bits, read back, give each line's F |
| Gluing.First | aois_lab_3/lab3.js:52 | `findIndex`: the first position holding the element |
| Gluing.Dedupe | aois_lab_3/lab3.js:51-55 | the same elements as the list, none twice |
| Gluing.DedupeOrder | aois_lab_3/lab3.js:51-55 | the kept elements come in the order of their first occurrence |
| Gluing.DedupeDistinct | aois_lab_3/lab3.js:51-55 | a list without repeats is left exactly as it is |
| Gluing.Glue | aois_lab_3/lab3.js:1-58 | no term twice, and a term is in the result exactly when some pair of terms glues to it or it is a term that glued with no other |
| Gluing.UnusedKept | aois_lab_3/lab3.js:45-49 | every term that glued with nothing comes through unchanged |
| Gluing.GlueTwoFirst | aois_lab_3/lab3.js:11-18 | two-literal terms sharing the first literal and differing only in the case of the second glue to the first literal, and both count as used |
| Gluing.GlueTwoSecond | aois_lab_3/lab3.js:19-25 | failing that, two-literal terms sharing the second literal and differing only in the case of the first glue to the second literal |
| Gluing.GlueOneDiff | aois_lab_3/lab3.js:28-39 | longer terms of the first term's length that differ in exactly one position glue to the term without that position |
| Gluing.GlueTwoDiffs | aois_lab_3/lab3.js:28-39 | longer terms that differ in two positions do not glue |
| Gluing.GlueSame | aois_lab_3/lab3.js:28-39 | a longer term glues with an equal term to itself |
| Gluing.GlueIrreducible | aois_lab_3/lab3.js:1-58 | on a list in which no two terms glue, `glue` only drops repeats |
| Gluing.Strip | aois_lab_3/lab3.js:65-66 | `pop` and `shift` take off the first and the last character |
| Gluing.PrepareAll | aois_lab_3/lab3.js:62-76 | when no term throws, each term is read on its own and the count is kept; it throws exactly when some term's reading throws |
| Gluing.PrepareAllOk | aois_lab_3/lab3.js:62-76 | terms that all read without error read into the list of them |
| Gluing.SpliceStep | aois_lab_3/lab3.js:67-73 | one step of the splicing loop turns a negated literal into its capital and moves past it |
| Gluing.SpliceLiterals | aois_lab_3/lab3.js:67-73 | over a text of literals the loop turns each negated one into its capital and leaves what follows alone |
| Gluing.PrepareLiterals | aois_lab_3/lab3.js:63-76 | a term written as literals in parentheses reads as its plain form: each variable, in capitals when negated |
| Gluing.PrepareTrailingBang | aois_lab_3/lab3.js:68-69 | a '!' in the last place throws, since it upper-cases a missing character |
| Gluing.ReplaceNegationsLiterals | aois_lab_3/lab3.js:98 | the regular expression `/!([a-zA-Z])/g` turns a text of Latin literals into its plain form |
| Gluing.SpliceAgreesWithRegex | aois_lab_3/lab3.js:67-98 | for Latin literals the splicing loop of `min` and the regular expression of `minTable` read a term the same way |
| Gluing.Min | aois_lab_3/lab3.js:61-93 | `min` throws exactly when reading some term throws |
| Gluing.MinText | aois_lab_3/lab3.js:77-92 | otherwise the result is the twice-glued terms joined by the joiner, followed by the joiner's first character |
| Gluing.Covers | aois_lab_3/lab3.js:113-121 | the inner loop with its `break` finds every character of the implicant in the constituent |
| Gluing.CoverRow | aois_lab_3/lab3.js:111-123 | one cell per constituent, 1 exactly when the implicant's characters all occur in it |
| Gluing.MinTable | aois_lab_3/lab3.js:95-128 | it returns true; the header is '' and the constituents with negations capitalised; one row per implicant, labelled with the trimmed implicant |
| Gluing.MinTableCell | aois_lab_3/lab3.js:110-125 | cell (i, j) is 1 exactly when every character of implicant i occurs in constituent j, and 0 otherwise |
| Gluing.Bits | aois_lab_3/lab3.js:153-157 | each literal as 0 when it is its own capital and 1 otherwise |
| Gluing.GrayNeighbours | aois_lab_3/lab3.js:164-180 | neighbouring columns of the map, the last and the first included, differ in exactly one bit |
| Gluing.GrayDistinct | aois_lab_3/lab3.js:164-180 | different bit pairs fall in different columns |
| Gluing.GridCells | aois_lab_3/lab3.js:160-182 | a cell of the 2 x 4 map is 0 or 1, and 1 exactly when some term of three literals falls in it |
| Gluing.Carno | aois_lab_3/lab3.js:132-185 | `carno` throws exactly where reading a term throws, and otherwise returns true with a 2 x 4 map |
| Gluing.ExamplePrepared | aois_lab_3/lab3.js:188 | the test formula reads as the terms abc, aBc, Abc, ABC |
| Gluing.ExampleFirstGlue | aois_lab_3/lab3.js:77 | the first gluing gives ac, bc, ABC |
| Gluing.ExampleSecondGlue | aois_lab_3/lab3.js:79 | the second gluing changes nothing |
| Gluing.ExampleMin | aois_lab_3/3.test.js:12 | `min('(abc)&(a!bc)&(!abc)&(!a!b!c)')` is 'ac & bc & ABC ' |
| Bcd.PadStart | aois_lab_4/lab4.js:14 | `padStart(n, '0')` gives at least n characters, zeros in front, the input at the end, and keeps a binary string's value |
| Bcd.Sum | aois_lab_4/lab4.js:7-17 | the error exactly for an input that is not four binary digits; otherwise binary digits worth the input plus two, four of them below sixteen and five from sixteen on |
| Bcd.SumLength | aois_lab_4/lab4.js:14 | the padded result has four digits up to fifteen and five from sixteen on |
| Bcd.SumCode | aois_lab_4/lab4.js:26-33 | for the code of 0 to 13, `sum` gives the code of the number two higher |
| Bcd.Shift | aois_lab_4/lab4.js:19-22 | '1000' gives '0000', '1001' gives '0001', everything else `undefined` |
| Bcd.Table | aois_lab_4/lab4.js:24-39 | ten rows, row i holding the code of i and the code of (i + 2) mod 10 |
| Bcd.TableRowCode | aois_lab_4/lab4.js:25-36 | each row's output is the code of its input plus two, wrapped at ten |
| Bcd.WrapRow | aois_lab_4/lab4.js:34-35 | 8 and 9 wrap to 0 and 1 through `shift` |
| Bcd.TableOneToOne | aois_lab_4/lab4.js:25-36 | no two rows share an input or an output: the excess-two code is one-to-one on the ten digits |
| Bcd.Ones | aois_lab_4/lab4.js:147-152 | exactly the rows whose fourth value is 1, each without its last value, and no more of them than the table has rows |
| Bcd.Sdnf | aois_lab_4/lab4.js:144-171 | the text is the compact conjunctions of the rows with F = 1 joined by '\|' |
| Bcd.Squeeze | aois_lab_4/lab4.js:163 | white space and '&' removed, every other character kept in order |
| Bcd.SqueezeKeeps | aois_lab_4/lab4.js:163 | a string free of white space and '&' is unchanged |
| Bcd.SqueezeJoin | aois_lab_4/lab4.js:163 | squeezing a join squeezes each piece and the separator |
| Bcd.SqueezeConjunction | aois_lab_4/lab4.js:153-160 | a squeezed conjunction is its compact form |
| Bcd.SdnfCompact | aois_lab_4/lab4.js:150-163 | the loop's text, cut by `slice(3)` and squeezed, is the compact terms joined by '\|' |
| Bcd.SdnfSplit | aois_lab_4/lab4.js:102 | splitting an SDNF at '\|' gives back its terms |
| Bcd.PrepareRow | aois_lab_4/lab4.js:103-116 | `min` reads a row's compact conjunction as its plain term: capitals exactly for the zero values |
| Bcd.SdnfPrepared | aois_lab_4/lab4.js:101-116 | for three-variable rows `min` reads the SDNF without throwing, as the rows' plain terms in order |
| Bcd.BuildSdnf | aois_lab_4/lab4.js:165-170 | the result goes to `sdnf1` exactly when it is the expected text, otherwise to `sdnf2`; nothing else changes |
| Bcd.MinOf | aois_lab_4/lab4.js:173-179 | the `split` error while the SDNF is still `null`; otherwise an error exactly when reading its terms throws |
| Bcd.MinAfterSdnf | aois_lab_4/lab4.js:173-179 | after `sdnf` on a table with some F = 1 the matching `min` does not throw |
| Bcd.OnesAppend | aois_lab_4/lab4.js:147 | the filter distributes over the two halves of a table |
| Bcd.SdnfTable1 | aois_lab_4/lab4.js:186-205 | the first table's SDNF is '(!z!vu)\|(!zv!u)\|(z!v!u)\|(zvu)' |
| Bcd.GlueTable1 | aois_lab_4/lab4.js:43-98 | no two terms of the first SDNF glue |
| Bcd.MinTable1 | aois_lab_4/lab4.js:206 | the minimal form of the first SDNF is 'ZVu \| ZvU \| zVU \| zvu ': all four terms kept |
| Bcd.PairsTable2 | aois_lab_4/lab4.js:48-83 | of the second SDNF's term pairs, three glue and three do not |
| Bcd.FirstGlueTable2 | aois_lab_4/lab4.js:117 | the first gluing of the second SDNF leaves only the three glued terms |
| Bcd.SecondGlueTable2 | aois_lab_4/lab4.js:119 | the second gluing changes nothing |
| Bcd.MinTable2 | aois_lab_4/lab4.js:209 | the minimal form of the second SDNF is 'vU \| zU \| zv ' |
| Bcd.Script | aois_lab_4/lab4.js:183-209 | the script's SDNFs are '(!z!vu)\|(!zv!u)\|(z!v!u)\|(zvu)' and the second table's, with minimal forms 'ZVu \| ZvU \| zVU \| zvu ' and 'vU \| zU \| zv ' |
| HashTable.JsRem | aois_lab_6/lab6.js:13 | JavaScript's `%`: the remainder lies in [0, size) for a non-negative dividend and in (-size, 0] for a negative one |
| HashTable.JsDivision | aois_lab_6/lab6.js:13 | the remainder pairs with the quotient rounded toward zero: a == q·b + r |
| HashTable.IndexOf | aois_lab_6/lab6.js:12 | `indexOf` gives the first position of the character, or -1 exactly when it is absent |
| HashTable.AlphabetPosition | aois_lab_6/lab6.js:10-12 | `indexOf` on the 33-letter alphabet agrees with the letter's code-point position, and is -1 off the alphabet |
| HashTable.PositionInjective | aois_lab_6/lab6.js:10 | distinct capitals of the alphabet have distinct positions |
| HashTable.Hash | aois_lab_6/lab6.js:9-14 | the hash lies strictly between -size and size; it is non-negative for a key starting with two letters of the alphabet and never positive when the first character is not one |
| HashTable.CodeLetters | aois_lab_6/lab6.js:11-12 | two keys starting with two alphabet letters get the same code iff they start with the same two letters, ignoring case |
| HashTable.HashLetters | aois_lab_6/lab6.js:11-13 | the hash is (33·position of the first capital + position of the second) remainder size |
| HashTable.RunsUnique | aois_lab_6/lab6.js:20-25 | the probing loop ends in one way only: it stops at one slot, wraps, or never ends |
| HashTable.VisitClosed | aois_lab_6/lab6.js:21 | after k steps the index is start + k while that is negative, and (start + k) mod size after |
| HashTable.Search | aois_lab_6/lab6.js:17-25 | the step-by-step probe yields what the loop's semantics says: first hole or slot with the key, wrap, or endless loop |
| HashTable.VisitInside | aois_lab_6/lab6.js:21-22 | from a start inside the array the loop stays inside and is back at the start after size steps |
| HashTable.VisitReaches | aois_lab_6/lab6.js:21-22 | from a start inside the array the loop reaches every index within size steps |
| HashTable.VisitFromBelow | aois_lab_6/lab6.js:21-22 | from a negative start the loop visits every index up to the array's end and never returns to the start |
| HashTable.ProbeEnds | aois_lab_6/lab6.js:20-25 | the probe wraps iff the hash is non-negative and every slot holds another key; it runs forever iff the hash is negative and every slot from it on holds another key |
| HashTable.Set | aois_lab_6/lab6.js:16-31 | on return the pair is stored, the size is kept, slots the probe passed are unchanged and no other slot changes; a wrap throws 'Hash table is full' |
| HashTable.SetEnds | aois_lab_6/lab6.js:20-25 | set throws exactly when the probe wraps and never returns exactly when it cycles below the array |
| HashTable.GetEnds | aois_lab_6/lab6.js:36-44 | get returns `undefined` and never returns in the same cases |
| HashTable.Delete | aois_lab_6/lab6.js:49-65 | delete answers true only after emptying a slot that held the key; answering false leaves the table unchanged |
| HashTable.Update | aois_lab_6/lab6.js:67-83 | update keeps every key in its slot, answers false with the table unchanged, and after true the key holds the new value |
| HashTable.UpdateKeepsKeys | aois_lab_6/lab6.js:71-75 | update rewrites only the value of a slot where the probe for the key may stop |
| HashTable.ChangeEnds | aois_lab_6/lab6.js:53-62 | delete and update never return exactly when the probe cycles below the array, and return otherwise |
| HashTable.SearchAbsent | aois_lab_6/lab6.js:36-46 | in a table where every entry sits where its probe stops, a probe stopping at a hole or wrapping means the key is absent |
| HashTable.GetMissing | aois_lab_6/lab6.js:46 | in such a table get reports 'Элемент не найден!' only for an absent key |
| HashTable.GetFinds | aois_lab_6/lab6.js:33-47 | in such a table get returns the found message with value v iff the table holds the key with v |
| HashTable.DeleteAnswers | aois_lab_6/lab6.js:49-65 | in such a table delete answers true iff the key is present |
| HashTable.UpdateAnswers | aois_lab_6/lab6.js:67-83 | in such a table update answers true iff the key is present |
| HashTable.NewPlaced | aois_lab_6/lab6.js:4-7 | the new table holds no key and trivially keeps every entry where its probe stops |
| HashTable.SearchKept | aois_lab_6/lab6.js:20-25 | the probe stops at the same slot after a change that makes no passed slot stop it and keeps the stopping slot |
| HashTable.SearchSame | aois_lab_6/lab6.js:20-25 | tables whose slots stop the probe for a key at the same indices give the same search |
| HashTable.SetThenGet | aois_lab_6/lab6.js:16-47 | get after set on the same key returns the found message with the value just set |
| HashTable.SetPlaced | aois_lab_6/lab6.js:16-31 | set keeps every entry where its probe stops |
| HashTable.UpdatePlaced | aois_lab_6/lab6.js:67-83 | update keeps every entry where its probe stops |
| HashTable.FoundNotMissing | aois_lab_6/lab6.js:38 | the found message differs from the not-found message |
| HashTable.FoundInjective | aois_lab_6/lab6.js:38 | the found message determines the value |
| HashTable.DeleteThenGet | aois_lab_6/lab6.js:49-65 | after delete answers true, get on the same key reports it missing |
| HashTable.UpdateThenGet | aois_lab_6/lab6.js:67-83 | after update answers true, get finds the new value |
| HashTable.DeleteLosesEntry | aois_lab_6/lab6.js:55 | with 'Сидоров' at 3 and 'Сидук' (same hash) moved on to 4, get finds 'Сидук'; after deleting 'Сидоров' the table still holds 'Сидук' but get reports it missing |
| HashTable.DeleteFixed | aois_lab_6/lab6.js:49-65 | corrected delete: the size and the set of used slots are kept, and answering false leaves the table unchanged |
| HashTable.TombAt | aois_lab_6/lab6.js:53-56 | the slot the corrected delete marks held the key, and only it changes |
| HashTable.DeleteFixedAnswers | aois_lab_6/lab6.js:49-65 | in a table with every entry where its probe stops, the corrected delete answers true iff the key is present |
| HashTable.DeleteFixedEnds | aois_lab_6/lab6.js:53-62 | the corrected delete never returns in the same case as the original |
| HashTable.DeleteFixedKeepsOthers | aois_lab_6/lab6.js:49-65 | deleting one key with a tombstone changes no lookup of another key |
| HashTable.DeleteFixedPlaced | aois_lab_6/lab6.js:49-65 | the corrected delete keeps every other entry where its probe stops and removes the key |
| HashTable.HashVyatkin | aois_lab_6/6.test.js:11-13 | 'Вяткин' hashes to 18 in a table of 20 |
| HashTable.HashTretyak | aois_lab_6/lab6.js:98 | 'Третьяк' hashes to 4 in a table of 20 |
| HashTable.HashSi | aois_lab_6/lab6.js:99-101 | every key starting with 'Си' hashes to 3 in a table of 20 |
| HashTable.FilledSlots | aois_lab_6/lab6.js:97-101 | after the five sets the pairs sit in slots 18, 4, 3, 5 and 6 |
| HashTable.FillScript | aois_lab_6/lab6.js:95-101 | the five set calls build exactly that table |
| HashTable.LookupScript | aois_lab_6/lab6.js:103-107 | the five get calls find every pair with its value |
| HashTable.ChangeScript | aois_lab_6/lab6.js:109-117 | deleting 'Сидоров' makes get report it missing; setting it again and updating 'Вяткин' leave the final table |
| HashTable.Script | aois_lab_6/lab6.js:95-120 | the script logs the five found messages and then the not-found message, and leaves 'Вяткин' renamed 'Саня' with the other four pairs in place |
| HashTable.UnitSet | aois_lab_6/6.test.js:6-9 | set('Третьяк', 'Петр') on a fresh table of 20 fills slot 4 only |
| HashTable.UnitGet | aois_lab_6/6.test.js:15-17 | get('Третьяк') then gives 'Искомый элемент: Третьяк Петр' |
| HashTable.UnitDelete | aois_lab_6/6.test.js:19-21 | delete('Сидор') answers false and changes nothing |
| HashTable.UnitUpdate | aois_lab_6/6.test.js:23-25 | update('Вяткин', 'Саня') answers false and changes nothing |
| Matrix16.CreateAsWritten | aois_lab_7/lab7.js:2-7 | the constructor as written: it refuses (with the size message) a matrix whose row count is not 16, and otherwise keeps the matrix |
| Matrix16.RaggedAccepted | aois_lab_7/lab7.js:3 | the written `every` check accepts a 16-row matrix with only one row of 16 entries, which is not 16 x 16 |
| Matrix16.Create | aois_lab_7/lab7.js:2-7 | corrected constructor: it accepts exactly the 16 x 16 matrices, unchanged, and refuses the rest with the size message |
| Matrix16.CreateRefines | aois_lab_7/lab7.js:3 | the corrected check refuses everything the written one refuses, and both agree on every 16 x 16 matrix |
| Matrix16.CreateSmall | aois_lab_7/7.test.js:31-33 | a 2 x 2 matrix is refused with the size message |
| Matrix16.Column | aois_lab_7/lab7.js:9-29 | column c is the sixteen entries g[j][c] top to bottom |
| Matrix16.ReadColumn | aois_lab_7/lab7.js:9-29 | an index outside 0..15 fails with the index message, and only then; otherwise entry k of the result is row (index + k) mod 16 of column index |
| Matrix16.ColumnFromRotates | aois_lab_7/lab7.js:13-28 | the column read from row index is the column rotated: its last index entries put first give the column top to bottom |
| Matrix16.ReadDiagonal | aois_lab_7/lab7.js:31-54 | an index outside 0..15 fails with the index message, and only then; otherwise entry k is row (index + k) mod 16 of column k |
| Matrix16.DiagonalsCover | aois_lab_7/lab7.js:31-54 | each entry (r, c) lies on diagonal (r - c) mod 16 and on no other |
| Matrix16.InnerResult | aois_lab_7/lab7.js:61-68 | the inner loop, started empty, yields the whole column when it matches arr on the entries arr has, and nothing otherwise |
| Matrix16.OuterSearch | aois_lab_7/lab7.js:59-70 | the written outer loop returns the first matching column among 0..14 with its index, and null when none of those matches |
| Matrix16.OuterFixedSearch | aois_lab_7/lab7.js:59-70 | the corrected outer loop returns the first matching column among all sixteen, and null when none matches |
| Matrix16.FindColumnAsWrittenFirst | aois_lab_7/lab7.js:56-71 | as written, findColumn gives the first matching column among columns 0 to 14 with its index, and null iff none of those matches |
| Matrix16.FindColumnFirst | aois_lab_7/lab7.js:56-71 | corrected findColumn gives the first matching column with its index, and null iff no column matches |
| Matrix16.FindColumnAt | aois_lab_7/lab7.js:56-71 | when the first match is at c, corrected findColumn returns column c and c |
| Matrix16.FindColumnDiffers | aois_lab_7/lab7.js:59-60 | the written and corrected loops differ exactly when the only matching column is the last |
| Matrix16.FindColumnMissesLast | aois_lab_7/lab7.js:59-60 | on the matrix whose last column alone holds ones, findColumn([1]) as written returns null while the corrected one returns column 15 |
| Matrix16.Not | aois_lab_7/lab7.js:89 | `Number(!x)` is 0 or 1, and negates 0 and 1 |
| Matrix16.WriteColumn | aois_lab_7/lab7.js:74-76 | the loop over the rows sets column index to the given values and leaves every other column unchanged |
| Matrix16.F0 | aois_lab_7/lab7.js:73-78 | f0 sets column index to zeros and leaves every other entry unchanged |
| Matrix16.F5 | aois_lab_7/lab7.js:80-85 | f5 copies column col into column index and leaves every other entry unchanged |
| Matrix16.F10 | aois_lab_7/lab7.js:87-92 | f10 writes the negation of column col into column index (row by row, so in place when they are equal) and leaves every other entry unchanged |
| Matrix16.F15 | aois_lab_7/lab7.js:94-99 | f15 sets column index to ones and leaves every other entry unchanged |
| Matrix16.GridsEqual | aois_lab_7/lab7.js:73-99 | two 16 x 16 matrices with the same entries are equal |
| Matrix16.ColumnFunctionsKeepBinary | aois_lab_7/lab7.js:73-99 | the four functions keep a matrix of 0s and 1s one |
| Matrix16.NegateTwice | aois_lab_7/lab7.js:87-92 | negating a 0/1 column in place twice restores the matrix |
| Matrix16.NegateConstants | aois_lab_7/lab7.js:73-99 | negating the zero column gives f15, negating the ones column gives f0 |
| Matrix16.ColumnFunctionsSettle | aois_lab_7/lab7.js:73-99 | f0 and f15 are idempotent and copying a column onto itself changes nothing |
| Matrix16.Texts | aois_lab_7/lab7.js:131-134 | each number of a list turned into its decimal text |
| Matrix16.BitText | aois_lab_7/lab7.js:131-134 | the digit characters of a 0/1 list, one per entry |
| Matrix16.JoinBits | aois_lab_7/lab7.js:131-134 | `join('')` of a list of 0s and 1s is its string of binary digits |
| Matrix16.AddBinary | aois_lab_7/lab7.js:101-107 | when either string has no leading binary digit the result is "NaN" |
| Matrix16.AddBinaryValue | aois_lab_7/lab7.js:101-107 | for binary strings whose values add to n, the result is one to four binary digits denoting n mod 16, four of them once n >= 8 |
| Matrix16.LowDigits | aois_lab_7/lab7.js:105-106 | the last k binary digits denote the value modulo 2^k |
| Matrix16.CutSum | aois_lab_7/lab7.js:105-106 | the last four binary digits of n denote n mod 16, and there are four from n = 8 on |
| Matrix16.AddBinaryExample | aois_lab_7/7.test.js:78-80 | addBinary('1010', '1001') is '0011' |
| Matrix16.AddBinaryIs | aois_lab_7/lab7.js:101-107 | four binary digits of value n mod 16 are the result whenever n >= 8 |
| Matrix16.SumFails | aois_lab_7/lab7.js:109-110 | sum as written fails with the null-property TypeError exactly when none of columns 0 to 14 matches |
| Matrix16.SumFirst | aois_lab_7/lab7.js:109-136 | otherwise sum as written returns the text of the first matching column |
| Matrix16.FirstMatchUnique | aois_lab_7/lab7.js:56-71 | there is only one first matching column |
| Matrix16.SumFixedFails | aois_lab_7/lab7.js:109-110 | the corrected sum fails exactly when no column matches |
| Matrix16.SumFixedFirst | aois_lab_7/lab7.js:109-136 | otherwise the corrected sum returns the text of the first matching column, the last one included |
| Matrix16.SumMissesLast | aois_lab_7/lab7.js:110 | on the matrix whose last column alone holds ones, sum([1]) as written throws and the corrected one sums column 15 |
| Matrix16.SumTextFields | aois_lab_7/lab7.js:112-135 | for a 0/1 column the text is 13 to 16 characters: entries 0-10 as digits, a '0', and addBinary of fields A (3-6) and B (7-10) |
| Matrix16.SumTextShape | aois_lab_7/lab7.js:112-135 | the text is fields V, A and B as digits, a '0', and addBinary(A, B) |
| Airline.ForPlane | poisl_ab1/classes/airplane.py:7-10 | a ticket is kept exactly when it was issued for the airplane's id, and nothing else is added |
| Airline.ForPlaneAll | poisl_ab1/classes/airplane.py:7-10 | tickets all issued for the airplane pass the filter unchanged |
| Airline.ForPlaneIdempotent | poisl_ab1/classes/airplane.py:7-10 | filtering the free seats again changes nothing |
| Airline.ForPlaneAppend | poisl_ab1/classes/airplane.py:7-10 | the filter keeps ticket order: it distributes over concatenation |
| Airline.ForPlaneNone | poisl_ab1/classes/airplane.py:7-10 | with no ticket for the airplane there are no free seats |
| Airline.NewAirplane | poisl_ab1/classes/airplane.py:6-14 | a new airplane has exactly its own tickets as free seats, no fuel, nobody aboard, and keeps every ticket it was given |
| Airline.Refuel | poisl_ab1/classes/airplane.py:16-22 | refuelling adds 1000 units, returns the new amount and changes nothing else |
| Airline.RefuelTimesFuel | poisl_ab1/classes/airplane.py:16-22 | n refuellings add 1000·n units and nothing else |
| Airline.TakeoffConditions | poisl_ab1/classes/airplane.py:24-30 | takeoff succeeds iff fuel > 1000, someone is aboard, safety is checked and the route is planned |
| Airline.Land | poisl_ab1/classes/airplane.py:32-38 | landing is allowed iff every passenger aboard has been serviced |
| Airline.PlanRoute | poisl_ab1/classes/crew.py:12-17 | destination, departure point and time are recorded; the route becomes planned iff it was already or the runway is long enough; safety and plane id unchanged |
| Airline.EnsureSafety | poisl_ab1/classes/crew.py:19-20 | the safety check is set and no other field changes |
| Airline.CrewSteps | poisl_ab1/classes/crew.py:12-20 | the safety check is idempotent and commutes with route planning |
| Airline.NewPassenger | poisl_ab1/classes/passenger.py:5-8 | a new passenger has the name, no ticket and is not serviced |
| Airline.Register | poisl_ab1/classes/passenger.py:10-17 | the ticket is always stored; the answer is true iff a free seat was left; then the last free seat is removed and the passenger boards, otherwise the airplane is unchanged |
| Airline.RegisterKeepsSeats | poisl_ab1/classes/passenger.py:10-17 | registering keeps free seats plus passengers aboard constant and every passenger aboard in the table |
| Airline.FirstRegisterTakesLast | poisl_ab1/classes/passenger.py:10-15 | on a new airplane the first registration takes the seat of the last ticket issued for it and leaves the earlier ones free in order |
| Airline.DoService | poisl_ab1/classes/service.py:8-10 | the loop's result is the table with every listed passenger serviced |
| Airline.Serviced | poisl_ab1/classes/service.py:8-10 | a passenger is serviced afterwards iff they were before or are listed; nothing else about anyone changes |
| Airline.ServiceTwice | poisl_ab1/classes/service.py:8-10 | servicing the same list twice is servicing it once; an empty list changes nothing |
| Airline.ServiceThenLand | poisl_ab1/classes/service.py:8-10 | after the service has seen to everyone aboard, landing is allowed |
| Airline.SetUpAirplane | poisl_ab1/test_lab1.py:11-16 | of tickets (1,1), (2,1), (3,2) airplane 1 keeps the first two; one refuel returns 1000 |
| Airline.RegisterOneSeat | poisl_ab1/test_lab1.py:64-70 | registering on a one-seat airplane stores the ticket, empties the seats and boards the passenger |
| JsText.Upper | aois_lab_6/lab6.js:11 | `toUpperCase` of one character: Latin small letters move down 32 code points, capitals stay, 'ё' becomes 'Ё' |
| JsText.UpperIdempotent | aois_lab_6/lab6.js:11 | upper-casing twice is upper-casing once |
| JsText.UpperAll | aois_lab_6/lab6.js:11 | `toUpperCase` of a string upper-cases each character and keeps the length |
| JsText.Decimal | aois_lab_2/lab2.js:141 | `toString` of a natural number: a non-empty string of decimal digits |
| JsText.DecimalRoundTrip | aois_lab_2/lab2.js:141 | the decimal text reads back as the number |
| JsText.SplitOn | aois_lab_3/lab3.js:62 | `split` on one character: at least one piece, none holding the separator, and joined back with it they give the string |
| JsText.SplitUnique | aois_lab_3/lab3.js:62 | the split is the only way to cut the string into separator-free pieces that join back to it |
| JsText.JoinAvoids | aois_lab_4/lab4.js:163 | a character in no piece and not in the separator is not in the join |
| JsText.Prefixed | aois_lab_2/lab2.js:121-132 | with pieces, the text the `forEach` builds starts with the separator |
| JsText.PrefixedJoin | aois_lab_2/lab2.js:121-133 | `slice(3)` of that text is the join of the pieces |
| JsText.SuffixedJoin | aois_lab_3/lab3.js:87-90 | what the `reduce` builds is the join followed by one more separator |
| JsText.DropLast | aois_lab_3/lab3.js:92 | `slice(0, -k)`: all but the last k characters, and nothing of a shorter string |
| JsText.TakeLast | aois_lab_7/lab7.js:106 | `slice(-k)`: the last k characters, or all of a shorter string |
| JsText.LeadingSpaces | aois_lab_3/lab3.js:102 | the white space a string starts with: all of those characters are space and the next is not |
| JsText.TrailingSpaces | aois_lab_3/lab3.js:102 | the white space a string ends with, likewise |
| JsText.Trim | aois_lab_3/lab3.js:102 | `trim` leaves the part between leading and trailing white space, which neither starts nor ends with white space |

## Left out

- Screen drawing, widgets, status bars, dialogs, highlights, canvas item ids
  and debug text are left out. The handlers' state changes are kept: the
  algorithm radio buttons and the Debug checkbox both end in `reset_debug`,
  modelled together by `SelectMode`.
- The `except Exception` branch of `execute_next_debug_step`
  (giis/6/main6.py:254-256) is left out: the modelled generators never
  raise, so only the stop branch is reachable in the model.
- Floating-point code is left out, because its results depend on rounding
  the model does not reproduce.
  - `graham_scan`, the normals and the segment intersection in
    giis/5/main5.py.
  - The ellipse, hyperbola and parabola rasterisers in giis/lab2.py.
  - The DDA and Wu lines in giis/1/lab1.py.
  - The transform and projection matrices in giis/lab4.py.
  - The curve editor.
  - `FloatBinary` in aois_lab_1/lab_1.js.
- `divideBinary` (aois_lab_1/lab_1.js) is left out. It mixes string and
  number coercions, and its only expected result is itself wrong.
- The string-rewriting evaluator of `doTable` (aois_lab_2/lab2.js) is a
  parameter: `TruthTable.Table` takes the F column as a function of the row.
- The Delaunay and Voronoi wrapper, the interactive console menus and all
  console output are left out.
- `Runway` is not part of this model; its length is an integer parameter.
  Tickets are plain records.
- File opening and number parsing in `load_object_from_file` are a
  parameter that may fail.
- Exact reals in the scanline fills: slopes and `x_current` are exact
  rationals. The float drift that the active-edge-list filler accumulates
  row by row, and any rounding it changes, is not modelled.
- FillController.Create: a seed fill generator takes a copy of the boundary
  set when it is created. The source reads `boundary_pixels` live, but no
  handler changes the boundary while a seed fill generator exists: a seed
  is set only after drawing has ended (giis/6/main6.py:158), and "Draw
  Polygon" and "Clear All" drop the generator. A scanline generator can
  outlive a later drawing click, but it reads only the vertices, and it
  reads them before its first step.
- FillController.StartFill: the invariant is kept only when the fill runs in
  debug mode or no generator is live. The source keeps the other case out by
  disabling the Fill button during debugging, and buttons are not modelled.
- SeedFillSpan.Run: the span fill is proved to stay inside the seed's
  4-connected region of open pixels, and to hold the seed exactly when it is
  open. It is not proved to cover that whole region.
- SeedFillSpan.FillIsContained: this is containment only; closure of the
  filled set under 4-adjacency is not stated.
- BinaryCodes.AddOnes: requires operands of magnitude below 256, so that
  both codes have the same eight digits. With wider operands the source
  adds digit strings of different lengths, which is not modelled.
- BinaryCodes.SubOnes: the same magnitude bound as `AddOnes`.
- BinaryColumns.AddBinaryArray: only strings of binary digits are modelled.
  The source would add any digit `parseInt` reads.
- BinaryColumns.MultiplyBinary: only sign-magnitude codes are modelled,
  that is '0 ' or '1 ' followed by binary digits.
- TruthTable.Sdnf: requires lines of three variables. The source reads F at
  `el[3]` and names variables from 'abc', so other tables give meaningless
  text; only three-variable tables are modelled.
- TruthTable.Sknf: the same three-variable requirement as `Sdnf`.
- TruthTable.IndexForm: the same three-variable requirement as `Sdnf`.
- TruthTable.FDigits: the same three-variable requirement as `Sdnf`.
- TruthTable.NumberFormSdnf: the same three-variable requirement as `Sdnf`.
- TruthTable.NumberFormSknf: the same three-variable requirement as `Sdnf`.
- Matrix16.F0: requires an index in 0..15. The source does not check it;
  an index outside writes a property the reads never see, or throws on a
  missing row.
- Matrix16.F5: requires `index` and `col` in 0..15, for the same reason as
  `F0`.
- Matrix16.F10: requires `index` and `col` in 0..15, for the same reason as
  `F0`.
- Matrix16.F15: requires an index in 0..15, for the same reason as `F0`.
- Matrix16.ReadColumn: requires a square matrix. The constructor as written
  also admits some ragged ones (`RaggedAccepted`); reads of those are not
  modelled.
- Matrix16.ReadDiagonal: requires a square matrix, as `ReadColumn` does.
- Matrix16.FindColumn: requires a square matrix, as `ReadColumn` does.
- Matrix16.Sum: requires a square matrix, as `ReadColumn` does.
- HashTable.New: requires a positive size. With size 0 every index is NaN,
  and a negative or fractional size makes `new Array(size)` throw a
  `RangeError` (aois_lab_6/lab6.js:6).
- JsText.Upper: only Latin and Cyrillic letters are mapped. Strings are
  sequences of Unicode scalars, not UTF-16 code units, and one character
  always stays one character. So `"ßА".toUpperCase()` in the source is
  `"SSА"`, and a hash of it differs from the model's.
- Circle.CircleShape: requires a positive radius. `Circle.Walk` covers
  every radius, including 0.
- Circle.OctantNear: requires a positive radius, as `CircleShape` does.

## Findings

| source | as written | input that shows it | evidently intended | confidence | as-written member | corrected member |
|---|---|---|---|---|---|---|
| aois_lab_7/lab7.js:3 | the size check uses `every`, so only a matrix whose rows all have the wrong length is refused | 16 rows, the first of 16 entries and the others of 2 | refuse unless every row has 16 entries | not executed | Matrix16.RaggedAccepted | Matrix16.CreateRefines |
| aois_lab_7/lab7.js:59-70 | a match is returned only at the top of the next iteration, so a match in column 15 is lost | a matrix whose only column starting with 1 is column 15, with `arr = [1]` | return the first matching column among all sixteen | not executed | Matrix16.FindColumnMissesLast | Matrix16.FindColumnFirst |
| aois_lab_7/lab7.js:109-110 | `sum` calls the `findColumn` above, and `.arr` of `null` throws | the same matrix with `arr = [1]` | sum the fields of column 15 | not executed | Matrix16.SumMissesLast | Matrix16.SumFixedFails |
| aois_lab_6/lab6.js:55 | `delete` leaves a hole, so a key further along the probe chain becomes unreachable | 'Сидоров' and then 'Сидук' set (both hash to 3), then 'Сидоров' deleted: `get('Сидук')` reports it missing | leave a tombstone that `get` probes past | not executed | HashTable.DeleteLosesEntry | HashTable.DeleteFixedPlaced |
| aois_lab_1/lab_1.js:71 | a zero sum takes the '0 ' branch with the ones' complement digits of negative zero | `addAdditionalBinary(5, -5)` gives '0 11111111' | '0 00000000' | not executed | BinaryCodes.AddOnesNegativeZero | BinaryCodes.AddOnesFixedSum |
| aois_lab_1/lab_1.js:49-53 | the code of -1 is built from `reverseBinaryCode(0)`, which has no sign | `additionalBinaryCode(-1)` gives '00000000' | the two's complement code '1 11111111' | not executed | BinaryCodes.AdditionalCodeMinusOne | BinaryCodes.AdditionalCodeFixed |
| aois_lab_1/lab_1.js:56-58 | a zero first operand is defaulted, but a zero second operand is not, and `binX2.length` throws | `addAdditionalBinary(3, 0)` | treat a zero second operand as '00000000' | not executed | BinaryCodes.AddOnes | BinaryCodes.AddOnesFixed |

=== FILE: airline.dfy ===
/** The airport lab (poisl_ab1/classes): airplanes that keep the tickets
    issued for them as free seats, passengers that register on a ticket,
    a crew that plans the route and checks safety, and the service that
    looks after passengers before landing.

    Python objects are shared: a passenger registered on an airplane and
    the same passenger in the list given to the service are one object.
    The model keeps every passenger in one table, `People`, and lists
    refer to passengers by their index in it. The runway is only its
    length (classes/runway.py is not part of this model). */
module Airline {
  import opened Outcomes

  // ---------------------------------------------------------------------
  // Data

  /** A ticket: its number and the id of the airplane it was issued for. */
  datatype Ticket = Ticket(number: int, planeId: int)

  /** A passenger: the name, the ticket once registered, and whether the
      service has seen to them. */
  datatype Passenger = Passenger(name: string, ticket: Option<Ticket>, serviced: bool)

  /** Every passenger object, by identity. */
  type People = seq<Passenger>

  /** An airplane. `capacity` holds the free seats (tickets for this
      airplane not yet used), `passengers` the passengers on board,
      `tickets` every ticket it was built with. */
  datatype Airplane = Airplane(id: int, capacity: seq<Ticket>, passengers: seq<nat>,
                               fuel: int, tickets: seq<Ticket>)

  /** A crew. `None` stands for Python's `None`. */
  datatype Crew = Crew(destination: Option<string>, depPoint: Option<string>, depTime: Option<int>,
                       routePlanned: bool, planeId: int, safetyChecked: bool)

  /** Every passenger an airplane lists is in the table. */
  predicate Aboard(a: Airplane, people: People)
  {
    forall k :: 0 <= k < |a.passengers| ==> a.passengers[k] < |people|
  }

  // ---------------------------------------------------------------------
  // Airplane

  /** The tickets issued for airplane `id`, in their order. */
  function ForPlane(tickets: seq<Ticket>, id: int): (r: seq<Ticket>)
    ensures |r| <= |tickets|
    ensures forall t :: t in r <==> t in tickets && t.planeId == id
  {
    if |tickets| == 0 then []
    else if tickets[|tickets| - 1].planeId == id then
      ForPlane(tickets[..|tickets| - 1], id) + [tickets[|tickets| - 1]]
    else ForPlane(tickets[..|tickets| - 1], id)
  }

  /** Tickets all issued for the airplane pass the filter unchanged. */
  lemma {:induction false} ForPlaneAll(tickets: seq<Ticket>, id: int)
    requires forall k :: 0 <= k < |tickets| ==> tickets[k].planeId == id
    ensures ForPlane(tickets, id) == tickets
  {
    if |tickets| > 0 {
      ForPlaneAll(tickets[..|tickets| - 1], id);
      assert tickets == tickets[..|tickets| - 1] + [tickets[|tickets| - 1]];
    }
  }

  /** Filtering twice is filtering once. */
  lemma ForPlaneIdempotent(tickets: seq<Ticket>, id: int)
    ensures ForPlane(ForPlane(tickets, id), id) == ForPlane(tickets, id)
  {
    var r := ForPlane(tickets, id);
    assert forall k :: 0 <= k < |r| ==> r[k] in r;
    ForPlaneAll(r, id);
  }

  /** The filter keeps the order of the tickets: filtering a
      concatenation concatenates the filtered parts. */
  lemma {:induction false} ForPlaneAppend(a: seq<Ticket>, b: seq<Ticket>, id: int)
    ensures ForPlane(a + b, id) == ForPlane(a, id) + ForPlane(b, id)
  {
    if |b| == 0 {
      assert a + b == a;
    } else {
      var c := a + b;
      assert c[..|c| - 1] == a + b[..|b| - 1];
      assert c[|c| - 1] == b[|b| - 1];
      ForPlaneAppend(a, b[..|b| - 1], id);
    }
  }

  /** The first passenger to register on a new airplane takes the seat of
      the last ticket issued for it; the earlier ones stay free, in order. */
  lemma FirstRegisterTakesLast(people: People, who: nat, t: Ticket, id: int,
                               before: seq<Ticket>, last: Ticket, after: seq<Ticket>)
    requires who < |people| && last.planeId == id
    requires forall k :: 0 <= k < |after| ==> after[k].planeId != id
    ensures var r := Register(people, who, t, NewAirplane(id, before + [last] + after));
            r.2 && r.1.capacity == ForPlane(before, id) && r.1.passengers == [who]
  {
    ForPlaneAppend(before + [last], after, id);
    ForPlaneNone(after, id);
    assert (before + [last])[..|before|] == before;
  }

  /** No ticket of the airplane: nothing passes the filter. */
  lemma {:induction false} ForPlaneNone(tickets: seq<Ticket>, id: int)
    requires forall k :: 0 <= k < |tickets| ==> tickets[k].planeId != id
    ensures ForPlane(tickets, id) == []
  {
    if |tickets| > 0 {
      ForPlaneNone(tickets[..|tickets| - 1], id);
    }
  }

  /** `Airplane(id, capacity)`: the free seats are the tickets issued for
      this airplane, no fuel, nobody on board, and every ticket kept. */
  function NewAirplane(id: int, tickets: seq<Ticket>): (a: Airplane)
    ensures a.id == id && a.fuel == 0 && a.passengers == [] && a.tickets == tickets
    ensures forall t :: t in a.capacity <==> t in tickets && t.planeId == id
  {
    Airplane(id, ForPlane(tickets, id), [], 0, tickets)
  }

  /** `refuel`: a thousand units more; the new amount is returned. */
  function Refuel(a: Airplane): (r: (Airplane, int))
    ensures r.1 == r.0.fuel == a.fuel + 1000
    ensures r.0 == a.(fuel := r.1)
  {
    var b := a.(fuel := a.fuel + 1000);
    (b, b.fuel)
  }

  /** Refuelling n times from empty gives n thousand units. */
  function RefuelTimes(a: Airplane, n: nat): (b: Airplane)
  {
    if n == 0 then a else Refuel(RefuelTimes(a, n - 1)).0
  }

  lemma {:induction false} RefuelTimesFuel(a: Airplane, n: nat)
    ensures RefuelTimes(a, n).fuel == a.fuel + 1000 * n
    ensures RefuelTimes(a, n) == a.(fuel := a.fuel + 1000 * n)
  {
    if n > 0 {
      RefuelTimesFuel(a, n - 1);
    }
  }

  /** `takeoff(crew)`: only with more than a thousand units of fuel, at
      least one passenger, and a crew that has checked safety and planned
      the route. It returns a verdict and nothing else, so the airplane
      keeps its fuel and passengers. */
  function Takeoff(a: Airplane, crew: Crew): (ok: bool)
  {
    a.fuel > 1000 && |a.passengers| > 0 && crew.safetyChecked && crew.routePlanned
  }

  /** The airplane takes off exactly when each of the four conditions
      holds; failing any one of them keeps it on the ground. */
  lemma TakeoffConditions(a: Airplane, crew: Crew)
    ensures Takeoff(a, crew) ==> a.fuel > 1000 && |a.passengers| >= 1
    ensures Takeoff(a, crew) ==> crew.safetyChecked && crew.routePlanned
    ensures a.fuel <= 1000 || a.passengers == [] || !crew.safetyChecked || !crew.routePlanned
            ==> !Takeoff(a, crew)
  {
  }

  /** Every passenger on board has been serviced. */
  predicate AllServiced(a: Airplane, people: People)
    requires Aboard(a, people)
  {
    forall k :: 0 <= k < |a.passengers| ==> people[a.passengers[k]].serviced
  }

  /** `land`: the passengers in boarding order, stopping at the first one
      not serviced; the airplane lands when there is none. */
  method Land(a: Airplane, people: People) returns (ok: bool)
    requires Aboard(a, people)
    ensures ok <==> AllServiced(a, people)
  {
    var i := 0;
    while i < |a.passengers|
      invariant 0 <= i <= |a.passengers|
      invariant forall k :: 0 <= k < i ==> people[a.passengers[k]].serviced
    {
      if !people[a.passengers[i]].serviced {
        return false;
      }
      i := i + 1;
    }
    return true;
  }

  // ---------------------------------------------------------------------
  // Crew

  /** `Crew()`: no route, no departure, both checks outstanding, and
      plane id 0. */
  const NewCrew: Crew := Crew(None, None, None, false, 0, false)

  /** `plan_route`: destination, departure point and time are always
      recorded; the route counts as planned once the runway is long
      enough, and a planned route stays planned. */
  function PlanRoute(c: Crew, destination: string, depPoint: string, depTime: int,
                     minRunwayLength: int, runwayLength: int): (r: Crew)
    ensures r.destination == Some(destination) && r.depPoint == Some(depPoint)
    ensures r.depTime == Some(depTime)
    ensures r.routePlanned <==> c.routePlanned || minRunwayLength <= runwayLength
    ensures r.safetyChecked == c.safetyChecked && r.planeId == c.planeId
  {
    var d := c.(destination := Some(destination), depPoint := Some(depPoint), depTime := Some(depTime));
    if minRunwayLength <= runwayLength then d.(routePlanned := true) else d
  }

  /** `ensure_safety`: the safety check is done; nothing else changes. */
  function EnsureSafety(c: Crew): (r: Crew)
    ensures r.safetyChecked
    ensures r.(safetyChecked := c.safetyChecked) == c
  {
    c.(safetyChecked := true)
  }

  /** Checking safety twice is checking it once, and it commutes with
      planning the route. */
  lemma CrewSteps(c: Crew, destination: string, depPoint: string, depTime: int,
                  minRunwayLength: int, runwayLength: int)
    ensures EnsureSafety(EnsureSafety(c)) == EnsureSafety(c)
    ensures EnsureSafety(PlanRoute(c, destination, depPoint, depTime, minRunwayLength, runwayLength))
            == PlanRoute(EnsureSafety(c), destination, depPoint, depTime, minRunwayLength, runwayLength)
  {
  }

  // ---------------------------------------------------------------------
  // Passenger

  /** `Passenger(name)`: no ticket, not serviced. */
  function NewPassenger(name: string): (p: Passenger)
    ensures p.name == name && p.ticket.None? && !p.serviced
  {
    Passenger(name, None, false)
  }

  /** `register(ticket, airplane)` for passenger `who`: the ticket is
      stored on the passenger in any case; with a free seat left the last
      one is taken, the passenger boards and the answer is true; with
      none the airplane is unchanged and the answer is false. */
  function Register(people: People, who: nat, t: Ticket, a: Airplane): (r: (People, Airplane, bool))
    requires who < |people|
    ensures r.0 == people[who := people[who].(ticket := Some(t))]
    ensures r.2 <==> |a.capacity| > 0
    ensures r.2 ==> r.1 == a.(capacity := a.capacity[..|a.capacity| - 1], passengers := a.passengers + [who])
    ensures !r.2 ==> r.1 == a
  {
    var people' := people[who := people[who].(ticket := Some(t))];
    if |a.capacity| > 0 then
      (people', a.(capacity := a.capacity[..|a.capacity| - 1], passengers := a.passengers + [who]), true)
    else (people', a, false)
  }

  /** Registering never changes free seats plus passengers on board, and
      keeps everyone aboard in the table. */
  lemma RegisterKeepsSeats(people: People, who: nat, t: Ticket, a: Airplane)
    requires who < |people| && Aboard(a, people)
    ensures var r := Register(people, who, t, a);
            && |r.1.capacity| + |r.1.passengers| == |a.capacity| + |a.passengers|
            && Aboard(r.1, r.0) && |r.0| == |people|
  {
  }

  // ---------------------------------------------------------------------
  // Service

  /** The service's fixed name. */
  const ServiceName: string := "Airplane service"

  /** `do_service(passengers)`: each listed passenger is marked serviced,
      in list order. */
  method DoService(people: People, listed: seq<nat>) returns (r: People)
    requires forall k :: 0 <= k < |listed| ==> listed[k] < |people|
    ensures r == Serviced(people, listed)
  {
    r := people;
    var i := 0;
    while i < |listed|
      invariant 0 <= i <= |listed| && |r| == |people|
      invariant r == Serviced(people, listed[..i])
    {
      ServicedStep(people, listed[..i], listed[i]);
      r := r[listed[i] := r[listed[i]].(serviced := true)];
      assert listed[..i + 1] == listed[..i] + [listed[i]];
      i := i + 1;
    }
    assert listed[..i] == listed;
  }

  /** The table after servicing the listed passengers: those listed are
      serviced, and nothing else about anyone changes. */
  function Serviced(people: People, listed: seq<nat>): (r: People)
    ensures |r| == |people|
    ensures forall k :: 0 <= k < |people| ==>
              r[k] == people[k].(serviced := people[k].serviced || k in listed)
  {
    seq(|people|, k requires 0 <= k < |people| => people[k].(serviced := people[k].serviced || k in listed))
  }

  /** Servicing one more passenger. */
  lemma ServicedStep(people: People, listed: seq<nat>, p: nat)
    requires p < |people|
    ensures var r := Serviced(people, listed);
            Serviced(people, listed + [p]) == r[p := r[p].(serviced := true)]
  {
  }

  /** Servicing is idempotent, and an empty list changes nothing. */
  lemma ServiceTwice(people: People, listed: seq<nat>)
    ensures Serviced(Serviced(people, listed), listed) == Serviced(people, listed)
    ensures Serviced(people, []) == people
  {
  }

  /** After the service has seen to everyone on board, the airplane may
      land. */
  lemma ServiceThenLand(a: Airplane, people: People)
    requires Aboard(a, people)
    ensures Aboard(a, Serviced(people, a.passengers))
    ensures AllServiced(a, Serviced(people, a.passengers))
  {
    var r := Serviced(people, a.passengers);
    forall k | 0 <= k < |a.passengers|
      ensures r[a.passengers[k]].serviced
    {
      assert a.passengers[k] in a.passengers;
    }
  }

  // ---------------------------------------------------------------------
  // The unit tests

  /** Of tickets 1 and 2 for airplane 1 and ticket 3 for airplane 2,
      airplane 1 keeps the first two as free seats; refuelling it gives a
      thousand units. */
  lemma SetUpAirplane()
    ensures var a := NewAirplane(1, [Ticket(1, 1), Ticket(2, 1), Ticket(3, 2)]);
            a.capacity == [Ticket(1, 1), Ticket(2, 1)] && Refuel(a).1 == 1000
  {
    var ts := [Ticket(1, 1), Ticket(2, 1), Ticket(3, 2)];
    assert ts[..2] == [Ticket(1, 1), Ticket(2, 1)];
    assert ts[..2][..1] == [Ticket(1, 1)];
    assert ts[..2][..1][..0] == [];
  }

  /** Registering on an airplane with one free seat takes it. */
  lemma RegisterOneSeat(name: string)
    ensures var a := NewAirplane(1, [Ticket(1, 1)]);
            var r := Register([NewPassenger(name)], 0, Ticket(1, 1), a);
            r.2 && r.0[0].ticket == Some(Ticket(1, 1)) && r.1.capacity == [] && r.1.passengers == [0]
  {
    assert [Ticket(1, 1)][..0] == [];
  }
}

=== FILE: arithmetic.dfy ===
/** Facts about integer division that the solver does not find on its
    own. */
module Arithmetic {

  lemma MulAtLeast(k: int, m: int)
    requires k >= 1 && m > 0
    ensures k * m >= m
  {
    assert (k - 1) * m >= 0;
  }

  /** Quotient and remainder are the only ones with `0 <= r < m`. */
  lemma ModUnique(a: int, m: int, q: int, r: int)
    requires m > 0 && a == q * m + r && 0 <= r < m
    ensures a / m == q && a % m == r
  {
    var d, e := a / m, a % m;
    assert a == d * m + e;
    assert (q - d) * m == e - r;
    if q - d >= 1 {
      MulAtLeast(q - d, m);
    } else if d - q >= 1 {
      MulAtLeast(d - q, m);
    }
  }

  /** Doubling and adding a digit doubles the remainder and adds the
      digit. */
  lemma ModDouble(v: nat, d: nat, p: nat, w: int, m: int)
    requires d < 2 && p > 0 && w == 2 * v + d && m == 2 * p
    ensures w % m == 2 * (v % p) + d
  {
    var q, r := v / p, v % p;
    assert v == q * p + r;
    assert w == q * m + (2 * r + d);
    ModUnique(w, m, q, 2 * r + d);
  }
}

=== FILE: bcd.dfy ===
/** The "plus two" BCD converter and the SDNF builder of
    aois_lab_4/lab4.js. The converter adds two to a four-digit binary
    number and wraps 8 and 9 around to 0 and 1, which gives the table of
    the code with excess two. The SDNF builder writes the rows of a truth
    table with F = 1 as a disjunction over the variables z, v, u, and then
    hands it to the `min` of the gluing module. */
module Bcd {
  import opened Outcomes
  import opened JsText
  import opened BinaryCodes
  import Gluing

  // ---------------------------------------------------------------------
  // bcd.sum, bcd.shift and bcd.table

  /** The message `sum` throws for a malformed input. */
  const SumError := "Входное число должно быть 4-битным двоичным числом."

  /** `s.padStart(n, '0')`: zeros in front up to n characters. */
  function PadStart(s: string, n: nat): (r: string)
    ensures |r| == if |s| < n then n else |s|
    ensures |s| < n ==> forall k :: 0 <= k < n - |s| ==> r[k] == '0'
    ensures r[|r| - |s|..] == s
    ensures IsBits(s) ==> IsBits(r) && Value(r) == Value(s)
  {
    var z := if |s| < n then n - |s| else 0;
    ValueLeadingZeros(z, s);
    Zeros(z) + s
  }

  /** The four binary digits of v, most significant first. */
  function Code4(v: nat): (s: string)
    requires v < 16
    ensures |s| == 4 && IsBits(s) && Value(s) == v
  {
    var s := [Char(v / 8), Char(v / 4 % 2), Char(v / 2 % 2), Char(v % 2)];
    Value4(s);
    s
  }

  /** `sum(binaryNum)`: exactly four characters, all of them binary
      digits, or it throws; otherwise the number plus two in binary,
      padded to four digits. Fourteen and fifteen give five digits. */
  function Sum(s: string): (r: Result<string>)
    ensures r.Ok? <==> |s| == 4 && IsBits(s)
    ensures r.Err? ==> r.msg == SumError
    ensures r.Ok? ==> IsBits(r.value) && Value(r.value) == Value(s) + 2
    ensures r.Ok? ==> |r.value| == (if Value(s) + 2 < 16 then 4 else 5)
  {
    if |s| != 4 || !IsBits(s) then Err(SumError)
    else
      var d := ParseInt2(s).value;
      Value4(s);
      var m: nat := d + 2;
      SumLength(m);
      Ok(PadStart(ToString2(m), 4))
  }

  /** Up to sixteen a number has at most four digits; up to thirty-one,
      exactly five from sixteen on. */
  lemma SumLength(m: nat)
    requires m < 32
    ensures |ToString2(m)| <= (if m < 16 then 4 else 5)
    ensures m >= 16 ==> |ToString2(m)| == 5
  {
    if m < 16 {
      BitsLength(m, 4);
    } else {
      BitsLength(m, 5);
      ValueBound(ToString2(m));
    }
  }

  /** For the digits of 0 to 13, `sum` gives the digits of the number two
      higher. */
  lemma SumCode(v: nat)
    requires v < 14
    ensures Sum(Code4(v)) == Ok(Code4(v + 2))
  {
    var r := Sum(Code4(v));
    BitsUnique(r.value, Code4(v + 2));
  }

  /** `shift(n)`: '1000' and '1001' wrap around to '0000' and '0001';
      any other input gives `undefined`. */
  function Shift(s: string): (r: Option<string>)
    ensures r.Some? <==> s == "1000" || s == "1001"
    ensures r.Some? ==> |r.value| == 4 && IsBits(r.value) && Value(r.value) == Value(s) + 2 - 10
  {
    Value4("1000");
    Value4("1001");
    Value4("0000");
    Value4("0001");
    if s == "1000" then Some("0000")
    else if s == "1001" then Some("0001")
    else None
  }

  /** One row of `table()`: the digits `sum` gives for 0 to 7, and those
      `shift` gives for 8 and 9. */
  function TableRow(i: nat): (string, string)
    requires i < 10
  {
    var c := Code4(i);
    if i < 8 then (c, Sum(c).value) else (c, Shift(c).value)
  }

  /** Every row maps the code of i to the code of (i + 2) mod 10. */
  lemma TableRowCode(i: nat)
    requires i < 10
    ensures TableRow(i) == (Code4(i), Code4((i + 2) % 10))
  {
    if i < 8 {
      assert (i + 2) % 10 == i + 2;
      SumCode(i);
    } else {
      WrapRow(i, Code4(i));
    }
  }

  /** 8 and 9 are '1000' and '1001', and `shift` takes them to 0 and 1. */
  lemma WrapRow(i: nat, c: string)
    requires i == 8 || i == 9
    requires c == Code4(i)
    ensures Shift(c).Some? && Shift(c).value == Code4((i + 2) % 10)
  {
    if i == 8 {
      assert c == "1000";
      assert Code4(0) == "0000";
    } else {
      assert c == "1001";
      assert Code4(1) == "0001";
    }
  }

  /** `table()`: ten rows, the digits 0 to 9 and their codes with excess
      two. */
  function Table(): (t: seq<(string, string)>)
    ensures |t| == 10
    ensures forall i :: 0 <= i < 10 ==> t[i] == (Code4(i), Code4((i + 2) % 10))
  {
    forall i | 0 <= i < 10
      ensures TableRow(i) == (Code4(i), Code4((i + 2) % 10))
    {
      TableRowCode(i);
    }
    seq(10, i requires 0 <= i < 10 => TableRow(i))
  }

  /** No two rows of the table share an input or an output: the excess-two
      code is a one-to-one map of the ten digits. */
  lemma TableOneToOne(i: nat, j: nat)
    requires i < 10 && j < 10 && i != j
    ensures Table()[i].0 != Table()[j].0 && Table()[i].1 != Table()[j].1
  {
    var t := Table();
    var a, b := Excess(i), Excess(j);
    assert t[i] == (Code4(i), Code4(a)) && t[j] == (Code4(j), Code4(b));
    CodesDiffer(i, j);
    CodesDiffer(a, b);
  }

  /** (i + 2) mod 10, without the division. */
  function Excess(i: nat): (e: nat)
    requires i < 10
    ensures e == (i + 2) % 10 && e < 10
  {
    if i < 8 then i + 2 else i - 8
  }

  lemma CodesDiffer(i: nat, j: nat)
    requires i < 16 && j < 16 && i != j
    ensures Code4(i) != Code4(j)
  {
    assert Value(Code4(i)) != Value(Code4(j));
  }

  // ---------------------------------------------------------------------
  // sdnf.sdnf

  /** The variable names, one per column before F. */
  const Vars := "zvu"

  /** What `forEach` writes for the value e in column i: the variable,
      after '!' when the value is 0; past the third column `vars[i]` is
      `undefined`. */
  function LiteralAt(e: int, i: nat): string
  {
    (if e == 0 then "!" else "") + Gluing.Piece(Vars, i)
  }

  /** The literals of one row, column by column. */
  function Literals(bits: seq<int>): (ls: seq<string>)
    ensures |ls| == |bits|
    ensures forall i :: 0 <= i < |bits| ==> ls[i] == LiteralAt(bits[i], i)
  {
    seq(|bits|, i requires 0 <= i < |bits| => LiteralAt(bits[i], i))
  }

  /** One row with F = 1 as the loop writes it: the literals with ' & '
      between them, in parentheses. */
  function Conjunction(bits: seq<int>): string
  {
    "(" + Join(Literals(bits), " & ") + ")"
  }

  /** `structuredClone(m.filter(el => el[3] === 1))` followed by each
      row's `el.pop()`: the rows whose fourth entry is 1, in order, with
      the last entry (F) dropped. */
  function Ones(t: seq<seq<int>>): (ones: seq<seq<int>>)
    ensures |ones| <= |t|
    ensures forall bits :: bits in ones <==> exists k :: 0 <= k < |t| && bits in Keep(t[k])
  {
    if |t| == 0 then []
    else
      var rest := Ones(t[1..]);
      forall bits | bits in rest
        ensures exists k :: 0 <= k < |t| && bits in Keep(t[k])
      {
        var k :| 0 <= k < |t[1..]| && bits in Keep(t[1..][k]);
        assert t[1..][k] == t[k + 1];
      }
      forall bits, k | 1 <= k < |t| && bits in Keep(t[k])
        ensures bits in rest
      {
        assert t[1..][k - 1] == t[k];
      }
      Keep(t[0]) + rest
  }

  /** A row the filter keeps, after its `pop`. */
  function Keep(row: seq<int>): seq<seq<int>>
  {
    if |row| >= 4 && row[3] == 1 then [row[..|row| - 1]] else []
  }

  /** `sdnf(t)`: each row with F = 1 written as ' | (' then its
      conjunction then ')', the leading ' | ' cut by `slice(3)`, then
      `replace(/\s|&/g, '')`. The result is the conjunctions without
      spaces or '&', joined by '|'. */
  function Sdnf(t: seq<seq<int>>): (r: string)
    ensures r == Join(CompactTerms(Ones(t)), "|")
  {
    var terms := seq(|Ones(t)|, k requires 0 <= k < |Ones(t)| => Conjunction(Ones(t)[k]));
    var r := Squeeze(SliceFrom(Prefixed(terms, " | "), 3));
    SdnfCompact(Ones(t), terms);
    r
  }

  // ---------------------------------------------------------------------
  // The compact form

  /** `replace(/\s|&/g, '')`: every white-space character and every '&'
      dropped, the rest kept in order. */
  function Squeeze(s: string): (r: string)
    ensures |r| <= |s|
    ensures forall k :: 0 <= k < |r| ==> !IsJsSpace(r[k]) && r[k] != '&'
  {
    if |s| == 0 then ""
    else (if IsJsSpace(s[0]) || s[0] == '&' then "" else [s[0]]) + Squeeze(s[1..])
  }

  /** A string without white space or '&' is left as it is. */
  lemma {:induction false} SqueezeKeeps(s: string)
    requires forall k :: 0 <= k < |s| ==> !IsJsSpace(s[k]) && s[k] != '&'
    ensures Squeeze(s) == s
  {
    if |s| > 0 {
      SqueezeKeeps(s[1..]);
      assert s == [s[0]] + s[1..];
    }
  }

  /** Squeezing works piece by piece. */
  lemma {:induction false} SqueezeAppend(a: string, b: string)
    ensures Squeeze(a + b) == Squeeze(a) + Squeeze(b)
  {
    if |a| > 0 {
      SqueezeAppend(a[1..], b);
      assert (a + b)[0] == a[0] && (a + b)[1..] == a[1..] + b;
    } else {
      assert a + b == b;
    }
  }

  /** Squeezing a join squeezes the pieces and the separator. */
  lemma {:induction false} SqueezeJoin(ss: seq<string>, sep: string, out: seq<string>)
    requires |out| == |ss| && forall k :: 0 <= k < |ss| ==> out[k] == Squeeze(ss[k])
    ensures Squeeze(Join(ss, sep)) == Join(out, Squeeze(sep))
  {
    if |ss| > 1 {
      SqueezeJoin(ss[1..], sep, out[1..]);
      SqueezeAppend(ss[0] + sep, Join(ss[1..], sep));
      SqueezeAppend(ss[0], sep);
    }
  }

  /** A row with F = 1 without spaces or '&': its literals run together
      in parentheses, as '(!z!vu)'. */
  function CompactConjunction(bits: seq<int>): string
  {
    "(" + Join(Literals(bits), "") + ")"
  }

  function CompactTerms(ones: seq<seq<int>>): (cs: seq<string>)
    ensures |cs| == |ones|
    ensures forall k :: 0 <= k < |ones| ==> cs[k] == CompactConjunction(ones[k])
  {
    seq(|ones|, k requires 0 <= k < |ones| => CompactConjunction(ones[k]))
  }

  /** A literal holds neither white space nor '&' (nor '|'). */
  lemma LiteralPlain(e: int, i: nat)
    ensures forall k :: 0 <= k < |LiteralAt(e, i)| ==>
              var c := LiteralAt(e, i)[k]; !IsJsSpace(c) && c != '&' && c != '|'
  {
  }

  /** Squeezing a conjunction gives its compact form. */
  lemma SqueezeConjunction(bits: seq<int>)
    ensures Squeeze(Conjunction(bits)) == CompactConjunction(bits)
  {
    var ls := Literals(bits);
    forall k | 0 <= k < |ls|
      ensures ls[k] == Squeeze(ls[k])
    {
      LiteralPlain(bits[k], k);
      SqueezeKeeps(ls[k]);
    }
    SqueezeJoin(ls, " & ", ls);
    assert Squeeze(" & ") == "";
    SqueezeAppend("(" + Join(ls, " & "), ")");
    SqueezeAppend("(", Join(ls, " & "));
  }

  /** The loop's text, cut and squeezed, is the compact terms joined by
      '|'. */
  lemma SdnfCompact(ones: seq<seq<int>>, terms: seq<string>)
    requires |terms| == |ones| && forall k :: 0 <= k < |ones| ==> terms[k] == Conjunction(ones[k])
    ensures Squeeze(SliceFrom(Prefixed(terms, " | "), 3)) == Join(CompactTerms(ones), "|")
  {
    PrefixedJoin(terms, " | ");
    if |terms| > 0 {
      SqueezeTerms(ones, terms, CompactTerms(ones), Join(terms, " | "));
    }
  }

  lemma SqueezeTerms(ones: seq<seq<int>>, terms: seq<string>, cs: seq<string>, s: string)
    requires |terms| == |ones| && forall k :: 0 <= k < |ones| ==> terms[k] == Conjunction(ones[k])
    requires cs == CompactTerms(ones) && s == Join(terms, " | ")
    ensures Squeeze(s) == Join(cs, "|")
  {
    forall k | 0 <= k < |terms|
      ensures cs[k] == Squeeze(terms[k])
    {
      SqueezeConjunction(ones[k]);
    }
    SqueezeJoin(terms, " | ", cs);
    assert Squeeze(" | ") == "|";
  }

  // ---------------------------------------------------------------------
  // What `min` reads from an SDNF

  /** Split at '|', an SDNF with at least one term gives back its compact
      terms. */
  lemma SdnfSplit(t: seq<seq<int>>)
    requires |Ones(t)| > 0
    ensures SplitOn(Sdnf(t), '|') == CompactTerms(Ones(t))
  {
    var cs := CompactTerms(Ones(t));
    forall k | 0 <= k < |cs|
      ensures '|' !in cs[k]
    {
      CompactNoBar(Ones(t)[k]);
    }
    SplitUnique(Sdnf(t), '|', cs);
  }

  lemma CompactNoBar(bits: seq<int>)
    ensures '|' !in CompactConjunction(bits)
  {
    var ls := Literals(bits);
    forall k | 0 <= k < |ls|
      ensures '|' !in ls[k]
    {
      LiteralPlain(bits[k], k);
    }
    JoinAvoids(ls, "", '|');
  }

  /** The literals of a row of at most three variables, for `glue`. */
  function RowLiterals(bits: seq<int>): (ls: seq<Gluing.Literal>)
    requires |bits| <= 3
    ensures |ls| == |bits|
    ensures forall i :: 0 <= i < |bits| ==> ls[i] == Gluing.Literal(Vars[i], bits[i] == 0)
  {
    seq(|bits|, i requires 0 <= i < |bits| => Gluing.Literal(Vars[i], bits[i] == 0))
  }

  /** The term `glue` works on for a row: each variable, as its capital
      when its value is 0. */
  function PlainTerm(bits: seq<int>): (p: string)
    requires |bits| <= 3
    ensures |p| == |bits|
    ensures forall i :: 0 <= i < |bits| ==> p[i] == (if bits[i] == 0 then Upper(Vars[i]) else Vars[i])
  {
    Gluing.Plain(RowLiterals(bits))
  }

  /** `min` reads a compact conjunction of at most three variables as the
      row's plain term: a variable in capitals exactly when its value
      is 0. */
  lemma PrepareRow(bits: seq<int>)
    requires |bits| <= 3
    ensures Gluing.Prepare(CompactConjunction(bits)) == Ok(PlainTerm(bits))
  {
    var ls := RowLiterals(bits);
    TextJoin(ls, Literals(bits));
    Gluing.PrepareLiterals(ls);
  }

  lemma {:induction false} TextJoin(ls: seq<Gluing.Literal>, ss: seq<string>)
    requires |ls| == |ss| && forall k :: 0 <= k < |ls| ==> ss[k] == Gluing.LiteralText(ls[k])
    ensures Gluing.LiteralsText(ls) == Join(ss, "")
  {
    if |ls| > 1 {
      TextJoin(ls[1..], ss[1..]);
    }
  }

  /** A table of three variables and F: every row has four entries. */
  predicate ThreeVariables(t: seq<seq<int>>)
  {
    forall k :: 0 <= k < |t| ==> |t[k]| == 4
  }

  /** The plain terms of the rows with F = 1. */
  function PlainTerms(ones: seq<seq<int>>): (ps: seq<string>)
    requires forall k :: 0 <= k < |ones| ==> |ones[k]| <= 3
    ensures |ps| == |ones|
    ensures forall k :: 0 <= k < |ones| ==> ps[k] == PlainTerm(ones[k])
  {
    seq(|ones|, k requires 0 <= k < |ones| => PlainTerm(ones[k]))
  }

  /** Every row `Ones` keeps from a table of three variables has three
      values. */
  lemma OnesOfThree(t: seq<seq<int>>)
    requires ThreeVariables(t)
    ensures forall k :: 0 <= k < |Ones(t)| ==> |Ones(t)[k]| == 3
  {
    forall k | 0 <= k < |Ones(t)|
      ensures |Ones(t)[k]| == 3
    {
      assert Ones(t)[k] in Ones(t);
    }
  }

  /** When every row with F = 1 has at most three variables, `min` reads
      the SDNF without throwing, as the rows' plain terms in order. */
  lemma SdnfPrepared(t: seq<seq<int>>)
    requires |Ones(t)| > 0 && forall k :: 0 <= k < |Ones(t)| ==> |Ones(t)[k]| <= 3
    ensures Gluing.PrepareAll(SplitOn(Sdnf(t), '|')) == Ok(PlainTerms(Ones(t)))
  {
    var ones := Ones(t);
    SdnfSplit(t);
    forall k | 0 <= k < |ones|
      ensures Gluing.Prepare(CompactTerms(ones)[k]) == Ok(PlainTerms(ones)[k])
    {
      PrepareRow(ones[k]);
    }
    Gluing.PrepareAllOk(CompactTerms(ones), PlainTerms(ones));
  }

  // ---------------------------------------------------------------------
  // The sdnf object

  /** The `sdnf` object: the two tables it was made with and the two
      results it remembers, `null` until set. */
  datatype SdnfBuilder = SdnfBuilder(table1: seq<seq<int>>, table2: seq<seq<int>>,
                                     sdnf1: Option<string>, sdnf2: Option<string>)

  /** The SDNF the first table of the script has. */
  const Expected := "(!z!vu)|(!zv!u)|(z!v!u)|(zvu)"

  /** The message reading `split` of `null` throws. */
  const NullSplit := "TypeError: Cannot read properties of null (reading 'split')"

  function NewBuilder(table1: seq<seq<int>>, table2: seq<seq<int>>): SdnfBuilder
  {
    SdnfBuilder(table1, table2, None, None)
  }

  /** `sdnf(t)`: the SDNF of t, remembered as `sdnf1` when it is the
      expected one and as `sdnf2` otherwise. The tables and the other
      result are left alone. */
  function BuildSdnf(b: SdnfBuilder, t: seq<seq<int>>): (res: (SdnfBuilder, string))
    ensures res.1 == Join(CompactTerms(Ones(t)), "|")
    ensures res.0.table1 == b.table1 && res.0.table2 == b.table2
    ensures res.1 == Expected ==> res.0.sdnf1 == Some(res.1) && res.0.sdnf2 == b.sdnf2
    ensures res.1 != Expected ==> res.0.sdnf2 == Some(res.1) && res.0.sdnf1 == b.sdnf1
  {
    var r := Sdnf(t);
    if r == Expected then (b.(sdnf1 := Some(r)), r) else (b.(sdnf2 := Some(r)), r)
  }

  /** `min(this.sdnf1)` and `min(this.sdnf2)`: `min` of a remembered
      SDNF; `null` throws at its `split`. */
  function MinOf(s: Option<string>): (r: Result<string>)
    ensures s.None? ==> r == Err(NullSplit)
    ensures s.Some? ==> (r.Err? <==> Gluing.PrepareAll(SplitOn(s.value, '|')).Err?)
  {
    match s
    case None => Err(NullSplit)
    case Some(f) => Gluing.Min(f, '|', " | ")
  }

  function MinSdnf1(b: SdnfBuilder): Result<string>
  {
    MinOf(b.sdnf1)
  }

  function MinSdnf2(b: SdnfBuilder): Result<string>
  {
    MinOf(b.sdnf2)
  }

  /** After `sdnf(t)` on a table of three variables with some F = 1, the
      `min` of the remembered result does not throw. */
  lemma MinAfterSdnf(b: SdnfBuilder, t: seq<seq<int>>)
    requires ThreeVariables(t) && |Ones(t)| > 0
    ensures var (b', r) := BuildSdnf(b, t);
            (if r == Expected then MinSdnf1(b') else MinSdnf2(b')).Ok?
  {
    OnesOfThree(t);
    SdnfPrepared(t);
  }

  // ---------------------------------------------------------------------
  // The script at the end of lab4.js

  /** The two truth tables the script builds its `sdnf` object with. */
  const Table1: seq<seq<int>> := [[0, 0, 0, 0], [0, 0, 1, 1], [0, 1, 0, 1], [0, 1, 1, 0],
                                  [1, 0, 0, 1], [1, 0, 1, 0], [1, 1, 0, 0], [1, 1, 1, 1]]
  const Table2: seq<seq<int>> := [[0, 0, 0, 0], [0, 0, 1, 0], [0, 1, 0, 1], [0, 1, 1, 0],
                                  [1, 0, 0, 1], [1, 0, 1, 0], [1, 1, 0, 1], [1, 1, 1, 1]]

  /** The filter works on the two halves of a table separately. */
  lemma {:induction false} OnesAppend(a: seq<seq<int>>, b: seq<seq<int>>)
    ensures Ones(a + b) == Ones(a) + Ones(b)
  {
    if |a| > 0 {
      OnesAppend(a[1..], b);
      assert (a + b)[0] == a[0] && (a + b)[1..] == a[1..] + b;
    } else {
      assert a + b == b;
    }
  }

  lemma OnesFour(r0: seq<int>, r1: seq<int>, r2: seq<int>, r3: seq<int>, t: seq<seq<int>>)
    requires t == [r0, r1, r2, r3]
    ensures Ones(t) == Keep(r0) + Keep(r1) + Keep(r2) + Keep(r3)
  {
    var t1 := t[1..];
    var t2 := t1[1..];
    var t3 := t2[1..];
    assert t1 == [r1, r2, r3] && t2 == [r2, r3] && t3 == [r3] && t3[1..] == [];
    assert Ones(t3) == Keep(r3) + [];
    assert Ones(t2) == Keep(r2) + Keep(r3);
    assert Ones(t1) == Keep(r1) + (Keep(r2) + Keep(r3));
    assert Ones(t) == Keep(r0) + (Keep(r1) + (Keep(r2) + Keep(r3)));
  }

  lemma KeepRow(a: int, b: int, c: int, f: int, row: seq<int>)
    requires row == [a, b, c, f]
    ensures Keep(row) == if f == 1 then [[a, b, c]] else []
  {
    assert row[..3] == [a, b, c];
  }

  lemma OnesTable1()
    ensures Ones(Table1) == [[0, 0, 1], [0, 1, 0], [1, 0, 0], [1, 1, 1]]
  {
    var t := Table1;
    assert t == t[..4] + t[4..8];
    OnesAppend(t[..4], t[4..8]);
    OnesTable1Top();
    OnesTable1Bottom();
  }

  lemma OnesTable1Top()
    ensures Ones(Table1[..4]) == [[0, 0, 1], [0, 1, 0]]
  {
    var t := Table1[..4];
    assert t == [[0, 0, 0, 0], [0, 0, 1, 1], [0, 1, 0, 1], [0, 1, 1, 0]];
    OnesFour(t[0], t[1], t[2], t[3], t);
    KeepRow(0, 0, 0, 0, t[0]);
    KeepRow(0, 0, 1, 1, t[1]);
    KeepRow(0, 1, 0, 1, t[2]);
    KeepRow(0, 1, 1, 0, t[3]);
  }

  lemma OnesTable1Bottom()
    ensures Ones(Table1[4..8]) == [[1, 0, 0], [1, 1, 1]]
  {
    var t := Table1[4..8];
    assert t == [[1, 0, 0, 1], [1, 0, 1, 0], [1, 1, 0, 0], [1, 1, 1, 1]];
    OnesFour(t[0], t[1], t[2], t[3], t);
    KeepRow(1, 0, 0, 1, t[0]);
    KeepRow(1, 0, 1, 0, t[1]);
    KeepRow(1, 1, 0, 0, t[2]);
    KeepRow(1, 1, 1, 1, t[3]);
  }

  lemma OnesTable2()
    ensures Ones(Table2) == [[0, 1, 0], [1, 0, 0], [1, 1, 0], [1, 1, 1]]
  {
    var t := Table2;
    assert t == t[..4] + t[4..8];
    OnesAppend(t[..4], t[4..8]);
    OnesTable2Top();
    OnesTable2Bottom();
  }

  lemma OnesTable2Top()
    ensures Ones(Table2[..4]) == [[0, 1, 0]]
  {
    var t := Table2[..4];
    assert t == [[0, 0, 0, 0], [0, 0, 1, 0], [0, 1, 0, 1], [0, 1, 1, 0]];
    OnesFour(t[0], t[1], t[2], t[3], t);
    KeepRow(0, 0, 0, 0, t[0]);
    KeepRow(0, 0, 1, 0, t[1]);
    KeepRow(0, 1, 0, 1, t[2]);
    KeepRow(0, 1, 1, 0, t[3]);
  }

  lemma OnesTable2Bottom()
    ensures Ones(Table2[4..8]) == [[1, 0, 0], [1, 1, 0], [1, 1, 1]]
  {
    var t := Table2[4..8];
    assert t == [[1, 0, 0, 1], [1, 0, 1, 0], [1, 1, 0, 1], [1, 1, 1, 1]];
    OnesFour(t[0], t[1], t[2], t[3], t);
    KeepRow(1, 0, 0, 1, t[0]);
    KeepRow(1, 0, 1, 0, t[1]);
    KeepRow(1, 1, 0, 1, t[2]);
    KeepRow(1, 1, 1, 1, t[3]);
  }

  /** One value as a literal, written out. */
  lemma LiteralIs(e: int, i: nat, s: string)
    requires i < 3 && s == (if e == 0 then "!" else "") + [Vars[i]]
    ensures LiteralAt(e, i) == s
  {
  }

  /** A row of three values as a compact conjunction. */
  lemma CompactRow(row: seq<int>, a: int, b: int, c: int, x: string, y: string, z: string, w: string)
    requires row == [a, b, c]
    requires x == (if a == 0 then "!" else "") + "z"
    requires y == (if b == 0 then "!" else "") + "v"
    requires z == (if c == 0 then "!" else "") + "u"
    requires w == "(" + x + y + z + ")"
    ensures CompactConjunction(row) == w
  {
    LiteralIs(a, 0, x);
    LiteralIs(b, 1, y);
    LiteralIs(c, 2, z);
    var ls := Literals([a, b, c]);
    assert ls == [x, y, z];
    JoinThree(ls, x, y, z);
  }

  lemma Conjunction001(row: seq<int>)
    requires row == [0, 0, 1]
    ensures CompactConjunction(row) == "(!z!vu)"
  {
    CompactRow(row, 0, 0, 1, "!z", "!v", "u", "(!z!vu)");
  }

  lemma Conjunction010(row: seq<int>)
    requires row == [0, 1, 0]
    ensures CompactConjunction(row) == "(!zv!u)"
  {
    CompactRow(row, 0, 1, 0, "!z", "v", "!u", "(!zv!u)");
  }

  lemma Conjunction100(row: seq<int>)
    requires row == [1, 0, 0]
    ensures CompactConjunction(row) == "(z!v!u)"
  {
    CompactRow(row, 1, 0, 0, "z", "!v", "!u", "(z!v!u)");
  }

  lemma Conjunction111(row: seq<int>)
    requires row == [1, 1, 1]
    ensures CompactConjunction(row) == "(zvu)"
  {
    CompactRow(row, 1, 1, 1, "z", "v", "u", "(zvu)");
  }

  lemma Conjunction110(row: seq<int>)
    requires row == [1, 1, 0]
    ensures CompactConjunction(row) == "(zv!u)"
  {
    CompactRow(row, 1, 1, 0, "z", "v", "!u", "(zv!u)");
  }

  lemma JoinThree(ls: seq<string>, x: string, y: string, z: string)
    requires ls == [x, y, z]
    ensures Join(ls, "") == x + y + z
  {
    assert ls[1..] == [y, z] && ls[1..][1..] == [z];
    assert Join(ls[1..], "") == y + "" + z;
    assert y + "" + z == y + z;
    assert x + "" + (y + z) == x + y + z;
  }

  /** The expected SDNF, term by term. */
  lemma ExpectedParts(s: string, c0: string, c1: string, c2: string, c3: string)
    requires s == Expected
    requires c0 == "(!z!vu)" && c1 == "(!zv!u)" && c2 == "(z!v!u)" && c3 == "(zvu)"
    ensures s == c0 + "|" + c1 + "|" + c2 + "|" + c3
  {
  }

  /** An SDNF of four terms. */
  lemma SdnfFour(t: seq<seq<int>>, c0: string, c1: string, c2: string, c3: string)
    requires |Ones(t)| == 4
    requires CompactConjunction(Ones(t)[0]) == c0 && CompactConjunction(Ones(t)[1]) == c1
    requires CompactConjunction(Ones(t)[2]) == c2 && CompactConjunction(Ones(t)[3]) == c3
    ensures Sdnf(t) == c0 + "|" + c1 + "|" + c2 + "|" + c3
  {
    var cs := CompactTerms(Ones(t));
    assert cs[0] == c0 && cs[1] == c1 && cs[2] == c2 && cs[3] == c3;
    JoinFour(cs, "|");
  }

  /** The SDNF of the first table is the expected one. */
  lemma SdnfTable1()
    ensures Sdnf(Table1) == Expected
  {
    OnesTable1();
    var o := Ones(Table1);
    Conjunction001(o[0]);
    Conjunction010(o[1]);
    Conjunction100(o[2]);
    Conjunction111(o[3]);
    SdnfFour(Table1, "(!z!vu)", "(!zv!u)", "(z!v!u)", "(zvu)");
    ExpectedParts(Expected, "(!z!vu)", "(!zv!u)", "(z!v!u)", "(zvu)");
  }

  /** The SDNF of the second table. */
  const Second := "(!zv!u)|(z!v!u)|(zv!u)|(zvu)"

  lemma SecondParts(s: string, c0: string, c1: string, c2: string, c3: string)
    requires s == Second
    requires c0 == "(!zv!u)" && c1 == "(z!v!u)" && c2 == "(zv!u)" && c3 == "(zvu)"
    ensures s == c0 + "|" + c1 + "|" + c2 + "|" + c3
    ensures s != Expected
  {
    assert s[3] == 'v' && Expected[3] == '!';
  }

  lemma SdnfTable2()
    ensures Sdnf(Table2) == Second && Second != Expected
  {
    OnesTable2();
    var o := Ones(Table2);
    Conjunction010(o[0]);
    Conjunction100(o[1]);
    Conjunction110(o[2]);
    Conjunction111(o[3]);
    SdnfFour(Table2, "(!zv!u)", "(z!v!u)", "(zv!u)", "(zvu)");
    SecondParts(Second, "(!zv!u)", "(z!v!u)", "(zv!u)", "(zvu)");
  }

  /** A row of three values as the term `glue` reads. */
  lemma PlainRow(row: seq<int>, a: int, b: int, c: int, p: string)
    requires row == [a, b, c]
    requires p == [if a == 0 then 'Z' else 'z', if b == 0 then 'V' else 'v', if c == 0 then 'U' else 'u']
    ensures PlainTerm(row) == p
  {
    assert Upper('z') == 'Z' && Upper('v') == 'V' && Upper('u') == 'U';
  }

  /** What `min` reads from an SDNF, given the plain terms of its rows. */
  lemma PreparedFrom(t: seq<seq<int>>, ones: seq<seq<int>>, f: string, arr: seq<string>)
    requires Ones(t) == ones && |ones| > 0 && f == Sdnf(t) && |arr| == |ones|
    requires forall k :: 0 <= k < |arr| ==> |ones[k]| == 3 && PlainTerm(ones[k]) == arr[k]
    ensures Gluing.PrepareAll(SplitOn(f, '|')) == Ok(arr)
  {
    SdnfPrepared(t);
    assert PlainTerms(ones) == arr;
  }

  /** What `min` reads from the first table's SDNF. */
  lemma PreparedTable1(f: string, arr: seq<string>)
    requires f == Expected && arr == ["ZVu", "ZvU", "zVU", "zvu"]
    ensures Gluing.PrepareAll(SplitOn(f, '|')) == Ok(arr)
  {
    SdnfTable1();
    OnesTable1();
    PlainTable1(Ones(Table1), arr);
    PreparedFrom(Table1, Ones(Table1), f, arr);
  }

  lemma PlainTable1(o: seq<seq<int>>, arr: seq<string>)
    requires o == [[0, 0, 1], [0, 1, 0], [1, 0, 0], [1, 1, 1]] && arr == ["ZVu", "ZvU", "zVU", "zvu"]
    ensures forall k :: 0 <= k < |arr| ==> |o[k]| == 3 && PlainTerm(o[k]) == arr[k]
  {
    forall k | 0 <= k < 4
      ensures |o[k]| == 3 && PlainTerm(o[k]) == arr[k]
    {
      if k == 0 {
        PlainRow(o[0], 0, 0, 1, arr[0]);
      } else if k == 1 {
        PlainRow(o[1], 0, 1, 0, arr[1]);
      } else if k == 2 {
        PlainRow(o[2], 1, 0, 0, arr[2]);
      } else {
        PlainRow(o[3], 1, 1, 1, arr[3]);
      }
    }
  }

  /** No two terms of the first table's SDNF glue: each pair differs in
      two variables. */
  lemma GlueTable1(arr: seq<string>)
    requires arr == ["ZVu", "ZvU", "zVU", "zvu"]
    ensures Gluing.Glue(arr) == arr
  {
    Gluing.GlueTwoDiffs(arr, 0, 1, 1, 2);
    Gluing.GlueTwoDiffs(arr, 0, 2, 0, 2);
    Gluing.GlueTwoDiffs(arr, 0, 3, 0, 1);
    Gluing.GlueTwoDiffs(arr, 1, 2, 0, 1);
    Gluing.GlueTwoDiffs(arr, 1, 3, 0, 2);
    Gluing.GlueTwoDiffs(arr, 2, 3, 1, 2);
    forall i, j | 0 <= i < j < |arr|
      ensures Gluing.GluePair(arr, i, j).None?
    {
      assert (i == 0 && (j == 1 || j == 2 || j == 3)) || (i == 1 && (j == 2 || j == 3)) || (i == 2 && j == 3);
    }
    Gluing.GlueIrreducible(arr);
    assert Gluing.Distinct(arr);
    Gluing.DedupeDistinct(arr);
  }

  /** `min` of the first table's SDNF keeps all four terms. */
  lemma MinTable1(f: string)
    requires f == Expected
    ensures MinOf(Some(f)) == Ok("ZVu | ZvU | zVU | zvu ")
  {
    var arr := ["ZVu", "ZvU", "zVU", "zvu"];
    PreparedTable1(f, arr);
    GlueTable1(arr);
    Gluing.MinText(f, '|', " | ", arr);
    MinTable1Text(arr, " | ");
  }

  lemma MinTable1Text(terms: seq<string>, joiner: string)
    requires terms == ["ZVu", "ZvU", "zVU", "zvu"] && joiner == " | "
    ensures Join(terms, joiner) + joiner[..1] == "ZVu | ZvU | zVU | zvu "
  {
    JoinFour(terms, joiner);
  }

  lemma PlainTable2(o: seq<seq<int>>, arr: seq<string>)
    requires o == [[0, 1, 0], [1, 0, 0], [1, 1, 0], [1, 1, 1]] && arr == ["ZvU", "zVU", "zvU", "zvu"]
    ensures forall k :: 0 <= k < |arr| ==> |o[k]| == 3 && PlainTerm(o[k]) == arr[k]
  {
    forall k | 0 <= k < 4
      ensures |o[k]| == 3 && PlainTerm(o[k]) == arr[k]
    {
      if k == 0 {
        PlainRow(o[0], 0, 1, 0, arr[0]);
      } else if k == 1 {
        PlainRow(o[1], 1, 0, 0, arr[1]);
      } else if k == 2 {
        PlainRow(o[2], 1, 1, 0, arr[2]);
      } else {
        PlainRow(o[3], 1, 1, 1, arr[3]);
      }
    }
  }

  /** What `min` reads from the second table's SDNF. */
  lemma PreparedTable2(f: string, arr: seq<string>)
    requires f == Second && arr == ["ZvU", "zVU", "zvU", "zvu"]
    ensures Gluing.PrepareAll(SplitOn(f, '|')) == Ok(arr)
  {
    SdnfTable2();
    OnesTable2();
    PlainTable2(Ones(Table2), arr);
    PreparedFrom(Table2, Ones(Table2), f, arr);
  }

  /** The pairs of the second table's terms: three glue, three do not. */
  lemma PairsTable2(arr: seq<string>)
    requires arr == ["ZvU", "zVU", "zvU", "zvu"]
    ensures Gluing.GluePair(arr, 0, 2) == Some("vU") && Gluing.GluePair(arr, 1, 2) == Some("zU")
    ensures Gluing.GluePair(arr, 2, 3) == Some("zv")
    ensures Gluing.GluePair(arr, 0, 1) == None && Gluing.GluePair(arr, 0, 3) == None
    ensures Gluing.GluePair(arr, 1, 3) == None
  {
    Gluing.GlueOneDiff(arr, 0, 2, 0);
    assert arr[0][..0] + arr[0][1..] == "vU";
    Gluing.GlueOneDiff(arr, 1, 2, 1);
    assert arr[1][..1] + arr[1][2..] == "zU";
    Gluing.GlueOneDiff(arr, 2, 3, 2);
    assert arr[2][..2] + arr[2][3..] == "zv";
    Gluing.GlueTwoDiffs(arr, 0, 1, 0, 1);
    Gluing.GlueTwoDiffs(arr, 0, 3, 0, 2);
    Gluing.GlueTwoDiffs(arr, 1, 3, 1, 2);
  }

  /** The first gluing of the second table's terms: every term glues, so
      only the three glued terms remain. */
  lemma FirstGlueTable2(arr: seq<string>, res: seq<string>)
    requires arr == ["ZvU", "zVU", "zvU", "zvu"] && res == ["vU", "zU", "zv"]
    ensures Gluing.Glue(arr) == res
  {
    GluedTable2(arr);
    UnusedTable2(arr);
    assert Gluing.Distinct(res);
    assert Gluing.Glued(arr, 0) + Gluing.Unused(arr, 0) == res;
    Gluing.DedupeDistinct(res);
  }

  lemma GluedTable2(arr: seq<string>)
    requires arr == ["ZvU", "zVU", "zvU", "zvu"]
    ensures Gluing.Glued(arr, 0) == ["vU", "zU", "zv"]
  {
    PairsTable2(arr);
    assert Gluing.RowGlued(arr, 0, 4) == [] && Gluing.RowGlued(arr, 0, 3) == [];
    assert Gluing.RowGlued(arr, 0, 2) == ["vU"];
    assert Gluing.RowGlued(arr, 0, 1) == ["vU"];
    assert Gluing.RowGlued(arr, 1, 4) == [] && Gluing.RowGlued(arr, 1, 3) == [];
    assert Gluing.RowGlued(arr, 1, 2) == ["zU"];
    assert Gluing.RowGlued(arr, 2, 4) == [] && Gluing.RowGlued(arr, 2, 3) == ["zv"];
    assert Gluing.RowGlued(arr, 3, 4) == [];
    assert Gluing.Glued(arr, 4) == [] && Gluing.Glued(arr, 3) == [];
    assert Gluing.Glued(arr, 2) == ["zv"];
    assert Gluing.Glued(arr, 1) == ["zU", "zv"];
  }

  lemma UnusedTable2(arr: seq<string>)
    requires arr == ["ZvU", "zVU", "zvU", "zvu"]
    ensures Gluing.Unused(arr, 0) == []
  {
    PairsTable2(arr);
    assert Gluing.Used(arr, 0) && Gluing.Used(arr, 1) && Gluing.Used(arr, 2) && Gluing.Used(arr, 3);
    assert Gluing.Unused(arr, 4) == [] && Gluing.Unused(arr, 3) == [] && Gluing.Unused(arr, 2) == [];
    assert Gluing.Unused(arr, 1) == [];
  }

  /** The second gluing changes nothing: no two of the two-letter terms
      share a letter up to case in the right place. */
  lemma SecondGlueTable2(arr: seq<string>)
    requires arr == ["vU", "zU", "zv"]
    ensures Gluing.Glue(arr) == arr
  {
    Gluing.AgreeShort(arr[0], arr[1], 2);
    Gluing.AgreeShort(arr[0], arr[2], 2);
    Gluing.AgreeShort(arr[1], arr[2], 2);
    assert Upper('v') == 'V' && Upper('z') == 'Z' && Upper('U') == 'U';
    assert Gluing.GluePair(arr, 0, 1) == None;
    assert Gluing.GluePair(arr, 0, 2) == None;
    assert Gluing.GluePair(arr, 1, 2) == None;
    forall i, j | 0 <= i < j < |arr|
      ensures Gluing.GluePair(arr, i, j).None?
    {
      assert (i == 0 && j == 1) || (i == 0 && j == 2) || (i == 1 && j == 2);
    }
    Gluing.GlueIrreducible(arr);
    assert Gluing.Distinct(arr);
    Gluing.DedupeDistinct(arr);
  }

  /** `min` of the second table's SDNF: 'vU | zU | zv '. */
  lemma MinTable2(f: string)
    requires f == Second
    ensures MinOf(Some(f)) == Ok("vU | zU | zv ")
  {
    var arr := ["ZvU", "zVU", "zvU", "zvu"];
    var res := ["vU", "zU", "zv"];
    PreparedTable2(f, arr);
    FirstGlueTable2(arr, res);
    SecondGlueTable2(res);
    Gluing.MinText(f, '|', " | ", arr);
    MinTable2Text(res, " | ");
  }

  lemma MinTable2Text(terms: seq<string>, joiner: string)
    requires terms == ["vU", "zU", "zv"] && joiner == " | "
    ensures Join(terms, joiner) + joiner[..1] == "vU | zU | zv "
  {
    assert terms[1..] == ["zU", "zv"] && terms[1..][1..] == ["zv"];
    assert Join(["zU", "zv"], joiner) == "zU | zv";
  }

  /** The script: `sdnf` on the first table fills `sdnf1`, on the second
      `sdnf2`, and `minSdnf1` and `minSdnf2` print their minimal forms. */
  function Script(): (out: (string, Result<string>, string, Result<string>))
    ensures out.0 == Expected && out.1 == Ok("ZVu | ZvU | zVU | zvu ")
    ensures out.2 == Second && out.3 == Ok("vU | zU | zv ")
  {
    var b0 := NewBuilder(Table1, Table2);
    SdnfTable1();
    var (b1, r1) := BuildSdnf(b0, b0.table1);
    MinTable1(r1);
    var m1 := MinSdnf1(b1);
    SdnfTable2();
    var (b2, r2) := BuildSdnf(b1, b1.table2);
    MinTable2(r2);
    var m2 := MinSdnf2(b2);
    (r1, m1, r2, m2)
  }
}

=== FILE: binary_codes.dfy ===
/** The sign-magnitude, ones'-complement and two's-complement string codes
    of the `Binary` class (aois_lab_1/lab_1.js). A code is a string: a sign
    character, a space, then the magnitude's binary digits, most
    significant first, padded to at least eight. */
module BinaryCodes {
  import opened Outcomes
  import opened JsText

  // ---------------------------------------------------------------------
  // Digit strings and their values

  function Pow2(k: nat): (p: nat)
    ensures p >= 1
  {
    if k == 0 then 1 else 2 * Pow2(k - 1)
  }

  /** Eight digits hold 256 values. */
  lemma Pow2Byte()
    ensures Pow2(8) == 256
  {
  }

  predicate IsBit(c: char)
  {
    c == '0' || c == '1'
  }

  predicate IsBits(s: string)
  {
    forall k :: 0 <= k < |s| ==> IsBit(s[k])
  }

  function Digit(c: char): nat
  {
    if c == '1' then 1 else 0
  }

  function Char(d: int): char
  {
    if d == 1 then '1' else '0'
  }

  /** The number a digit string denotes, most significant digit first. */
  function Value(s: string): nat
  {
    if |s| == 0 then 0 else 2 * Value(s[..|s| - 1]) + Digit(s[|s| - 1])
  }

  /** A string of k digits denotes less than 2^k. */
  lemma {:induction false} ValueBound(s: string)
    ensures Value(s) < Pow2(|s|)
  {
    if |s| > 0 {
      ValueBound(s[..|s| - 1]);
    }
  }

  function Zeros(n: nat): (z: string)
    ensures |z| == n && IsBits(z)
    ensures forall k :: 0 <= k < n ==> z[k] == '0'
  {
    if n == 0 then [] else Zeros(n - 1) + ['0']
  }

  /** The value of four digits, written out. */
  lemma Value4(s: string)
    requires |s| == 4
    ensures Value(s) == 8 * Digit(s[0]) + 4 * Digit(s[1]) + 2 * Digit(s[2]) + Digit(s[3])
  {
    assert s[..1][..0] == [] && s[..1][0] == s[0];
    assert Value(s[..1]) == Digit(s[0]);
    assert s[..2][..1] == s[..1] && s[..2][1] == s[1];
    assert Value(s[..2]) == 2 * Digit(s[0]) + Digit(s[1]);
    assert s[..3][..2] == s[..2] && s[..3][2] == s[2];
    assert Value(s[..3]) == 4 * Digit(s[0]) + 2 * Digit(s[1]) + Digit(s[2]);
    assert s[..4] == s;
  }

  /** A leading digit weighs two to the number of digits after it. */
  lemma {:induction false} ValuePrepend(c: char, t: string)
    ensures Value([c] + t) == Digit(c) * Pow2(|t|) + Value(t)
  {
    if |t| > 0 {
      var s := [c] + t;
      assert s[..|s| - 1] == [c] + t[..|t| - 1];
      ValuePrepend(c, t[..|t| - 1]);
    }
  }

  lemma {:induction false} ValueZeros(n: nat)
    ensures Value(Zeros(n)) == 0
  {
    if n > 0 {
      assert Zeros(n)[..n - 1] == Zeros(n - 1);
      ValueZeros(n - 1);
    }
  }

  /** Leading zeros do not change the value. */
  lemma {:induction false} ValueLeadingZeros(n: nat, t: string)
    ensures Value(Zeros(n) + t) == Value(t)
  {
    if |t| == 0 {
      assert Zeros(n) + t == Zeros(n);
      ValueZeros(n);
    } else {
      var s := Zeros(n) + t;
      assert s[..|s| - 1] == Zeros(n) + t[..|t| - 1];
      assert s[|s| - 1] == t[|t| - 1];
      ValueLeadingZeros(n, t[..|t| - 1]);
    }
  }

  /** Trailing zeros multiply by a power of two. */
  lemma {:induction false} ValueTrailingZeros(s: string, n: nat)
    ensures Value(s + Zeros(n)) == Value(s) * Pow2(n)
  {
    if n == 0 {
      assert s + Zeros(n) == s;
    } else {
      var t := s + Zeros(n);
      assert t[..|t| - 1] == s + Zeros(n - 1);
      assert t[|t| - 1] == '0';
      ValueTrailingZeros(s, n - 1);
      var v, p := Value(s), Pow2(n - 1);
      assert Value(t) == 2 * (v * p);
      Double(v, p);
      assert Pow2(n) == 2 * p;
    }
  }

  lemma Double(v: int, p: int)
    ensures 2 * (v * p) == v * (2 * p)
  {
  }

  /** Two bit strings of one length with one value are the same string. */
  lemma {:induction false} BitsUnique(a: string, b: string)
    requires |a| == |b| && IsBits(a) && IsBits(b) && Value(a) == Value(b)
    ensures a == b
  {
    if |a| > 0 {
      var n := |a| - 1;
      assert Digit(a[n]) == Digit(b[n]);
      assert a[n] == b[n];
      BitsUnique(a[..n], b[..n]);
      assert a == a[..n] + [a[n]] && b == b[..n] + [b[n]];
    }
  }

  /** Each digit replaced by the other one. */
  function Flip(s: string): (r: string)
    ensures |r| == |s| && IsBits(r)
    ensures forall k :: 0 <= k < |s| ==> r[k] == (if s[k] == '0' then '1' else '0')
  {
    seq(|s|, k requires 0 <= k < |s| => if s[k] == '0' then '1' else '0')
  }

  /** Flipping a bit string complements its value. */
  lemma {:induction false} FlipValue(s: string)
    requires IsBits(s)
    ensures Value(Flip(s)) == Pow2(|s|) - 1 - Value(s)
  {
    if |s| > 0 {
      var n := |s| - 1;
      assert Flip(s)[..n] == Flip(s[..n]);
      FlipValue(s[..n]);
    }
  }

  // ---------------------------------------------------------------------
  // toBinary and fromBinary

  /** The binary digits of a positive number without leading zeros (the
      first `while` of `toBinary`); empty for zero. */
  function Bits(m: nat): (s: string)
    ensures IsBits(s) && Value(s) == m
    ensures m > 0 ==> |s| > 0 && s[0] == '1'
    ensures m == 0 ==> s == []
  {
    if m == 0 then [] else
      var s := Bits(m / 2) + [Char(m % 2)];
      assert s[..|s| - 1] == Bits(m / 2);
      s
  }

  /** `m.toString(2)` for m >= 0: '0' for zero, otherwise the binary
      digits without leading zeros. */
  function ToString2(m: nat): (s: string)
    ensures |s| >= 1 && IsBits(s) && Value(s) == m
    ensures |s| > 1 ==> s[0] == '1'
  {
    if m == 0 then "0" else Bits(m)
  }

  lemma {:induction false} BitsLength(m: nat, k: nat)
    requires m < Pow2(k)
    ensures |Bits(m)| <= k
  {
    if m > 0 {
      BitsLength(m / 2, k - 1);
    }
  }

  /** The second `while` of `toBinary`: zeros in front up to eight digits. */
  function Pad8(s: string): (r: string)
    ensures |r| == if |s| < 8 then 8 else |s|
    ensures IsBits(s) ==> IsBits(r) && Value(r) == Value(s)
  {
    var r := Zeros(if |s| < 8 then 8 - |s| else 0) + s;
    ValueLeadingZeros(if |s| < 8 then 8 - |s| else 0, s);
    r
  }

  function Abs(n: int): nat
  {
    if n < 0 then -n else n
  }

  /** `toBinary(n)`: "00000000" for zero, with no sign; otherwise '1 ' or
      '0 ' by the sign of n, then |n| in binary with at least eight
      digits. */
  function ToBinary(n: int): (r: string)
    ensures n == 0 ==> r == "00000000"
    ensures n != 0 ==> |r| >= 10 && r[..2] == (if n < 0 then "1 " else "0 ")
                       && IsBits(r[2..]) && Value(r[2..]) == Abs(n)
    ensures Abs(n) < 256 ==> |r| == 10 || n == 0
  {
    if n == 0 then "00000000"
    else
      assert Abs(n) < 256 ==> |Bits(Abs(n))| <= 8 by {
        if Abs(n) < 256 {
          BitsLength(Abs(n), 8);
        }
      }
      var r := (if n < 0 then "1 " else "0 ") + Pad8(Bits(Abs(n)));
      assert r[2..] == Pad8(Bits(Abs(n)));
      r
  }

  /** The longest prefix of binary digits. */
  function BitPrefix(s: string): (p: string)
    ensures IsBits(p) && |p| <= |s| && p == s[..|p|]
    ensures |p| < |s| ==> !IsBit(s[|p|])
  {
    if |s| > 0 && IsBit(s[0]) then [s[0]] + BitPrefix(s[1..]) else []
  }

  lemma BitPrefixOfBits(s: string)
    requires IsBits(s)
    ensures BitPrefix(s) == s
  {
  }

  /** JavaScript's `parseInt(s, 2)`: leading white space skipped, an
      optional sign, then the longest run of binary digits; `None` (NaN)
      when there is none. */
  function ParseInt2(s: string): (r: Option<int>)
    ensures IsBits(s) && |s| > 0 ==> r == Some(Value(s))
    decreases |s|
  {
    if |s| > 0 && IsJsSpace(s[0]) then ParseInt2(s[1..])
    else
      var neg := |s| > 0 && s[0] == '-';
      var body := if |s| > 0 && (s[0] == '-' || s[0] == '+') then s[1..] else s;
      var p := BitPrefix(body);
      if |p| == 0 then None
      else
        assert IsBits(s) ==> p == s by {
          if IsBits(s) {
            BitPrefixOfBits(s);
          }
        }
        var v: int := Value(p);
        Some(if neg then -v else v)
  }

  /** `fromBinary(s)`: minus when the first character is '1', times the
      number `parseInt` reads from the third character on. */
  function FromBinary(s: string): Option<int>
  {
    var sign := if |s| > 0 && s[0] == '1' then -1 else 1;
    match ParseInt2(if |s| >= 2 then s[2..] else [])
    case None => None
    case Some(m) => Some(sign * m)
  }

  /** Reading a code back gives the number: `fromBinary(toBinary(n)) == n`
      for every integer. */
  lemma RoundTrip(n: int)
    ensures FromBinary(ToBinary(n)) == Some(n)
  {
    if n == 0 {
      assert ToBinary(n)[2..] == Zeros(6) + [];
      ValueLeadingZeros(6, []);
    } else {
      var r := ToBinary(n);
      assert ParseInt2(r[2..]) == Some(Abs(n));
      assert r[0] == r[..2][0];
    }
  }

  // ---------------------------------------------------------------------
  // Ones' and two's complement codes

  /** `reverseBinaryCode(n)`: the code itself for n >= 0; for a negative n
      every digit after the sign is flipped, so the digits hold
      `2^width - 1 - |n|`. */
  function ReverseCode(n: int): (r: string)
    ensures n >= 0 ==> r == ToBinary(n)
    ensures |r| == |ToBinary(n)|
  {
    var b := ToBinary(n);
    if n >= 0 then b else b[..2] + Flip(b[2..])
  }

  /** For a negative n the code reads '1 ' and its digits hold
      `2^width - 1 - |n|`. */
  lemma ReverseCodeDigits(n: int, r: string)
    requires n < 0 && r == ReverseCode(n)
    ensures |r| >= 10 && r[..2] == "1 " && IsBits(r[2..])
    ensures Value(r[2..]) == Pow2(|r| - 2) - 1 - Abs(n)
    ensures Abs(n) < 256 ==> |r| == 10
  {
    var b := ToBinary(n);
    assert b[..2] == "1 " && Value(b[2..]) == Abs(n);
    FlipTail(b, r);
  }

  /** A code with its digits after the sign and space flipped. */
  lemma FlipTail(b: string, r: string)
    requires |b| >= 2 && IsBits(b[2..]) && r == b[..2] + Flip(b[2..])
    ensures |r| == |b| && r[..2] == b[..2] && r[2..] == Flip(b[2..])
    ensures IsBits(r[2..]) && Value(r[2..]) == Pow2(|r| - 2) - 1 - Value(b[2..])
  {
    assert r[2..] == Flip(b[2..]);
    FlipValue(b[2..]);
  }

  /** `additionalBinaryCode(n)` as written: the code itself for n >= 0,
      otherwise the ones' complement code of n + 1. */
  function AdditionalCode(n: int): (r: string)
    ensures n >= 0 ==> r == ToBinary(n)
    ensures n < 0 ==> r == ReverseCode(n + 1)
  {
    if n >= 0 then ToBinary(n) else ReverseCode(n + 1)
  }

  /** The two's complement code: sign '1 ' and digits holding
      `2^width - |n|`. */
  predicate TwosComplementOf(r: string, n: int)
  {
    |r| >= 10 && r[..2] == "1 " && IsBits(r[2..]) && Value(r[2..]) == Pow2(|r| - 2) - Abs(n)
  }

  /** Below -1 the code as written is the two's complement. */
  lemma AdditionalCodeTwos(n: int)
    requires n < -1
    ensures TwosComplementOf(AdditionalCode(n), n)
  {
    var r := ReverseCode(n + 1);
    ReverseCodeDigits(n + 1, r);
    OnesToTwos(r, Abs(n + 1), n);
  }

  /** A ones' complement code of a number one closer to zero is the two's
      complement code of the number itself. */
  lemma OnesToTwos(r: string, a: int, n: int)
    requires n < -1 && a == -n - 1
    requires |r| >= 10 && r[..2] == "1 " && IsBits(r[2..])
    requires Value(r[2..]) == Pow2(|r| - 2) - 1 - a
    ensures TwosComplementOf(r, n)
  {
  }

  /** For -1 it is not: n + 1 is zero, whose code has no sign and reads
      back as 0. */
  lemma AdditionalCodeMinusOne()
    ensures AdditionalCode(-1) == "00000000"
    ensures !TwosComplementOf(AdditionalCode(-1), -1)
  {
  }

  /** `additionalBinaryCode` with -1 given its code '1 11111111'. */
  function AdditionalCodeFixed(n: int): (r: string)
    ensures n >= 0 ==> r == ToBinary(n)
    ensures n < 0 ==> TwosComplementOf(r, n)
    ensures n < -1 ==> r == AdditionalCode(n)
  {
    if n >= 0 then ToBinary(n)
    else if n == -1 then
      var r := "1 " + Flip(Zeros(8));
      MinusOneCode(r);
      r
    else
      AdditionalCodeTwos(n);
      AdditionalCode(n)
  }

  /** '1 11111111' is the two's complement code of -1. */
  lemma MinusOneCode(r: string)
    requires r == "1 " + Flip(Zeros(8))
    ensures TwosComplementOf(r, -1)
  {
    ValueZeros(8);
    FlipValue(Zeros(8));
    Pow2Byte();
    assert r[2..] == Flip(Zeros(8));
  }

  // ---------------------------------------------------------------------
  // addAdditionalBinary: ones' complement addition with end-around carry

  /** The digits of a string as numbers, least significant first. */
  function Lsb(s: string): (a: seq<int>)
    ensures |a| == |s|
    ensures forall i :: 0 <= i < |s| ==> a[i] == Digit(s[|s| - 1 - i])
  {
    seq(|s|, i requires 0 <= i < |s| => Digit(s[|s| - 1 - i]))
  }

  /** The value of a digit array, least significant first; the digits may
      exceed one while carries are pending. */
  function ValLsb(a: seq<int>): int
  {
    if |a| == 0 then 0 else a[0] + 2 * ValLsb(a[1..])
  }

  /** The digit array written back as a string, most significant first. */
  function Msb(a: seq<int>): (s: string)
    ensures |s| == |a| && IsBits(s)
    ensures forall k :: 0 <= k < |a| ==> s[k] == Char(a[|a| - 1 - k])
  {
    seq(|a|, k requires 0 <= k < |a| => Char(a[|a| - 1 - k]))
  }

  predicate IsBitArray(a: seq<int>)
  {
    forall j :: 0 <= j < |a| ==> 0 <= a[j] <= 1
  }

  lemma {:induction false} LsbValue(s: string)
    ensures ValLsb(Lsb(s)) == Value(s)
  {
    if |s| > 0 {
      assert Lsb(s)[1..] == Lsb(s[..|s| - 1]);
      LsbValue(s[..|s| - 1]);
    }
  }

  lemma {:induction false} MsbValue(a: seq<int>)
    requires IsBitArray(a)
    ensures Value(Msb(a)) == ValLsb(a)
  {
    if |a| > 0 {
      var s := Msb(a);
      assert s[..|s| - 1] == Msb(a[1..]);
      assert Digit(s[|s| - 1]) == a[0];
      MsbValue(a[1..]);
    }
  }

  /** Digit-wise sum of two arrays of one length. */
  function AddDigits(a: seq<int>, b: seq<int>): (c: seq<int>)
    requires |a| == |b|
    ensures |c| == |a|
    ensures forall i :: 0 <= i < |a| ==> c[i] == a[i] + b[i]
  {
    seq(|a|, i requires 0 <= i < |a| => a[i] + b[i])
  }

  lemma {:induction false} AddDigitsValue(a: seq<int>, b: seq<int>)
    requires |a| == |b|
    ensures ValLsb(AddDigits(a, b)) == ValLsb(a) + ValLsb(b)
  {
    if |a| > 0 {
      assert AddDigits(a, b)[1..] == AddDigits(a[1..], b[1..]);
      AddDigitsValue(a[1..], b[1..]);
    }
  }

  /** Adding d to the digit at position k adds d * 2^k. */
  lemma {:induction false} ValAddAt(a: seq<int>, k: nat, d: int)
    requires k < |a|
    ensures ValLsb(a[k := a[k] + d]) == ValLsb(a) + d * Pow2(k)
  {
    if k > 0 {
      assert a[k := a[k] + d][1..] == a[1..][k - 1 := a[1..][k - 1] + d];
      ValAddAt(a[1..], k - 1, d);
      Double(d, Pow2(k - 1));
    }
  }

  function DigitSum(a: seq<int>): int
  {
    if |a| == 0 then 0 else a[0] + DigitSum(a[1..])
  }

  lemma {:induction false} DigitSumAddAt(a: seq<int>, k: nat, d: int)
    requires k < |a|
    ensures DigitSum(a[k := a[k] + d]) == DigitSum(a) + d
  {
    if k > 0 {
      assert a[k := a[k] + d][1..] == a[1..][k - 1 := a[1..][k - 1] + d];
      DigitSumAddAt(a[1..], k - 1, d);
    }
  }

  lemma {:induction false} DigitSumNonNegative(a: seq<int>)
    requires forall j :: 0 <= j < |a| ==> a[j] >= 0
    ensures DigitSum(a) >= 0
  {
    if |a| > 0 {
      DigitSumNonNegative(a[1..]);
    }
  }

  /** x is a non-negative multiple of m. */
  predicate Multiple(x: int, m: int)
    requires m > 0
    decreases x
  {
    x == 0 || (x >= m && Multiple(x - m, m))
  }

  /** The `for` loop of `addAdditionalBinary` from position i: a digit
      above one gives two away as a carry into the next position, and out
      of the top position into position 0, after which the scan restarts
      from 0 (`i = -1; continue`). Every carry lowers the digit sum, so the
      restarts end. The digits start at two at most, so the digit under
      the scan never exceeds three. The result is a bit array whose value
      is the input's less a multiple of `2^width - 1`; an array that is
      already all bits is left as it is. */
  function Propagate(a: seq<int>, i: nat): (r: seq<int>)
    requires PropagateReady(a, i)
    ensures |r| == |a| && IsBitArray(r)
    decreases DigitSum(a), |a| - i
  {
    if i == |a| then a
    else
      var (b, j) := ScanStep(a, i);
      Propagate(b, j)
  }

  /** One pass of the loop body at position i: the next array and the
      next position. */
  function ScanStep(a: seq<int>, i: nat): (s: (seq<int>, nat))
    requires PropagateReady(a, i) && i < |a|
    ensures PropagateReady(s.0, s.1) && |s.0| == |a|
    ensures DigitSum(s.0) >= 0
    ensures DigitSum(s.0) < DigitSum(a) || (s.0 == a && s.1 == i + 1)
    ensures a[i] <= 1 ==> s == (a, i + 1)
    ensures a[i] > 1 && i + 1 == |a| ==> s == (WrapAround(a), 0)
    ensures a[i] > 1 && i + 1 < |a| ==> s == (Carry(a, i), i + 1)
  {
    DigitSumNonNegative(a);
    if a[i] > 1 then
      if i + 1 == |a| then
        var w := WrapAround(a);
        DigitSumNonNegative(w);
        (w, 0)
      else
        var c := Carry(a, i);
        DigitSumNonNegative(c);
        (c, i + 1)
    else (a, i + 1)
  }

  /** The loop's invariant at position i. */
  predicate PropagateReady(a: seq<int>, i: nat)
  {
    && 0 < |a| && i <= |a|
    && (forall j :: 0 <= j < |a| ==> a[j] >= 0)
    && (forall j :: 0 <= j < i ==> a[j] <= 1)
    && (i < |a| ==> a[i] <= 3)
    && (forall j :: i < j < |a| ==> a[j] <= 2)
  }

  /** The carries keep the value modulo `2^width - 1`. */
  lemma {:induction false} PropagateValue(a: seq<int>, i: nat)
    requires PropagateReady(a, i)
    ensures Multiple(ValLsb(a) - ValLsb(Propagate(a, i)), Pow2(|a|) - 1)
    decreases DigitSum(a), |a| - i
  {
    if i < |a| {
      var (b, j) := ScanStep(a, i);
      PropagateValue(b, j);
      assert Propagate(a, i) == Propagate(b, j);
      if a[i] > 1 && i + 1 == |a| {
        assert ValLsb(a) - ValLsb(Propagate(a, i)) == (ValLsb(b) - ValLsb(Propagate(b, j))) + (Pow2(|a|) - 1);
      }
    }
  }

  /** An array that is all bits already has nothing to carry. */
  lemma {:induction false} PropagateBits(a: seq<int>, i: nat)
    requires PropagateReady(a, i) && IsBitArray(a)
    ensures Propagate(a, i) == a
    decreases |a| - i
  {
    if i < |a| {
      PropagateBits(a, i + 1);
    }
  }

  /** Position i gives two away and position i + 1 takes one: the value
      stays, the digit sum drops by one. */
  function Carry(a: seq<int>, i: nat): (b: seq<int>)
    requires i + 1 < |a| && a[i] >= 2
    requires forall j :: 0 <= j < |a| ==> a[j] >= 0
    ensures |b| == |a|
    ensures forall j :: 0 <= j < |a| ==> b[j] == (if j == i then a[i] - 2 else if j == i + 1 then a[j] + 1 else a[j])
    ensures ValLsb(b) == ValLsb(a)
    ensures DigitSum(b) == DigitSum(a) - 1
  {
    var a1 := a[i := a[i] - 2];
    DigitSumAddAt(a, i, -2);
    ValAddAt(a, i, -2);
    var b := a1[i + 1 := a1[i + 1] + 1];
    DigitSumAddAt(a1, i + 1, 1);
    ValAddAt(a1, i + 1, 1);
    assert Pow2(i + 1) == 2 * Pow2(i);
    b
  }

  /** The top position gives two away and position 0 takes one: the value
      drops by `2^width - 1`, the digit sum by one. */
  function WrapAround(a: seq<int>): (b: seq<int>)
    requires 0 < |a| && a[|a| - 1] >= 2
    requires forall j :: 0 <= j < |a| ==> a[j] >= 0
    ensures |b| == |a|
    ensures |a| == 1 ==> b[0] == a[0] - 1
    ensures |a| > 1 ==> b[0] == a[0] + 1 && b[|a| - 1] == a[|a| - 1] - 2
    ensures forall j :: 0 < j < |a| - 1 ==> b[j] == a[j]
    ensures ValLsb(b) == ValLsb(a) - (Pow2(|a|) - 1)
    ensures DigitSum(b) == DigitSum(a) - 1
  {
    var n := |a| - 1;
    var a1 := a[n := a[n] - 2];
    DigitSumAddAt(a, n, -2);
    ValAddAt(a, n, -2);
    var b := a1[0 := a1[0] + 1];
    DigitSumAddAt(a1, 0, 1);
    ValAddAt(a1, 0, 1);
    assert Pow2(|a|) == 2 * Pow2(n);
    b
  }

  /** The magnitude digits `addAdditionalBinary` takes from a number: the
      part after the space of its ones' complement code, and eight zeros
      for 0, whose code has no space. */
  function OnesDigits(n: int): (d: string)
    ensures Abs(n) < 256 ==> |d| == 8
  {
    if n == 0 then "00000000" else ReverseCode(n)[2..]
  }

  /** `addAdditionalBinary(x1, x2)` for operands whose magnitudes fit in
      eight digits. Zero as the second operand has no digits after a
      space, and reading their length throws. */
  function AddOnes(x1: int, x2: int): (r: Result<string>)
    requires Abs(x1) < 256 && Abs(x2) < 256
    ensures r.Err? <==> x2 == 0
  {
    if x2 == 0 then Err("TypeError: cannot read properties of undefined")
    else Ok(Assemble(x1 + x2, OnesSum(OnesDigits(x1), OnesDigits(x2))))
  }

  /** The return statement: for a negative sum (of the operands, not of
      the codes) the digits are flipped back under sign '1 '. */
  function Assemble(s: int, digits: string): string
  {
    if s < 0 then "1 " + Flip(digits) else "0 " + digits
  }

  /** The digit-wise sum of two magnitude strings with end-around carry,
      written back most significant first. */
  function OnesSum(b1: string, b2: string): (digits: string)
    requires |b1| == |b2| > 0
    ensures |digits| == |b1| && IsBits(digits)
    ensures IsBits(b1) && IsBits(b2) ==>
              Multiple(Value(b1) + Value(b2) - Value(digits), Pow2(|b1|) - 1)
  {
    var r := Propagate(AddDigits(Lsb(b1), Lsb(b2)), 0);
    if IsBits(b1) && IsBits(b2) then
      SumPropagated(b1, b2);
      MsbValue(r);
      Msb(r)
    else
      Msb(r)
  }

  /** The magnitude digits of an operand: eight digits holding n for
      n >= 0 and `255 + n` (the ones' complement) for n < 0. */
  lemma OnesDigitsValue(n: int)
    requires Abs(n) < 256
    ensures |OnesDigits(n)| == 8 && IsBits(OnesDigits(n))
    ensures Value(OnesDigits(n)) == if n >= 0 then n else 255 + n
  {
    if n == 0 {
      assert OnesDigits(n) == Zeros(8);
      ValueZeros(8);
    } else if n > 0 {
      assert OnesDigits(n) == ToBinary(n)[2..];
    } else {
      NegativeOnesDigits(n, ReverseCode(n));
    }
  }

  lemma NegativeOnesDigits(n: int, r: string)
    requires -256 < n < 0 && r == ReverseCode(n)
    ensures OnesDigits(n) == r[2..] && |r[2..]| == 8 && IsBits(r[2..])
    ensures Value(r[2..]) == 255 + n
  {
    ReverseCodeDigits(n, r);
    Pow2Byte();
  }

  /** The carry loop over the digit-wise sum keeps the operands' total
      modulo `2^width - 1`. */
  lemma SumPropagated(b1: string, b2: string)
    requires |b1| == |b2| > 0 && IsBits(b1) && IsBits(b2)
    ensures Multiple(Value(b1) + Value(b2) - ValLsb(Propagate(AddDigits(Lsb(b1), Lsb(b2)), 0)), Pow2(|b1|) - 1)
  {
    var a := AddDigits(Lsb(b1), Lsb(b2));
    ColumnsOfSum(b1, b2);
    PropagateValue(a, 0);
    MultipleCongruent(ValLsb(a) - ValLsb(Propagate(a, 0)), Value(b1) + Value(b2) - ValLsb(Propagate(a, 0)), Pow2(|b1|) - 1);
  }

  /** The digit-wise sum of two bit strings is ready for the carry loop
      and holds the sum of their values. */
  lemma ColumnsOfSum(b1: string, b2: string)
    requires |b1| == |b2| > 0 && IsBits(b1) && IsBits(b2)
    ensures PropagateReady(AddDigits(Lsb(b1), Lsb(b2)), 0)
    ensures ValLsb(AddDigits(Lsb(b1), Lsb(b2))) == Value(b1) + Value(b2)
  {
    LsbValue(b1);
    LsbValue(b2);
    AddDigitsValue(Lsb(b1), Lsb(b2));
  }

  /** Equal numbers are multiples alike. */
  lemma MultipleCongruent(x: int, y: int, m: int)
    requires m > 0 && Multiple(x, m) && x == y
    ensures Multiple(y, m)
  {
  }

  /** A multiple of m below 3m is 0, m or 2m. */
  lemma MultipleSmall(x: int, m: int)
    requires m > 0 && Multiple(x, m) && x < 3 * m
    ensures x == 0 || x == m || x == 2 * m
  {
    if x != 0 {
      assert Multiple(x - m, m);
      if x - m != 0 {
        assert Multiple(x - 2 * m, m);
      }
    }
  }

  /** The value of the sum's digits: the sum itself when it is positive,
      `255 + sum` when it is negative, and 0 or 255 when it is zero. */
  lemma OnesSumOfOperands(x1: int, x2: int)
    requires Abs(x1) < 256 && Abs(x2) < 256 && Abs(x1 + x2) < 255
    ensures var d := OnesSum(OnesDigits(x1), OnesDigits(x2));
            |d| == 8 && IsBits(d)
            && (x1 + x2 > 0 ==> Value(d) == x1 + x2)
            && (x1 + x2 < 0 ==> Value(d) == 255 + x1 + x2)
            && (x1 + x2 == 0 ==> Value(d) == 0 || Value(d) == 255)
  {
    OnesDigitsValue(x1);
    OnesDigitsValue(x2);
    DigitsResidue(x1, x2, OnesDigits(x1), OnesDigits(x2));
  }

  /** `OnesSumOfOperands` for any eight-digit strings holding the
      operands' digit values. */
  lemma DigitsResidue(x1: int, x2: int, b1: string, b2: string)
    requires Abs(x1) < 256 && Abs(x2) < 256 && Abs(x1 + x2) < 255
    requires |b1| == |b2| == 8 && IsBits(b1) && IsBits(b2)
    requires Value(b1) == if x1 >= 0 then x1 else 255 + x1
    requires Value(b2) == if x2 >= 0 then x2 else 255 + x2
    ensures var d := OnesSum(b1, b2);
            |d| == 8 && IsBits(d)
            && (x1 + x2 > 0 ==> Value(d) == x1 + x2)
            && (x1 + x2 < 0 ==> Value(d) == 255 + x1 + x2)
            && (x1 + x2 == 0 ==> Value(d) == 0 || Value(d) == 255)
  {
    var d := OnesSum(b1, b2);
    ValueBound(d);
    Pow2Byte();
    ResidueCases(x1, x2, Value(b1), Value(b2), Value(d), Pow2(|b1|) - 1);
  }

  /** The arithmetic behind `OnesSumOfOperands`: a digit value below 256
      that differs from the operands' digit values by a multiple of 255. */
  lemma ResidueCases(x1: int, x2: int, v1: int, v2: int, vd: int, m: int)
    requires Abs(x1) < 256 && Abs(x2) < 256 && Abs(x1 + x2) < 255
    requires v1 == (if x1 >= 0 then x1 else 255 + x1)
    requires v2 == (if x2 >= 0 then x2 else 255 + x2)
    requires m == 255 && 0 <= vd < 256 && Multiple(v1 + v2 - vd, m)
    ensures x1 + x2 > 0 ==> vd == x1 + x2
    ensures x1 + x2 < 0 ==> vd == 255 + x1 + x2
    ensures x1 + x2 == 0 ==> vd == 0 || vd == 255
  {
    MultipleSmall(v1 + v2 - vd, m);
  }

  /** A bit string of eight digits with value m is the magnitude part of
      `toBinary` for m in 1..255. */
  lemma MagnitudeDigits(d: string, m: int)
    requires |d| == 8 && IsBits(d) && 0 < m < 256 && Value(d) == m
    ensures "0 " + d == ToBinary(m) && "1 " + d == ToBinary(-m)
  {
    var p, q := ToBinary(m), ToBinary(-m);
    BitsUnique(d, p[2..]);
    BitsUnique(d, q[2..]);
    assert p == p[..2] + p[2..] && q == q[..2] + q[2..];
  }

  /** The code `addAdditionalBinary` assembles from the sum's digits is the
      code of a non-zero sum s when the digits hold s, or `255 + s` for a
      negative s. */
  lemma CodeOfDigits(s: int, d: string)
    requires 0 < Abs(s) < 255 && |d| == 8 && IsBits(d)
    requires Value(d) == if s > 0 then s else 255 + s
    ensures (if s < 0 then "1 " + Flip(d) else "0 " + d) == ToBinary(s)
  {
    if s > 0 {
      MagnitudeDigits(d, s);
    } else {
      FlipValue(d);
      Pow2Byte();
      MagnitudeDigits(Flip(d), -s);
    }
  }

  /** `addAdditionalBinary` adds: for operands and a non-zero sum of
      magnitude below 255, the result is the sign-magnitude code of the
      sum (the second operand must not be 0). */
  lemma AddOnesSum(x1: int, x2: int)
    requires Abs(x1) < 256 && Abs(x2) < 256 && x2 != 0
    requires 0 < Abs(x1 + x2) < 255
    ensures AddOnes(x1, x2) == Ok(ToBinary(x1 + x2))
  {
    OnesSumOfOperands(x1, x2);
    CodeOfDigits(x1 + x2, OnesSum(OnesDigits(x1), OnesDigits(x2)));
  }

  /** The same with the sum named. */
  lemma AddOnesSumIs(x1: int, x2: int, s: int)
    requires Abs(x1) < 256 && Abs(x2) < 256 && x2 != 0
    requires s == x1 + x2 && 0 < Abs(s) < 255
    ensures AddOnes(x1, x2) == Ok(ToBinary(s))
  {
    AddOnesSum(x1, x2);
  }

  /** Bit strings that differ in every position have one digit each way in
      every column, so their digit-wise sum is all ones and nothing
      carries. */
  lemma NoCarrySum(b1: string, b2: string)
    requires |b1| == |b2| > 0 && IsBits(b1) && IsBits(b2)
    requires forall k :: 0 <= k < |b1| ==> b1[k] != b2[k]
    ensures OnesSum(b1, b2) == Flip(Zeros(|b1|))
  {
    var a := AddDigits(Lsb(b1), Lsb(b2));
    AllOnesColumns(b1, b2);
    OnesReady(a);
    PropagateBits(a, 0);
    AllOnesDigits(a);
    OnesSumOf(b1, b2, a);
  }

  /** An array of ones is bits and ready for the carry loop. */
  lemma OnesReady(a: seq<int>)
    requires |a| > 0 && forall i :: 0 <= i < |a| ==> a[i] == 1
    ensures IsBitArray(a) && PropagateReady(a, 0)
  {
  }

  /** OnesSum is the carry loop over the digit-wise sum. */
  lemma OnesSumOf(b1: string, b2: string, a: seq<int>)
    requires |b1| == |b2| > 0 && a == AddDigits(Lsb(b1), Lsb(b2))
    ensures PropagateReady(a, 0) && OnesSum(b1, b2) == Msb(Propagate(a, 0))
  {
  }

  lemma AllOnesColumns(b1: string, b2: string)
    requires |b1| == |b2| > 0 && IsBits(b1) && IsBits(b2)
    requires forall k :: 0 <= k < |b1| ==> b1[k] != b2[k]
    ensures forall i :: 0 <= i < |b1| ==> AddDigits(Lsb(b1), Lsb(b2))[i] == 1
  {
  }

  lemma AllOnesDigits(a: seq<int>)
    requires forall i :: 0 <= i < |a| ==> a[i] == 1
    ensures Msb(a) == Flip(Zeros(|a|))
  {
  }

  lemma ComplementSum(b: string)
    requires |b| > 0 && IsBits(b)
    ensures OnesSum(b, Flip(b)) == Flip(Zeros(|b|))
    ensures OnesSum(Flip(b), b) == Flip(Zeros(|b|))
  {
    FlipDiffers(b);
    NoCarrySum(b, Flip(b));
    NoCarrySum(Flip(b), b);
  }

  /** A bit string and its flip differ in every position. */
  lemma FlipDiffers(b: string)
    requires IsBits(b)
    ensures forall k :: 0 <= k < |b| ==> b[k] != Flip(b)[k] && Flip(b)[k] != b[k]
  {
  }

  /** The magnitude digits of -x are those of x flipped. */
  lemma OnesDigitsNegate(x: int)
    requires 0 < Abs(x) < 256
    ensures OnesDigits(-x) == Flip(OnesDigits(x))
  {
    OnesDigitsValue(x);
    OnesDigitsValue(-x);
    ComplementDigits(OnesDigits(x), OnesDigits(-x));
  }

  /** Eight-digit bit strings whose values add up to 255 are each other's
      flips. */
  lemma ComplementDigits(d1: string, d2: string)
    requires |d1| == |d2| == 8 && IsBits(d1) && IsBits(d2)
    requires Value(d1) + Value(d2) == 255
    ensures d2 == Flip(d1)
  {
    FlipValue(d1);
    Pow2Byte();
    BitsUnique(d2, Flip(d1));
  }

  lemma AddOnesUnfold(x1: int, x2: int)
    requires Abs(x1) < 256 && Abs(x2) < 256 && x2 != 0
    ensures AddOnes(x1, x2) == Ok(Assemble(x1 + x2, OnesSum(OnesDigits(x1), OnesDigits(x2))))
  {
  }

  /** The codes of x and -x have complementary digits. */
  lemma ComplementOperands(x: int)
    requires 0 < Abs(x) < 256
    ensures OnesSum(OnesDigits(x), OnesDigits(-x)) == "11111111"
  {
    OnesDigitsValue(x);
    OnesDigitsNegate(x);
    ComplementSum(OnesDigits(x));
  }

  lemma NegativeZeroReadsBack()
    ensures Assemble(0, "11111111") == "0 11111111"
    ensures FromBinary("0 11111111") == Some(255)
  {
    assert Value("11111111") == 255 by {
      assert "11111111" == Flip(Zeros(8));
      ValueZeros(8);
      FlipValue(Zeros(8));
      Pow2Byte();
    }
    assert ("0 11111111")[2..] == "11111111";
  }

  /** A number plus its negation comes out as '0 11111111', a negative
      zero, which reads back as 255. */
  lemma AddOnesNegativeZero(x: int)
    requires 0 < Abs(x) < 256
    ensures AddOnes(x, -x) == Ok("0 11111111")
    ensures FromBinary("0 11111111") == Some(255)
  {
    ComplementOperands(x);
    AddOnesUnfold(x, -x);
    NegativeZeroReadsBack();
  }

  /** `substractAdditionalBinary(x1, x2)`: '0 00000000' for equal operands,
      otherwise x1 plus -x2. */
  function SubOnes(x1: int, x2: int): (r: Result<string>)
    requires Abs(x1) < 256 && Abs(x2) < 256
    ensures r.Err? <==> x1 != x2 && x2 == 0
  {
    if x1 == x2 then Ok("0 00000000") else AddOnes(x1, -x2)
  }

  /** Subtraction gives the code of the difference, except that subtracting
      0 from a non-zero number throws. */
  lemma SubOnesDifference(x1: int, x2: int)
    requires Abs(x1) < 256 && Abs(x2) < 256 && x1 != x2 && x2 != 0
    requires Abs(x1 - x2) < 255
    ensures SubOnes(x1, x2) == Ok(ToBinary(x1 - x2))
  {
    SubOnesVia(x1, x2, -x2, x1 - x2);
  }

  /** The same with the negated operand and the difference named. */
  lemma SubOnesVia(x1: int, x2: int, y: int, d: int)
    requires Abs(x1) < 256 && Abs(x2) < 256 && x1 != x2 && x2 != 0
    requires y == -x2 && d == x1 + y && 0 < Abs(d) < 255
    ensures SubOnes(x1, x2) == Ok(ToBinary(d))
  {
    SubOnesIsAdd(x1, x2, y);
    AddOnesSumIs(x1, y, d);
  }

  /** Different operands are subtracted by adding the negated second. */
  lemma SubOnesIsAdd(x1: int, x2: int, y: int)
    requires Abs(x1) < 256 && Abs(x2) < 256 && x1 != x2 && y == -x2
    ensures SubOnes(x1, x2) == AddOnes(x1, y)
  {
  }

  // ---------------------------------------------------------------------
  // The addition with zero and negative zero handled

  /** The sign-magnitude code with zero written '0 00000000'. */
  function SignMagnitude(n: int): string
  {
    if n == 0 then "0 00000000" else ToBinary(n)
  }

  /** `addAdditionalBinary` reading a zero second operand as eight zeros,
      as it already does for the first, and writing negative zero as
      '0 00000000'. */
  function AddOnesFixed(x1: int, x2: int): (r: string)
    requires Abs(x1) < 256 && Abs(x2) < 256
    ensures x2 != 0 && x1 + x2 != 0 ==> AddOnes(x1, x2) == Ok(r)
  {
    AssembleFixed(x1 + x2, OnesSum(OnesDigits(x1), OnesDigits(x2)))
  }

  /** The return statement with negative zero written as positive zero. */
  function AssembleFixed(s: int, digits: string): string
  {
    if s == 0 && digits == Flip(Zeros(8)) then "0 00000000" else Assemble(s, digits)
  }

  lemma FixedCodeOfDigits(s: int, d: string)
    requires Abs(s) < 255 && |d| == 8 && IsBits(d)
    requires s > 0 ==> Value(d) == s
    requires s < 0 ==> Value(d) == 255 + s
    requires s == 0 ==> Value(d) == 0 || Value(d) == 255
    ensures AssembleFixed(s, d) == SignMagnitude(s)
  {
    ValueZeros(8);
    if s != 0 {
      CodeOfDigits(s, d);
      assert d != Flip(Zeros(8)) || s != 0;
    } else if Value(d) == 0 {
      BitsUnique(d, Zeros(8));
      assert d != Flip(Zeros(8)) by {
        assert d[0] == '0' && Flip(Zeros(8))[0] == '1';
      }
      assert "0 " + Zeros(8) == "0 00000000";
    } else {
      FlipValue(Zeros(8));
      Pow2Byte();
      BitsUnique(d, Flip(Zeros(8)));
    }
  }

  /** The fixed addition is exact whenever the sum fits. */
  lemma AddOnesFixedSum(x1: int, x2: int)
    requires Abs(x1) < 256 && Abs(x2) < 256 && Abs(x1 + x2) < 255
    ensures AddOnesFixed(x1, x2) == SignMagnitude(x1 + x2)
  {
    OnesSumOfOperands(x1, x2);
    FixedCodeOfDigits(x1 + x2, OnesSum(OnesDigits(x1), OnesDigits(x2)));
  }

  /** `substractAdditionalBinary` over the fixed addition. */
  function SubFixed(x1: int, x2: int): string
    requires Abs(x1) < 256 && Abs(x2) < 256
  {
    if x1 == x2 then "0 00000000" else AddOnesFixed(x1, -x2)
  }

  /** The fixed subtraction is exact whenever the difference fits,
      subtracting 0 included. */
  lemma SubFixedDifference(x1: int, x2: int)
    requires Abs(x1) < 256 && Abs(x2) < 256 && Abs(x1 - x2) < 255
    ensures SubFixed(x1, x2) == SignMagnitude(x1 - x2)
  {
    if x1 == x2 {
      assert SubFixed(x1, x2) == "0 00000000";
      assert SignMagnitude(x1 - x2) == "0 00000000";
    } else {
      assert x1 + -x2 == x1 - x2;
      AddOnesFixedSum(x1, -x2);
      assert SubFixed(x1, x2) == AddOnesFixed(x1, -x2);
    }
  }

  // ---------------------------------------------------------------------
  // The unit tests

  /** 5 + 4 gives the code of 9. */
  lemma UnitAdd()
    ensures AddOnes(5, 4) == Ok("0 00001001")
  {
    AddOnesSum(5, 4);
    NineCode();
  }

  /** 5 - 4 gives the code of 1. */
  lemma UnitSubtract()
    ensures SubOnes(5, 4) == Ok("0 00000001")
  {
    SubOnesDifference(5, 4);
    OneCode();
  }

  /** Equal operands give positive zero. */
  lemma SubtractSame(x: int)
    requires Abs(x) < 256
    ensures SubOnes(x, x) == Ok("0 00000000")
  {
  }

  /** The code of a positive number: '0 ' and its padded digits. */
  lemma PositiveCode(n: int)
    requires n > 0
    ensures ToBinary(n) == "0 " + Pad8(Bits(n))
  {
  }

  /** Fewer than eight digits are padded with zeros in front. */
  lemma PadShort(s: string)
    requires |s| < 8
    ensures Pad8(s) == Zeros(8 - |s|) + s
  {
  }

  lemma BitsNine()
    ensures Bits(9) == "1001"
  {
    assert Bits(1) == "1";
    assert Bits(2) == "10";
    assert Bits(4) == "100";
  }

  lemma ZerosFour()
    ensures Zeros(4) == "0000"
  {
    assert Zeros(2) == "00";
  }

  lemma NineCode()
    ensures ToBinary(9) == "0 00001001"
  {
    BitsNine();
    PositiveCode(9);
    PadShort("1001");
    ZerosFour();
  }

  lemma OneCode()
    ensures ToBinary(1) == "0 00000001"
  {
    assert Bits(1) == "1";
    PositiveCode(1);
    PadShort("1");
    assert Zeros(7) == "0000000" by {
      assert Zeros(2) == "00";
      assert Zeros(4) == "0000";
    }
  }
}

=== FILE: binary_columns.dfy ===
/** Column addition of several digit strings and long multiplication built
    on it (`addBinaryArray` and `multiplyBinary` of the `Binary` class in
    aois_lab_1/lab_1.js). */
module BinaryColumns {
  import opened Outcomes
  import opened BinaryCodes

  // ---------------------------------------------------------------------
  // Columns, counted from the right starting at 1

  /** Digit i of x counted from the right (1 is the last digit), and 0 past
      the start of x, where the source reads `undefined`. */
  function DigitAt(x: string, i: nat): (d: nat)
    ensures d <= 1
  {
    if 1 <= i <= |x| then Digit(x[|x| - i]) else 0
  }

  /** The digits of column i over all strings. */
  function Column(xs: seq<string>, i: nat): (c: nat)
    ensures c <= |xs|
  {
    if |xs| == 0 then 0 else Column(xs[..|xs| - 1], i) + DigitAt(xs[|xs| - 1], i)
  }

  /** The last k digits of x (all of x when it is shorter). */
  function Low(x: string, k: nat): (t: string)
    ensures |t| <= k
    ensures |x| <= k ==> t == x
  {
    if k >= |x| then x else x[|x| - k..]
  }

  /** The values of the last k digits, added over all strings. */
  function LowSum(xs: seq<string>, k: nat): nat
  {
    if |xs| == 0 then 0 else LowSum(xs[..|xs| - 1], k) + Value(Low(xs[|xs| - 1], k))
  }

  /** The sum of the values of all strings. */
  function Total(xs: seq<string>): nat
  {
    if |xs| == 0 then 0 else Total(xs[..|xs| - 1]) + Value(xs[|xs| - 1])
  }

  /** The length of the longest string (`Math.max` over the lengths). */
  function MaxLen(xs: seq<string>): (m: nat)
    ensures forall k :: 0 <= k < |xs| ==> |xs[k]| <= m
    ensures |xs| > 0 ==> exists k :: 0 <= k < |xs| && |xs[k]| == m
  {
    if |xs| == 0 then 0
    else
      var m := MaxLen(xs[..|xs| - 1]);
      var last := |xs[|xs| - 1]|;
      assert forall k :: 0 <= k < |xs| - 1 ==> xs[k] == xs[..|xs| - 1][k];
      if last > m then last else m
  }

  /** One more digit of x adds its digit times its weight. */
  lemma LowStep(x: string, k: nat)
    ensures Value(Low(x, k + 1)) == Value(Low(x, k)) + DigitAt(x, k + 1) * Pow2(k)
  {
    if k < |x| {
      var n := |x|;
      assert Low(x, k + 1) == [x[n - (k + 1)]] + Low(x, k);
      ValuePrepend(x[n - (k + 1)], Low(x, k));
    }
  }

  /** One more column adds the column's digits times their weight. */
  lemma {:induction false} LowSumStep(xs: seq<string>, k: nat)
    ensures LowSum(xs, k + 1) == LowSum(xs, k) + Column(xs, k + 1) * Pow2(k)
  {
    if |xs| > 0 {
      var init, last := xs[..|xs| - 1], xs[|xs| - 1];
      LowSumStep(init, k);
      LowStep(last, k);
      AddWeighted(LowSum(init, k), Value(Low(last, k)), LowSum(init, k + 1), Value(Low(last, k + 1)),
                  Column(init, k + 1), DigitAt(last, k + 1), Pow2(k),
                  LowSum(xs, k), LowSum(xs, k + 1), Column(xs, k + 1));
    } else {
      assert Column(xs, k + 1) * Pow2(k) == 0;
    }
  }

  /** Two sums that each grow by a count times p grow together by the
      combined count times p. */
  lemma AddWeighted(a0: int, b0: int, a1: int, b1: int, c: int, d: int, p: int, s0: int, s1: int, col: int)
    requires a1 == a0 + c * p && b1 == b0 + d * p
    requires s0 == a0 + b0 && s1 == a1 + b1 && col == c + d
    ensures s1 == s0 + col * p
  {
    assert (c + d) * p == c * p + d * p;
  }

  /** No columns, nothing added. */
  lemma {:induction false} LowSumNone(xs: seq<string>)
    ensures LowSum(xs, 0) == 0
  {
    if |xs| > 0 {
      LowSumNone(xs[..|xs| - 1]);
      assert Low(xs[|xs| - 1], 0) == [];
    }
  }

  /** Once k covers every string, the low parts are the strings. */
  lemma {:induction false} LowSumTotal(xs: seq<string>, k: nat)
    requires forall j :: 0 <= j < |xs| ==> |xs[j]| <= k
    ensures LowSum(xs, k) == Total(xs)
  {
    if |xs| > 0 {
      var init := xs[..|xs| - 1];
      assert forall j :: 0 <= j < |init| ==> init[j] == xs[j];
      LowSumTotal(init, k);
    }
  }

  /** The arithmetic of one column: the digit written and the carry kept
      account for the column's sum at weight p. */
  lemma ColumnArithmetic(v: int, carry: int, sum: int, col: int, p: int, low: int)
    requires sum >= 0 && v + carry * p == low && sum == carry + col
    ensures (sum % 2) * p + v + (sum / 2) * (2 * p) == low + col * p
  {
    var q, m := sum / 2, sum % 2;
    assert sum == 2 * q + m;
    assert q * (2 * p) == 2 * q * p;
    assert (2 * q + m) * p == 2 * q * p + m * p;
    assert (carry + col) * p == carry * p + col * p;
  }

  /** c copies of m make a multiple of m. */
  lemma {:induction false} MultipleOfProduct(c: nat, m: int)
    requires m > 0
    ensures Multiple(c * m, m)
  {
    if c > 0 {
      MultipleOfProduct(c - 1, m);
      assert c * m - m == (c - 1) * m;
    }
  }

  // ---------------------------------------------------------------------
  // addBinaryArray

  /** `addBinaryArray(xs)`: "Array is empty" for no strings; otherwise the
      columns are added from the right with a carry, for as many columns as
      the longest string has, and a final carry of exactly one is written
      in front. A larger final carry (three or more strings) is dropped, so
      the result is the sum exactly when the sum fits in one digit more
      than the longest string, and otherwise the sum with a multiple of
      `2^maxLength` cut away. */
  method AddBinaryArray(xs: seq<string>) returns (r: Result<string>)
    requires forall k :: 0 <= k < |xs| ==> IsBits(xs[k])
    ensures r.Err? <==> |xs| == 0
    ensures r.Err? ==> r.msg == "Array is empty"
    ensures r.Ok? ==> Sums(xs, r.value)
  {
    if |xs| == 0 {
      return Err("Array is empty");
    }
    var maxLength := MaxLen(xs);
    var result := "";
    var carry := 0;
    var i := 1;
    LowSumNone(xs);
    while i <= maxLength
      invariant i <= maxLength + 1
      invariant Partway(xs, i, result, carry)
    {
      var sum := AddColumn(xs, i, carry);
      PartwayStep(xs, i, result, carry, sum);
      result := [Char(sum % 2)] + result;
      carry := sum / 2;
      i := i + 1;
    }
    Finished(xs, result, carry);
    return Ok(WriteCarry(result, carry));
  }

  /** What the column sum of xs promises about its digits r: they are bits,
      one longer than the longest string at most; they hold the total
      exactly when the total is below `2^(maxLength + 1)`, and otherwise
      hold the total less a multiple of `2^maxLength`. */
  predicate Sums(xs: seq<string>, r: string)
  {
    && IsBits(r) && MaxLen(xs) <= |r| <= MaxLen(xs) + 1
    && (Value(r) == Total(xs) <==> Total(xs) < 2 * Pow2(MaxLen(xs)))
    && (Total(xs) >= 2 * Pow2(MaxLen(xs)) ==>
          Value(r) < Pow2(MaxLen(xs)) && Multiple(Total(xs) - Value(r), Pow2(MaxLen(xs))))
  }

  /** The outer loop's invariant before column i: the digits written so
      far and the carry's weight account for the low i - 1 digits of every
      string. */
  predicate Partway(xs: seq<string>, i: nat, result: string, carry: nat)
  {
    && 1 <= i && IsBits(result) && |result| == i - 1
    && Value(result) + carry * Pow2(i - 1) == LowSum(xs, i - 1)
  }

  /** Writing the column's digit and keeping its half as the carry keeps
      the invariant. */
  lemma PartwayStep(xs: seq<string>, i: nat, result: string, carry: nat, sum: nat)
    requires Partway(xs, i, result, carry) && sum == carry + Column(xs, i)
    ensures Partway(xs, i + 1, [Char(sum % 2)] + result, sum / 2)
  {
    ValuePrepend(Char(sum % 2), result);
    LowSumStep(xs, i - 1);
    ColumnArithmetic(Value(result), carry, sum, Column(xs, i), Pow2(i - 1), LowSum(xs, i - 1));
  }

  /** The final carry is written in front only when it is exactly one. */
  function WriteCarry(result: string, carry: nat): string
  {
    if carry == 1 then "1" + result else result
  }

  /** After the last column the written digits are the column sum. */
  lemma Finished(xs: seq<string>, result: string, carry: nat)
    requires Partway(xs, MaxLen(xs) + 1, result, carry)
    ensures Sums(xs, WriteCarry(result, carry))
  {
    LowSumTotal(xs, MaxLen(xs));
    ValueBound(result);
    if carry == 1 {
      ValuePrepend('1', result);
    } else {
      FinalCarry(Value(result), carry, Pow2(MaxLen(xs)), Total(xs));
    }
  }

  /** The inner loop: the carry plus the digits of column i. */
  method AddColumn(xs: seq<string>, i: nat, carry: nat) returns (sum: nat)
    ensures sum == carry + Column(xs, i)
  {
    sum := carry;
    var j := 0;
    while j < |xs|
      invariant 0 <= j <= |xs|
      invariant sum == carry + Column(xs[..j], i)
    {
      assert xs[..j + 1][..j] == xs[..j];
      sum := sum + DigitAt(xs[j], i);
      j := j + 1;
    }
    assert xs[..|xs|] == xs;
  }

  /** Without a written carry the digits hold the total less the carry's
      weight: all of it for no carry, a multiple of p cut away otherwise. */
  lemma FinalCarry(v: nat, carry: nat, p: nat, total: nat)
    requires p > 0 && v < p && v + carry * p == total && carry != 1
    ensures v == total <==> total < 2 * p
    ensures total >= 2 * p ==> Multiple(total - v, p)
  {
    if carry >= 2 {
      assert carry * p >= 2 * p;
      MultipleOfProduct(carry, p);
    }
  }

  // ---------------------------------------------------------------------
  // multiplyBinary

  /** A code with a sign digit, one separator and magnitude digits. */
  predicate IsSignedCode(x: string)
  {
    |x| >= 2 && IsBit(x[0]) && IsBits(x[2..])
  }

  /** The digits of x1 each multiplied by digit b (`x1[j] * x2[i]`). */
  function Scale(d1: string, b: char): (row: string)
    ensures |row| == |d1| && IsBits(row)
    ensures forall j :: 0 <= j < |d1| ==> row[j] == Char(Digit(d1[j]) * Digit(b))
  {
    seq(|d1|, j requires 0 <= j < |d1| => Char(Digit(d1[j]) * Digit(b)))
  }

  /** A bit string times one is itself, times zero is all zeros. */
  lemma ScaleBits(d1: string, b: char)
    requires IsBits(d1)
    ensures Scale(d1, b) == if b == '1' then d1 else Zeros(|d1|)
  {
    if b == '1' {
      assert forall j :: 0 <= j < |d1| ==> Scale(d1, b)[j] == d1[j];
    }
  }

  /** One partial product: the magnitude of x1 times digit b, followed by
      `counter` zeros. */
  function Partial(d1: string, b: char, counter: nat): (p: string)
    ensures IsBits(p) && |p| == |d1| + counter
  {
    Scale(d1, b) + Zeros(counter)
  }

  /** A partial product is the magnitude of x1 times the digit, shifted by
      `counter` places. */
  lemma PartialValue(d1: string, b: char, counter: nat)
    requires IsBits(d1)
    ensures b == '1' ==> Value(Partial(d1, b, counter)) == Value(d1) * Pow2(counter)
    ensures b != '1' ==> Value(Partial(d1, b, counter)) == 0
  {
    ScaleBits(d1, b);
    if b == '1' {
      ValueTrailingZeros(d1, counter);
    } else {
      var z := Zeros(|d1|);
      assert Partial(d1, b, counter) == z + Zeros(counter);
      ValueTrailingZeros(z, counter);
      ValueZeros(|d1|);
      assert Value(z) * Pow2(counter) == 0;
    }
  }

  /** The partial products, one per digit of x2 from the last: the one for
      the digit with `counter` digits after it is shifted by `counter`. */
  function Partials(d1: string, d2: string): (ps: seq<string>)
    ensures |ps| == |d2|
    ensures forall c :: 0 <= c < |d2| ==> ps[c] == Partial(d1, d2[|d2| - 1 - c], c)
  {
    seq(|d2|, c requires 0 <= c < |d2| => Partial(d1, d2[|d2| - 1 - c], c))
  }

  /** The partial products add up to the product of the magnitudes. */
  lemma {:induction false} PartialsTotal(d1: string, d2: string)
    requires IsBits(d1) && IsBits(d2)
    ensures Total(Partials(d1, d2)) == Value(d1) * Value(d2)
  {
    if |d2| > 0 {
      var n := |d2| - 1;
      var ps := Partials(d1, d2);
      var shorter := Partials(d1, d2[1..]);
      // Dropping the first digit of x2 drops the last, most shifted, partial.
      assert ps[..n] == shorter;
      PartialsTotal(d1, d2[1..]);
      assert Total(ps) == Total(shorter) + Value(ps[n]);
      ValuePrepend(d2[0], d2[1..]);
      assert d2 == [d2[0]] + d2[1..];
      PartialValue(d1, d2[0], n);
      var v, d, p, rest := Value(d1), Digit(d2[0]), Pow2(n), Value(d2[1..]);
      LeadingPartial(v, d, p, rest, Value(d2), Total(ps));
    }
  }

  /** Adding the most shifted partial product: `v * rest` so far, plus
      digit d of weight p times v, is v times the whole multiplier. */
  lemma LeadingPartial(v: int, d: int, p: int, rest: int, multiplier: int, total: int)
    requires multiplier == d * p + rest && total == v * rest + d * (v * p)
    ensures total == v * multiplier
  {
    assert v * (d * p) == d * (v * p);
    assert v * (d * p + rest) == v * (d * p) + v * rest;
  }

  /** The longest partial product is the last one, `|d1| + |d2| - 1` long. */
  lemma PartialsLength(d1: string, d2: string)
    requires |d2| > 0
    ensures MaxLen(Partials(d1, d2)) == |d1| + |d2| - 1
  {
    var ps := Partials(d1, d2);
    assert |ps[|d2| - 1]| == |d1| + |d2| - 1;
  }

  /** The product of the magnitudes is below `2^(|d1| + |d2|)`. */
  lemma ProductBound(d1: string, d2: string)
    requires |d2| > 0
    ensures Value(d1) * Value(d2) < 2 * Pow2(|d1| + |d2| - 1)
  {
    ValueBound(d1);
    ValueBound(d2);
    PowAdd(|d1|, |d2|);
    ProductBelow(Value(d1), Value(d2), Pow2(|d1|), Pow2(|d2|));
    assert Pow2(|d1| + |d2|) == 2 * Pow2(|d1| + |d2| - 1);
  }

  lemma ProductBelow(a: nat, b: nat, p: nat, q: nat)
    requires a < p && b < q
    ensures a * b < p * q
  {
    assert a * b <= a * q by {
      assert a * (q - b) >= 0;
    }
    assert a * q < p * q by {
      assert (p - a) * q > 0;
    }
  }

  lemma {:induction false} PowAdd(a: nat, b: nat)
    ensures Pow2(a + b) == Pow2(a) * Pow2(b)
  {
    if b > 0 {
      PowAdd(a, b - 1);
      assert Pow2(a) * Pow2(b) == Pow2(a) * (2 * Pow2(b - 1)) == 2 * (Pow2(a) * Pow2(b - 1));
    }
  }

  /** The sign `multiplyBinary` writes: '1 ' when exactly one sign digit is
      '1'. */
  function ProductSign(x1: string, x2: string): (s: string)
    requires |x1| > 0 && |x2| > 0 && IsBit(x1[0]) && IsBit(x2[0])
    ensures s == "1 " <==> (x1[0] == '1') != (x2[0] == '1')
    ensures s == "0 " || s == "1 "
  {
    if Digit(x1[0]) + Digit(x2[0]) == 1 then "1 " else "0 "
  }

  /** `multiplyBinary(x1, x2)`: the sign of the product, then the column
      sum of the shifted partial products. The magnitude is exactly the
      product of the magnitudes (the sum always fits, so no carry is lost),
      written in `|d1| + |d2| - 1` or `|d1| + |d2|` digits. An x2 without
      magnitude digits leaves no partial products, and the column sum's
      message follows the sign. */
  method MultiplyBinary(x1: string, x2: string) returns (r: string)
    requires IsSignedCode(x1) && IsSignedCode(x2)
    ensures |r| >= 2 && r[..2] == ProductSign(x1, x2)
    ensures |x2| == 2 ==> r == ProductSign(x1, x2) + "Array is empty"
    ensures |x2| > 2 ==> IsBits(r[2..]) && Value(r[2..]) == Value(x1[2..]) * Value(x2[2..])
    ensures |x2| > 2 ==> |x1| + |x2| - 5 <= |r[2..]| <= |x1| + |x2| - 4
  {
    var d1, d2 := x1[2..], x2[2..];
    var ps := Partials(d1, d2);
    var sum := AddBinaryArray(ps);
    var sign := ProductSign(x1, x2);
    if sum.Err? {
      r := sign + sum.msg;
    } else {
      assert Sums(ps, sum.value);
      r := sign + sum.value;
      PartialsTotal(d1, d2);
      PartialsLength(d1, d2);
      ProductBound(d1, d2);
      assert r[2..] == sum.value;
    }
  }
}

=== FILE: bresenham.dfy ===
/** Integer Bresenham line rasterisation (`bresenham_line` in giis/6/main6.py,
    the same loop as `SimpleEditor.bresenham` in giis/1/lab1.py). */
module Bresenham {

  datatype Point = Point(x: int, y: int)

  function Abs(n: int): nat
  {
    if n < 0 then -n else n
  }

  /** `1 if a < b else -1`: the step direction of one axis. */
  function Dir(a: int, b: int): int
  {
    if a < b then 1 else -1
  }

  /** `c` lies on the closed integer interval between `a` and `b`. */
  predicate Between(a: int, c: int, b: int)
  {
    (a <= c <= b) || (b <= c <= a)
  }

  /** How far a point has travelled from (x1, y1), counted per axis. */
  function Progress(x1: int, y1: int, p: Point): nat
  {
    Abs(p.x - x1) + Abs(p.y - y1)
  }

  /** The relation between the error term and the distance travelled that the
      loop keeps: `err = dx - dy + j*dx - i*dy` with i, j the steps taken so far. */
  ghost predicate LoopInv(x1: int, y1: int, x2: int, y2: int, x: int, y: int, err: int)
  {
    && Between(x1, x, x2) && Between(y1, y, y2)
    && err == Abs(x2 - x1) - Abs(y2 - y1)
              + Abs(y - y1) * Abs(x2 - x1) - Abs(x - x1) * Abs(y2 - y1)
  }

  lemma MulNonPos(a: int, b: int)
    requires a >= 0 && b <= -1
    ensures a * b <= -a
  {
    assert a * b == -a + a * (b + 1);
    assert a * (b + 1) <= 0 by {
      assert -(b + 1) >= 0;
      assert a * (-(b + 1)) >= 0;
    }
  }

  lemma MulPos(a: int, b: int)
    requires a >= 0 && b >= 1
    ensures a * b >= a
  {
    assert a * b == a + a * (b - 1);
    assert a * (b - 1) >= 0;
  }

  /** One loop iteration never overshoots either end point, and it moves
      at least one axis unless the end is already reached. */
  lemma StepKeepsInv(x1: int, y1: int, x2: int, y2: int, x: int, y: int, err: int)
    requires LoopInv(x1, y1, x2, y2, x, y, err)
    requires !(x == x2 && y == y2)
    ensures var dx: int, dy: int := Abs(x2 - x1), Abs(y2 - y1);
            var e2 := 2 * err;
            var x' := if e2 > -dy then x + Dir(x1, x2) else x;
            var y' := if e2 < dx then y + Dir(y1, y2) else y;
            var err' := err - (if e2 > -dy then dy else 0) + (if e2 < dx then dx else 0);
            && LoopInv(x1, y1, x2, y2, x', y', err')
            && (x' != x || y' != y)
            && Abs(x2 - x') + Abs(y2 - y') < Abs(x2 - x) + Abs(y2 - y)
  {
    var dx: int, dy: int := Abs(x2 - x1), Abs(y2 - y1);
    var i: int, j: int := Abs(x - x1), Abs(y - y1);
    StepArith(dx, dy, i, j, err);
    var xs := 2 * err > -dy;
    var ys := 2 * err < dx;
    AdvanceAxis(x1, x, x2, xs);
    AdvanceAxis(y1, y, y2, ys);
  }

  /** The arithmetic core of one iteration, with i, j the steps taken on each
      axis: an axis that has reached its end does not move, some axis moves,
      and the error term keeps its relation to the steps taken. */
  lemma StepArith(dx: int, dy: int, i: int, j: int, err: int)
    requires 0 <= i <= dx && 0 <= j <= dy && !(i == dx && j == dy)
    requires err == dx - dy + j * dx - i * dy
    ensures var xs, ys := 2 * err > -dy, 2 * err < dx;
            && (i == dx ==> !xs) && (j == dy ==> !ys) && (xs || ys)
            && err - (if xs then dy else 0) + (if ys then dx else 0)
               == dx - dy + (if ys then j + 1 else j) * dx - (if xs then i + 1 else i) * dy
  {
    var xs, ys := 2 * err > -dy, 2 * err < dx;
    if i == dx {
      MulNonPos(dx, j - dy);
      assert j * dx - i * dy == dx * (j - dy);
    } else if j == dy {
      MulPos(dy, dx - i);
      assert j * dx - i * dy == dy * (dx - i);
    }
    assert (j + 1) * dx == j * dx + dx;
    assert (i + 1) * dy == i * dy + dy;
  }

  /** Moving one axis by its direction, when it has not reached its end,
      keeps it between the end points and adds one to its distance travelled. */
  lemma AdvanceAxis(a: int, c: int, b: int, move: bool)
    requires Between(a, c, b)
    requires move ==> c != b
    ensures var c' := if move then c + Dir(a, b) else c;
            && Between(a, c', b)
            && Abs(c' - a) == Abs(c - a) + (if move then 1 else 0)
            && Abs(b - c') == Abs(b - c) - (if move then 1 else 0)
  {
  }

  /** The `while True` loop of `bresenham_line` from the current (x, y, err). */
  function Walk(x1: int, y1: int, x2: int, y2: int, x: int, y: int, err: int): (r: seq<Point>)
    requires LoopInv(x1, y1, x2, y2, x, y, err)
    decreases Abs(x2 - x) + Abs(y2 - y)
  {
    if x == x2 && y == y2 then [Point(x, y)]
    else
      StepKeepsInv(x1, y1, x2, y2, x, y, err);
      var dx: int, dy: int := Abs(x2 - x1), Abs(y2 - y1);
      var e2 := 2 * err;
      var err1 := if e2 > -dy then err - dy else err;
      var x' := if e2 > -dy then x + Dir(x1, x2) else x;
      var err2 := if e2 < dx then err1 + dx else err1;
      var y' := if e2 < dx then y + Dir(y1, y2) else y;
      [Point(x, y)] + Walk(x1, y1, x2, y2, x', y', err2)
  }

  /** `bresenham_line(x1, y1, x2, y2)`: the list of points it returns. */
  function Line(x1: int, y1: int, x2: int, y2: int): seq<Point>
  {
    Walk(x1, y1, x2, y2, x1, y1, Abs(x2 - x1) - Abs(y2 - y1))
  }

  /** Consecutive points differ by 0 or the axis direction on each axis,
      never by 0 on both. */
  predicate UnitStep(x1: int, y1: int, x2: int, y2: int, p: Point, q: Point)
  {
    && (q.x == p.x || q.x == p.x + Dir(x1, x2))
    && (q.y == p.y || q.y == p.y + Dir(y1, y2))
    && q != p
  }

  /** What the rest of a walk looks like: it ends at (x2, y2) and nowhere
      earlier, moves by unit steps, stays in the bounding box and keeps
      moving away from (x1, y1). */
  predicate Shape(x1: int, y1: int, x2: int, y2: int, r: seq<Point>)
  {
    && |r| >= 1 && r[|r| - 1] == Point(x2, y2)
    && (forall k :: 0 <= k < |r| - 1 ==> r[k] != Point(x2, y2))
    && (forall k :: 0 <= k < |r| - 1 ==> UnitStep(x1, y1, x2, y2, r[k], r[k + 1]))
    && (forall k :: 0 <= k < |r| ==> Between(x1, r[k].x, x2) && Between(y1, r[k].y, y2))
    && (forall k :: 0 <= k < |r| - 1 ==> Progress(x1, y1, r[k]) < Progress(x1, y1, r[k + 1]))
  }

  lemma {:induction false} WalkShape(x1: int, y1: int, x2: int, y2: int, x: int, y: int, err: int)
    requires LoopInv(x1, y1, x2, y2, x, y, err)
    ensures var r := Walk(x1, y1, x2, y2, x, y, err);
            r[0] == Point(x, y) && Shape(x1, y1, x2, y2, r)
    decreases Abs(x2 - x) + Abs(y2 - y)
  {
    if !(x == x2 && y == y2) {
      var x', y', err' := WalkNext(x1, y1, x2, y2, x, y, err);
      WalkShape(x1, y1, x2, y2, x', y', err');
      ConsShape(x1, y1, x2, y2, Point(x, y), Walk(x1, y1, x2, y2, x', y', err'));
    }
  }

  /** One iteration of the loop, as the next state of the walk. */
  lemma WalkNext(x1: int, y1: int, x2: int, y2: int, x: int, y: int, err: int) returns (x': int, y': int, err': int)
    requires LoopInv(x1, y1, x2, y2, x, y, err) && !(x == x2 && y == y2)
    ensures LoopInv(x1, y1, x2, y2, x', y', err')
    ensures Abs(x2 - x') + Abs(y2 - y') < Abs(x2 - x) + Abs(y2 - y)
    ensures Walk(x1, y1, x2, y2, x, y, err) == [Point(x, y)] + Walk(x1, y1, x2, y2, x', y', err')
    ensures UnitStep(x1, y1, x2, y2, Point(x, y), Point(x', y'))
    ensures Progress(x1, y1, Point(x, y)) < Progress(x1, y1, Point(x', y'))
  {
    StepKeepsInv(x1, y1, x2, y2, x, y, err);
    var dx: int, dy: int := Abs(x2 - x1), Abs(y2 - y1);
    var e2 := 2 * err;
    var err1 := if e2 > -dy then err - dy else err;
    x' := if e2 > -dy then x + Dir(x1, x2) else x;
    err' := if e2 < dx then err1 + dx else err1;
    y' := if e2 < dx then y + Dir(y1, y2) else y;
    AdvanceAxis(x1, x, x2, e2 > -dy);
    AdvanceAxis(y1, y, y2, e2 < dx);
  }

  /** A first point one unit step before a walk's start, inside the box and
      nearer to (x1, y1), extends the walk. */
  lemma ConsShape(x1: int, y1: int, x2: int, y2: int, p: Point, rest: seq<Point>)
    requires Shape(x1, y1, x2, y2, rest) && p != Point(x2, y2)
    requires UnitStep(x1, y1, x2, y2, p, rest[0])
    requires Progress(x1, y1, p) < Progress(x1, y1, rest[0])
    requires Between(x1, p.x, x2) && Between(y1, p.y, y2)
    ensures Shape(x1, y1, x2, y2, [p] + rest)
  {
    var r := [p] + rest;
    forall k | 0 <= k < |r| - 1
      ensures UnitStep(x1, y1, x2, y2, r[k], r[k + 1])
      ensures Progress(x1, y1, r[k]) < Progress(x1, y1, r[k + 1])
      ensures r[k] != Point(x2, y2)
    {
      if k > 0 {
        assert r[k] == rest[k - 1] && r[k + 1] == rest[k];
      }
    }
    forall k | 0 <= k < |r|
      ensures Between(x1, r[k].x, x2) && Between(y1, r[k].y, y2)
    {
      if k > 0 {
        assert r[k] == rest[k - 1];
      }
    }
  }

  lemma ProgressOrdered(x1: int, y1: int, r: seq<Point>, k: int, l: int)
    requires forall m :: 0 <= m < |r| - 1 ==> Progress(x1, y1, r[m]) < Progress(x1, y1, r[m + 1])
    requires 0 <= k < l < |r|
    ensures Progress(x1, y1, r[k]) < Progress(x1, y1, r[l])
    decreases l - k
  {
    if l > k + 1 {
      ProgressOrdered(x1, y1, r, k + 1, l);
    }
  }

  /** The properties of `bresenham_line` the rest of the model relies on: it
      starts at (x1, y1), stops exactly at (x2, y2) and nowhere earlier, every
      step moves each axis by 0 or its direction (never both 0), every point
      lies in the bounding box of the segment, and no point repeats. */
  lemma {:induction false} LineShape(x1: int, y1: int, x2: int, y2: int)
    ensures var r := Line(x1, y1, x2, y2);
            && |r| >= 1 && r[0] == Point(x1, y1) && r[|r| - 1] == Point(x2, y2)
            && (forall k :: 0 <= k < |r| - 1 ==> r[k] != Point(x2, y2))
            && (forall k :: 0 <= k < |r| - 1 ==> UnitStep(x1, y1, x2, y2, r[k], r[k + 1]))
            && (forall k :: 0 <= k < |r| ==> Between(x1, r[k].x, x2) && Between(y1, r[k].y, y2))
            && (forall k, l :: 0 <= k < l < |r| ==> r[k] != r[l])
  {
    var r := Line(x1, y1, x2, y2);
    WalkShape(x1, y1, x2, y2, x1, y1, Abs(x2 - x1) - Abs(y2 - y1));
    forall k, l | 0 <= k < l < |r|
      ensures r[k] != r[l]
    {
      ProgressOrdered(x1, y1, r, k, l);
    }
  }

  /** Both end points are always on the rasterised line. */
  lemma EndsOnLine(x1: int, y1: int, x2: int, y2: int)
    ensures Point(x1, y1) in Line(x1, y1, x2, y2)
    ensures Point(x2, y2) in Line(x1, y1, x2, y2)
  {
    LineShape(x1, y1, x2, y2);
  }
}

=== FILE: canvas.dfy ===
/** The pixel canvas of the polygon filler (giis/6/main6.py): its bounds, the
    pixel map `filled_pixels_display` seen as a set of positions, and the
    boundary set built by rasterising the polygon's edges. */
module Canvas {
  import opened Bresenham

  const Width: int := 600
  const Height: int := 500

  predicate InCanvas(p: Point)
  {
    0 <= p.x < Width && 0 <= p.y < Height
  }

  /** Every pixel position of the canvas. */
  const Pixels: set<Point> := set x: int, y: int | 0 <= x < Width && 0 <= y < Height :: Point(x, y)

  lemma PixelsExactly(p: Point)
    ensures p in Pixels <==> InCanvas(p)
  {
    if InCanvas(p) {
      assert p == Point(p.x, p.y);
    }
  }

  /** `_draw_pixel`: the position is recorded when it lies on the canvas and
      ignored otherwise; the map is keyed by position, so drawing twice
      records it once. */
  function DrawPixel(filled: set<Point>, p: Point): (r: set<Point>)
    ensures filled <= r && r - filled <= {p}
    ensures p in r <==> p in filled || InCanvas(p)
  {
    if InCanvas(p) then filled + {p} else filled
  }

  /** Drawing a pixel a second time changes nothing. */
  lemma DrawPixelIdempotent(filled: set<Point>, p: Point)
    ensures DrawPixel(DrawPixel(filled, p), p) == DrawPixel(filled, p)
  {
  }

  /** Drawing keeps the recorded positions inside the canvas. */
  lemma DrawPixelClipped(filled: set<Point>, p: Point)
    requires filled <= Pixels
    ensures DrawPixel(filled, p) <= Pixels
  {
    PixelsExactly(p);
  }

  /** The canvas pixels of row `y` with `a <= x < b`. */
  function SpanPixels(y: int, a: int, b: int): set<Point>
  {
    set x: int | a <= x < b && 0 <= x < Width && 0 <= y < Height :: Point(x, y)
  }

  /** `for fill_x in range(a, b): _draw_pixel(fill_x, y)`. */
  function DrawRange(filled: set<Point>, y: int, a: int, b: int): (r: set<Point>)
    ensures r == filled + SpanPixels(y, a, b)
    decreases b - a
  {
    if a >= b then filled
    else
      var r := DrawRange(DrawPixel(filled, Point(a, y)), y, a + 1, b);
      assert SpanPixels(y, a, b) == SpanPixels(y, a + 1, b) + (if InCanvas(Point(a, y)) then {Point(a, y)} else {});
      r
  }

  lemma SpanPixelsOnCanvas(y: int, a: int, b: int)
    ensures SpanPixels(y, a, b) <= Pixels
    ensures forall p :: p in SpanPixels(y, a, b) <==> InCanvas(p) && p.y == y && a <= p.x < b
  {
    forall p | InCanvas(p) && p.y == y && a <= p.x < b
      ensures p in SpanPixels(y, a, b)
    {
      assert p == Point(p.x, y);
    }
    forall p | p in SpanPixels(y, a, b)
      ensures p in Pixels
    {
      PixelsExactly(p);
    }
  }

  /** The positions of the Bresenham line from `a` to `b`. */
  function LinePixels(a: Point, b: Point): set<Point>
  {
    set p | p in Line(a.x, a.y, b.x, b.y)
  }

  /** Both end points of an edge are boundary pixels. */
  lemma LinePixelsEnds(a: Point, b: Point)
    ensures a in LinePixels(a, b) && b in LinePixels(a, b)
  {
    EndsOnLine(a.x, a.y, b.x, b.y);
  }

  /** `_draw_line_on_canvas`: every pixel of the line joins the boundary set;
      unlike filled pixels, boundary pixels are not clipped to the canvas. */
  function AddEdge(boundary: set<Point>, a: Point, b: Point): (r: set<Point>)
    ensures boundary <= r
    ensures a in r && b in r
    ensures r - boundary <= LinePixels(a, b)
  {
    LinePixelsEnds(a, b);
    boundary + LinePixels(a, b)
  }

  /** The boundary while vertices are still being clicked: the lines between
      consecutive vertices, without the closing edge. */
  function OpenBoundary(vs: seq<Point>): set<Point>
  {
    if |vs| <= 1 then {}
    else OpenBoundary(vs[..|vs| - 1]) + LinePixels(vs[|vs| - 2], vs[|vs| - 1])
  }

  /** A pixel is on the open boundary exactly when it lies on the line between
      some vertex and the next one. */
  lemma {:induction false} OpenBoundaryMembers(vs: seq<Point>, p: Point)
    ensures p in OpenBoundary(vs) <==>
            exists i :: 0 <= i < |vs| - 1 && p in LinePixels(vs[i], vs[i + 1])
    decreases |vs|
  {
    if |vs| > 1 {
      var n := |vs|;
      var ws := vs[..n - 1];
      OpenBoundaryMembers(ws, p);
      if p in OpenBoundary(vs) {
        if p in OpenBoundary(ws) {
          var i :| 0 <= i < |ws| - 1 && p in LinePixels(ws[i], ws[i + 1]);
          assert vs[i] == ws[i] && vs[i + 1] == ws[i + 1];
        } else {
          assert p in LinePixels(vs[n - 2], vs[n - 1]);
        }
      }
      if exists i :: 0 <= i < |vs| - 1 && p in LinePixels(vs[i], vs[i + 1]) {
        var i :| 0 <= i < |vs| - 1 && p in LinePixels(vs[i], vs[i + 1]);
        if i < n - 2 {
          assert vs[i] == ws[i] && vs[i + 1] == ws[i + 1];
        }
      }
    }
  }

  /** The boundary of a finished polygon: `OpenBoundary` plus the line from
      the last vertex back to the first. */
  function ClosedBoundary(vs: seq<Point>): set<Point>
    requires |vs| > 0
  {
    OpenBoundary(vs) + LinePixels(vs[|vs| - 1], vs[0])
  }

  /** A click appends a vertex and draws the line from the previous one, so
      the boundary grows exactly by that line. */
  lemma AppendVertex(vs: seq<Point>, boundary: set<Point>, p: Point)
    requires boundary == OpenBoundary(vs)
    ensures (if |vs| > 0 then AddEdge(boundary, vs[|vs| - 1], p) else boundary)
            == OpenBoundary(vs + [p])
  {
    assert (vs + [p])[..|vs|] == vs;
  }

  /** Every vertex of a finished polygon is a boundary pixel. */
  lemma VerticesOnBoundary(vs: seq<Point>)
    requires |vs| > 0
    ensures forall i :: 0 <= i < |vs| ==> vs[i] in ClosedBoundary(vs)
  {
    forall i | 0 <= i < |vs|
      ensures vs[i] in ClosedBoundary(vs)
    {
      if i < |vs| - 1 {
        LinePixelsEnds(vs[i], vs[i + 1]);
        OpenBoundaryMembers(vs, vs[i]);
      } else {
        LinePixelsEnds(vs[i], vs[0]);
      }
    }
  }

  /** The fillers count progress by how many canvas pixels are still unfilled:
      adding an unfilled canvas pixel lowers that count. */
  lemma UnfilledShrinks(filled: set<Point>, added: set<Point>, q: Point)
    requires q in added && q !in filled && InCanvas(q)
    ensures |Pixels - (filled + added)| < |Pixels - filled|
  {
    PixelsExactly(q);
    var a, b := Pixels - (filled + added), Pixels - filled;
    assert a <= b - {q};
    SubsetCard(a, b - {q});
  }

  lemma {:induction false} SubsetCard<T>(a: set<T>, b: set<T>)
    requires a <= b
    ensures |a| <= |b|
    decreases |b|
  {
    if a != {} {
      var x :| x in a;
      SubsetCard(a - {x}, b - {x});
    }
  }
}

=== FILE: circle.dfy ===
/** The midpoint circle rasteriser of the graphics editor
    (`GraphicsEditor.draw_circle` in giis/lab2.py): the octant walk from
    (radius, 0) towards the diagonal, and its eight reflections about the
    centre. */
module Circle {
  import opened Bresenham

  /** The loop variables at the head of an iteration: the octant point and
      `decision_over_2`. */
  datatype Iter = Iter(x: int, y: int, d: int)

  /** The value `decision_over_2` keeps at (x, y) for radius `r`. */
  function Decision(r: int, x: int, y: int): int
  {
    x * x - x + (y + 1) * (y + 1) - r * r
  }

  /** The octant point at height `y` lies within half a pixel of the circle
      horizontally: `(x - 1/2)^2 + y^2 <= r^2 + 1/4 < (x + 1/2)^2 + y^2`,
      multiplied out. */
  predicate Near(r: int, x: int, y: int)
  {
    x * (x - 1) + y * y <= r * r < x * (x + 1) + y * y
  }

  /** The update after plotting: y grows by one; x shrinks by one exactly
      when the decision is positive; the decision grows by `2y + 1` or
      `2(y - x) + 1` with the new y and x. */
  function Next(s: Iter): (t: Iter)
    ensures t.y == s.y + 1
    ensures t.x == (if s.d > 0 then s.x - 1 else s.x)
  {
    var y := s.y + 1;
    if s.d <= 0 then Iter(s.x, y, s.d + 2 * y + 1)
    else Iter(s.x - 1, y, s.d + 2 * (y - (s.x - 1)) + 1)
  }

  /** The `while x >= y` loop from `s`: the iterations it runs, in order. */
  function Walk(s: Iter): (ss: seq<Iter>)
    ensures s.x >= s.y ==> |ss| >= 1 && ss[0] == s
    ensures s.x < s.y ==> ss == []
    ensures forall k :: 0 <= k < |ss| ==> ss[k].x >= ss[k].y >= s.y
    decreases if s.x >= s.y then s.x - s.y + 1 else 0
  {
    if s.x < s.y then [] else [s] + Walk(Next(s))
  }

  /** Consecutive iterations are related by `Next`. */
  lemma {:induction false} WalkSteps(s: Iter)
    ensures var ss := Walk(s);
            forall k :: 0 < k < |ss| ==> ss[k] == Next(ss[k - 1])
    decreases if s.x >= s.y then s.x - s.y + 1 else 0
  {
    if s.x >= s.y {
      WalkSteps(Next(s));
      assert forall k :: 0 < k < |Walk(Next(s))| ==> Walk(Next(s))[k] == Next(Walk(Next(s))[k - 1]);
      var ss, rest := Walk(s), Walk(Next(s));
      assert ss == [s] + rest;
      forall k | 0 < k < |ss|
        ensures ss[k] == Next(ss[k - 1])
      {
        if k > 1 {
          assert ss[k - 1] == rest[k - 2] && ss[k] == rest[k - 1];
        } else {
          assert rest[0] == Next(s);
        }
      }
    }
  }

  /** The update keeps `decision_over_2` equal to `Decision` at the new
      point. */
  lemma NextKeepsDecision(r: int, s: Iter)
    requires s.d == Decision(r, s.x, s.y)
    ensures Next(s).d == Decision(r, Next(s).x, Next(s).y)
  {
    var x, y := s.x, s.y;
    assert (y + 2) * (y + 2) == (y + 1) * (y + 1) + 2 * (y + 1) + 1;
    assert (x - 1) * (x - 1) == x * x - 2 * x + 1;
  }

  /** Every iteration of a walk started with the right decision carries
      the right decision. */
  lemma {:induction false} WalkDecision(r: int, s: Iter)
    requires s.d == Decision(r, s.x, s.y)
    ensures forall t :: t in Walk(s) ==> t.d == Decision(r, t.x, t.y)
    decreases if s.x >= s.y then s.x - s.y + 1 else 0
  {
    if s.x >= s.y {
      NextKeepsDecision(r, s);
      WalkDecision(r, Next(s));
      assert Walk(s) == [s] + Walk(Next(s));
    }
  }

  /** One update keeps the point near the circle while it stays in the
      octant. */
  lemma NextNear(r: int, s: Iter)
    requires s.d == Decision(r, s.x, s.y) && Near(r, s.x, s.y) && s.y >= 0
    requires Next(s).x >= Next(s).y
    ensures Near(r, Next(s).x, Next(s).y)
  {
    var x, y := s.x, s.y;
    assert (y + 1) * (y + 1) == y * y + 2 * y + 1;
    if s.d > 0 {
      assert (x - 1) * (x - 2) == x * (x - 1) - 2 * x + 2;
      assert (x - 1) * x == x * (x - 1);
    } else {
      assert x * (x + 1) + (y + 1) * (y + 1) > x * (x + 1) + y * y;
    }
  }

  /** Every iteration of a walk that starts near the circle is near it. */
  lemma {:induction false} WalkNear(r: int, s: Iter)
    requires s.d == Decision(r, s.x, s.y) && s.y >= 0
    requires s.x >= s.y ==> Near(r, s.x, s.y)
    ensures forall t :: t in Walk(s) ==> Near(r, t.x, t.y)
    decreases if s.x >= s.y then s.x - s.y + 1 else 0
  {
    if s.x >= s.y {
      NextKeepsDecision(r, s);
      if Next(s).x >= Next(s).y {
        NextNear(r, s);
      }
      WalkNear(r, Next(s));
      assert Walk(s) == [s] + Walk(Next(s));
    }
  }

  /** The loop's start: (radius, 0) with decision `1 - radius`. */
  function Start(r: int): Iter
  {
    Iter(r, 0, 1 - r)
  }

  /** The octant points, one per iteration. */
  function Points(ss: seq<Iter>): (ps: seq<Point>)
    ensures |ps| == |ss|
    ensures forall k :: 0 <= k < |ss| ==> ps[k] == Point(ss[k].x, ss[k].y)
  {
    seq(|ss|, k requires 0 <= k < |ss| => Point(ss[k].x, ss[k].y))
  }

  /** The eight reflections of an octant point about the centre, in the
      order `draw_circle` plots them. */
  function Reflect(c: Point, p: Point): (q: seq<Point>)
    ensures |q| == 8
  {
    var x, y := p.x, p.y;
    [Point(x + c.x, y + c.y), Point(y + c.x, x + c.y), Point(-x + c.x, y + c.y), Point(-y + c.x, x + c.y),
     Point(-x + c.x, -y + c.y), Point(-y + c.x, -x + c.y), Point(x + c.x, -y + c.y), Point(y + c.x, -x + c.y)]
  }

  /** The eight pixels start with the octant point itself, all lie at its
      distance from the centre, and form a figure symmetric about the two
      axes through the centre and about the diagonal. */
  lemma ReflectSymmetric(c: Point, p: Point)
    ensures var q := Reflect(c, p);
            && q[0] == Point(c.x + p.x, c.y + p.y)
            && forall k :: 0 <= k < 8 ==>
                 var dx, dy := q[k].x - c.x, q[k].y - c.y;
                 && dx * dx + dy * dy == p.x * p.x + p.y * p.y
                 && Point(c.x - dx, c.y + dy) in q
                 && Point(c.x + dx, c.y - dy) in q
                 && Point(c.x + dy, c.y + dx) in q
  {
    var q := Reflect(c, p);
    var x, y := p.x, p.y;
    assert (-x) * (-x) == x * x && (-y) * (-y) == y * y;
  }

  /** Each octant point in turn with its eight reflections. */
  function Plot(c: Point, ps: seq<Point>): (q: seq<Point>)
    ensures |q| == 8 * |ps|
    ensures forall k :: 0 <= k < |ps| ==> q[8 * k..8 * k + 8] == Reflect(c, ps[k])
  {
    if |ps| == 0 then []
    else
      var rest := Plot(c, ps[1..]);
      var q := Reflect(c, ps[0]) + rest;
      forall k | 0 <= k < |ps|
        ensures q[8 * k..8 * k + 8] == Reflect(c, ps[k])
      {
        if k > 0 {
          assert q[8 * k..8 * k + 8] == rest[8 * (k - 1)..8 * (k - 1) + 8];
          assert ps[k] == ps[1..][k - 1];
        }
      }
      q
  }

  /** `draw_circle(center_x, center_y, radius)`: every pixel it draws, in
      order. */
  function DrawCircle(c: Point, r: int): seq<Point>
  {
    Plot(c, Points(Walk(Start(r))))
  }

  /** Each iteration from the start raises y by one and lowers x by one
      exactly when the decision is positive, and otherwise keeps x. */
  lemma OctantMoves(r: int)
    ensures var ss := Walk(Start(r));
            forall k :: 0 <= k < |ss| - 1 ==>
              ss[k + 1].y == ss[k].y + 1 && ss[k + 1].x == (if ss[k].d > 0 then ss[k].x - 1 else ss[k].x)
  {
    var ss := Walk(Start(r));
    WalkSteps(Start(r));
    forall k | 0 <= k < |ss| - 1
      ensures ss[k + 1].y == ss[k].y + 1 && ss[k + 1].x == (if ss[k].d > 0 then ss[k].x - 1 else ss[k].x)
    {
      assert ss[k + 1] == Next(ss[(k + 1) - 1]);
    }
  }

  /** The decision at every iteration is `x(x-1) + (y+1)^2 - r^2`: x moves
      inwards exactly when the midpoint test puts the next point outside. */
  lemma OctantDecision(r: int)
    ensures var ss := Walk(Start(r));
            forall k :: 0 <= k < |ss| ==> ss[k].d == Decision(r, ss[k].x, ss[k].y)
  {
    var ss := Walk(Start(r));
    WalkDecision(r, Start(r));
    forall k | 0 <= k < |ss|
      ensures ss[k].d == Decision(r, ss[k].x, ss[k].y)
    {
      assert ss[k] in ss;
    }
  }

  /** For a positive radius every octant point has x >= y >= 0 and lies
      within half a pixel of the circle. */
  lemma OctantNear(r: int)
    requires r > 0
    ensures var ss := Walk(Start(r));
            forall k :: 0 <= k < |ss| ==> ss[k].x >= ss[k].y >= 0 && Near(r, ss[k].x, ss[k].y)
  {
    assert Near(r, r, 0) by {
      assert r * (r - 1) == r * r - r;
      assert r * (r + 1) == r * r + r;
    }
    var ss := Walk(Start(r));
    WalkNear(r, Start(r));
    forall k | 0 <= k < |ss|
      ensures Near(r, ss[k].x, ss[k].y)
    {
      assert ss[k] in ss;
    }
  }

  /** What `draw_circle` plots for a positive radius: the octant walk starts
      at (radius, 0) with decision `1 - radius`; each iteration raises y by
      one and lowers x by one exactly when the decision is positive,
      otherwise keeps x; the decision is always `x(x-1) + (y+1)^2 - r^2`;
      every octant point has x >= y >= 0 and lies within half a pixel of
      the circle; and each one is drawn with all eight reflections about
      the centre. */
  lemma CircleShape(c: Point, r: int)
    requires r > 0
    ensures var ss := Walk(Start(r));
            && |ss| >= 1 && ss[0] == Iter(r, 0, 1 - r)
            && (forall k :: 0 <= k < |ss| - 1 ==>
                  ss[k + 1].y == ss[k].y + 1 && ss[k + 1].x == (if ss[k].d > 0 then ss[k].x - 1 else ss[k].x))
            && (forall k :: 0 <= k < |ss| ==> ss[k].d == Decision(r, ss[k].x, ss[k].y))
            && (forall k :: 0 <= k < |ss| ==> ss[k].x >= ss[k].y >= 0 && Near(r, ss[k].x, ss[k].y))
            && (forall k :: 0 <= k < |ss| ==>
                  DrawCircle(c, r)[8 * k..8 * k + 8] == Reflect(c, Point(ss[k].x, ss[k].y)))
  {
    OctantMoves(r);
    OctantDecision(r);
    OctantNear(r);
  }
}

=== FILE: edge_table.dfy ===
/** Edge construction shared by both scanline fillers of giis/6/main6.py, the
    exact (rational) intersection of an edge with a scanline, Python's `round`,
    and the pixel set a scanline filler is meant to produce. */
module EdgeTable {
  import opened Bresenham
  import opened Outcomes
  import opened Sorting
  import opened Canvas

  /** `slope_inv`: `float('inf')` for a vertical edge, dx/dy otherwise. */
  datatype Slope = Vertical | Inverse(q: real)

  /** A non-horizontal polygon side, oriented so that `yMin < yMax`. */
  datatype Edge = Edge(yMin: int, yMax: int, xAtYMin: int, slope: Slope)

  /** The side from `p1` to `p2`: nothing for a horizontal side, otherwise
      the side with its upper end point (smaller y) first. */
  function EdgeOf(p1: Point, p2: Point): (r: Option<Edge>)
    ensures r.None? <==> p1.y == p2.y
    ensures r.Some? ==> r.value.yMin < r.value.yMax
    ensures r.Some? ==> {r.value.yMin, r.value.yMax} == {p1.y, p2.y}
    ensures r.Some? ==> (r.value.slope.Vertical? <==> p1.x == p2.x)
  {
    if p1.y == p2.y then None
    else
      var (a, b) := if p1.y > p2.y then (p2, p1) else (p1, p2);
      var slope := if a.x == b.x then Vertical else Inverse((b.x - a.x) as real / (b.y - a.y) as real);
      Some(Edge(a.y, b.y, a.x, slope))
  }

  /** The exact x where an edge meets row `y`. */
  function XAt(e: Edge, y: int): real
  {
    match e.slope
    case Vertical => e.xAtYMin as real
    case Inverse(q) => e.xAtYMin as real + (y - e.yMin) as real * q
  }

  /** The edge does not depend on the direction the side was drawn in, and it
      passes through both of its vertices. */
  lemma EdgeOfThroughVertices(p1: Point, p2: Point)
    requires p1.y != p2.y
    ensures EdgeOf(p1, p2) == EdgeOf(p2, p1)
    ensures XAt(EdgeOf(p1, p2).value, p1.y) == p1.x as real
    ensures XAt(EdgeOf(p1, p2).value, p2.y) == p2.x as real
  {
    var e := EdgeOf(p1, p2).value;
    var (a, b) := if p1.y > p2.y then (p2, p1) else (p1, p2);
    if a.x != b.x {
      var q := (b.x - a.x) as real / (b.y - a.y) as real;
      assert (b.y - a.y) as real * q == (b.x - a.x) as real;
    }
  }

  /** Side `i` of the polygon: vertex i to vertex i+1, wrapping at the end. */
  function Side(vs: seq<Point>, i: int): (Point, Point)
    requires 0 <= i < |vs|
  {
    (vs[i], vs[(i + 1) % |vs|])
  }

  /** The edge list both fillers build: one edge per non-horizontal side, in
      side order, from side `i` on. */
  function EdgesFrom(vs: seq<Point>, i: nat): (r: seq<Edge>)
    requires i <= |vs|
    ensures forall k :: 0 <= k < |r| ==> r[k].yMin < r[k].yMax
    ensures forall k :: 0 <= k < |r| ==>
              exists j :: i <= j < |vs| && EdgeOf(Side(vs, j).0, Side(vs, j).1) == Some(r[k])
    ensures forall j :: i <= j < |vs| && Side(vs, j).0.y != Side(vs, j).1.y ==>
              EdgeOf(Side(vs, j).0, Side(vs, j).1).value in r
    decreases |vs| - i
  {
    if i == |vs| then []
    else
      var rest := EdgesFrom(vs, i + 1);
      match EdgeOf(Side(vs, i).0, Side(vs, i).1)
      case None => rest
      case Some(e) => [e] + rest
  }

  function BuildEdges(vs: seq<Point>): seq<Edge>
  {
    EdgesFrom(vs, 0)
  }

  /** Python's `round` on a number: the nearest integer, ties to the even one. */
  function RoundHalfEven(r: real): (n: int)
    ensures -0.5 <= r - n as real <= 0.5
    ensures (r - n as real == 0.5 || r - n as real == -0.5) ==> n % 2 == 0
  {
    var f := r.Floor;
    var d := r - f as real;
    if d < 0.5 then f
    else if d > 0.5 then f + 1
    else if f % 2 == 0 then f
    else f + 1
  }

  /** Rounding is monotone, so sorting before or after rounding agrees. */
  lemma RoundMonotone(r: real, s: real)
    requires r <= s
    ensures RoundHalfEven(r) <= RoundHalfEven(s)
  {
  }

  /** An integer is its own rounding, and any integer strictly closer than
      one half is the rounding. */
  lemma RoundNearest(r: real, m: int)
    requires -0.5 < r - m as real < 0.5
    ensures RoundHalfEven(r) == m
  {
  }

  lemma RoundInteger(m: int)
    ensures RoundHalfEven(m as real) == m
  {
    RoundNearest(m as real, m);
  }

  /** An edge meets row y when `y_min <= y < y_max`. */
  function ActiveAt(y: int): Edge -> bool
  {
    (e: Edge) => e.yMin <= y < e.yMax
  }

  /** The rounded intersection of an edge with row y. */
  function RoundedXAt(y: int): Edge -> int
  {
    (e: Edge) => RoundHalfEven(XAt(e, y))
  }

  /** The rounded intersections of row y, in edge order. */
  function RowXs(edges: seq<Edge>, y: int): seq<int>
  {
    Map(RoundedXAt(y), Filter(ActiveAt(y), edges))
  }

  /** `x` is inside one of the half-open pairs `[xs[j], xs[j+1])`, j even;
      an odd trailing entry pairs with nothing. */
  predicate InSpans(xs: seq<int>, x: int)
  {
    exists j :: 0 <= j < |xs| - 1 && j % 2 == 0 && xs[j] <= x < xs[j + 1]
  }

  /** The pixels a scanline filler should record for these edges: the canvas
      pixels inside the pairs of each row's sorted rounded intersections. */
  ghost function ScanSpec(edges: seq<Edge>): set<Point>
  {
    set p | p in Pixels && InSpans(SortInts(RowXs(edges, p.y)), p.x)
  }

  /** The fill a scanline filler should produce for a vertex list: nothing
      for fewer than three vertices, `ScanSpec` of the edges otherwise. */
  ghost function ScanTarget(vs: seq<Point>): set<Point>
  {
    if |vs| < 3 then {} else ScanSpec(BuildEdges(vs))
  }

  /** Lowest `y_min` and highest `y_max` over a non-empty edge list. */
  function MinYMin(edges: seq<Edge>): (m: int)
    requires |edges| > 0
    ensures forall k :: 0 <= k < |edges| ==> m <= edges[k].yMin
    ensures exists k :: 0 <= k < |edges| && m == edges[k].yMin
  {
    if |edges| == 1 then edges[0].yMin
    else
      var m := MinYMin(edges[1..]);
      assert forall k :: 1 <= k < |edges| ==> edges[k] == edges[1..][k - 1];
      if edges[0].yMin <= m then edges[0].yMin else m
  }

  function MaxYMax(edges: seq<Edge>): (m: int)
    requires |edges| > 0
    ensures forall k :: 0 <= k < |edges| ==> edges[k].yMax <= m
    ensures exists k :: 0 <= k < |edges| && m == edges[k].yMax
  {
    if |edges| == 1 then edges[0].yMax
    else
      var m := MaxYMax(edges[1..]);
      assert forall k :: 1 <= k < |edges| ==> edges[k] == edges[1..][k - 1];
      if edges[0].yMax >= m then edges[0].yMax else m
  }

  /** Rows outside `[min y_min, max y_max)` meet no edge. */
  lemma RowOutsideRange(edges: seq<Edge>, y: int)
    requires |edges| > 0
    requires y < MinYMin(edges) || y >= MaxYMax(edges)
    ensures Filter(ActiveAt(y), edges) == []
    ensures RowXs(edges, y) == []
  {
  }

  /** The pixels of pairs `j, j+2, ...` of row `cy`. */
  ghost function PairsFrom(cy: int, xs: seq<int>, j: nat): set<Point>
  {
    set p | p in Pixels && p.y == cy
            && exists k :: j <= k < |xs| - 1 && k % 2 == 0 && xs[k] <= p.x < xs[k + 1]
  }

  lemma PairsFromFirst(cy: int, xs: seq<int>, p: Point)
    ensures p in PairsFrom(cy, xs, 0) <==> p in Pixels && p.y == cy && InSpans(xs, p.x)
  {
  }

  lemma PairsFromSplit(cy: int, xs: seq<int>, j: nat)
    requires j + 1 < |xs| && j % 2 == 0
    ensures PairsFrom(cy, xs, j) == SpanPixels(cy, xs[j], xs[j + 1]) + PairsFrom(cy, xs, j + 2)
  {
    SpanPixelsOnCanvas(cy, xs[j], xs[j + 1]);
    forall p | p in PairsFrom(cy, xs, j)
      ensures p in SpanPixels(cy, xs[j], xs[j + 1]) + PairsFrom(cy, xs, j + 2)
    {
      var k :| j <= k < |xs| - 1 && k % 2 == 0 && xs[k] <= p.x < xs[k + 1];
      PixelsExactly(p);
    }
    forall p | p in SpanPixels(cy, xs[j], xs[j + 1])
      ensures p in PairsFrom(cy, xs, j)
    {
      assert xs[j] <= p.x < xs[j + 1];
    }
  }

  lemma PairsFromDone(cy: int, xs: seq<int>, j: nat)
    requires j + 1 >= |xs|
    ensures PairsFrom(cy, xs, j) == {}
  {
  }

}

=== FILE: fill_controller.dfy ===
/** The application state of the polygon filler (`PolygonFillerApp` in
    giis/6/main6.py) and its event handlers: clicking vertices and seeds,
    closing the polygon, starting a fill directly or in debug mode, and
    advancing the debug generator one `next()` at a time. */
module FillController {
  import opened Bresenham
  import opened Outcomes
  import opened Canvas
  import opened SeedPixels
  import EdgeTable
  import Oel = ScanlineOel
  import Ael = ScanlineAel
  import Simple = SeedFillSimple
  import Span = SeedFillSpan

  /** `PIXEL_SIZE`: the grid clicks snap to. */
  const PixelSize: int := 1

  /** The four radio buttons of `selected_algorithm`. */
  datatype Algo = OrderedEdgeList | ActiveEdgeList | SeedSimple | SeedSpan

  predicate IsSeedAlgo(a: Algo)
  {
    a.SeedSimple? || a.SeedSpan?
  }

  /** A live `debug_generator`: one of the four fillers at a resume point. */
  datatype Machine =
    | OelGen(o: Oel.Gen)
    | AelGen(a: Ael.Gen)
    | SimpleGen(s: Simple.Gen)
    | SpanGen(p: Span.Gen)

  predicate MValid(m: Machine)
  {
    match m
    case OelGen(g) => Oel.Valid(g)
    case AelGen(g) => Ael.Valid(g)
    case SimpleGen(_) => true
    case SpanGen(g) => Span.Valid(g)
  }

  /** The pixels the generator has drawn so far. */
  function MFilled(m: Machine): set<Point>
  {
    match m
    case OelGen(g) => g.filled
    case AelGen(g) => g.filled
    case SimpleGen(g) => g.filled
    case SpanGen(g) => g.filled
  }

  /** One `next()`; `None` is StopIteration. The generator stays the same
      filler and never erases a pixel. */
  function MStep(m: Machine): (r: Option<Machine>)
    requires MValid(m)
    ensures r.Some? ==> MValid(r.value) && MFilled(m) <= MFilled(r.value)
    ensures r.Some? ==> (m.OelGen? <==> r.value.OelGen?) && (m.AelGen? <==> r.value.AelGen?)
                        && (m.SimpleGen? <==> r.value.SimpleGen?) && (m.SpanGen? <==> r.value.SpanGen?)
  {
    match m
    case OelGen(g) => (match Oel.Step(g) case None => None case Some(g') => Some(OelGen(g')))
    case AelGen(g) => (match Ael.Step(g) case None => None case Some(g') => Some(AelGen(g')))
    case SimpleGen(g) => (match Simple.Step(g) case None => None case Some(g') => Some(SimpleGen(g')))
    case SpanGen(g) => (match Span.Step(g) case None => None case Some(g') => Some(SpanGen(g')))
  }

  /** `for _ in generator: pass`. */
  function MRun(m: Machine): set<Point>
    requires MValid(m)
  {
    match m
    case OelGen(g) => Oel.Run(g)
    case AelGen(g) => Ael.Run(g)
    case SimpleGen(g) => Simple.Run(g)
    case SpanGen(g) => Span.Run(g)
  }

  /** Draining a generator gives what one more step and then draining
      gives, and a stopped generator has drawn everything it will. */
  lemma MRunStep(m: Machine)
    requires MValid(m)
    ensures MStep(m).None? ==> MRun(m) == MFilled(m)
    ensures MStep(m).Some? ==> MRun(m) == MRun(MStep(m).value)
  {
  }

  /** Each filler's own progress order, padded to four components; a
      missing generator ranks below every live one. */
  function M1(gen: Option<Machine>): nat
  {
    match gen
    case None => 0
    case Some(OelGen(g)) => Oel.Stage(g) + 1
    case Some(AelGen(g)) => Ael.Stage(g) + 1
    case Some(SimpleGen(g)) => Simple.Unfilled(g) + 1
    case Some(SpanGen(g)) => Span.Stage(g) + 1
  }

  function M2(gen: Option<Machine>): nat
  {
    match gen
    case None => 0
    case Some(OelGen(g)) => Oel.Remaining(g)
    case Some(AelGen(g)) => Ael.RowsLeft(g)
    case Some(SimpleGen(g)) => Simple.Pending(g)
    case Some(SpanGen(g)) => Span.Unfilled(g)
  }

  function M3(gen: Option<Machine>): nat
  {
    match gen
    case None => 0
    case Some(OelGen(g)) => Oel.PairsLeft(g)
    case Some(AelGen(g)) => Ael.RowRank(g)
    case Some(SimpleGen(g)) => Simple.Rank(g)
    case Some(SpanGen(g)) => Span.DeadEntries(g)
  }

  function M4(gen: Option<Machine>): nat
  {
    match gen
    case Some(SpanGen(g)) => Span.Rank(g)
    case _ => 0
  }

  /** The generator `start_fill` creates for the selected algorithm: the
      scanline fillers read the vertex list, the seed fillers the boundary
      set and the seed. */
  function Create(algo: Algo, vertices: seq<Point>, boundary: set<Point>, seed: Point): (r: Machine)
    ensures MValid(r) && MFilled(r) == {}
    ensures algo.OrderedEdgeList? <==> r.OelGen?
    ensures algo.ActiveEdgeList? <==> r.AelGen?
    ensures algo.SeedSimple? <==> r.SimpleGen?
    ensures algo.SeedSpan? <==> r.SpanGen?
  {
    match algo
    case OrderedEdgeList => OelGen(Oel.Init(vertices))
    case ActiveEdgeList => AelGen(Ael.Init(vertices))
    case SeedSimple => SimpleGen(Simple.Init(boundary, seed))
    case SeedSpan => SpanGen(Span.Init(boundary, seed))
  }

  /** The fields of the application the handlers read and write.
      `filled` is the pixel map `filled_pixels_display`; `steps` is
      `debug_step_count`. */
  datatype App = App(
    vertices: seq<Point>,
    boundary: set<Point>,
    drawing: bool,
    algo: Algo,
    seed: Option<Point>,
    debug: bool,
    filled: set<Point>,
    gen: Option<Machine>,
    steps: nat)

  /** A live generator is a valid resume point and the pixel map holds
      exactly what it has drawn since `start_fill` cleared the map. */
  predicate Inv(app: App)
  {
    app.gen.Some? ==> MValid(app.gen.value) && app.filled == MFilled(app.gen.value)
  }

  /** The application as `__init__` leaves it: in drawing mode, with the
      ordered-edge-list filler selected, debug mode off and nothing drawn. */
  function Initial(): (r: App)
    ensures r.drawing && r.vertices == [] && r.boundary == {} && r.algo.OrderedEdgeList?
    ensures !r.debug && r.seed.None? && r.gen.None? && r.filled == {} && r.steps == 0
    ensures Inv(r) && r.boundary == OpenBoundary(r.vertices)
  {
    App([], {}, true, OrderedEdgeList, None, false, {}, None, 0)
  }

  /** The first click on a fresh application adds the snapped point as the
      first vertex and draws no line yet. */
  lemma InitialClick(x: int, y: int)
    ensures Click(Initial(), x, y).Ok?
    ensures Click(Initial(), x, y).value == Initial().(vertices := [Point(Snap(x), Snap(y))])
  {
  }

  /** "Draw Polygon" on a fresh application leaves it as it was: `__init__`
      starts in the state `clear_all` returns to. */
  lemma InitialIsCleared()
    ensures ClearAll(Initial()) == Initial()
  {
  }

  /** `(v // PIXEL_SIZE) * PIXEL_SIZE` with Python's floor division. */
  function Snap(v: int): (r: int)
    ensures r <= v < r + PixelSize && r % PixelSize == 0
  {
    (v / PixelSize) * PixelSize
  }

  /** `clear_all`, which `start_drawing_polygon` calls: no vertices, no
      boundary, no fill, no seed, no generator, and back to drawing. */
  function ClearAll(app: App): (r: App)
    ensures r.vertices == [] && r.boundary == OpenBoundary(r.vertices)
    ensures r.filled == {} && r.seed.None? && r.gen.None? && r.drawing
    ensures r.algo == app.algo && r.debug == app.debug
    ensures Inv(r)
  {
    app.(vertices := [], boundary := {}, filled := {}, seed := None, drawing := true, gen := None)
  }

  /** `handle_canvas_click`. While drawing, the snapped point becomes the
      next vertex and the line from the previous vertex joins the boundary.
      Otherwise, for a seed algorithm with no live generator, it becomes the
      seed, which needs a polygon first. Any other click changes nothing. */
  function Click(app: App, x: int, y: int): (r: Result<App>)
    ensures r.Err? <==> !app.drawing && IsSeedAlgo(app.algo) && app.gen.None?
                        && (|app.vertices| == 0 || app.boundary == {})
    ensures r.Ok? && app.drawing ==>
              && r.value.vertices == app.vertices + [Point(Snap(x), Snap(y))]
              && (app.boundary == OpenBoundary(app.vertices) ==> r.value.boundary == OpenBoundary(r.value.vertices))
              && r.value == app.(vertices := r.value.vertices, boundary := r.value.boundary)
    ensures r.Ok? && !app.drawing && IsSeedAlgo(app.algo) && app.gen.None? ==>
              r.value == app.(seed := Some(Point(Snap(x), Snap(y))))
    ensures r.Ok? && !app.drawing && (!IsSeedAlgo(app.algo) || app.gen.Some?) ==> r.value == app
    ensures r.Ok? && Inv(app) ==> Inv(r.value)
  {
    var p := Point(Snap(x), Snap(y));
    if app.drawing then
      var vs := app.vertices;
      var b := if |vs| > 0 then AddEdge(app.boundary, vs[|vs| - 1], p) else app.boundary;
      assert app.boundary == OpenBoundary(vs) ==> b == OpenBoundary(vs + [p]) by {
        if app.boundary == OpenBoundary(vs) {
          AppendVertex(vs, app.boundary, p);
        }
      }
      Ok(app.(vertices := vs + [p], boundary := b))
    else if IsSeedAlgo(app.algo) && app.gen.None? then
      if |app.vertices| == 0 || app.boundary == {} then Err("Please draw and finish a polygon first.")
      else Ok(app.(seed := Some(p)))
    else Ok(app)
  }

  /** `finish_polygon`: at least three vertices, then the closing edge from
      the last vertex to the first joins the boundary and drawing ends. */
  function FinishPolygon(app: App): (r: Result<App>)
    ensures r.Err? <==> |app.vertices| < 3
    ensures r.Ok? ==> !r.value.drawing && r.value.vertices == app.vertices
    ensures r.Ok? && app.boundary == OpenBoundary(app.vertices) ==>
              r.value.boundary == ClosedBoundary(app.vertices)
    ensures r.Ok? ==> r.value == app.(boundary := r.value.boundary, drawing := false)
    ensures r.Ok? && Inv(app) ==> Inv(r.value)
  {
    var vs := app.vertices;
    if |vs| < 3 then Err("A polygon needs at least 3 vertices.")
    else Ok(app.(boundary := AddEdge(app.boundary, vs[|vs| - 1], vs[0]), drawing := false))
  }

  /** `execute_next_debug_step`: with a live generator, one `next()`; a
      yield draws the generator's new pixels and counts a step,
      StopIteration drops the generator. Without one, nothing happens. */
  function NextStep(app: App): (r: App)
    requires Inv(app)
    ensures Inv(r)
    ensures app.gen.None? ==> r == app
    ensures app.gen.Some? && MStep(app.gen.value).None? ==> r == app.(gen := None)
    ensures app.gen.Some? && MStep(app.gen.value).Some? ==>
              r == app.(gen := MStep(app.gen.value), filled := MFilled(MStep(app.gen.value).value), steps := app.steps + 1)
  {
    match app.gen
    case None => app
    case Some(m) =>
      match MStep(m)
      case None => app.(gen := None)
      case Some(m') => app.(gen := Some(m'), filled := app.filled + MFilled(m'), steps := app.steps + 1)
  }

  /** Choosing an algorithm with the radio buttons or toggling the Debug
      check box: the new selection is taken and `reset_debug` drops any
      live generator; the polygon, seed, pixel map and step count stay. */
  function SelectMode(app: App, algo: Algo, debug: bool): (r: App)
    ensures r.algo == algo && r.debug == debug && r.gen.None? && Inv(r)
    ensures r.vertices == app.vertices && r.boundary == app.boundary && r.drawing == app.drawing
    ensures r.seed == app.seed && r.filled == app.filled && r.steps == app.steps
  {
    app.(algo := algo, debug := debug, gen := None)
  }

  /** After a change of mode no generator is live, so the fill started
      next keeps the invariant whatever state the application was in. */
  lemma SelectModeThenStart(app: App, algo: Algo, debug: bool)
    ensures var a := SelectMode(app, algo, debug);
            StartFill(a).Ok? ==> Inv(StartFill(a).value)
  {
  }

  /** `start_fill`. It needs a polygon, and a seed for the seed fillers.
      It clears the pixel map and the step count. In debug mode it creates
      the generator and runs its first step; otherwise it runs the filler
      to exhaustion and leaves any generator as it was. */
  function StartFill(app: App): (r: Result<App>)
    ensures r.Err? <==> |app.vertices| == 0 || app.boundary == {} || (IsSeedAlgo(app.algo) && app.seed.None?)
    ensures r.Ok? && Inv(app) && (app.debug || app.gen.None?) ==> Inv(r.value)
    ensures r.Ok? ==> r.value.vertices == app.vertices && r.value.boundary == app.boundary
                      && r.value.seed == app.seed && r.value.algo == app.algo && r.value.debug == app.debug
  {
    if |app.vertices| == 0 || app.boundary == {} then Err("Please draw and finish a polygon first.")
    else if IsSeedAlgo(app.algo) && app.seed.None? then
      Err("Please select a seed point inside the polygon for this algorithm.")
    else
      var seed := if app.seed.Some? then app.seed.value else Point(0, 0);
      var m := Create(app.algo, app.vertices, app.boundary, seed);
      var cleared := app.(filled := {}, steps := 0);
      if app.debug then Ok(NextStep(cleared.(gen := Some(m))))
      else Ok(cleared.(filled := MRun(m)))
  }

  /** Pressing "Next Step" until the generator is gone. */
  function Drain(app: App): (r: App)
    requires Inv(app)
    ensures Inv(r) && r.gen.None?
    decreases M1(app.gen), M2(app.gen), M3(app.gen), M4(app.gen)
  {
    if app.gen.None? then app
    else
      var m := app.gen.value;
      match MStep(m)
      case None => NextStep(app)
      case Some(m') => Drain(NextStep(app))
  }

  /** Stepping a live generator to StopIteration leaves in the pixel map
      exactly what draining it in one go would have drawn. */
  lemma {:induction false} DrainFills(app: App)
    requires Inv(app) && app.gen.Some?
    ensures Drain(app).filled == MRun(app.gen.value)
    decreases M1(app.gen), M2(app.gen), M3(app.gen), M4(app.gen)
  {
    var m := app.gen.value;
    MRunStep(m);
    match MStep(m)
    case None =>
    case Some(m') =>
      DrainFills(NextStep(app));
  }

  /** Debug mode changes only how the fill is shown: starting a debug fill
      and pressing "Next Step" until it completes draws the same pixels as
      starting the same fill without debug mode. */
  lemma DebugAgreesWithDirect(app: App)
    requires Inv(app) && app.debug && StartFill(app).Ok?
    ensures StartFill(app.(debug := false)).Ok?
    ensures Drain(StartFill(app).value).filled == StartFill(app.(debug := false)).value.filled
  {
    var seed := if app.seed.Some? then app.seed.value else Point(0, 0);
    var m := Create(app.algo, app.vertices, app.boundary, seed);
    var started := app.(filled := {}, steps := 0, gen := Some(m));
    DrainFills(started);
    assert MStep(m).Some? ==> Drain(NextStep(started)) == Drain(started);
  }

  /** What a direct fill leaves in the pixel map, per algorithm: the
      scanline fillers draw the pixels inside the pairs of sorted rounded
      intersections of every row; the simple seed fill draws exactly the
      open region 4-connected to the seed; the span seed fill draws only
      open pixels, the seed exactly when it is open, and nothing outside
      any closed region that holds the seed. */
  lemma StartFillResult(app: App)
    requires !app.debug && StartFill(app).Ok?
    ensures var f := StartFill(app).value.filled;
            && (app.algo.OrderedEdgeList? || app.algo.ActiveEdgeList? ==> f == EdgeTable.ScanTarget(app.vertices))
            && (app.algo.SeedSimple? ==> Simple.Final(app.boundary, app.seed.value, f))
            && (app.algo.SeedSpan? ==>
                  && AllOpen(app.boundary, f)
                  && (Open(app.boundary, app.seed.value) <==> app.seed.value in f)
                  && forall s :: app.seed.value in s && Closed(app.boundary, s) ==> f <= s)
  {
    match app.algo
    case OrderedEdgeList => Oel.RunFillsScanTarget(app.vertices);
    case ActiveEdgeList => Ael.RunFillsScanTarget(app.vertices);
    case SeedSimple => Simple.FillIsClosedRegion(app.boundary, app.seed.value);
    case SeedSpan =>
      Span.FillOpenFromSeed(app.boundary, app.seed.value);
      forall s | app.seed.value in s && Closed(app.boundary, s)
        ensures Span.Run(Span.Init(app.boundary, app.seed.value)) <= s
      {
        Span.FillIsContained(app.boundary, app.seed.value, s);
      }
  }
}

=== FILE: geometry.dfy ===
/** The integer geometry helpers of the polygon editor (giis/5/main5.py):
    cross products, convexity classification, the Jarvis march and the
    ray-casting point-in-polygon test. Clicked vertices are integers, so
    the source's `1e-9` tolerances compare against zero exactly. */
module Geometry {

  import opened Bresenham

  function Sub(a: Point, b: Point): Point
  {
    Point(a.x - b.x, a.y - b.y)
  }

  /** `cross_product_2d`: the z-component of the 3D cross product. */
  function Cross(a: Point, b: Point): int
  {
    a.x * b.y - a.y * b.x
  }

  lemma CrossAntisymmetric(a: Point, b: Point)
    ensures Cross(a, b) == -Cross(b, a)
  {
  }

  /** `distance_sq`: never negative, and zero only between equal points. */
  function DistanceSq(a: Point, b: Point): (r: int)
    ensures r >= 0
    ensures r == 0 <==> a == b
  {
    var dx, dy := a.x - b.x, a.y - b.y;
    SquareZero(dx);
    SquareZero(dy);
    dx * dx + dy * dy
  }

  lemma SquareZero(d: int)
    ensures d * d >= 0
    ensures d * d == 0 <==> d == 0
  {
    if d != 0 {
      if d > 0 {
        assert d * d >= d;
      } else {
        assert d * d == (-d) * (-d) >= -d;
      }
    }
  }

  // ---------------------------------------------------------------------
  // Convexity

  datatype Convexity = ConvexCcw | ConvexCw | Concave | Degenerate

  /** The turn at vertex `i + 1`: the cross product of the edge into it and
      the edge out of it, indices taken cyclically. */
  function Turn(vs: seq<Point>, i: int): int
    requires 0 <= i < |vs|
  {
    var n := |vs|;
    Cross(Sub(vs[(i + 1) % n], vs[i]), Sub(vs[(i + 2) % n], vs[(i + 1) % n]))
  }

  ghost predicate SomeLeft(vs: seq<Point>)
  {
    exists i :: 0 <= i < |vs| && Turn(vs, i) > 0
  }

  ghost predicate SomeRight(vs: seq<Point>)
  {
    exists i :: 0 <= i < |vs| && Turn(vs, i) < 0
  }

  /** `check_polygon_convexity`: fewer than three vertices are degenerate;
      otherwise the signs of the turns decide, and the scan stops at the
      first turn that completes a pair of opposite signs. */
  method ClassifyConvexity(vs: seq<Point>) returns (r: Convexity)
    ensures |vs| < 3 ==> r == Degenerate
    ensures |vs| >= 3 ==>
              && (r == Concave <==> SomeLeft(vs) && SomeRight(vs))
              && (r == ConvexCcw <==> SomeLeft(vs) && !SomeRight(vs))
              && (r == ConvexCw <==> !SomeLeft(vs) && SomeRight(vs))
              && (r == Degenerate <==> !SomeLeft(vs) && !SomeRight(vs))
  {
    if |vs| < 3 {
      return Degenerate;
    }
    var pos, neg := false, false;
    var i := 0;
    while i < |vs|
      invariant 0 <= i <= |vs|
      invariant pos <==> exists j :: 0 <= j < i && Turn(vs, j) > 0
      invariant neg <==> exists j :: 0 <= j < i && Turn(vs, j) < 0
      invariant !(pos && neg)
    {
      var cp := Turn(vs, i);
      if cp > 0 {
        pos := true;
      } else if cp < 0 {
        neg := true;
      }
      if pos && neg {
        return Concave;
      }
      i := i + 1;
    }
    if pos {
      return ConvexCcw;
    } else if neg {
      return ConvexCw;
    }
    return Degenerate;
  }

  // ---------------------------------------------------------------------
  // Jarvis march

  /** `(p.y, p.x)` ordering, the key of the start point's `min`. */
  predicate YXBelow(p: Point, q: Point)
  {
    p.y < q.y || (p.y == q.y && p.x <= q.x)
  }

  /** `min(points, key=lambda p: (p[1], p[0]))`: the first point with the
      least key. */
  function LowestPoint(points: seq<Point>): (r: Point)
    requires |points| > 0
    ensures r in points
    ensures forall i :: 0 <= i < |points| ==> YXBelow(r, points[i])
  {
    if |points| == 1 then points[0]
    else
      var m := LowestPoint(points[1..]);
      assert forall i :: 1 <= i < |points| ==> points[i] == points[1..][i - 1];
      if YXBelow(points[0], m) then points[0] else m
  }

  /** One candidate of the inner loop: `c` replaces the current choice when
      it lies clockwise of it as seen from `cur`, or is collinear and
      further away. */
  function Better(cur: Point, best: Point, c: Point): (r: Point)
    ensures r == best || r == c
  {
    if c == cur then best
    else
      var cp := Cross(Sub(best, cur), Sub(c, cur));
      if cp < 0 then c
      else if cp == 0 && DistanceSq(cur, c) > DistanceSq(cur, best) then c
      else best
  }

  /** The inner `for candidate_point in points` loop from `best`: once the
      choice differs from `cur` it keeps differing. */
  function Sweep(cur: Point, best: Point, cs: seq<Point>): (r: Point)
    ensures r == best || r in cs
    ensures best != cur ==> r != cur
    decreases |cs|
  {
    if |cs| == 0 then best
    else Sweep(cur, Better(cur, best, cs[0]), cs[1..])
  }

  /** The point the march moves to from `cur`: the sweep starting from
      `points[0]`, or from `points[1]` when `points[0]` is `cur`. */
  function NextHullPoint(points: seq<Point>, cur: Point): (r: Point)
    requires |points| >= 2
    ensures r in points
  {
    var first := if points[0] == cur then points[1] else points[0];
    Sweep(cur, first, points)
  }

  /** The `while True` loop: append `cur`, move on, stop on returning to
      the start, and give up once the hull has outgrown the input. The hull
      only grows, by `cur` first, and never past one more than the input. */
  function March(points: seq<Point>, start: Point, cur: Point, hull: seq<Point>): (r: seq<Point>)
    requires |points| >= 2 && |hull| <= |points|
    ensures |hull| < |r| <= |points| + 1
    ensures r[..|hull|] == hull && r[|hull|] == cur
    ensures cur in points && (forall x :: x in hull ==> x in points) ==> forall x :: x in r ==> x in points
    decreases |points| - |hull|
  {
    var h := hull + [cur];
    var next := NextHullPoint(points, cur);
    if next == start then h
    else if |h| > |points| then h
    else
      var r := March(points, start, next, h);
      assert r[..|hull|] == r[..|h|][..|hull|];
      r
  }

  /** `jarvis_march`: fewer than three points come back unchanged;
      otherwise the hull starts at the lowest (then leftmost) point, holds
      only input points, and has at most one more entry than the input. */
  function JarvisMarch(points: seq<Point>): (r: seq<Point>)
    ensures |points| < 3 ==> r == points
    ensures |points| >= 3 ==>
              && 0 < |r| <= |points| + 1
              && r[0] == LowestPoint(points)
              && (forall i :: 0 <= i < |points| ==> YXBelow(r[0], points[i]))
              && (forall x :: x in r ==> x in points)
  {
    if |points| < 3 then points
    else March(points, LowestPoint(points), LowestPoint(points), [])
  }

  // ---------------------------------------------------------------------
  // Point in polygon

  function Min(a: int, b: int): int { if a <= b then a else b }
  function Max(a: int, b: int): int { if a <= b then b else a }

  /** The boundary tests of one edge: the point is an end point, or lies on
      the edge when the edge is horizontal or vertical. */
  predicate OnAxisEdge(p: Point, a: Point, b: Point)
  {
    || p == a || p == b
    || (a.y == b.y == p.y && Min(a.x, b.x) <= p.x <= Max(a.x, b.x))
    || (a.x == b.x == p.x && Min(a.y, b.y) <= p.y <= Max(a.y, b.y))
  }

  /** The x where the edge's line meets the horizontal through `p`, in
      exact arithmetic. */
  function XCross(p: Point, a: Point, b: Point): real
    requires a.y != b.y
  {
    (p.y - a.y) as real * (b.x - a.x) as real / (b.y - a.y) as real + a.x as real
  }

  /** The crossing lies strictly right of `p`, decided without dividing:
      multiply through by the edge's y extent, flipping the comparison when
      the edge runs downwards. */
  predicate CrossRight(p: Point, a: Point, b: Point)
  {
    var lhs, rhs := (p.y - a.y) * (b.x - a.x), (p.x - a.x) * (b.y - a.y);
    (b.y > a.y && lhs > rhs) || (b.y < a.y && lhs < rhs)
  }

  /** The integer test agrees with the source's division. */
  lemma CrossRightExact(p: Point, a: Point, b: Point)
    requires a.y != b.y
    ensures CrossRight(p, a, b) <==> XCross(p, a, b) > p.x as real
  {
    var n := ((p.y - a.y) * (b.x - a.x)) as real;
    var d := (b.y - a.y) as real;
    var m := (p.x - a.x) as real;
    assert XCross(p, a, b) == n / d + a.x as real;
    assert ((p.x - a.x) * (b.y - a.y)) as real == m * d;
    DivCompare(n, d, m);
  }

  lemma DivCompare(n: real, d: real, m: real)
    requires d != 0.0
    ensures d > 0.0 ==> (n / d > m <==> n > m * d)
    ensures d < 0.0 ==> (n / d > m <==> n < m * d)
  {
    var q := n / d;
    assert n == q * d;
    if d > 0.0 {
      if q > m { assert q * d > m * d; }
      if n > m * d { assert (q - m) * d > 0.0; }
    } else {
      if q > m { assert (q - m) * d < 0.0; }
      if n < m * d { assert (q - m) * d < 0.0; }
    }
  }

  /** The ray to the right of `p` crosses the edge: `p.y` in the edge's
      half-open y range, and the crossing strictly right of `p`. */
  predicate RayCrosses(p: Point, a: Point, b: Point)
  {
    (a.y <= p.y < b.y || b.y <= p.y < a.y) && CrossRight(p, a, b)
  }

  /** The far end of edge `i`, `(i + 1) % n`: edge `n - 1` closes back to
      the first vertex. */
  function EdgeEnd(vs: seq<Point>, i: int): Point
    requires 0 <= i < |vs|
  {
    if i + 1 < |vs| then vs[i + 1] else vs[0]
  }

  ghost predicate OnBoundary(p: Point, vs: seq<Point>)
  {
    exists i :: 0 <= i < |vs| && OnAxisEdge(p, vs[i], EdgeEnd(vs, i))
  }

  /** The indices of the edges the ray crosses. */
  ghost function Crossings(p: Point, vs: seq<Point>, n: int): set<int>
    requires n <= |vs|
  {
    set i | 0 <= i < n && RayCrosses(p, vs[i], EdgeEnd(vs, i))
  }

  /** The crossings among the first `i + 1` edges are those among the
      first `i`, plus edge `i` when the ray crosses it. */
  lemma CrossingsStep(p: Point, vs: seq<Point>, i: int)
    requires 0 <= i < |vs|
    ensures RayCrosses(p, vs[i], EdgeEnd(vs, i)) ==> |Crossings(p, vs, i + 1)| == |Crossings(p, vs, i)| + 1
    ensures !RayCrosses(p, vs[i], EdgeEnd(vs, i)) ==> |Crossings(p, vs, i + 1)| == |Crossings(p, vs, i)|
  {
    if RayCrosses(p, vs[i], EdgeEnd(vs, i)) {
      CrossingAdded(p, vs, i);
    } else {
      CrossingSkipped(p, vs, i);
    }
  }

  lemma CrossingAdded(p: Point, vs: seq<Point>, i: int)
    requires 0 <= i < |vs| && RayCrosses(p, vs[i], EdgeEnd(vs, i))
    ensures Crossings(p, vs, i + 1) == Crossings(p, vs, i) + {i}
  {
  }

  lemma CrossingSkipped(p: Point, vs: seq<Point>, i: int)
    requires 0 <= i < |vs| && !RayCrosses(p, vs[i], EdgeEnd(vs, i))
    ensures Crossings(p, vs, i + 1) == Crossings(p, vs, i)
  {
  }

  /** `is_point_in_polygon`: false for fewer than three vertices; true as
      soon as an edge shows the point on the boundary; otherwise true when
      the ray to the right crosses an odd number of edges. */
  method InPolygon(p: Point, vs: seq<Point>) returns (r: bool)
    ensures |vs| < 3 ==> !r
    ensures |vs| >= 3 ==> (r <==> OnBoundary(p, vs) || |Crossings(p, vs, |vs|)| % 2 == 1)
  {
    if |vs| < 3 {
      return false;
    }
    var count := 0;
    var i := 0;
    while i < |vs|
      invariant 0 <= i <= |vs|
      invariant count == |Crossings(p, vs, i)|
      invariant forall j :: 0 <= j < i ==> !OnAxisEdge(p, vs[j], EdgeEnd(vs, j))
    {
      var a, b := vs[i], EdgeEnd(vs, i);
      if OnAxisEdge(p, a, b) {
        assert OnBoundary(p, vs);
        return true;
      }
      CrossingsStep(p, vs, i);
      if RayCrosses(p, a, b) {
        count := count + 1;
      }
      i := i + 1;
    }
    assert !OnBoundary(p, vs);
    return count % 2 == 1;
  }
}

=== FILE: gluing.dfy ===
/** Gluing and minimisation of conjunction terms (aois_lab_3/lab3.js, and
    the same `glue` and `min` in aois_lab_4/lab4.js). A term is a string of
    literals: a lower-case letter stands for a variable, its capital for
    the variable negated. */
module Gluing {
  import opened Outcomes
  import opened JsText

  // ---------------------------------------------------------------------
  // Removing duplicates, first occurrence kept

  predicate Distinct<T(==,!new)>(xs: seq<T>)
  {
    forall a, b :: 0 <= a < b < |xs| ==> xs[a] != xs[b]
  }

  /** The index of the first occurrence of x in xs. */
  function First<T(==,!new)>(xs: seq<T>, x: T): (i: nat)
    requires x in xs
    ensures i < |xs| && xs[i] == x && x !in xs[..i]
  {
    if xs[0] == x then 0
    else
      var i := 1 + First(xs[1..], x);
      assert xs[..i] == [xs[0]] + xs[1..][..i - 1];
      i
  }

  /** The `filter` that keeps an element only at the index `findIndex`
      returns for it, that is at its first occurrence. */
  function Dedupe<T(==,!new)>(xs: seq<T>): (r: seq<T>)
    ensures forall x :: x in r <==> x in xs
    ensures Distinct(r)
  {
    if |xs| == 0 then []
    else
      var init, last := xs[..|xs| - 1], xs[|xs| - 1];
      var d := Dedupe(init);
      assert xs == init + [last];
      if last in init then d else d + [last]
  }

  /** The kept elements are in the order of their first occurrences. */
  predicate InFirstOrder<T(==,!new)>(xs: seq<T>, r: seq<T>)
  {
    && (forall k :: 0 <= k < |r| ==> r[k] in xs)
    && (forall a, b :: 0 <= a < b < |r| ==> First(xs, r[a]) < First(xs, r[b]))
  }

  lemma {:induction false} DedupeOrder<T(!new)>(xs: seq<T>)
    ensures InFirstOrder(xs, Dedupe(xs))
  {
    if |xs| > 0 {
      var init, last := xs[..|xs| - 1], xs[|xs| - 1];
      assert xs == init + [last];
      DedupeOrder(init);
      var d := Dedupe(init);
      assert InFirstOrder(init, d);
      forall x | x in init
        ensures First(xs, x) == First(init, x)
      {
        FirstOfPrefix(init, [last], x);
      }
      if last !in init {
        var r := d + [last];
        forall a, b | 0 <= a < b < |r|
          ensures First(xs, r[a]) < First(xs, r[b])
        {
          if b < |d| {
            assert r[a] == d[a] && r[b] == d[b];
          } else {
            assert r[a] == d[a] && r[b] == last;
            assert First(xs, last) == |init| by {
              FirstOfLast(init, last);
            }
          }
        }
      }
    }
  }

  lemma FirstOfPrefix<T(!new)>(xs: seq<T>, ys: seq<T>, x: T)
    requires x in xs
    ensures x in xs + ys && First(xs + ys, x) == First(xs, x)
  {
    var i := First(xs, x);
    assert (xs + ys)[i] == x;
    assert (xs + ys)[..i] == xs[..i];
  }

  lemma FirstOfLast<T(!new)>(xs: seq<T>, x: T)
    requires x !in xs
    ensures x in xs + [x] && First(xs + [x], x) == |xs|
  {
    assert (xs + [x])[..|xs|] == xs;
  }

  // ---------------------------------------------------------------------
  // glue

  /** `arr[i][n]`: a character, or `undefined` past the end. */
  function At(t: string, n: nat): Option<char>
  {
    if n < |t| then Some(t[n]) else None
  }

  /** `r += arr[i][n]`: the character, or the text 'undefined' that
      JavaScript appends for a missing one. */
  function Piece(t: string, n: nat): string
  {
    if n < |t| then [t[n]] else "undefined"
  }

  /** The inner `for n` loop of `glue` over the first w positions: the
      literals of a that agree with b, and how many there are. Terms of
      two literals or fewer never count. */
  function Agree(a: string, b: string, w: nat): (p: (string, nat))
    ensures p.1 <= w
  {
    if w == 0 then ("", 0)
    else
      var (r, c) := Agree(a, b, w - 1);
      if |a| > 2 && At(a, w - 1) == At(b, w - 1) then (r + Piece(a, w - 1), c + 1) else (r, c)
  }

  /** What the body of the inner `for j` loop pushes for the pair (i, j):
      two two-literal terms that share one literal and differ only in the
      case of the other glue to the shared literal; otherwise the literals
      at the agreeing positions, when at most one of the `arr[0].length`
      positions disagrees. */
  function GluePair(arr: seq<string>, i: nat, j: nat): Option<string>
    requires i < j < |arr|
  {
    var a, b := arr[i], arr[j];
    if |a| == 2 && |b| == 2 && a[0] == b[0] && Upper(a[1]) == Upper(b[1]) then Some([a[0]])
    else if |a| == 2 && |b| == 2 && a[1] == b[1] && Upper(a[0]) == Upper(b[0]) then Some([a[1]])
    else
      var (r, c) := Agree(a, b, |arr[0]|);
      if c >= |arr[0]| - 1 then Some(r) else None
  }

  /** The terms pushed for the pairs (i, j), (i, j + 1), ... */
  function RowGlued(arr: seq<string>, i: nat, j: nat): seq<string>
    requires i < j <= |arr|
    decreases |arr| - j
  {
    if j == |arr| then []
    else
      var here := match GluePair(arr, i, j) case Some(r) => [r] case None => [];
      here + RowGlued(arr, i, j + 1)
  }

  /** The terms pushed by the two loops from row i on. */
  function Glued(arr: seq<string>, i: nat): seq<string>
    requires i <= |arr|
    decreases |arr| - i
  {
    if i == |arr| then [] else RowGlued(arr, i, i + 1) + Glued(arr, i + 1)
  }

  /** `usedArr[k]`: term k glued with some other term. */
  predicate Used(arr: seq<string>, k: nat)
    requires k < |arr|
  {
    exists i, j :: 0 <= i < j < |arr| && (i == k || j == k) && GluePair(arr, i, j).Some?
  }

  /** The terms the last loop passes through, from k on. */
  function Unused(arr: seq<string>, k: nat): seq<string>
    requires k <= |arr|
    decreases |arr| - k
  {
    if k == |arr| then [] else (if Used(arr, k) then [] else [arr[k]]) + Unused(arr, k + 1)
  }

  /** `glue(arr)`: the glued terms, then the terms that glued with
      nothing, without repeats. A term is in the result exactly when some
      pair glues to it or it is an input term that glued with nothing. */
  function Glue(arr: seq<string>): (res: seq<string>)
    ensures Distinct(res)
    ensures forall t :: t in res <==> GluedFrom(arr, 0, t) || PassedFrom(arr, 0, t)
  {
    var all := Glued(arr, 0) + Unused(arr, 0);
    forall t
      ensures t in all <==> GluedFrom(arr, 0, t) || PassedFrom(arr, 0, t)
    {
      GluedMembers(arr, 0, t);
      UnusedMembers(arr, 0, t);
    }
    Dedupe(all)
  }

  lemma {:induction false} RowMembers(arr: seq<string>, i: nat, j: nat, t: string)
    requires i < j <= |arr|
    ensures t in RowGlued(arr, i, j) <==> exists j' :: j <= j' < |arr| && GluePair(arr, i, j') == Some(t)
    decreases |arr| - j
  {
    if j < |arr| {
      RowMembers(arr, i, j + 1, t);
      if GluePair(arr, i, j) == Some(t) {
        assert t in RowGlued(arr, i, j);
      }
    }
  }

  /** Some pair (i', j) with i' from `from` on glues to t. */
  predicate GluedFrom(arr: seq<string>, from: nat, t: string)
  {
    exists i, j :: from <= i < j < |arr| && GluePair(arr, i, j) == Some(t)
  }

  /** Some term from index `from` on is t and glued with nothing. */
  predicate PassedFrom(arr: seq<string>, from: nat, t: string)
  {
    exists k :: from <= k < |arr| && arr[k] == t && !Used(arr, k)
  }

  lemma {:induction false} GluedMembers(arr: seq<string>, i: nat, t: string)
    requires i <= |arr|
    ensures t in Glued(arr, i) <==> GluedFrom(arr, i, t)
    decreases |arr| - i
  {
    if i < |arr| {
      GluedMembers(arr, i + 1, t);
      RowMembers(arr, i, i + 1, t);
      assert Glued(arr, i) == RowGlued(arr, i, i + 1) + Glued(arr, i + 1);
      GluedFromSplit(arr, i, t);
    } else {
      assert !GluedFrom(arr, i, t);
    }
  }

  /** The pairs from row i on are row i's and those from row i + 1 on. */
  lemma GluedFromSplit(arr: seq<string>, i: nat, t: string)
    requires i < |arr|
    ensures GluedFrom(arr, i, t) <==>
              (exists j :: i + 1 <= j < |arr| && GluePair(arr, i, j) == Some(t)) || GluedFrom(arr, i + 1, t)
  {
    if GluedFrom(arr, i, t) {
      var i', j :| i <= i' < j < |arr| && GluePair(arr, i', j) == Some(t);
      if i' > i {
        assert GluedFrom(arr, i + 1, t);
      }
    }
    if GluedFrom(arr, i + 1, t) {
      var i', j :| i + 1 <= i' < j < |arr| && GluePair(arr, i', j) == Some(t);
      assert GluedFrom(arr, i, t);
    }
  }

  lemma {:induction false} UnusedMembers(arr: seq<string>, k: nat, t: string)
    requires k <= |arr|
    ensures t in Unused(arr, k) <==> PassedFrom(arr, k, t)
    decreases |arr| - k
  {
    if k < |arr| {
      UnusedMembers(arr, k + 1, t);
      var here := if Used(arr, k) then [] else [arr[k]];
      assert Unused(arr, k) == here + Unused(arr, k + 1);
      if t in here {
        assert PassedFrom(arr, k, t);
      }
      if t in Unused(arr, k + 1) {
        var k' :| k + 1 <= k' < |arr| && arr[k'] == t && !Used(arr, k');
        assert PassedFrom(arr, k, t);
      }
      if PassedFrom(arr, k, t) {
        var k' :| k <= k' < |arr| && arr[k'] == t && !Used(arr, k');
        if k' == k {
          assert t in here;
        } else {
          assert PassedFrom(arr, k + 1, t);
        }
      }
    } else {
      assert !PassedFrom(arr, k, t);
    }
  }

  /** Every term that glued with no other term comes through unchanged. */
  lemma UnusedKept(arr: seq<string>, k: nat)
    requires k < |arr| && !Used(arr, k)
    ensures arr[k] in Glue(arr)
  {
    assert PassedFrom(arr, 0, arr[k]);
  }

  /** Two-literal terms that share the first literal and differ only in
      the case of the second glue to the first: `ab` and `aB` give `a`. */
  lemma GlueTwoFirst(arr: seq<string>, i: nat, j: nat)
    requires i < j < |arr| && |arr[i]| == 2 && |arr[j]| == 2
    requires arr[i][0] == arr[j][0] && Upper(arr[i][1]) == Upper(arr[j][1])
    ensures [arr[i][0]] in Glue(arr)
    ensures Used(arr, i) && Used(arr, j)
  {
    assert GluePair(arr, i, j) == Some([arr[i][0]]);
    assert GluedFrom(arr, 0, [arr[i][0]]);
  }

  /** And the same for a shared second literal: `ab` and `Ab` give `b`. */
  lemma GlueTwoSecond(arr: seq<string>, i: nat, j: nat)
    requires i < j < |arr| && |arr[i]| == 2 && |arr[j]| == 2
    requires !(arr[i][0] == arr[j][0] && Upper(arr[i][1]) == Upper(arr[j][1]))
    requires arr[i][1] == arr[j][1] && Upper(arr[i][0]) == Upper(arr[j][0])
    ensures [arr[i][1]] in Glue(arr)
    ensures Used(arr, i) && Used(arr, j)
  {
    assert GluePair(arr, i, j) == Some([arr[i][1]]);
    assert GluedFrom(arr, 0, [arr[i][1]]);
  }

  // ---------------------------------------------------------------------
  // The gluing law for terms of one length

  /** Over positions where the terms agree the inner loop collects a's
      prefix. */
  lemma {:induction false} AgreeSame(a: string, b: string, w: nat)
    requires |a| > 2 && w <= |a| && w <= |b| && a[..w] == b[..w]
    ensures Agree(a, b, w) == (a[..w], w)
  {
    if w > 0 {
      assert a[..w - 1] == b[..w - 1] && a[w - 1] == b[w - 1];
      AgreeSame(a, b, w - 1);
      assert a[..w] == a[..w - 1] + [a[w - 1]];
    }
  }

  /** With exactly one disagreeing position p below w, the loop collects
      the other literals of a. */
  lemma {:induction false} AgreeOneDiff(a: string, b: string, w: nat, p: nat)
    requires |a| > 2 && p < w <= |a| && w <= |b|
    requires a[p] != b[p] && forall n :: 0 <= n < w && n != p ==> a[n] == b[n]
    ensures Agree(a, b, w) == (a[..p] + a[p + 1..w], w - 1)
  {
    if w == p + 1 {
      assert a[..p] == b[..p];
      assert At(a, p) != At(b, p);
      AgreeSame(a, b, p);
      assert a[..p] + a[p + 1..w] == a[..p];
    } else {
      AgreeOneDiff(a, b, w - 1, p);
      assert At(a, w - 1) == At(b, w - 1) && Piece(a, w - 1) == [a[w - 1]];
      assert a[..p] + a[p + 1..w] == (a[..p] + a[p + 1..w - 1]) + [a[w - 1]];
    }
  }

  /** With two disagreeing positions below w, at most w - 2 agree. */
  lemma {:induction false} AgreeTwoDiffs(a: string, b: string, w: nat, p: nat, q: nat)
    requires p < q < w <= |a| && w <= |b| && a[p] != b[p] && a[q] != b[q]
    ensures Agree(a, b, w).1 <= w - 2
  {
    if w == q + 1 {
      AgreeOneMiss(a, b, q, p);
    } else {
      AgreeTwoDiffs(a, b, w - 1, p, q);
    }
  }

  /** With one disagreeing position below w, at most w - 1 agree. */
  lemma {:induction false} AgreeOneMiss(a: string, b: string, w: nat, p: nat)
    requires p < w <= |a| && w <= |b| && a[p] != b[p]
    ensures Agree(a, b, w).1 <= w - 1
  {
    if w > p + 1 {
      AgreeOneMiss(a, b, w - 1, p);
    }
  }

  /** The gluing law `xy ∨ xY = x` for terms longer than two literals, all
      of the length of the first term: two terms that differ in exactly
      one position glue to their common literals. */
  lemma GlueOneDiff(arr: seq<string>, i: nat, j: nat, p: nat)
    requires i < j < |arr| && |arr[0]| > 2
    requires |arr[i]| == |arr[0]| && |arr[j]| == |arr[0]| && p < |arr[0]|
    requires arr[i][p] != arr[j][p]
    requires forall n :: 0 <= n < |arr[0]| && n != p ==> arr[i][n] == arr[j][n]
    ensures GluePair(arr, i, j) == Some(arr[i][..p] + arr[i][p + 1..])
  {
    var a := arr[i];
    AgreeOneDiff(a, arr[j], |a|, p);
    assert a[p + 1..|a|] == a[p + 1..];
  }

  /** Terms that differ in two positions do not glue. */
  lemma GlueTwoDiffs(arr: seq<string>, i: nat, j: nat, p: nat, q: nat)
    requires i < j < |arr| && |arr[0]| > 2
    requires |arr[i]| == |arr[0]| && |arr[j]| == |arr[0]| && p < q < |arr[0]|
    requires arr[i][p] != arr[j][p] && arr[i][q] != arr[j][q]
    ensures GluePair(arr, i, j) == None
  {
    AgreeTwoDiffs(arr[i], arr[j], |arr[0]|, p, q);
  }

  /** Equal terms glue to themselves. */
  lemma GlueSame(arr: seq<string>, i: nat, j: nat)
    requires i < j < |arr| && |arr[0]| > 2
    requires |arr[i]| == |arr[0]| && arr[j] == arr[i]
    ensures GluePair(arr, i, j) == Some(arr[i])
  {
    var a := arr[i];
    AgreeSame(a, arr[j], |a|);
    assert a[..|a|] == a;
  }

  /** No two terms of the list glue. */
  predicate Irreducible(arr: seq<string>)
  {
    forall i, j :: 0 <= i < j < |arr| ==> GluePair(arr, i, j).None?
  }

  /** `glue` on a list in which no two terms glue pushes nothing, lets
      every term through, and so only drops repeats. */
  lemma GlueIrreducible(arr: seq<string>)
    requires Irreducible(arr)
    ensures Glue(arr) == Dedupe(arr)
  {
    NothingGlued(arr, 0);
    AllPass(arr, 0);
    assert Glued(arr, 0) + Unused(arr, 0) == arr;
  }

  lemma {:induction false} NothingGlued(arr: seq<string>, i: nat)
    requires i <= |arr| && Irreducible(arr)
    ensures Glued(arr, i) == []
    decreases |arr| - i
  {
    if i < |arr| {
      NothingInRow(arr, i, i + 1);
      NothingGlued(arr, i + 1);
    }
  }

  lemma {:induction false} NothingInRow(arr: seq<string>, i: nat, j: nat)
    requires i < j <= |arr| && Irreducible(arr)
    ensures RowGlued(arr, i, j) == []
    decreases |arr| - j
  {
    if j < |arr| {
      NothingInRow(arr, i, j + 1);
    }
  }

  lemma {:induction false} AllPass(arr: seq<string>, k: nat)
    requires k <= |arr| && Irreducible(arr)
    ensures Unused(arr, k) == arr[k..]
    decreases |arr| - k
  {
    if k < |arr| {
      AllPass(arr, k + 1);
      assert !Used(arr, k);
      assert arr[k..] == [arr[k]] + arr[k + 1..];
    }
  }

  // ---------------------------------------------------------------------
  // Reading a term: parentheses off, '!x' to 'X'

  /** `el.pop(); el.shift()`: the first and the last character off. */
  function Strip(s: string): (r: string)
    ensures |s| >= 2 ==> r == s[1..|s| - 1]
  {
    if |s| <= 1 then "" else s[1..|s| - 1]
  }

  /** The `el.map` with `splice` inside, from position i of the array it
      is mutating; `len` is the length `map` read at the start, and a
      position past the current end is skipped. A '!' capitalises the next
      character and is spliced out, so the loop moves on past that
      character; a '!' at the end reads `undefined.toUpperCase()` and
      throws. */
  function Splice(a: string, i: nat, len: nat): Result<string>
    decreases len - i
  {
    if i >= len then Ok(a)
    else if i < |a| && a[i] == '!' then
      if i + 1 < |a| then Splice(a[..i] + [Upper(a[i + 1])] + a[i + 2..], i + 1, len)
      else Err("TypeError: Cannot read properties of undefined (reading 'toUpperCase')")
    else Splice(a, i + 1, len)
  }

  /** One element of `min`'s `arr.map`. */
  function Prepare(el: string): Result<string>
  {
    var s := Strip(el);
    Splice(s, 0, |s|)
  }

  /** The elements in order; the first that throws ends the `map`. */
  function PrepareAll(els: seq<string>): (r: Result<seq<string>>)
    ensures r.Ok? ==> |r.value| == |els|
    ensures r.Ok? ==> forall k :: 0 <= k < |els| ==> Prepare(els[k]) == Ok(r.value[k])
    ensures r.Err? <==> exists k :: 0 <= k < |els| && Prepare(els[k]).Err?
  {
    if |els| == 0 then Ok([])
    else
      match Prepare(els[0])
      case Err(m) => Err(m)
      case Ok(t) =>
        match PrepareAll(els[1..])
        case Err(m) =>
          Err(m)
        case Ok(ts) =>
          assert forall k :: 1 <= k < |els| ==> els[k] == els[1..][k - 1];
          Ok([t] + ts)
  }

  /** A literal as written in a formula: a variable name, or '!' and the
      name. */
  datatype Literal = Literal(name: char, negated: bool)

  /** One literal as written. */
  function LiteralText(l: Literal): string
  {
    if l.negated then ['!', l.name] else [l.name]
  }

  function LiteralsText(ls: seq<Literal>): string
  {
    if |ls| == 0 then "" else LiteralText(ls[0]) + LiteralsText(ls[1..])
  }

  /** One literal as `glue` reads it: a negated variable as its capital. */
  function PlainChar(l: Literal): char
  {
    if l.negated then Upper(l.name) else l.name
  }

  function Plain(ls: seq<Literal>): (t: string)
    ensures |t| == |ls|
    ensures forall k :: 0 <= k < |ls| ==> t[k] == PlainChar(ls[k])
  {
    seq(|ls|, k requires 0 <= k < |ls| => PlainChar(ls[k]))
  }

  predicate Wellformed(ls: seq<Literal>)
  {
    forall k :: 0 <= k < |ls| ==> ls[k].name != '!'
  }

  /** One step of the loop over one literal: a negated one is rewritten
      into its capital, and the loop moves past it. */
  lemma SpliceStep(done: string, l: Literal, after: string, len: nat, a: string, b: string, i: nat)
    requires l.name != '!' && len > i && i == |done|
    requires a == done + LiteralText(l) + after && b == done + [PlainChar(l)] + after
    ensures Splice(a, i, len) == Splice(b, i + 1, len)
  {
    if l.negated {
      assert a[i] == '!' && a[i + 1] == l.name;
      assert a[..i] == done && a[i + 2..] == after;
    } else {
      assert a == b;
      assert a[i] == l.name;
    }
  }

  /** The loop over the text of literals rewrites each negated one into
      its capital and leaves what follows the text alone: from position
      i = |done| it reaches position j = |done| + |ls| with the text
      rewritten. */
  lemma {:induction false} SpliceLiterals(done: string, ls: seq<Literal>, tail: string, len: nat,
                                          a: string, b: string, i: nat, j: nat)
    requires Wellformed(ls) && i == |done| && j == |done| + |ls| && len >= j
    requires a == done + LiteralsText(ls) + tail && b == done + Plain(ls) + tail
    ensures Splice(a, i, len) == Splice(b, j, len)
    decreases |ls|
  {
    if |ls| == 0 {
      assert LiteralsText(ls) == "" && Plain(ls) == "";
    } else {
      var l, rest := ls[0], ls[1..];
      var done' := done + [PlainChar(l)];
      var after := LiteralsText(rest) + tail;
      var a' := done' + after;
      PeelLiteral(done, ls, tail, a, b, done', after, a');
      SpliceStep(done, l, after, len, a, a', i);
      SpliceLiterals(done', rest, tail, len, a', b, i + 1, j);
    }
  }

  /** The text of the first literal and the rest, apart. */
  lemma PeelLiteral(done: string, ls: seq<Literal>, tail: string, a: string, b: string,
                    done': string, after: string, a': string)
    requires Wellformed(ls) && |ls| > 0
    requires a == done + LiteralsText(ls) + tail && b == done + Plain(ls) + tail
    requires done' == done + [PlainChar(ls[0])] && after == LiteralsText(ls[1..]) + tail
    requires a' == done' + after
    ensures Wellformed(ls[1..]) && ls[0].name != '!' && |done'| == |done| + 1
    ensures a == done + LiteralText(ls[0]) + after
    ensures a' == done' + LiteralsText(ls[1..]) + tail && b == done' + Plain(ls[1..]) + tail
  {
    assert Wellformed(ls[1..]);
    PeelText(done, ls, tail, a, after);
    PeelPlain(done, ls, tail, b, done');
    Associative(done', LiteralsText(ls[1..]), tail);
  }

  lemma PeelText(done: string, ls: seq<Literal>, tail: string, a: string, after: string)
    requires |ls| > 0 && a == done + LiteralsText(ls) + tail && after == LiteralsText(ls[1..]) + tail
    ensures a == done + LiteralText(ls[0]) + after
  {
    var x, rt := LiteralText(ls[0]), LiteralsText(ls[1..]);
    assert LiteralsText(ls) == x + rt;
    Regroup(done, x, rt, tail);
  }

  lemma PeelPlain(done: string, ls: seq<Literal>, tail: string, b: string, done': string)
    requires |ls| > 0 && b == done + Plain(ls) + tail && done' == done + [PlainChar(ls[0])]
    ensures b == done' + Plain(ls[1..]) + tail
  {
    var c, pr := [PlainChar(ls[0])], Plain(ls[1..]);
    assert Plain(ls) == c + pr;
    Regroup(done, c, pr, tail);
  }

  lemma Associative(x: string, y: string, z: string)
    ensures x + (y + z) == x + y + z
  {
  }

  lemma Regroup(w: string, x: string, y: string, z: string)
    ensures w + (x + y) + z == w + x + (y + z) == w + x + y + z
  {
  }

  /** Past the end of the array the loop changes nothing. */
  lemma {:induction false} SpliceDone(a: string, i: nat, len: nat)
    requires i >= |a|
    ensures Splice(a, i, len) == Ok(a)
    decreases len - i
  {
    if i < len {
      SpliceDone(a, i + 1, len);
    }
  }

  /** A term written as literals in parentheses reads as its plain form. */
  lemma PrepareLiterals(ls: seq<Literal>)
    requires Wellformed(ls)
    ensures Prepare("(" + LiteralsText(ls) + ")") == Ok(Plain(ls))
  {
    var t := LiteralsText(ls);
    var e := "(" + t + ")";
    LiteralsLength(ls);
    var len := |t|;
    assert Strip(e) == t;
    SpliceLiterals("", ls, "", len, t, Plain(ls), 0, |ls|);
    SpliceDone(Plain(ls), |ls|, len);
  }

  /** A trailing '!' throws. */
  lemma PrepareTrailingBang(ls: seq<Literal>)
    requires Wellformed(ls)
    ensures Prepare("(" + LiteralsText(ls) + "!)").Err?
  {
    var t := LiteralsText(ls);
    var e := "(" + t + "!)";
    LiteralsLength(ls);
    var len := |t| + 1;
    assert Strip(e) == t + "!";
    var a := Plain(ls) + "!";
    SpliceLiterals("", ls, "!", len, t + "!", a, 0, |ls|);
    SpliceBangAtEnd(a, |ls|, len);
  }

  /** A '!' in the last position throws. */
  lemma SpliceBangAtEnd(a: string, i: nat, len: nat)
    requires i < len && i + 1 == |a| && a[i] == '!'
    ensures Splice(a, i, len).Err?
  {
  }

  lemma {:induction false} LiteralsLength(ls: seq<Literal>)
    ensures |LiteralsText(ls)| >= |ls|
  {
    if |ls| > 0 {
      LiteralsLength(ls[1..]);
    }
  }

  /** The regular expression `/!([a-zA-Z])/g` with the letter capitalised,
      as `minTable` rewrites its implicants. */
  function ReplaceNegations(s: string): string
  {
    if |s| >= 2 && s[0] == '!' && IsAsciiLetter(s[1]) then [Upper(s[1])] + ReplaceNegations(s[2..])
    else if |s| == 0 then ""
    else [s[0]] + ReplaceNegations(s[1..])
  }

  /** On a text of literals over Latin letters the regular expression and
      the splicing loop agree. */
  lemma {:induction false} ReplaceNegationsLiterals(ls: seq<Literal>)
    requires forall k :: 0 <= k < |ls| ==> IsAsciiLetter(ls[k].name)
    ensures ReplaceNegations(LiteralsText(ls)) == Plain(ls)
  {
    if |ls| > 0 {
      var rest := ls[1..];
      ReplaceNegationsLiterals(rest);
      var t := LiteralsText(ls);
      if ls[0].negated {
        assert t == ['!', ls[0].name] + LiteralsText(rest);
        assert t[2..] == LiteralsText(rest);
      } else {
        assert t == [ls[0].name] + LiteralsText(rest);
        assert t[1..] == LiteralsText(rest);
      }
      assert Plain(ls) == [Plain(ls)[0]] + Plain(rest);
    }
  }

  lemma SpliceAgreesWithRegex(ls: seq<Literal>)
    requires forall k :: 0 <= k < |ls| ==> IsAsciiLetter(ls[k].name)
    ensures Prepare("(" + LiteralsText(ls) + ")") == Ok(ReplaceNegations(LiteralsText(ls)))
  {
    assert Wellformed(ls);
    PrepareLiterals(ls);
    ReplaceNegationsLiterals(ls);
  }

  // ---------------------------------------------------------------------
  // min

  /** `min(f)`: the terms between `sep` characters read, glued twice, and
      each written followed by `joiner`, with the last two characters cut.
      lab3.js splits on '&' and joins with ' & '; lab4.js splits on '|' and
      joins with ' | '. */
  function Min(f: string, sep: char, joiner: string): (r: Result<string>)
    ensures r.Err? <==> PrepareAll(SplitOn(f, sep)).Err?
  {
    match PrepareAll(SplitOn(f, sep))
    case Err(m) => Err(m)
    case Ok(arr) => Ok(DropLast(Suffixed(Glue(Glue(arr)), joiner), 2))
  }

  /** The text `min` returns: the twice-glued terms joined with the
      joiner, then the joiner's first character (for ' & ', a trailing
      space). */
  lemma MinText(f: string, sep: char, joiner: string, arr: seq<string>)
    requires |joiner| == 3 && PrepareAll(SplitOn(f, sep)) == Ok(arr)
    ensures var terms := Glue(Glue(arr));
            Min(f, sep, joiner) == Ok(if |terms| == 0 then "" else Join(terms, joiner) + joiner[..1])
  {
    var terms := Glue(Glue(arr));
    CutJoiner(terms, joiner, Suffixed(terms, joiner));
  }

  /** Cutting two characters off the `reduce` leaves the join and the
      first character of the joiner. */
  lemma CutJoiner(terms: seq<string>, joiner: string, s: string)
    requires |joiner| == 3 && s == Suffixed(terms, joiner)
    ensures DropLast(s, 2) == if |terms| == 0 then "" else Join(terms, joiner) + joiner[..1]
  {
    SuffixedJoin(terms, joiner);
    if |terms| > 0 {
      assert s[..|s| - 2] == Join(terms, joiner) + joiner[..1];
    }
  }

  // ---------------------------------------------------------------------
  // minTable

  /** The inner `for k` loop with its `break`: every character of the
      implicant occurs in the constituent. */
  function Covers(constituent: string, implicant: string, k: nat): (b: bool)
    requires k <= |implicant|
    ensures b <==> forall n :: k <= n < |implicant| ==> implicant[n] in constituent
    decreases |implicant| - k
  {
    k == |implicant| || (implicant[k] in constituent && Covers(constituent, implicant, k + 1))
  }

  /** The table `minTable` prints: a header row with the constituents,
      then one row per implicant with a 1 under each constituent it
      covers. */
  datatype CoverTable = CoverTable(header: seq<string>, rows: seq<(string, seq<int>)>)

  function CoverRow(fs: seq<string>, r: string): (cells: seq<int>)
    ensures |cells| == |fs|
    ensures forall j :: 0 <= j < |fs| ==>
              cells[j] == if forall n :: 0 <= n < |r| ==> r[n] in fs[j] then 1 else 0
  {
    seq(|fs|, j requires 0 <= j < |fs| => if Covers(fs[j], r, 0) then 1 else 0)
  }

  /** `minTable(f, r)`: the constituents of `f` (split on '|', negations
      capitalised) against the implicants of `r` (split on '&', trimmed).
      It returns true. */
  function MinTable(f: string, r: string): (res: (CoverTable, bool))
    ensures res.1
    ensures var fs := SplitOn(f, '|');
            |res.0.header| == |fs| + 1 && res.0.header[0] == ""
            && forall j :: 0 <= j < |fs| ==> res.0.header[j + 1] == ReplaceNegations(fs[j])
    ensures var rs := SplitOn(r, '&');
            |res.0.rows| == |rs|
            && forall i :: 0 <= i < |rs| ==> res.0.rows[i].0 == Trim(rs[i])
  {
    var fs := SplitOn(f, '|');
    var constituents := seq(|fs|, j requires 0 <= j < |fs| => ReplaceNegations(fs[j]));
    var rs := SplitOn(r, '&');
    var implicants := seq(|rs|, i requires 0 <= i < |rs| => Trim(rs[i]));
    var rows := seq(|rs|, i requires 0 <= i < |rs| => (implicants[i], CoverRow(constituents, implicants[i])));
    (CoverTable([""] + constituents, rows), true)
  }

  /** A cell of the table is 1 exactly when every character of the
      implicant occurs in the constituent. */
  lemma MinTableCell(f: string, r: string, i: nat, j: nat)
    requires i < |SplitOn(r, '&')| && j < |SplitOn(f, '|')|
    ensures var t := MinTable(f, r).0;
            var con := ReplaceNegations(SplitOn(f, '|')[j]);
            var imp := Trim(SplitOn(r, '&')[i]);
            |t.rows[i].1| == |SplitOn(f, '|')|
            && (t.rows[i].1[j] == 1 <==> forall n :: 0 <= n < |imp| ==> imp[n] in con)
            && (t.rows[i].1[j] == 0 <==> !(forall n :: 0 <= n < |imp| ==> imp[n] in con))
  {
  }

  // ---------------------------------------------------------------------
  // carno

  /** `convertElement`: 0 for a character that is its own capital, 1
      otherwise (a lower-case, non-negated variable). */
  function Bits(t: string): (b: seq<int>)
    ensures |b| == |t|
    ensures forall k :: 0 <= k < |t| ==> b[k] == if t[k] == Upper(t[k]) then 0 else 1
  {
    seq(|t|, k requires 0 <= k < |t| => if t[k] == Upper(t[k]) then 0 else 1)
  }

  /** The column of bits (b, c) in Gray order 00, 01, 11, 10. */
  function GrayColumn(b: int, c: int): (col: nat)
    ensures col < 4
  {
    if b == 0 && c == 0 then 0
    else if b == 0 then 1
    else if c == 1 then 2
    else 3
  }

  /** Neighbouring columns, the last and the first included, differ in
      exactly one of the two bits. */
  lemma GrayNeighbours(b1: int, c1: int, b2: int, c2: int)
    requires b1 in {0, 1} && c1 in {0, 1} && b2 in {0, 1} && c2 in {0, 1}
    requires GrayColumn(b2, c2) == (GrayColumn(b1, c1) + 1) % 4
    ensures (b1 == b2) != (c1 == c2)
  {
  }

  /** Different bit pairs take different columns. */
  lemma GrayDistinct(b1: int, c1: int, b2: int, c2: int)
    requires b1 in {0, 1} && c1 in {0, 1} && b2 in {0, 1} && c2 in {0, 1}
    requires GrayColumn(b1, c1) == GrayColumn(b2, c2)
    ensures b1 == b2 && c1 == c2
  {
  }

  predicate IsGrid(g: seq<seq<int>>)
  {
    |g| == 2 && |g[0]| == 4 && |g[1]| == 4
  }

  /** One term of the `for i` loop: a term of three bits (with the first
      a 0 or a 1) sets its cell; the inner `for j` loop only repeats the
      same assignment. */
  function Place(g: seq<seq<int>>, b: seq<int>): (g': seq<seq<int>>)
    requires IsGrid(g)
    ensures IsGrid(g')
  {
    if |b| == 3 && b[0] in {0, 1} then
      var row, col := b[0], GrayColumn(b[1], b[2]);
      g[row := g[row][col := 1]]
    else g
  }

  /** The grid after the first n terms. */
  function Grid(ts: seq<string>, n: nat): (g: seq<seq<int>>)
    requires n <= |ts|
    ensures IsGrid(g)
  {
    if n == 0 then [[0, 0, 0, 0], [0, 0, 0, 0]] else Place(Grid(ts, n - 1), Bits(ts[n - 1]))
  }

  /** A term of three literals marks cell (row, col). */
  predicate Marks(t: string, row: nat, col: nat)
  {
    |t| == 3 && Bits(t)[0] == row && GrayColumn(Bits(t)[1], Bits(t)[2]) == col
  }

  /** A cell is 1 exactly when some term of three literals falls in it. */
  lemma {:induction false} GridCells(ts: seq<string>, n: nat, row: nat, col: nat)
    requires n <= |ts| && row < 2 && col < 4
    ensures Grid(ts, n)[row][col] == 1 <==> exists k :: 0 <= k < n && Marks(ts[k], row, col)
    ensures Grid(ts, n)[row][col] in {0, 1}
  {
    if n > 0 {
      GridCells(ts, n - 1, row, col);
      var b := Bits(ts[n - 1]);
      if Marks(ts[n - 1], row, col) {
        assert Grid(ts, n)[row][col] == 1;
      } else if |b| == 3 && b[0] in {0, 1} {
        assert (b[0], GrayColumn(b[1], b[2])) != (row, col);
      }
    }
  }

  /** `carno(f)`: the terms between '&' read as in `min` and placed on the
      2 x 4 map; it returns true, or throws where `min` throws. */
  function Carno(f: string): (r: Result<(seq<seq<int>>, bool)>)
    ensures r.Err? <==> PrepareAll(SplitOn(f, '&')).Err?
    ensures r.Ok? ==> IsGrid(r.value.0) && r.value.1
  {
    match PrepareAll(SplitOn(f, '&'))
    case Err(m) => Err(m)
    case Ok(ts) => Ok((Grid(ts, |ts|), true))
  }

  // ---------------------------------------------------------------------
  // The worked example of lab3.js

  /** Terms that all read without error read into the list of them. */
  lemma {:induction false} PrepareAllOk(els: seq<string>, ts: seq<string>)
    requires |ts| == |els| && forall k :: 0 <= k < |els| ==> Prepare(els[k]) == Ok(ts[k])
    ensures PrepareAll(els) == Ok(ts)
  {
    if |els| > 0 {
      PrepareAllOk(els[1..], ts[1..]);
      assert ts == [ts[0]] + ts[1..];
    }
  }

  /** `glue` on distinct terms keeps the order of the list it filters:
      a list without repeats is its own deduplication. */
  lemma {:induction false} DedupeDistinct<T(!new)>(xs: seq<T>)
    requires Distinct(xs)
    ensures Dedupe(xs) == xs
  {
    if |xs| > 0 {
      var init := xs[..|xs| - 1];
      assert Distinct(init);
      DedupeDistinct(init);
      assert xs[|xs| - 1] !in init;
      assert xs == init + [xs[|xs| - 1]];
    }
  }

  lemma ExampleSplit(f: string, parts: seq<string>)
    requires f == "(abc)&(a!bc)&(!abc)&(!a!b!c)"
    requires parts == ["(abc)", "(a!bc)", "(!abc)", "(!a!b!c)"]
    ensures SplitOn(f, '&') == parts
  {
    ExampleFormula(f);
    ExampleJoin(parts, f);
    SplitUnique(f, '&', parts);
  }

  /** The formula, term by term. */
  lemma ExampleFormula(f: string)
    requires f == "(abc)&(a!bc)&(!abc)&(!a!b!c)"
    ensures f == "(abc)" + "&" + "(a!bc)" + "&" + "(!abc)" + "&" + "(!a!b!c)"
  {
  }

  lemma ExampleJoin(parts: seq<string>, f: string)
    requires parts == ["(abc)", "(a!bc)", "(!abc)", "(!a!b!c)"]
    requires f == parts[0] + "&" + parts[1] + "&" + parts[2] + "&" + parts[3]
    ensures Join(parts, "&") == f
  {
    var p0, p1, p2, p3 := parts[0], parts[1], parts[2], parts[3];
    assert parts[1..] == [p1, p2, p3] && parts[1..][1..] == [p2, p3] && parts[1..][1..][1..] == [p3];
    var j2 := p2 + "&" + p3;
    assert Join([p2, p3], "&") == j2;
    var j1 := p1 + "&" + j2;
    assert Join([p1, p2, p3], "&") == j1;
    assert Join(parts, "&") == p0 + "&" + j1;
    Associative(p0 + "&", p1 + "&", j2);
    Associative(p0 + "&" + p1 + "&", p2 + "&", p3);
  }

  /** The four terms of '(abc)&(a!bc)&(!abc)&(!a!b!c)' as `glue` reads them. */
  lemma ExamplePrepared(f: string, arr: seq<string>)
    requires f == "(abc)&(a!bc)&(!abc)&(!a!b!c)" && arr == ["abc", "aBc", "Abc", "ABC"]
    ensures PrepareAll(SplitOn(f, '&')) == Ok(arr)
  {
    var parts := ["(abc)", "(a!bc)", "(!abc)", "(!a!b!c)"];
    ExampleSplit(f, parts);
    ExampleTerms();
    PrepareAllOk(parts, arr);
  }

  lemma ExampleTerms()
    ensures Prepare("(abc)") == Ok("abc") && Prepare("(a!bc)") == Ok("aBc")
    ensures Prepare("(!abc)") == Ok("Abc") && Prepare("(!a!b!c)") == Ok("ABC")
  {
    ExampleTerm(false, false, false, "(abc)", "abc");
    ExampleTerm(false, true, false, "(a!bc)", "aBc");
    ExampleTerm(true, false, false, "(!abc)", "Abc");
    ExampleTerm(true, true, true, "(!a!b!c)", "ABC");
  }

  /** One term over a, b and c, with the given literals negated. */
  lemma ExampleTerm(na: bool, nb: bool, nc: bool, el: string, t: string)
    requires el == "(" + (if na then "!a" else "a") + (if nb then "!b" else "b") + (if nc then "!c" else "c") + ")"
    requires t == [if na then 'A' else 'a', if nb then 'B' else 'b', if nc then 'C' else 'c']
    ensures Prepare(el) == Ok(t)
  {
    var x, y, z := Literal('a', na), Literal('b', nb), Literal('c', nc);
    assert LiteralText(x) == (if na then "!a" else "a");
    assert LiteralText(y) == (if nb then "!b" else "b");
    assert LiteralText(z) == (if nc then "!c" else "c");
    assert Upper('a') == 'A' && Upper('b') == 'B' && Upper('c') == 'C';
    PrepareThree(x, y, z, el, t);
  }

  /** A term of three literals in parentheses reads as its plain form. */
  lemma PrepareThree(x: Literal, y: Literal, z: Literal, el: string, t: string)
    requires x.name != '!' && y.name != '!' && z.name != '!'
    requires el == "(" + LiteralText(x) + LiteralText(y) + LiteralText(z) + ")"
    requires t == [PlainChar(x), PlainChar(y), PlainChar(z)]
    ensures Prepare(el) == Ok(t)
  {
    var ls := [x, y, z];
    assert ls[1..] == [y, z] && [y, z][1..] == [z] && [z][1..] == [];
    assert LiteralsText([z]) == LiteralText(z);
    assert LiteralsText([y, z]) == LiteralText(y) + LiteralText(z);
    assert LiteralsText(ls) == LiteralText(x) + (LiteralText(y) + LiteralText(z));
    assert el == "(" + LiteralsText(ls) + ")";
    assert Plain(ls) == t;
    PrepareLiterals(ls);
  }

  /** Terms of two literals or fewer agree nowhere. */
  lemma {:induction false} AgreeShort(a: string, b: string, w: nat)
    requires |a| <= 2
    ensures Agree(a, b, w) == ("", 0)
  {
    if w > 0 {
      AgreeShort(a, b, w - 1);
    }
  }

  /** The pairs of the first gluing: `abc` with `aBc` gives `ac`, `abc`
      with `Abc` gives `bc`, and no other pair glues. */
  lemma ExampleFirstPairs(arr: seq<string>)
    requires arr == ["abc", "aBc", "Abc", "ABC"]
    ensures GluePair(arr, 0, 1) == Some("ac") && GluePair(arr, 0, 2) == Some("bc")
    ensures GluePair(arr, 0, 3) == None && GluePair(arr, 1, 2) == None
    ensures GluePair(arr, 1, 3) == None && GluePair(arr, 2, 3) == None
  {
    GlueOneDiff(arr, 0, 1, 1);
    assert arr[0][..1] + arr[0][2..] == "ac";
    GlueOneDiff(arr, 0, 2, 0);
    assert arr[0][..0] + arr[0][1..] == "bc";
    GlueTwoDiffs(arr, 0, 3, 0, 1);
    GlueTwoDiffs(arr, 1, 2, 0, 1);
    GlueTwoDiffs(arr, 1, 3, 0, 2);
    GlueTwoDiffs(arr, 2, 3, 1, 2);
  }

  /** The first gluing: `ABC` glues with nothing and comes through. */
  lemma ExampleFirstGlue(arr: seq<string>, res: seq<string>)
    requires arr == ["abc", "aBc", "Abc", "ABC"] && res == ["ac", "bc", "ABC"]
    ensures Glue(arr) == res
  {
    ExampleFirstGlued(arr);
    ExampleFirstUnused(arr);
    assert Glued(arr, 0) + Unused(arr, 0) == res;
    assert Distinct(res);
    DedupeDistinct(res);
  }

  lemma ExampleFirstGlued(arr: seq<string>)
    requires arr == ["abc", "aBc", "Abc", "ABC"]
    ensures Glued(arr, 0) == ["ac", "bc"]
  {
    ExampleFirstPairs(arr);
    assert RowGlued(arr, 0, 3) == [];
    assert RowGlued(arr, 0, 2) == ["bc"];
    assert RowGlued(arr, 0, 1) == ["ac", "bc"];
    assert RowGlued(arr, 1, 3) == [];
    assert RowGlued(arr, 1, 2) == [];
    assert RowGlued(arr, 2, 3) == [];
    assert RowGlued(arr, 3, 4) == [];
    assert Glued(arr, 3) == [];
    assert Glued(arr, 2) == [];
    assert Glued(arr, 1) == [];
  }

  lemma ExampleFirstUnused(arr: seq<string>)
    requires arr == ["abc", "aBc", "Abc", "ABC"]
    ensures Unused(arr, 0) == ["ABC"]
  {
    ExampleFirstPairs(arr);
    assert Used(arr, 0) && Used(arr, 1) && Used(arr, 2);
    forall i, j | 0 <= i < j < |arr| && (i == 3 || j == 3)
      ensures GluePair(arr, i, j) == None
    {
      assert i == 0 || i == 1 || i == 2;
    }
    assert !Used(arr, 3);
    assert Unused(arr, 3) == ["ABC"];
    assert Unused(arr, 2) == ["ABC"];
    assert Unused(arr, 1) == ["ABC"];
  }

  /** The second gluing changes nothing: two-literal terms with different
      letters do not glue, and a two-literal term never agrees with a
      longer one. */
  lemma ExampleSecondGlue(arr: seq<string>)
    requires arr == ["ac", "bc", "ABC"]
    ensures Glue(arr) == arr
  {
    ExampleSecondPairs(arr);
    assert RowGlued(arr, 0, 3) == [] && RowGlued(arr, 1, 3) == [] && RowGlued(arr, 2, 3) == [];
    assert RowGlued(arr, 0, 2) == [] && RowGlued(arr, 1, 2) == [];
    assert RowGlued(arr, 0, 1) == [];
    assert Glued(arr, 3) == [] && Glued(arr, 2) == [] && Glued(arr, 1) == [];
    assert Glued(arr, 0) == [];
    ExampleSecondUnused(arr);
    assert Glued(arr, 0) + Unused(arr, 0) == arr;
    assert Distinct(arr);
    DedupeDistinct(arr);
  }

  lemma ExampleSecondPairs(arr: seq<string>)
    requires arr == ["ac", "bc", "ABC"]
    ensures forall i, j :: 0 <= i < j < |arr| ==> GluePair(arr, i, j) == None
  {
    AgreeShort(arr[0], arr[1], 2);
    AgreeShort(arr[0], arr[2], 2);
    AgreeShort(arr[1], arr[2], 2);
    assert Upper('a') == 'A' && Upper('b') == 'B';
    assert GluePair(arr, 0, 1) == None;
    assert GluePair(arr, 0, 2) == None;
    assert GluePair(arr, 1, 2) == None;
    forall i, j | 0 <= i < j < |arr|
      ensures GluePair(arr, i, j) == None
    {
      assert (i == 0 && j == 1) || (i == 0 && j == 2) || (i == 1 && j == 2);
    }
  }

  lemma ExampleSecondUnused(arr: seq<string>)
    requires arr == ["ac", "bc", "ABC"]
    requires forall i, j :: 0 <= i < j < |arr| ==> GluePair(arr, i, j) == None
    ensures Unused(arr, 0) == arr
  {
    assert !Used(arr, 0) && !Used(arr, 1) && !Used(arr, 2);
    assert Unused(arr, 2) == ["ABC"];
    assert Unused(arr, 1) == ["bc", "ABC"];
  }

  /** `min('(abc)&(a!bc)&(!abc)&(!a!b!c)')` is 'ac & bc & ABC '. */
  lemma ExampleMin(f: string)
    requires f == "(abc)&(a!bc)&(!abc)&(!a!b!c)"
    ensures Min(f, '&', " & ") == Ok("ac & bc & ABC ")
  {
    var arr := ["abc", "aBc", "Abc", "ABC"];
    var terms := ["ac", "bc", "ABC"];
    ExamplePrepared(f, arr);
    ExampleFirstGlue(arr, terms);
    ExampleSecondGlue(terms);
    MinText(f, '&', " & ", arr);
    ExampleText(terms, " & ");
  }

  lemma ExampleText(terms: seq<string>, joiner: string)
    requires terms == ["ac", "bc", "ABC"] && joiner == " & "
    ensures Join(terms, joiner) + joiner[..1] == "ac & bc & ABC "
  {
    assert terms[1..] == ["bc", "ABC"] && terms[1..][1..] == ["ABC"];
    assert Join(["ABC"], joiner) == "ABC";
    assert Join(["bc", "ABC"], joiner) == "bc & ABC";
    assert Join(terms, joiner) == "ac & bc & ABC";
  }
}

=== FILE: hash_table.dfy ===
/** The hash table of the sixth lab: surnames hashed on their first two
    letters into a JavaScript array of `[key, value]` pairs, collisions
    resolved by linear probing.  The array is a map from index to slot: an
    index missing from the map reads as `undefined`, and the negative
    indices a JavaScript remainder can produce are property keys like any
    other. */
module HashTable {
  import opened Outcomes
  import opened JsText
  import opened Arithmetic

  // ---------------------------------------------------------------------
  // Data

  /** A stored pair `[key, value]`. */
  datatype Entry = Entry(key: string, value: string)

  /** What a slot holds.  The lab's own operations only ever store `Live`
      entries; `Tomb` is written by the corrected `DeleteFixed` alone. */
  datatype Slot = Live(entry: Entry) | Tomb

  /** `this.size` and `this.table`. */
  datatype Table = Table(size: int, slots: map<int, Slot>)

  /** How a call ends: it returns a value, throws, or never returns. */
  datatype Run<T> = Returns(value: T) | Throws(message: string) | Hangs

  /** How the probing loop ends: at the slot with the given index, because
      the index came back to where it started, or not at all. */
  datatype Probe = StopsAt(index: int) | Wrapped | Cycles

  const FullMessage: string := "Hash table is full"
  const NotFound: string := "Элемент не найден!"

  /** What `get` reports for a stored pair. */
  function Found(key: string, value: string): string
  {
    "Искомый элемент: " + key + " " + value
  }

  /** `new HashTable(size)`: an array of `size` holes. */
  function New(size: int): Table
    requires size > 0
  {
    Table(size, map[])
  }

  // ---------------------------------------------------------------------
  // The hash

  /** `Math.trunc(a / b)` for b > 0: the quotient rounded toward zero. */
  function JsQuot(a: int, b: int): int
    requires b > 0
  {
    if a >= 0 then a / b else -((-a) / b)
  }

  /** JavaScript's `a % b` for b > 0: it goes with the quotient rounded
      toward zero, so the remainder has the sign of `a`, where Dafny's `%`
      is never negative. */
  function JsRem(a: int, b: int): (r: int)
    requires b > 0
    ensures a >= 0 ==> 0 <= r < b
    ensures a < 0 ==> -b < r <= 0
  {
    if a >= 0 then a % b else -((-a) % b)
  }

  /** The remainder goes with the quotient rounded toward zero. */
  lemma JsDivision(a: int, b: int)
    requires b > 0
    ensures a == JsQuot(a, b) * b + JsRem(a, b)
  {
  }

  /** The capital letters of the Russian alphabet, 'Ё' after 'Е'. */
  const Alphabet: string := "АБВГДЕЁЖЗИЙКЛМНОПРСТУФХЦЧШЩЪЫЬЭЮЯ"

  /** `arr.indexOf(c)`: the first position of `c`, or -1. */
  function IndexOf(s: string, c: char): (i: int)
    ensures -1 <= i < |s|
    ensures i == -1 <==> c !in s
    ensures 0 <= i ==> s[i] == c && c !in s[..i]
  {
    if |s| == 0 then -1
    else if s[0] == c then 0
    else
      var j := IndexOf(s[1..], c);
      assert s == [s[0]] + s[1..];
      if j == -1 then -1
      else
        assert s[..j + 1] == [s[0]] + s[1..][..j];
        j + 1
  }

  /** Where a capital sits in the alphabet, from its code point: 'А'..'Е'
      are U+0410..U+0415, 'Ё' is U+0401, 'Ж'..'Я' are U+0416..U+042F. */
  function Position(c: char): int
  {
    var n := c as int;
    if 0x410 <= n <= 0x415 then n - 0x410
    else if n == 0x401 then 6
    else if 0x416 <= n <= 0x42F then n - 0x410 + 1
    else -1
  }

  /** Each letter of the alphabet is at the position its code point gives. */
  lemma AlphabetPositions()
    ensures |Alphabet| == 33
    ensures forall k :: 0 <= k < |Alphabet| ==> Position(Alphabet[k]) == k
  {
  }

  /** `indexOf` on the alphabet agrees with the code-point positions. */
  lemma AlphabetPosition(c: char)
    ensures IndexOf(Alphabet, c) == Position(c)
  {
    AlphabetPositions();
    var p := Position(c);
    if p >= 0 {
      PositionInjective(Alphabet[p], c);
      assert c in Alphabet;
    }
  }

  lemma PositionInjective(a: char, b: char)
    requires Position(a) == Position(b) >= 0
    ensures a == b
  {
    assert a as int == b as int;
  }

  /** `alph.indexOf(u[k])`; past the end `u[k]` is `undefined`, which is
      not in the alphabet either. */
  function Letter(u: string, k: nat): (i: int)
    ensures -1 <= i < 33
    ensures k < |u| && u[k] in Alphabet ==> 0 <= i && Alphabet[i] == u[k]
    ensures !(k < |u| && u[k] in Alphabet) ==> i == -1
  {
    if k < |u| then IndexOf(Alphabet, u[k]) else -1
  }

  /** The number the hash reduces: the first letter's position times 33
      plus the second's, on the upper-cased key. */
  function Code(key: string): int
  {
    var u := UpperAll(key);
    Letter(u, 0) * 33 + Letter(u, 1)
  }

  /** The key starts with two letters of the alphabet, in either case. */
  predicate Leading(key: string)
  {
    |key| >= 2 && Upper(key[0]) in Alphabet && Upper(key[1]) in Alphabet
  }

  /** `hash(key)`, the code's remainder by the size (see `JsDivision`).  It
      lies strictly between -size and size; it is non-negative when the key
      starts with two letters of the alphabet, and never positive when its
      first character is not one. */
  function Hash(key: string, size: int): (h: int)
    requires size > 0
    ensures -size < h < size
    ensures Leading(key) ==> 0 <= h
    ensures (|key| == 0 || Upper(key[0]) !in Alphabet) ==> h <= 0
  {
    JsRem(Code(key), size)
  }

  /** Two keys that start with two letters of the alphabet have the same
      code exactly when they start with the same two letters, ignoring
      case. */
  lemma CodeLetters(a: string, b: string)
    requires Leading(a) && Leading(b)
    ensures Code(a) == Code(b) <==> Upper(a[0]) == Upper(b[0]) && Upper(a[1]) == Upper(b[1])
  {
    var ua, ub := UpperAll(a), UpperAll(b);
    var a0, a1, b0, b1 := Letter(ua, 0), Letter(ua, 1), Letter(ub, 0), Letter(ub, 1);
    assert ua[0] == Upper(a[0]) && ua[1] == Upper(a[1]) && ub[0] == Upper(b[0]) && ub[1] == Upper(b[1]);
    assert Code(a) == a0 * 33 + a1 && Code(b) == b0 * 33 + b1;
    if Code(a) == Code(b) {
      assert a0 == b0;
    }
  }

  /** The hash of a key from its two leading letters, through their
      code-point positions. */
  lemma HashLetters(key: string, size: int, a: char, b: char)
    requires size > 0 && |key| >= 2 && Upper(key[0]) == a && Upper(key[1]) == b
    ensures Hash(key, size) == JsRem(Position(a) * 33 + Position(b), size)
  {
    var u := UpperAll(key);
    assert u[0] == a && u[1] == b;
    AlphabetPosition(a);
    AlphabetPosition(b);
    assert Code(key) == Position(a) * 33 + Position(b);
  }

  // ---------------------------------------------------------------------
  // Probing

  /** The probe for `key` stops at slot `i`: the slot is a hole or holds
      `key`.  A tombstone lets the probe pass. */
  predicate Stops(t: Table, key: string, i: int)
  {
    i !in t.slots || (t.slots[i].Live? && t.slots[i].entry.key == key)
  }

  /** `(index + 1) % this.size`. */
  function Next(i: int, size: int): int
    requires size > 0
  {
    JsRem(i + 1, size)
  }

  /** The k-th index the probing loop visits from `start`. */
  function Visit(start: int, size: int, k: nat): int
    requires size > 0
  {
    if k == 0 then start else Next(Visit(start, size, k - 1), size)
  }

  /** The loop gets past its k-th index: that slot does not stop it and the
      next index is not the one it started from. */
  predicate Passes(t: Table, key: string, start: int, k: nat)
    requires t.size > 0
  {
    !Stops(t, key, Visit(start, t.size, k)) && Visit(start, t.size, k + 1) != start
  }

  /** The loop gets past each of its first n indices. */
  predicate PassesAll(t: Table, key: string, start: int, n: nat)
    requires t.size > 0
  {
    forall m: nat :: m < n ==> Passes(t, key, start, m)
  }

  /** What the probing loop shared by `set`, `get`, `delete` and `update`
      does from `start`: it stops at the first index whose slot is a hole
      or holds the key; it wraps when the index comes back to `start`
      first; it cycles when neither ever happens. */
  ghost predicate Runs(t: Table, key: string, start: int, p: Probe)
    requires t.size > 0
  {
    match p
    case StopsAt(i) =>
      exists n: nat :: PassesAll(t, key, start, n) && Visit(start, t.size, n) == i && Stops(t, key, i)
    case Wrapped =>
      exists n: nat :: PassesAll(t, key, start, n) && !Stops(t, key, Visit(start, t.size, n))
                       && Visit(start, t.size, n + 1) == start
    case Cycles => forall m: nat :: Passes(t, key, start, m)
  }

  /** The step at which a loop that does not cycle ends. */
  lemma EndOf(t: Table, key: string, start: int, p: Probe) returns (n: nat)
    requires t.size > 0 && Runs(t, key, start, p) && !p.Cycles?
    ensures PassesAll(t, key, start, n) && !Passes(t, key, start, n)
    ensures p.StopsAt? ==> Visit(start, t.size, n) == p.index && Stops(t, key, p.index)
    ensures p.Wrapped? ==> !Stops(t, key, Visit(start, t.size, n)) && Visit(start, t.size, n + 1) == start
  {
    if p.StopsAt? {
      n :| PassesAll(t, key, start, n) && Visit(start, t.size, n) == p.index && Stops(t, key, p.index);
    } else {
      n :| PassesAll(t, key, start, n) && !Stops(t, key, Visit(start, t.size, n)) && Visit(start, t.size, n + 1) == start;
    }
  }

  /** The first step the loop does not get past is unique. */
  lemma FirstEnd(t: Table, key: string, start: int, n1: nat, n2: nat)
    requires t.size > 0
    requires PassesAll(t, key, start, n1) && !Passes(t, key, start, n1)
    requires PassesAll(t, key, start, n2) && !Passes(t, key, start, n2)
    ensures n1 == n2
  {
  }

  /** The loop is deterministic: it ends in one way only. */
  lemma RunsUnique(t: Table, key: string, start: int, p: Probe, q: Probe)
    requires t.size > 0 && Runs(t, key, start, p) && Runs(t, key, start, q)
    ensures p == q
  {
    if !p.Cycles? && !q.Cycles? {
      var n1 := EndOf(t, key, start, p);
      var n2 := EndOf(t, key, start, q);
      FirstEnd(t, key, start, n1, n2);
    } else if !p.Cycles? {
      var n1 := EndOf(t, key, start, p);
    } else if !q.Cycles? {
      var n2 := EndOf(t, key, start, q);
    }
  }

  /** Where the loop is after k steps from `start`, in closed form: it
      climbs through the negative indices one by one and then goes round
      the array. */
  lemma {:induction false} VisitClosed(start: int, size: int, k: nat)
    requires -size < start < size
    ensures Visit(start, size, k) == if start + k < 0 then start + k else (start + k) % size
  {
    if k > 0 {
      VisitClosed(start, size, k - 1);
      var x := start + k - 1;
      if x >= 0 {
        ModNext(x, size);
      } else if x + 1 < 0 {
        ModUnique(-(x + 1), size, 0, -(x + 1));
      } else {
        ModUnique(0, size, 0, 0);
      }
    }
  }

  lemma ModNext(x: int, size: int)
    requires x >= 0 && size > 0
    ensures JsRem(x % size + 1, size) == (x + 1) % size
  {
    var q, r := x / size, x % size;
    assert x == q * size + r;
    if r + 1 < size {
      ModUnique(x + 1, size, q, r + 1);
      ModUnique(r + 1, size, 0, r + 1);
    } else {
      ModUnique(x + 1, size, q + 1, 0);
      ModUnique(r + 1, size, 1, 0);
    }
  }

  /** The number of steps after which the loop has seen every index it
      will ever see. */
  function Fuel(start: int, size: int): nat
    requires -size < start < size
  {
    if start < 0 then size - 1 - start else size - 1
  }

  /** The probing loop, step by step: from index `i`, with `start` the
      initial index and `fuel` the steps left before every index the loop
      can reach has been seen. */
  function Walk(t: Table, key: string, start: int, i: int, fuel: nat): Probe
    requires t.size > 0
    decreases fuel
  {
    if Stops(t, key, i) then StopsAt(i)
    else
      var j := Next(i, t.size);
      if j == start then Wrapped
      else if fuel == 0 then Cycles
      else Walk(t, key, start, j, fuel - 1)
  }

  /** Once the loop has passed every index from a negative start up to the
      end of the array it goes round the array for ever. */
  lemma PastEnd(t: Table, key: string, start: int, n: nat)
    requires -t.size < start < 0 && n == t.size - 1 - start
    requires PassesAll(t, key, start, n + 1)
    ensures forall m: nat :: Passes(t, key, start, m)
  {
    forall m: nat
      ensures Passes(t, key, start, m)
    {
      if m > n {
        VisitFromBelow(start, t.size, m);
        VisitFromBelow(start, t.size, m + 1);
        var m' := Visit(start, t.size, m) - start;
        VisitFromBelow(start, t.size, m');
        assert Passes(t, key, start, m');
      }
    }
  }

  /** The step-by-step loop ends the way the loop semantics says. */
  lemma {:induction false} WalkRuns(t: Table, key: string, start: int, n: nat, fuel: nat)
    requires -t.size < start < t.size
    requires n + fuel == Fuel(start, t.size)
    requires PassesAll(t, key, start, n)
    ensures Runs(t, key, start, Walk(t, key, start, Visit(start, t.size, n), fuel))
    decreases fuel
  {
    var i := Visit(start, t.size, n);
    if Stops(t, key, i) {
      assert Walk(t, key, start, i, fuel) == StopsAt(i);
    } else if Next(i, t.size) == start {
      assert Visit(start, t.size, n + 1) == start;
    } else if fuel == 0 {
      assert PassesAll(t, key, start, n + 1);
      if start >= 0 {
        VisitInside(start, t.size, n + 1);
        assert false;
      } else {
        PastEnd(t, key, start, n);
      }
    } else {
      assert Visit(start, t.size, n + 1) == Next(i, t.size);
      assert PassesAll(t, key, start, n + 1);
      WalkRuns(t, key, start, n + 1, fuel - 1);
    }
  }

  /** Where the probe for `key` ends, run from its hash. */
  function Search(t: Table, key: string): (p: Probe)
    requires t.size > 0
    ensures Runs(t, key, Hash(key, t.size), p)
  {
    var h := Hash(key, t.size);
    WalkRuns(t, key, h, 0, Fuel(h, t.size));
    Walk(t, key, h, h, Fuel(h, t.size))
  }

  /** A witness of the loop stopping at `i` fixes the search. */
  lemma SearchStops(t: Table, key: string, i: int, n: nat)
    requires t.size > 0
    requires PassesAll(t, key, Hash(key, t.size), n)
    requires Visit(Hash(key, t.size), t.size, n) == i && Stops(t, key, i)
    ensures Search(t, key) == StopsAt(i)
  {
    RunsUnique(t, key, Hash(key, t.size), Search(t, key), StopsAt(i));
  }

  /** No slot of the array, from index `from` on, stops the probe for
      `key`: each holds an entry under another key, or a tombstone. */
  predicate Blocked(t: Table, key: string, from: int)
  {
    forall j :: from <= j < t.size ==> !Stops(t, key, j)
  }

  /** From a start inside the array the loop stays inside it, and it comes
      back to the start after `size` steps. */
  lemma VisitInside(start: int, size: int, k: nat)
    requires 0 <= start < size
    ensures 0 <= Visit(start, size, k) < size
    ensures k == size ==> Visit(start, size, k) == start
    ensures 0 < k < size ==> Visit(start, size, k) != start
  {
    VisitClosed(start, size, k);
    if k == size {
      ModUnique(start + k, size, 1, start);
    } else if 0 < k < size && start + k >= size {
      ModUnique(start + k, size, 1, start + k - size);
    } else if 0 < k < size {
      ModUnique(start + k, size, 0, start + k);
    }
  }

  /** From a start inside the array the loop reaches every index within
      `size` steps. */
  lemma VisitReaches(start: int, size: int, j: int) returns (m: nat)
    requires 0 <= start < size && 0 <= j < size
    ensures m < size && Visit(start, size, m) == j
  {
    m := if j >= start then j - start else j - start + size;
    VisitClosed(start, size, m);
    if j < start {
      ModUnique(start + m, size, 1, j);
    } else {
      ModUnique(start + m, size, 0, j);
    }
  }

  /** From a negative start the loop visits every index from the start to
      the end of the array, and never comes back to the start. */
  lemma VisitFromBelow(start: int, size: int, k: nat)
    requires -size < start < 0
    ensures start <= Visit(start, size, k) < size
    ensures k > 0 ==> Visit(start, size, k) != start
    ensures start + k < size ==> Visit(start, size, k) == start + k
  {
    VisitClosed(start, size, k);
    if 0 <= start + k < size {
      ModUnique(start + k, size, 0, start + k);
    }
  }

  /** The loop wraps exactly when it starts inside the array and every slot
      of the array is blocked; it cycles exactly when it starts at a
      negative index and every slot from there on is blocked. */
  lemma ProbeEnds(t: Table, key: string)
    requires t.size > 0
    ensures Search(t, key).Wrapped? <==> Hash(key, t.size) >= 0 && Blocked(t, key, 0)
    ensures Search(t, key).Cycles? <==> Hash(key, t.size) < 0 && Blocked(t, key, Hash(key, t.size))
  {
    var h := Hash(key, t.size);
    var p := Search(t, key);
    if h >= 0 {
      WrapsInside(t, key, h, p);
    } else {
      CyclesBelow(t, key, h, p);
    }
  }

  /** From a start inside the array the loop does not cycle: after `size`
      steps it is back at the start. */
  lemma NoCycleInside(t: Table, key: string, h: int)
    requires 0 <= h < t.size
    ensures !Runs(t, key, h, Cycles)
  {
    VisitInside(h, t.size, t.size);
    assert !Passes(t, key, h, t.size - 1);
  }

  lemma WrapsInside(t: Table, key: string, h: int, p: Probe)
    requires 0 <= h < t.size && Runs(t, key, h, p)
    ensures p.Wrapped? <==> Blocked(t, key, 0)
    ensures !p.Cycles?
  {
    VisitInside(h, t.size, t.size);
    NoCycleInside(t, key, h);
    if p.Wrapped? {
      var n: nat :| PassesAll(t, key, h, n) && !Stops(t, key, Visit(h, t.size, n)) && Visit(h, t.size, n + 1) == h;
      if n + 1 < t.size {
        VisitInside(h, t.size, n + 1);
      }
      forall j | 0 <= j < t.size
        ensures !Stops(t, key, j)
      {
        var m := VisitReaches(h, t.size, j);
        if m < n {
          assert Passes(t, key, h, m);
        }
      }
    } else if Blocked(t, key, 0) {
      var n: nat :| PassesAll(t, key, h, n) && Visit(h, t.size, n) == p.index && Stops(t, key, p.index);
      VisitInside(h, t.size, n);
    }
  }

  lemma CyclesBelow(t: Table, key: string, h: int, p: Probe)
    requires -t.size < h < 0 && Runs(t, key, h, p)
    ensures p.Cycles? <==> Blocked(t, key, h)
    ensures !p.Wrapped?
  {
    if p.Wrapped? {
      NoWrapBelow(t, key, h, p);
    } else if p.Cycles? {
      CycleBlocked(t, key, h);
    } else if Blocked(t, key, h) {
      StopUnblocked(t, key, h, p);
    }
  }

  /** From a negative start the loop never comes back to it. */
  lemma NoWrapBelow(t: Table, key: string, h: int, p: Probe)
    requires -t.size < h < 0 && Runs(t, key, h, p)
    ensures !p.Wrapped?
  {
    if p.Wrapped? {
      var n: nat :| PassesAll(t, key, h, n) && !Stops(t, key, Visit(h, t.size, n)) && Visit(h, t.size, n + 1) == h;
      VisitFromBelow(h, t.size, n + 1);
    }
  }

  /** A loop from a negative start that runs off the end passed every slot
      from the start on. */
  lemma CycleBlocked(t: Table, key: string, h: int)
    requires -t.size < h < 0 && Runs(t, key, h, Cycles)
    ensures Blocked(t, key, h)
  {
    forall j | h <= j < t.size
      ensures !Stops(t, key, j)
    {
      VisitFromBelow(h, t.size, j - h);
      assert Passes(t, key, h, j - h);
    }
  }

  /** A loop from a negative start that stops does so at a slot from the
      start on. */
  lemma StopUnblocked(t: Table, key: string, h: int, p: Probe)
    requires -t.size < h < 0 && Runs(t, key, h, p) && p.StopsAt?
    ensures !Blocked(t, key, h)
  {
    var n: nat :| PassesAll(t, key, h, n) && Visit(h, t.size, n) == p.index && Stops(t, key, p.index);
    VisitFromBelow(h, t.size, n);
  }

  // ---------------------------------------------------------------------
  // The operations

  /** The table holds `key` with `value` in some slot. */
  predicate Holds(t: Table, key: string, value: string)
  {
    exists i :: i in t.slots && t.slots[i] == Live(Entry(key, value))
  }

  /** Some slot holds an entry under `key`. */
  predicate Present(t: Table, key: string)
  {
    exists i :: i in t.slots && t.slots[i].Live? && t.slots[i].entry.key == key
  }

  /** `set(key, value)`: the pair goes into the slot where the probe stops
      and no other slot changes; it throws when the probe wraps, which is
      when every slot of the array holds another key, and it never returns
      when the probe starts below the array and every slot from there on
      holds another key. */
  function Set(t: Table, key: string, value: string): (r: Run<Table>)
    requires t.size > 0
    ensures r.Returns? ==> r.value.size == t.size && Holds(r.value, key, value)
    ensures r.Returns? ==> forall i :: i in t.slots && !Stops(t, key, i) ==> i in r.value.slots && r.value.slots[i] == t.slots[i]
    ensures r.Returns? ==> forall i :: i in r.value.slots && r.value.slots[i] != Live(Entry(key, value)) ==>
                                          i in t.slots && r.value.slots[i] == t.slots[i]
    ensures r.Throws? ==> r.message == FullMessage
  {
    match Search(t, key)
    case StopsAt(i) =>
      var t' := t.(slots := t.slots[i := Live(Entry(key, value))]);
      assert t'.slots[i] == Live(Entry(key, value));
      Returns(t')
    case Wrapped => Throws(FullMessage)
    case Cycles => Hangs
  }

  /** `get(key)`: the found message for the entry where the probe stops,
      the not-found message when it stops at a hole, `undefined` (`None`)
      when it wraps. */
  function Get(t: Table, key: string): (r: Run<Option<string>>)
    requires t.size > 0
  {
    match Search(t, key)
    case StopsAt(i) =>
      if i in t.slots then
        FoundNotMissing(key, t.slots[i].entry.value);
        Returns(Some(Found(key, t.slots[i].entry.value)))
      else Returns(Some(NotFound))
    case Wrapped => Returns(None)
    case Cycles => Hangs
  }

  /** `delete(key)`: the slot where the probe stops is emptied when it
      holds the key, and the answer says whether it did; otherwise the
      table is unchanged. */
  function Delete(t: Table, key: string): (r: Run<(Table, bool)>)
    requires t.size > 0
    ensures r.Returns? ==> r.value.0.size == t.size
    ensures r.Returns? && !r.value.1 ==> r.value.0 == t
    ensures r.Returns? && r.value.1 ==>
              exists i :: i in t.slots && t.slots[i].Live? && t.slots[i].entry.key == key && r.value.0.slots == t.slots - {i}
  {
    match Search(t, key)
    case StopsAt(i) =>
      if i in t.slots then Returns((t.(slots := t.slots - {i}), true))
      else Returns((t, false))
    case Wrapped => Returns((t, false))
    case Cycles => Hangs
  }

  /** `update(key, newName)`: the value in the slot where the probe stops
      is replaced when that slot holds the key; every key stays where it
      was. */
  function Update(t: Table, key: string, newName: string): (r: Run<(Table, bool)>)
    requires t.size > 0
    ensures r.Returns? ==> r.value.0.size == t.size && r.value.0.slots.Keys == t.slots.Keys
    ensures r.Returns? && !r.value.1 ==> r.value.0 == t
    ensures r.Returns? && r.value.1 ==> Holds(r.value.0, key, newName)
  {
    match Search(t, key)
    case StopsAt(i) =>
      if i in t.slots then
        var t' := t.(slots := t.slots[i := Live(Entry(key, newName))]);
        assert t'.slots[i] == Live(Entry(key, newName));
        Returns((t', true))
      else Returns((t, false))
    case Wrapped => Returns((t, false))
    case Cycles => Hangs
  }

  /** `update` keeps every key in its slot and rewrites only a slot where
      the probe for `key` may stop. */
  lemma UpdateKeepsKeys(t: Table, key: string, newName: string)
    requires t.size > 0 && Update(t, key, newName).Returns?
    ensures forall i :: i in t.slots ==> SameKey(t.slots[i], Update(t, key, newName).value.0.slots[i])
    ensures forall i :: i in t.slots && !Stops(t, key, i) ==> Update(t, key, newName).value.0.slots[i] == t.slots[i]
  {
    match Search(t, key)
    case StopsAt(i) =>
      if i in t.slots {
        StopsHere(t, key, i);
        var t' := t.(slots := t.slots[i := Live(Entry(key, newName))]);
        assert Update(t, key, newName) == Returns((t', true));
        forall j | j in t.slots
          ensures SameKey(t.slots[j], t'.slots[j])
          ensures !Stops(t, key, j) ==> t'.slots[j] == t.slots[j]
        {
        }
      } else {
        assert Update(t, key, newName) == Returns((t, false));
      }
    case Wrapped =>
      assert Update(t, key, newName) == Returns((t, false));
    case Cycles =>
  }

  /** The slot where the probe stops is a hole or holds the key. */
  lemma StopsHere(t: Table, key: string, i: int)
    requires t.size > 0 && Search(t, key) == StopsAt(i)
    ensures Stops(t, key, i)
  {
  }

  /** `set` throws exactly when every slot of the array holds another key
      and the hash is not negative, and hangs exactly when the hash is
      negative and every slot from it on holds another key. */
  lemma SetEnds(t: Table, key: string, value: string)
    requires t.size > 0
    ensures Set(t, key, value).Throws? <==> Hash(key, t.size) >= 0 && Blocked(t, key, 0)
    ensures Set(t, key, value).Hangs? <==> Hash(key, t.size) < 0 && Blocked(t, key, Hash(key, t.size))
  {
    ProbeEnds(t, key);
  }

  /** `get` gives `undefined` and hangs in the same cases. */
  lemma GetEnds(t: Table, key: string)
    requires t.size > 0
    ensures Get(t, key) == Returns(None) <==> Hash(key, t.size) >= 0 && Blocked(t, key, 0)
    ensures Get(t, key).Hangs? <==> Hash(key, t.size) < 0 && Blocked(t, key, Hash(key, t.size))
  {
    ProbeEnds(t, key);
  }

  /** `delete` and `update` hang in the same case and otherwise return. */
  lemma ChangeEnds(t: Table, key: string, newName: string)
    requires t.size > 0
    ensures Delete(t, key).Hangs? <==> Hash(key, t.size) < 0 && Blocked(t, key, Hash(key, t.size))
    ensures Update(t, key, newName).Hangs? <==> Hash(key, t.size) < 0 && Blocked(t, key, Hash(key, t.size))
  {
    ProbeEnds(t, key);
  }

  /** Two slots are both tombstones or both live under the same key. */
  predicate SameKey(a: Slot, b: Slot)
  {
    a.Tomb? == b.Tomb? && (a.Live? ==> a.entry.key == b.entry.key)
  }

  // ---------------------------------------------------------------------
  // Where entries sit

  /** Every live entry sits in the slot where the probe for its key stops,
      as `set` leaves it.  Keys are then unique and `get` finds each of
      them. */
  predicate Placed(t: Table)
    requires t.size > 0
  {
    forall i :: i in t.slots && t.slots[i].Live? ==> Search(t, t.slots[i].entry.key) == StopsAt(i)
  }

  /** When the probe stops at a hole in a placed table the key is absent. */
  lemma PlacedAbsent(t: Table, key: string, i: int)
    requires t.size > 0 && Search(t, key) == StopsAt(i) && i !in t.slots
    ensures Placed(t) ==> !Present(t, key)
  {
  }

  /** When the probe wraps in a placed table the key is absent. */
  lemma WrappedAbsent(t: Table, key: string)
    requires t.size > 0 && Search(t, key).Wrapped?
    ensures Placed(t) ==> !Present(t, key)
  {
  }

  /** In a placed table the key is absent when the probe for it stops at
      a hole or wraps. */
  lemma SearchAbsent(t: Table, key: string)
    requires t.size > 0 && Placed(t)
    requires (Search(t, key).StopsAt? && Search(t, key).index !in t.slots) || Search(t, key).Wrapped?
    ensures !Present(t, key)
  {
    if Search(t, key).StopsAt? {
      PlacedAbsent(t, key, Search(t, key).index);
    } else {
      WrappedAbsent(t, key);
    }
  }

  /** In a placed table `get` reports a key missing only when it is. */
  lemma GetMissing(t: Table, key: string)
    requires t.size > 0 && Placed(t) && Get(t, key) == Returns(Some(NotFound))
    ensures !Present(t, key)
  {
    if Search(t, key).StopsAt? && Search(t, key).index in t.slots {
      FoundNotMissing(key, t.slots[Search(t, key).index].entry.value);
    }
    SearchAbsent(t, key);
  }

  /** In a placed table `delete` answers whether the key is present. */
  lemma DeleteAnswers(t: Table, key: string)
    requires t.size > 0 && Placed(t) && Delete(t, key).Returns?
    ensures Delete(t, key).value.1 <==> Present(t, key)
  {
    if !Delete(t, key).value.1 {
      SearchAbsent(t, key);
    }
  }

  /** In a placed table `update` answers whether the key is present. */
  lemma UpdateAnswers(t: Table, key: string, newName: string)
    requires t.size > 0 && Placed(t) && Update(t, key, newName).Returns?
    ensures Update(t, key, newName).value.1 <==> Present(t, key)
  {
    if !Update(t, key, newName).value.1 {
      SearchAbsent(t, key);
    }
  }

  /** The empty table is placed. */
  lemma NewPlaced(size: int)
    requires size > 0
    ensures Placed(New(size)) && forall key :: !Present(New(size), key)
  {
  }

  /** The probe for `key` stops where it did when no slot that let it pass
      now stops it and the slot where it stopped still does. */
  lemma SearchKept(t: Table, t': Table, key: string, i: int)
    requires t.size > 0 && t'.size == t.size
    requires Search(t, key) == StopsAt(i) && Stops(t', key, i)
    requires forall j :: !Stops(t, key, j) ==> !Stops(t', key, j)
    ensures Search(t', key) == StopsAt(i)
  {
    var h := Hash(key, t.size);
    var n: nat :| PassesAll(t, key, h, n) && Visit(h, t.size, n) == i && Stops(t, key, i);
    assert PassesAll(t', key, h, n) by {
      forall m: nat | m < n
        ensures Passes(t', key, h, m)
      {
        assert Passes(t, key, h, m);
      }
    }
    SearchStops(t', key, i, n);
  }

  /** The step-by-step loop only looks at which slots stop it. */
  lemma {:induction false} WalkSame(t: Table, t': Table, key: string, start: int, i: int, fuel: nat)
    requires t.size > 0 && t'.size == t.size
    requires forall j :: Stops(t, key, j) == Stops(t', key, j)
    ensures Walk(t, key, start, i, fuel) == Walk(t', key, start, i, fuel)
    decreases fuel
  {
    if !Stops(t, key, i) && fuel > 0 {
      WalkSame(t, t', key, start, Next(i, t.size), fuel - 1);
    }
  }

  /** Tables whose slots stop the probe for `key` at the same indices give
      the same search. */
  lemma SearchSame(t: Table, t': Table, key: string)
    requires t.size > 0 && t'.size == t.size
    requires forall j :: Stops(t, key, j) == Stops(t', key, j)
    ensures Search(t, key) == Search(t', key)
  {
    var h := Hash(key, t.size);
    WalkSame(t, t', key, h, h, Fuel(h, t.size));
  }

  /** `set` followed by `get` on the same key finds the value just set. */
  lemma SetThenGet(t: Table, key: string, value: string)
    requires t.size > 0 && Set(t, key, value).Returns?
    ensures Get(Set(t, key, value).value, key) == Returns(Some(Found(key, value)))
  {
    var i := Search(t, key).index;
    var t' := Set(t, key, value).value;
    SearchKept(t, t', key, i);
  }

  /** `set` keeps every entry where its probe stops. */
  lemma SetPlaced(t: Table, key: string, value: string)
    requires t.size > 0 && Placed(t) && Set(t, key, value).Returns?
    ensures Placed(Set(t, key, value).value)
  {
    var s := Search(t, key).index;
    var t' := Set(t, key, value).value;
    forall i | i in t'.slots && t'.slots[i].Live?
      ensures Search(t', t'.slots[i].entry.key) == StopsAt(i)
    {
      var k := t'.slots[i].entry.key;
      if i == s {
        SearchKept(t, t', key, s);
      } else {
        assert t.slots[i] == t'.slots[i];
        SearchKept(t, t', k, i);
      }
    }
  }

  /** `update` keeps every entry where its probe stops. */
  lemma UpdatePlaced(t: Table, key: string, newName: string)
    requires t.size > 0 && Placed(t) && Update(t, key, newName).Returns?
    ensures Placed(Update(t, key, newName).value.0)
  {
    var t' := Update(t, key, newName).value.0;
    UpdateKeepsKeys(t, key, newName);
    forall i | i in t'.slots && t'.slots[i].Live?
      ensures Search(t', t'.slots[i].entry.key) == StopsAt(i)
    {
      var k := t'.slots[i].entry.key;
      assert SameKey(t.slots[i], t'.slots[i]);
      forall j
        ensures Stops(t, k, j) == Stops(t', k, j)
      {
        if j in t.slots {
          assert SameKey(t.slots[j], t'.slots[j]);
        }
      }
      SearchSame(t, t', k);
    }
  }

  /** In a placed table `get` finds a key exactly when it is stored, with
      the value stored under it. */
  lemma GetFinds(t: Table, key: string, value: string)
    requires t.size > 0 && Placed(t)
    ensures Get(t, key) == Returns(Some(Found(key, value))) <==> Holds(t, key, value)
  {
    if Holds(t, key, value) {
      var i :| i in t.slots && t.slots[i] == Live(Entry(key, value));
      assert Search(t, key) == StopsAt(i);
    }
    if Get(t, key) == Returns(Some(Found(key, value))) {
      var i := Search(t, key).index;
      FoundNotMissing(key, value);
      assert i in t.slots;
      FoundInjective(key, t.slots[i].entry.value, value);
    }
  }

  /** The found message is not the not-found one. */
  lemma FoundNotMissing(key: string, value: string)
    ensures Found(key, value) != NotFound
  {
    assert Found(key, value)[0] != NotFound[0];
  }

  /** The found message names the value. */
  lemma FoundInjective(key: string, v: string, w: string)
    requires Found(key, v) == Found(key, w)
    ensures v == w
  {
    var n := |"Искомый элемент: " + key + " "|;
    assert Found(key, v)[n..] == v;
    assert Found(key, w)[n..] == w;
  }

  /** After `delete` returns true, `get` on the same key reports it
      missing. */
  lemma DeleteThenGet(t: Table, key: string)
    requires t.size > 0 && Delete(t, key).Returns? && Delete(t, key).value.1
    ensures Get(Delete(t, key).value.0, key) == Returns(Some(NotFound))
  {
    var i := Search(t, key).index;
    var t' := Delete(t, key).value.0;
    SearchKept(t, t', key, i);
  }

  /** After `update` returns true, `get` finds the new value. */
  lemma UpdateThenGet(t: Table, key: string, newName: string)
    requires t.size > 0 && Update(t, key, newName).Returns? && Update(t, key, newName).value.1
    ensures Get(Update(t, key, newName).value.0, key) == Returns(Some(Found(key, newName)))
  {
    var i := Search(t, key).index;
    var t' := Update(t, key, newName).value.0;
    SearchKept(t, t', key, i);
  }

  // ---------------------------------------------------------------------
  // Deleting without a tombstone

  /** `delete` with a tombstone: the emptied slot keeps letting probes
      pass, so the keys stored beyond it stay reachable. */
  function DeleteFixed(t: Table, key: string): (r: Run<(Table, bool)>)
    requires t.size > 0
    ensures r.Returns? ==> r.value.0.size == t.size && r.value.0.slots.Keys == t.slots.Keys
    ensures r.Returns? && !r.value.1 ==> r.value.0 == t
  {
    match Search(t, key)
    case StopsAt(i) =>
      if i in t.slots then Returns((t.(slots := t.slots[i := Tomb]), true))
      else Returns((t, false))
    case Wrapped => Returns((t, false))
    case Cycles => Hangs
  }

  /** In a placed table the fixed `delete` answers whether the key is
      present. */
  lemma DeleteFixedAnswers(t: Table, key: string)
    requires t.size > 0 && Placed(t) && DeleteFixed(t, key).Returns?
    ensures DeleteFixed(t, key).value.1 <==> Present(t, key)
  {
    if !DeleteFixed(t, key).value.1 {
      SearchAbsent(t, key);
    }
  }

  /** The fixed `delete` hangs in the same case as the original. */
  lemma DeleteFixedEnds(t: Table, key: string)
    requires t.size > 0
    ensures DeleteFixed(t, key).Hangs? <==> Hash(key, t.size) < 0 && Blocked(t, key, Hash(key, t.size))
  {
    ProbeEnds(t, key);
  }

  /** Deleting one key with a tombstone changes no lookup of another. */
  lemma DeleteFixedKeepsOthers(t: Table, key: string, other: string)
    requires t.size > 0 && other != key && DeleteFixed(t, key).Returns?
    ensures Get(DeleteFixed(t, key).value.0, other) == Get(t, other)
  {
    var t' := DeleteFixed(t, key).value.0;
    if DeleteFixed(t, key).value.1 {
      var i := TombAt(t, key);
      forall j
        ensures Stops(t, other, j) == Stops(t', other, j)
      {
      }
    }
    SearchSame(t, t', other);
  }

  /** The slot the fixed `delete` marks held the key. */
  lemma TombAt(t: Table, key: string) returns (i: int)
    requires t.size > 0 && DeleteFixed(t, key).Returns? && DeleteFixed(t, key).value.1
    ensures i in t.slots && t.slots[i].Live? && t.slots[i].entry.key == key
    ensures DeleteFixed(t, key).value.0.slots == t.slots[i := Tomb]
  {
    i := Search(t, key).index;
    StopsHere(t, key, i);
  }

  /** Deleting with a tombstone keeps every entry where its probe stops,
      and the key is gone afterwards. */
  lemma DeleteFixedPlaced(t: Table, key: string)
    requires t.size > 0 && Placed(t) && DeleteFixed(t, key).Returns?
    ensures Placed(DeleteFixed(t, key).value.0)
    ensures !Present(DeleteFixed(t, key).value.0, key)
  {
    var t' := DeleteFixed(t, key).value.0;
    forall i | i in t'.slots && t'.slots[i].Live?
      ensures Search(t', t'.slots[i].entry.key) == StopsAt(i)
    {
      var k := t'.slots[i].entry.key;
      assert t.slots[i] == t'.slots[i];
      if k != key {
        forall j
          ensures Stops(t, k, j) == Stops(t', k, j)
        {
        }
        SearchSame(t, t', k);
      }
    }
  }

  // ---------------------------------------------------------------------
  // The script and its table

  /** One stored pair. */
  function Put(t: Table, i: int, key: string, value: string): Table
  {
    t.(slots := t.slots[i := Live(Entry(key, value))])
  }

  /** `set` stores where the probe stops. */
  lemma SetAt(t: Table, key: string, value: string, i: int)
    requires t.size > 0 && Search(t, key) == StopsAt(i)
    ensures Set(t, key, value) == Returns(Put(t, i, key, value))
  {
  }

  /** `get` reads the entry where the probe stops. */
  lemma GetAt(t: Table, key: string, value: string, i: int)
    requires t.size > 0 && Search(t, key) == StopsAt(i)
    requires i in t.slots && t.slots[i] == Live(Entry(key, value))
    ensures Get(t, key) == Returns(Some(Found(key, value)))
  {
  }

  /** `get` reports a hole where the probe stops as not found. */
  lemma GetHoleAt(t: Table, key: string, i: int)
    requires t.size > 0 && Search(t, key) == StopsAt(i) && i !in t.slots
    ensures Get(t, key) == Returns(Some(NotFound))
  {
  }

  /** The probe from the hash h that passes the slots up to i, at most
      three of them, and stops at slot i. */
  lemma SearchPast(t: Table, key: string, h: int, i: int)
    requires t.size > 0 && Hash(key, t.size) == h
    requires 0 <= h <= i <= h + 3 && i < t.size
    requires h < i ==> !Stops(t, key, h)
    requires h + 1 < i ==> !Stops(t, key, h + 1)
    requires h + 2 < i ==> !Stops(t, key, h + 2)
    requires Stops(t, key, i)
    ensures Search(t, key) == StopsAt(i)
  {
    SearchFrom(t, key, h, i - h);
  }

  /** The same, counting the passed slots. */
  lemma SearchFrom(t: Table, key: string, h: int, n: nat)
    requires t.size > 0 && Hash(key, t.size) == h
    requires n <= 3 && 0 <= h && h + n < t.size
    requires n >= 1 ==> !Stops(t, key, h)
    requires n >= 2 ==> !Stops(t, key, h + 1)
    requires n >= 3 ==> !Stops(t, key, h + 2)
    requires Stops(t, key, h + n)
    ensures Search(t, key) == StopsAt(h + n)
  {
    assert Runs(t, key, h, StopsAt(h + n)) by {
      RunsPast(t, key, h, n);
    }
    SearchRuns(t, key, h, h + n);
  }

  /** `set` on a key whose probe passes the slots from its hash h on and
      stops at slot i, at most three further on. */
  lemma SetPast(t: Table, key: string, value: string, h: int, i: int)
    requires t.size > 0 && Hash(key, t.size) == h
    requires 0 <= h <= i <= h + 3 && i < t.size
    requires h < i ==> !Stops(t, key, h)
    requires h + 1 < i ==> !Stops(t, key, h + 1)
    requires h + 2 < i ==> !Stops(t, key, h + 2)
    requires Stops(t, key, i)
    ensures Set(t, key, value) == Returns(Put(t, i, key, value))
  {
    SearchPast(t, key, h, i);
    SetAt(t, key, value, i);
  }

  /** `get` on a key whose probe passes the slots from its hash h on and
      finds it in slot i, at most three further on. */
  lemma GetPast(t: Table, key: string, value: string, h: int, i: int)
    requires t.size > 0 && Hash(key, t.size) == h
    requires 0 <= h <= i <= h + 3 && i < t.size
    requires h < i ==> !Stops(t, key, h)
    requires h + 1 < i ==> !Stops(t, key, h + 1)
    requires h + 2 < i ==> !Stops(t, key, h + 2)
    requires i in t.slots && t.slots[i] == Live(Entry(key, value))
    ensures Get(t, key) == Returns(Some(Found(key, value)))
  {
    assert Stops(t, key, i);
    SearchPast(t, key, h, i);
    GetAt(t, key, value, i);
  }

  /** `get` on a key whose hash slot is a hole. */
  lemma GetHole(t: Table, key: string, h: int)
    requires t.size > 0 && Hash(key, t.size) == h && 0 <= h < t.size && h !in t.slots
    ensures Get(t, key) == Returns(Some(NotFound))
  {
    assert Stops(t, key, h);
    SearchPast(t, key, h, h);
    GetHoleAt(t, key, h);
  }

  /** `delete` on a key held at its hash slot. */
  lemma DeleteHere(t: Table, key: string, value: string, h: int)
    requires t.size > 0 && Hash(key, t.size) == h && 0 <= h < t.size
    requires h in t.slots && t.slots[h] == Live(Entry(key, value))
    ensures Delete(t, key) == Returns((t.(slots := t.slots - {h}), true))
  {
    assert Stops(t, key, h);
    SearchPast(t, key, h, h);
  }

  /** `delete` and `update` on a key whose hash slot is a hole. */
  lemma ChangeHole(t: Table, key: string, value: string, h: int)
    requires t.size > 0 && Hash(key, t.size) == h && 0 <= h < t.size && h !in t.slots
    ensures Delete(t, key) == Returns((t, false))
    ensures Update(t, key, value) == Returns((t, false))
  {
    assert Stops(t, key, h);
    SearchPast(t, key, h, h);
  }

  /** `update` on a key held at its hash slot. */
  lemma UpdateHere(t: Table, key: string, value: string, h: int)
    requires t.size > 0 && Hash(key, t.size) == h && 0 <= h < t.size
    requires h in t.slots && t.slots[h].Live? && t.slots[h].entry.key == key
    ensures Update(t, key, value) == Returns((Put(t, h, key, value), true))
  {
    assert Stops(t, key, h);
    SearchPast(t, key, h, h);
  }

  /** A loop that passes n slots and stops at the next one stops there. */
  lemma StopsRuns(t: Table, key: string, start: int, i: int, n: nat)
    requires t.size > 0 && PassesAll(t, key, start, n)
    requires Visit(start, t.size, n) == i && Stops(t, key, i)
    ensures Runs(t, key, start, StopsAt(i))
  {
  }

  /** Inside the array and short of its end, the loop just counts up. */
  lemma {:induction false} VisitLinear(start: int, size: int, k: nat)
    requires 0 <= start && start + k < size
    ensures Visit(start, size, k) == start + k
  {
    if k > 0 {
      VisitLinear(start, size, k - 1);
      ModUnique(start + k, size, 0, start + k);
    }
  }

  /** The loop from `start` inside the array that passes n slots. */
  lemma FromPast(t: Table, key: string, start: int, n: nat)
    requires t.size > 0 && n <= 3 && 0 <= start && start + n < t.size
    requires n >= 1 ==> !Stops(t, key, start)
    requires n >= 2 ==> !Stops(t, key, start + 1)
    requires n >= 3 ==> !Stops(t, key, start + 2)
    ensures PassesAll(t, key, start, n) && Visit(start, t.size, n) == start + n
  {
    VisitLinear(start, t.size, n);
    forall m: nat | m < n
      ensures Passes(t, key, start, m)
    {
      VisitLinear(start, t.size, m + 1);
    }
  }

  /** The loop from `start` inside the array that passes n slots and
      stops at the next one. */
  lemma RunsPast(t: Table, key: string, start: int, n: nat)
    requires t.size > 0 && n <= 3 && 0 <= start && start + n < t.size
    requires n >= 1 ==> !Stops(t, key, start)
    requires n >= 2 ==> !Stops(t, key, start + 1)
    requires n >= 3 ==> !Stops(t, key, start + 2)
    requires Stops(t, key, start + n)
    ensures Runs(t, key, start, StopsAt(start + n))
  {
    FromPast(t, key, start, n);
    StopsRuns(t, key, start, start + n, n);
  }

  /** A loop from the hash that stops at `i` fixes the search. */
  lemma SearchRuns(t: Table, key: string, h: int, i: int)
    requires t.size > 0 && h == Hash(key, t.size) && Runs(t, key, h, StopsAt(i))
    ensures Search(t, key) == StopsAt(i)
  {
    RunsUnique(t, key, h, Search(t, key), StopsAt(i));
  }

  /** 'Вяткин' hashes to 18 in a table of 20. */
  lemma HashVyatkin(size: int)
    requires size == 20
    ensures Hash("Вяткин", size) == 18
  {
    Positions();
    HashLetters("Вяткин", size, 'В', 'Я');
    assert JsRem(98, 20) == 18;
  }

  /** The positions of the letters the script's keys start with. */
  lemma Positions()
    ensures Position('В') == 2 && Position('Я') == 32 && Position('Т') == 19
    ensures Position('Р') == 17 && Position('С') == 18 && Position('И') == 9
  {
  }

  /** 'Третьяк' hashes to 4. */
  lemma HashTretyak(size: int)
    requires size == 20
    ensures Hash("Третьяк", size) == 4
  {
    Positions();
    HashLetters("Третьяк", size, 'Т', 'Р');
    assert JsRem(644, 20) == 4;
  }

  /** Keys that start with 'Си' hash to 3, as 'Сидоров', 'Сидук' and
      'Сикно' all do. */
  lemma HashSi(key: string, size: int)
    requires |key| >= 2 && key[..2] == "Си" && size == 20
    ensures Hash(key, size) == 3
  {
    Positions();
    assert key[0] == 'С' && key[1] == 'и';
    HashLetters(key, size, 'С', 'И');
    assert JsRem(603, 20) == 3;
  }

  /** The tables the script goes through. */
  const T1: Table := Table(20, map[18 := Live(Entry("Вяткин", "Иван"))])
  const T2: Table := Table(20, T1.slots[4 := Live(Entry("Третьяк", "Петр"))])
  const T3: Table := Table(20, T2.slots[3 := Live(Entry("Сидоров", "Сергей"))])
  const T4: Table := Table(20, T3.slots[5 := Live(Entry("Сидук", "Андрей"))])
  const Filled: Table := Table(20, T4.slots[6 := Live(Entry("Сикно", "Андрей"))])
  const Emptied: Table := Filled.(slots := Filled.slots - {3})
  const Refilled: Table := Put(Emptied, 3, "Сидоров", "Сергей")
  const Renamed: Table := Put(Refilled, 18, "Вяткин", "Саня")

  /** The script's five `set` calls: the first three land on their
      hashes 18, 4 and 3; 'Сидук' passes 3 and 4 and lands on 5; 'Сикно'
      passes 3, 4 and 5 and lands on 6. */
  lemma SetVyatkin()
    ensures Set(New(20), "Вяткин", "Иван") == Returns(T1)
  {
    HashVyatkin(20);
    SetPast(New(20), "Вяткин", "Иван", 18, 18);
  }

  lemma SetTretyak()
    ensures Set(T1, "Третьяк", "Петр") == Returns(T2)
  {
    HashTretyak(T1.size);
    FreeTretyak();
    SetPast(T1, "Третьяк", "Петр", 4, 4);
  }

  /** Slot 4 is still a hole when 'Третьяк' is set. */
  lemma FreeTretyak()
    ensures T1.size == 20 && Stops(T1, "Третьяк", 4)
  {
  }

  lemma SetSidorov()
    ensures Set(T2, "Сидоров", "Сергей") == Returns(T3)
  {
    HashSi("Сидоров", T2.size);
    FreeSidorov();
    SetPast(T2, "Сидоров", "Сергей", 3, 3);
  }

  lemma SetSiduk()
    ensures Set(T3, "Сидук", "Андрей") == Returns(T4)
  {
    HashSi("Сидук", T3.size);
    PassSiduk();
    SetPast(T3, "Сидук", "Андрей", 3, 5);
  }

  lemma SetSikno()
    ensures Set(T4, "Сикно", "Андрей") == Returns(Filled)
  {
    HashSi("Сикно", T4.size);
    PassSikno();
    SetPast(T4, "Сикно", "Андрей", 3, 6);
  }

  /** Slot 3 is still a hole when 'Сидоров' is set. */
  lemma FreeSidorov()
    ensures T2.size == 20 && Stops(T2, "Сидоров", 3)
  {
  }

  /** 'Сидук' passes slots 3 and 4, which hold other keys. */
  lemma PassSiduk()
    ensures T3.size == 20 && Stops(T3, "Сидук", 5)
    ensures !Stops(T3, "Сидук", 3) && !Stops(T3, "Сидук", 3 + 1)
  {
  }

  lemma PassSidukFilled()
    ensures !Stops(Filled, "Сидук", 3) && !Stops(Filled, "Сидук", 3 + 1)
  {
  }

  /** 'Сикно' passes slots 3, 4 and 5, which hold other keys. */
  lemma PassSikno()
    ensures T4.size == 20 && Stops(T4, "Сикно", 6)
    ensures !Stops(T4, "Сикно", 3) && !Stops(T4, "Сикно", 3 + 1) && !Stops(T4, "Сикно", 3 + 2)
  {
  }

  lemma PassSiknoFilled()
    ensures !Stops(Filled, "Сикно", 3) && !Stops(Filled, "Сикно", 3 + 1) && !Stops(Filled, "Сикно", 3 + 2)
  {
  }

  /** The five pairs sit in slots 18, 4, 3, 5 and 6 of the filled table. */
  lemma FilledSlots()
    ensures Filled.size == 20
    ensures 18 in Filled.slots && Filled.slots[18] == Live(Entry("Вяткин", "Иван"))
    ensures 4 in Filled.slots && Filled.slots[4] == Live(Entry("Третьяк", "Петр"))
    ensures 3 in Filled.slots && Filled.slots[3] == Live(Entry("Сидоров", "Сергей"))
    ensures 5 in Filled.slots && Filled.slots[5] == Live(Entry("Сидук", "Андрей"))
    ensures 6 in Filled.slots && Filled.slots[6] == Live(Entry("Сикно", "Андрей"))
  {
  }

  /** The five `get` calls after the sets find every pair. */
  lemma GetVyatkin()
    ensures Get(Filled, "Вяткин") == Returns(Some(Found("Вяткин", "Иван")))
  {
    FilledSlots();
    HashVyatkin(Filled.size);
    GetPast(Filled, "Вяткин", "Иван", 18, 18);
  }

  lemma GetTretyak()
    ensures Get(Filled, "Третьяк") == Returns(Some(Found("Третьяк", "Петр")))
  {
    FilledSlots();
    HashTretyak(Filled.size);
    GetPast(Filled, "Третьяк", "Петр", 4, 4);
  }

  lemma GetSidorov()
    ensures Get(Filled, "Сидоров") == Returns(Some(Found("Сидоров", "Сергей")))
  {
    FilledSlots();
    HashSi("Сидоров", Filled.size);
    GetPast(Filled, "Сидоров", "Сергей", 3, 3);
  }

  lemma GetSiduk()
    ensures Get(Filled, "Сидук") == Returns(Some(Found("Сидук", "Андрей")))
  {
    FilledSlots();
    HashSi("Сидук", Filled.size);
    PassSidukFilled();
    GetPast(Filled, "Сидук", "Андрей", 3, 5);
  }

  lemma GetSikno()
    ensures Get(Filled, "Сикно") == Returns(Some(Found("Сикно", "Андрей")))
  {
    FilledSlots();
    HashSi("Сикно", Filled.size);
    PassSiknoFilled();
    GetPast(Filled, "Сикно", "Андрей", 3, 6);
  }

  /** Deleting 'Сидоров' empties slot 3. */
  lemma DeleteSidorov()
    ensures Delete(Filled, "Сидоров") == Returns((Emptied, true))
  {
    HashSi("Сидоров", Filled.size);
    DeleteHere(Filled, "Сидоров", "Сергей", 3);
  }

  /** `get` then reports 'Сидоров' missing. */
  lemma GetDeleted()
    ensures Get(Emptied, "Сидоров") == Returns(Some(NotFound))
  {
    HashSi("Сидоров", Emptied.size);
    GetHole(Emptied, "Сидоров", 3);
  }

  /** Setting 'Сидоров' again refills slot 3. */
  lemma SetAgain()
    ensures Set(Emptied, "Сидоров", "Сергей") == Returns(Refilled)
  {
    HashSi("Сидоров", Emptied.size);
    SetPast(Emptied, "Сидоров", "Сергей", 3, 3);
  }

  /** The update of 'Вяткин' rewrites slot 18. */
  lemma UpdateVyatkin()
    ensures Update(Refilled, "Вяткин", "Саня") == Returns((Renamed, true))
  {
    RefilledVyatkin();
    HashVyatkin(Refilled.size);
    UpdateHere(Refilled, "Вяткин", "Саня", 18);
  }

  /** Slot 18 still holds 'Вяткин' when the script updates it. */
  lemma RefilledVyatkin()
    ensures Refilled.size == 20 && 18 in Refilled.slots
    ensures Refilled.slots[18] == Live(Entry("Вяткин", "Иван"))
  {
  }

  /** The table the script leaves. */
  lemma RenamedSlots()
    ensures Renamed.size == 20
    ensures Renamed.slots == map[18 := Live(Entry("Вяткин", "Саня")), 4 := Live(Entry("Третьяк", "Петр")),
                                 3 := Live(Entry("Сидоров", "Сергей")), 5 := Live(Entry("Сидук", "Андрей")),
                                 6 := Live(Entry("Сикно", "Андрей"))]
  {
  }

  /** The five `set` calls at the start of the script. */
  function FillScript(): (t: Table)
    ensures t == Filled
  {
    SetVyatkin();
    SetTretyak();
    SetSidorov();
    SetSiduk();
    SetSikno();
    var t1 := Set(New(20), "Вяткин", "Иван").value;
    var t2 := Set(t1, "Третьяк", "Петр").value;
    var t3 := Set(t2, "Сидоров", "Сергей").value;
    var t4 := Set(t3, "Сидук", "Андрей").value;
    Set(t4, "Сикно", "Андрей").value
  }

  /** The found messages for the five entries, in the order they were
      set. */
  const FoundLogs: seq<Option<string>> :=
    [Some(Found("Вяткин", "Иван")), Some(Found("Третьяк", "Петр")),
     Some(Found("Сидоров", "Сергей")), Some(Found("Сидук", "Андрей")),
     Some(Found("Сикно", "Андрей"))]

  /** What the script's five `get` calls print on the filled table. */
  function LookupScript(t: Table): (logs: seq<Option<string>>)
    requires t == Filled
    ensures logs == FoundLogs
  {
    GetVyatkin();
    GetTretyak();
    GetSidorov();
    GetSiduk();
    GetSikno();
    [Get(t, "Вяткин").value, Get(t, "Третьяк").value, Get(t, "Сидоров").value,
     Get(t, "Сидук").value, Get(t, "Сикно").value]
  }

  /** The rest of the script: delete 'Сидоров', print `get('Сидоров')`,
      set it again, update 'Вяткин'. */
  function ChangeScript(t: Table): (out: (Option<string>, Table))
    requires t == Filled
    ensures out == (Some(NotFound), Renamed)
  {
    DeleteSidorov();
    GetDeleted();
    SetAgain();
    UpdateVyatkin();
    var t6 := Delete(t, "Сидоров").value.0;
    var missing := Get(t6, "Сидоров").value;
    var t7 := Set(t6, "Сидоров", "Сергей").value;
    (missing, Update(t7, "Вяткин", "Саня").value.0)
  }

  /** The script: what its six `console.log` lines print and the table it
      leaves. */
  function Script(): (out: (seq<Option<string>>, Table))
    ensures out.0 == FoundLogs + [Some(NotFound)]
    ensures out.1 == Renamed
  {
    var t := FillScript();
    var rest := ChangeScript(t);
    (LookupScript(t) + [rest.0], rest.1)
  }

  /** The unit tests' table, holding 'Третьяк' alone. */
  const Lone: Table := Table(20, map[4 := Live(Entry("Третьяк", "Петр"))])

  /** The unit tests: `set('Третьяк', 'Петр')` on a fresh table fills slot
      4, `get('Третьяк')` finds it, and `delete('Сидор')` and
      `update('Вяткин', 'Саня')` find nothing and leave the table as it
      was. */
  lemma UnitSet()
    ensures Set(New(20), "Третьяк", "Петр") == Returns(Lone)
  {
    HashTretyak(20);
    SetPast(New(20), "Третьяк", "Петр", 4, 4);
  }

  lemma UnitGet()
    ensures Get(Lone, "Третьяк") == Returns(Some("Искомый элемент: Третьяк Петр"))
  {
    HashTretyak(Lone.size);
    GetPast(Lone, "Третьяк", "Петр", 4, 4);
    UnitMessage();
  }

  /** The found message for 'Третьяк', spelled out. */
  lemma UnitMessage()
    ensures Found("Третьяк", "Петр") == "Искомый элемент: Третьяк Петр"
  {
  }

  lemma UnitDelete()
    ensures Delete(Lone, "Сидор") == Returns((Lone, false))
  {
    HashSi("Сидор", Lone.size);
    ChangeHole(Lone, "Сидор", "", 3);
  }

  lemma UnitUpdate()
    ensures Update(Lone, "Вяткин", "Саня") == Returns((Lone, false))
  {
    HashVyatkin(Lone.size);
    ChangeHole(Lone, "Вяткин", "Саня", 18);
  }

  /** `delete` as written: with 'Сидоров' in slot 3 and 'Сидук', which
      hashes to 3 as well, moved on to slot 4, `get('Сидук')` finds it;
      deleting 'Сидоров' leaves a hole at 3, and `get('Сидук')` then stops
      there and reports the stored key missing. */
  lemma DeleteLosesEntry()
    ensures Set(Single, "Сидук", "Андрей") == Returns(Pair)
    ensures Get(Pair, "Сидук") == Returns(Some(Found("Сидук", "Андрей")))
    ensures Delete(Pair, "Сидоров") == Returns((Orphan, true))
    ensures Holds(Orphan, "Сидук", "Андрей") && Get(Orphan, "Сидук") == Returns(Some(NotFound))
  {
    PairBuilt();
    PairFinds();
    PairDelete();
    OrphanLost();
  }

  lemma PairBuilt()
    ensures Set(Single, "Сидук", "Андрей") == Returns(Pair)
  {
    HashSi("Сидук", Single.size);
    PassPair();
    SetPast(Single, "Сидук", "Андрей", 3, 4);
  }

  lemma PairFinds()
    ensures Get(Pair, "Сидук") == Returns(Some(Found("Сидук", "Андрей")))
  {
    HashSi("Сидук", Pair.size);
    PassPair();
    GetPast(Pair, "Сидук", "Андрей", 3, 4);
  }

  /** 'Сидук' passes slot 3, which holds 'Сидоров', and slot 4 holds it
      in the pair. */
  lemma PassPair()
    ensures Single.size == 20 && Pair.size == 20
    ensures !Stops(Single, "Сидук", 3) && !Stops(Pair, "Сидук", 3)
    ensures 4 in Pair.slots && Pair.slots[4] == Live(Entry("Сидук", "Андрей"))
  {
  }

  lemma PairDelete()
    ensures Delete(Pair, "Сидоров") == Returns((Orphan, true))
  {
    HashSi("Сидоров", Pair.size);
    DeleteHere(Pair, "Сидоров", "Сергей", 3);
  }

  lemma OrphanLost()
    ensures Holds(Orphan, "Сидук", "Андрей") && Get(Orphan, "Сидук") == Returns(Some(NotFound))
  {
    HashSi("Сидук", Orphan.size);
    GetHole(Orphan, "Сидук", 3);
    assert Orphan.slots[4] == Live(Entry("Сидук", "Андрей"));
  }

  /** 'Сидук' alone in slot 4, past the hole at its hash. */
  const Orphan: Table := Pair.(slots := Pair.slots - {3})

  /** 'Сидоров' in slot 3, 'Сидук' in slot 4. */
  const Single: Table := Table(20, map[3 := Live(Entry("Сидоров", "Сергей"))])
  const Pair: Table := Table(20, Single.slots[4 := Live(Entry("Сидук", "Андрей"))])
}

=== FILE: js_text.dfy ===
/** The few JavaScript string operations the lab scripts lean on:
    `split` on one character, `join`, `trim`, `slice`, `toUpperCase`
    on single characters, and `toString` of a natural number. */
module JsText {

  // ---------------------------------------------------------------------
  // Characters

  /** White space as JavaScript's `trim` and `parseInt` see it (the
      WhiteSpace and LineTerminator characters). */
  predicate IsJsSpace(c: char)
  {
    var n := c as int;
    (9 <= n <= 13) || n == 32 || n == 0xA0 || n == 0x1680 || (0x2000 <= n <= 0x200A)
    || n == 0x2028 || n == 0x2029 || n == 0x202F || n == 0x205F || n == 0x3000 || n == 0xFEFF
  }

  predicate IsAsciiLetter(c: char)
  {
    ('a' <= c <= 'z') || ('A' <= c <= 'Z')
  }

  /** `toUpperCase` on one character, for Latin and Cyrillic letters:
      'a'..'z', 'а'..'я' and 'ѐ'..'џ' (which holds 'ё') map to their
      capitals, everything else to itself. */
  function Upper(c: char): (u: char)
    ensures 'a' <= c <= 'z' ==> u as int == c as int - 32
    ensures 'A' <= c <= 'Z' ==> u == c
    ensures c == 'ё' ==> u == 'Ё'
  {
    var n := c as int;
    if 'a' <= c <= 'z' || 0x430 <= n <= 0x44F then (n - 32) as char
    else if 0x450 <= n <= 0x45F then (n - 80) as char
    else c
  }

  /** Capitals are their own capitals. */
  lemma UpperIdempotent(c: char)
    ensures Upper(Upper(c)) == Upper(c)
  {
  }

  /** `toUpperCase` on a string, character by character. */
  function UpperAll(s: string): (r: string)
    ensures |r| == |s| && forall k :: 0 <= k < |s| ==> r[k] == Upper(s[k])
  {
    seq(|s|, k requires 0 <= k < |s| => Upper(s[k]))
  }

  // ---------------------------------------------------------------------
  // Numbers as text

  /** `n.toString()` for a natural number. */
  function Decimal(n: nat): (s: string)
    ensures |s| > 0
    ensures forall k :: 0 <= k < |s| ==> '0' <= s[k] <= '9'
  {
    if n < 10 then ["0123456789"[n]] else Decimal(n / 10) + ["0123456789"[n % 10]]
  }

  /** The number a string of decimal digits denotes. */
  function DecimalValue(s: string): int
  {
    if |s| == 0 then 0 else 10 * DecimalValue(s[..|s| - 1]) + (s[|s| - 1] as int - '0' as int)
  }

  /** Reading a decimal back gives the number. */
  lemma {:induction false} DecimalRoundTrip(n: nat)
    ensures DecimalValue(Decimal(n)) == n
  {
    if n >= 10 {
      DecimalRoundTrip(n / 10);
      var s := Decimal(n);
      assert s[..|s| - 1] == Decimal(n / 10);
    }
  }

  // ---------------------------------------------------------------------
  // join and split

  /** `ss.join(sep)`: the strings with a separator between neighbours. */
  function Join(ss: seq<string>, sep: string): string
  {
    if |ss| == 0 then "" else if |ss| == 1 then ss[0] else ss[0] + sep + Join(ss[1..], sep)
  }

  /** Four texts joined by a separator. */
  lemma JoinFour(ss: seq<string>, sep: string)
    requires |ss| == 4
    ensures Join(ss, sep) == ss[0] + sep + ss[1] + sep + ss[2] + sep + ss[3]
  {
    assert ss[1..][1..][1..] == [ss[3]];
    assert Join(ss[1..][1..], sep) == ss[2] + sep + ss[3];
    assert Join(ss[1..], sep) == ss[1] + sep + (ss[2] + sep + ss[3]);
  }

  /** `s.split(c)` for a one-character separator: the pieces between the
      separators, one more than there are separators, none holding the
      separator, and joined back with it they give `s`. */
  function SplitOn(s: string, c: char): (parts: seq<string>)
    ensures |parts| >= 1
    ensures forall k :: 0 <= k < |parts| ==> c !in parts[k]
    ensures Join(parts, [c]) == s
  {
    if |s| == 0 then [""]
    else
      var rest := SplitOn(s[1..], c);
      if s[0] == c then
        assert Join([""] + rest, [c]) == [c] + Join(rest, [c]);
        [""] + rest
      else
        var parts := [[s[0]] + rest[0]] + rest[1..];
        assert parts[1..] == rest[1..];
        assert s == [s[0]] + s[1..];
        parts
  }

  /** The split is the only way to cut `s` into separator-free pieces
      that join back to it. */
  lemma {:induction false} SplitUnique(s: string, c: char, parts: seq<string>)
    requires |parts| >= 1
    requires forall k :: 0 <= k < |parts| ==> c !in parts[k]
    requires Join(parts, [c]) == s
    ensures parts == SplitOn(s, c)
    decreases |s|, |parts[0]|
  {
    if |s| == 0 {
      assert parts == [""];
    } else if |parts[0]| == 0 {
      assert s == [c] + Join(parts[1..], [c]);
      assert s[1..] == Join(parts[1..], [c]);
      SplitUnique(s[1..], c, parts[1..]);
      assert s[0] == c;
    } else {
      var q := [parts[0][1..]] + parts[1..];
      assert parts[0] == [parts[0][0]] + parts[0][1..];
      assert forall k :: 0 <= k < |q| ==> c !in q[k] by {
        forall k | 0 <= k < |q|
          ensures c !in q[k]
        {
          if k == 0 {
            assert forall x :: x in parts[0][1..] ==> x in parts[0];
          } else {
            assert q[k] == parts[k];
          }
        }
      }
      JoinHead(parts, q, c);
      SplitUnique(s[1..], c, q);
      assert s[0] == parts[0][0] && s[0] != c;
      assert parts == [[s[0]] + q[0]] + q[1..];
    }
  }

  /** A character in no piece and not in the separator is not in the
      join. */
  lemma {:induction false} JoinAvoids(ss: seq<string>, sep: string, c: char)
    requires c !in sep && forall k :: 0 <= k < |ss| ==> c !in ss[k]
    ensures c !in Join(ss, sep)
  {
    if |ss| > 1 {
      JoinAvoids(ss[1..], sep, c);
    }
  }

  /** Dropping the first character of the first piece drops the first
      character of the join. */
  lemma JoinHead(parts: seq<string>, q: seq<string>, c: char)
    requires |parts| >= 1 && |parts[0]| >= 1 && q == [parts[0][1..]] + parts[1..]
    ensures |Join(parts, [c])| >= 1
    ensures Join(parts, [c]) == [parts[0][0]] + Join(q, [c])
  {
    if |parts| > 1 {
      assert q[1..] == parts[1..];
    }
  }

  // ---------------------------------------------------------------------
  // Building strings piece by piece

  /** Each string after a separator, as `forEach` loops that start every
      piece with the separator build them. */
  function Prefixed(ss: seq<string>, sep: string): (r: string)
    ensures |ss| > 0 ==> |r| >= |sep| && r[..|sep|] == sep
  {
    if |ss| == 0 then "" else sep + ss[0] + Prefixed(ss[1..], sep)
  }

  /** Slicing the leading separator off leaves the pieces joined. */
  lemma {:induction false} PrefixedJoin(ss: seq<string>, sep: string)
    ensures |ss| > 0 ==> Prefixed(ss, sep)[|sep|..] == Join(ss, sep)
    ensures |ss| == 0 ==> Prefixed(ss, sep) == ""
  {
    if |ss| > 1 {
      PrefixedJoin(ss[1..], sep);
      var p := Prefixed(ss[1..], sep);
      assert p == sep + p[|sep|..];
      assert Prefixed(ss, sep)[|sep|..] == ss[0] + p;
    }
  }

  /** Each string followed by a separator, as a `reduce` that appends
      every piece and then the separator builds them. */
  function Suffixed(ss: seq<string>, sep: string): string
  {
    if |ss| == 0 then "" else ss[0] + sep + Suffixed(ss[1..], sep)
  }

  /** What the `reduce` builds is the join with one separator more. */
  lemma {:induction false} SuffixedJoin(ss: seq<string>, sep: string)
    ensures |ss| > 0 ==> Suffixed(ss, sep) == Join(ss, sep) + sep
    ensures |ss| == 0 ==> Suffixed(ss, sep) == ""
  {
    if |ss| > 1 {
      SuffixedJoin(ss[1..], sep);
    }
  }

  // ---------------------------------------------------------------------
  // slice and trim

  /** `s.slice(k)` for k >= 0. */
  function SliceFrom(s: string, k: nat): string
  {
    if k <= |s| then s[k..] else ""
  }

  /** `s.slice(0, -k)` for k > 0: all but the last k characters. */
  function DropLast(s: string, k: nat): (r: string)
    ensures |s| >= k ==> r == s[..|s| - k]
    ensures |s| < k ==> r == ""
  {
    if |s| >= k then s[..|s| - k] else ""
  }

  /** `s.slice(-k)` for k > 0: the last k characters, or all of a shorter
      string. */
  function TakeLast(s: string, k: nat): (r: string)
    ensures |r| == if |s| < k then |s| else k
    ensures r == s[|s| - |r|..]
  {
    if |s| >= k then s[|s| - k..] else s
  }

  /** The number of white-space characters `s` starts with. */
  function LeadingSpaces(s: string): (n: nat)
    ensures n <= |s|
    ensures forall k :: 0 <= k < n ==> IsJsSpace(s[k])
    ensures n < |s| ==> !IsJsSpace(s[n])
  {
    if |s| > 0 && IsJsSpace(s[0]) then 1 + LeadingSpaces(s[1..]) else 0
  }

  /** The number of white-space characters `s` ends with. */
  function TrailingSpaces(s: string): (n: nat)
    ensures n <= |s|
    ensures forall k :: |s| - n <= k < |s| ==> IsJsSpace(s[k])
    ensures n < |s| ==> !IsJsSpace(s[|s| - 1 - n])
  {
    if |s| > 0 && IsJsSpace(s[|s| - 1]) then 1 + TrailingSpaces(s[..|s| - 1]) else 0
  }

  /** `s.trim()`: the part of `s` between its leading and trailing white
      space; it neither starts nor ends with white space. */
  function Trim(s: string): (r: string)
    ensures LeadingSpaces(s) + |r| <= |s|
    ensures r == s[LeadingSpaces(s)..LeadingSpaces(s) + |r|]
    ensures forall k :: LeadingSpaces(s) + |r| <= k < |s| ==> IsJsSpace(s[k])
    ensures |r| > 0 ==> !IsJsSpace(r[0]) && !IsJsSpace(r[|r| - 1])
  {
    var i := LeadingSpaces(s);
    var t := s[i..];
    var j := TrailingSpaces(t);
    assert forall k :: i + |t| - j <= k < |s| ==> s[k] == t[k - i];
    var r := t[..|t| - j];
    assert r == s[i..i + |r|];
    r
  }
}

=== FILE: line_editor.dfy ===
/** The Bresenham tool of the line editor (`SimpleEditor.bresenham` in
    giis/1/lab1.py). Its loop is the loop of `bresenham_line`, modelled
    once in `Bresenham.Line`; debug mode first moves both end points onto
    the 10-pixel grid. */
module LineEditor {
  import opened Bresenham

  /** `grid_step`: the size of a grid cell in debug mode. */
  const GridStep: int := 10

  /** Python's `//` for a positive divisor: the quotient rounded down. */
  function FloorDiv(a: int, b: int): (q: int)
    requires b > 0
    ensures b * q <= a < b * q + b
  {
    a / b
  }

  /** The grid cell holding a canvas position. */
  function Cell(p: Point): (c: Point)
    ensures GridStep * c.x <= p.x < GridStep * c.x + GridStep
    ensures GridStep * c.y <= p.y < GridStep * c.y + GridStep
  {
    Point(FloorDiv(p.x, GridStep), FloorDiv(p.y, GridStep))
  }

  /** The points `bresenham` passes to `putpixel`, in order: grid cells in
      debug mode, canvas pixels otherwise. The sequence starts at the first
      end point, ends at the second and reaches it nowhere earlier (the
      loop exits exactly there), every step moves each axis by nothing or
      one unit towards the end and never stands still, and no point is
      plotted twice. */
  function Plotted(a: Point, b: Point, debug: bool): (r: seq<Point>)
    ensures var s, e := if debug then Cell(a) else a, if debug then Cell(b) else b;
            && |r| >= 1 && r[0] == s && r[|r| - 1] == e
            && (forall k :: 0 <= k < |r| - 1 ==> r[k] != e)
            && (forall k :: 0 <= k < |r| - 1 ==> UnitStep(s.x, s.y, e.x, e.y, r[k], r[k + 1]))
            && (forall k, l :: 0 <= k < l < |r| ==> r[k] != r[l])
  {
    var s, e := if debug then Cell(a) else a, if debug then Cell(b) else b;
    LineShape(s.x, s.y, e.x, e.y);
    Line(s.x, s.y, e.x, e.y)
  }

  /** Debug mode draws the line between the grid cells of the end points:
      points in the same cell give a single plotted cell. */
  lemma SameCellSinglePoint(a: Point, b: Point)
    requires Cell(a) == Cell(b)
    ensures Plotted(a, b, true) == [Cell(a)]
  {
  }
}

=== FILE: matrix16.dfy ===
/** The `Matrix16` class of aois_lab_7/lab7.js: a 16 x 16 table of numbers
    read by columns and by diagonals that wrap around to row 0, searched for
    the first column that starts with given entries, rewritten a column at
    a time by the logical functions f0, f5, f10 and f15, and summed field
    by field. The object's array is modelled as a value: every operation
    that writes to it returns the new rows. */
module Matrix16 {
  import opened Outcomes
  import opened JsText
  import opened BinaryCodes
  import opened Arithmetic

  /** The rows of the matrix, each a list of numbers. */
  type Grid = seq<seq<int>>

  const SizeError := "Matrix must be 16x16"
  const IndexError := "Index must be between 0 and 15"

  /** The TypeError `sum` raises when `findColumn` gives `null`. */
  const NullError := "Cannot read properties of null (reading 'arr')"

  /** Sixteen rows of sixteen entries. */
  predicate Square(g: Grid)
  {
    |g| == 16 && forall r :: 0 <= r < 16 ==> |g[r]| == 16
  }

  /** Every entry is 0 or 1. */
  predicate Binary(g: Grid)
    requires Square(g)
  {
    forall r, c :: 0 <= r < 16 && 0 <= c < 16 ==> g[r][c] == 0 || g[r][c] == 1
  }

  // ---------------------------------------------------------------------
  // The constructor

  /** The constructor as written: it throws when the row count is not 16
      or when every row has a length other than 16. */
  function CreateAsWritten(g: Grid): (r: Result<Grid>)
    ensures r.Ok? ==> r.value == g && |g| == 16
    ensures r.Err? ==> r.msg == SizeError
  {
    if |g| != 16 || forall k :: 0 <= k < |g| ==> |g[k]| != 16 then Err(SizeError) else Ok(g)
  }

  /** Sixteen rows, the first of sixteen entries and the others of two. */
  const Ragged: Grid := seq(16, k => if k == 0 then seq(16, _ => 0) else [0, 0])

  /** The check as written lets through a matrix that is not 16 x 16: one
      full row is enough. */
  lemma RaggedAccepted()
    ensures CreateAsWritten(Ragged) == Ok(Ragged) && !Square(Ragged)
  {
    assert |Ragged[0]| == 16;
    assert |Ragged[1]| == 2;
  }

  /** The constructor with the check the message states: every row must
      have sixteen entries. */
  function Create(g: Grid): (r: Result<Grid>)
    ensures r.Ok? <==> Square(g)
    ensures r.Ok? ==> r.value == g
    ensures r.Err? ==> r.msg == SizeError
  {
    if |g| != 16 || exists k :: 0 <= k < |g| && |g[k]| != 16 then Err(SizeError) else Ok(g)
  }

  /** The corrected check rejects whatever the written one rejects, and
      the two agree on every square matrix. */
  lemma CreateRefines(g: Grid)
    ensures CreateAsWritten(g).Err? ==> Create(g).Err?
    ensures Square(g) ==> CreateAsWritten(g) == Create(g)
  {
    if CreateAsWritten(g).Err? && |g| == 16 {
      assert |g[0]| != 16;
    }
    if Square(g) {
      assert |g[0]| == 16;
    }
  }

  /** The unit test: a 2 x 2 matrix is refused by both checks. */
  lemma CreateSmall()
    ensures CreateAsWritten([[1, 2], [3, 4]]) == Err(SizeError)
    ensures Create([[1, 2], [3, 4]]) == Err(SizeError)
  {
  }

  // ---------------------------------------------------------------------
  // Reading columns and diagonals

  /** Column c from top to bottom. */
  function Column(g: Grid, c: int): (col: seq<int>)
    requires Square(g) && 0 <= c < 16
    ensures |col| == 16 && forall j :: 0 <= j < 16 ==> col[j] == g[j][c]
  {
    seq(16, j requires 0 <= j < 16 => g[j][c])
  }

  /** Column i read from row i down and then from row 0. */
  function ColumnFrom(g: Grid, i: int): seq<int>
    requires Square(g) && 0 <= i < 16
  {
    seq(16, k requires 0 <= k < 16 => g[(i + k) % 16][i])
  }

  /** The diagonal from row i, column 0: entry k sits in column k and in
      row i + k, wrapping to row 0 past the bottom. */
  function DiagonalFrom(g: Grid, i: int): seq<int>
    requires Square(g) && 0 <= i < 16
  {
    seq(16, k requires 0 <= k < 16 => g[(i + k) % 16][k])
  }

  /** `readColumn(index)`: an index outside 0..15 throws; otherwise the
      first loop reads rows index..15 and the second rows 0..index-1 of
      the column. */
  method ReadColumn(g: Grid, index: int) returns (r: Result<seq<int>>)
    requires Square(g)
    ensures r.Err? <==> index < 0 || index >= 16
    ensures r.Err? ==> r.msg == IndexError
    ensures r.Ok? ==> |r.value| == 16
    ensures r.Ok? ==> forall k :: 0 <= k < 16 ==> r.value[k] == g[(index + k) % 16][index]
  {
    if index < 0 || index >= 16 {
      return Err(IndexError);
    }
    var result: seq<int> := [];
    var row := index;
    while row < 16
      invariant index <= row <= 16 && |result| == row - index
      invariant forall k :: 0 <= k < |result| ==> result[k] == g[index + k][index]
    {
      result := result + [g[row][index]];
      row := row + 1;
    }
    row := 0;
    while row < index
      invariant 0 <= row <= index && |result| == 16 - index + row
      invariant forall k :: 0 <= k < 16 - index ==> result[k] == g[index + k][index]
      invariant forall k :: 0 <= k < row ==> result[16 - index + k] == g[k][index]
    {
      result := result + [g[row][index]];
      row := row + 1;
    }
    forall k | 0 <= k < 16
      ensures result[k] == g[(index + k) % 16][index]
    {
      if k < 16 - index {
        assert (index + k) % 16 == index + k;
      } else {
        assert (index + k) % 16 == k - (16 - index);
      }
    }
    return Ok(result);
  }

  /** `readDiagonal(index)`: an index outside 0..15 throws; otherwise the
      first loop walks from row index, column 0 down to the last row, and
      the second from row 0, column 16 - index to the last column. */
  method ReadDiagonal(g: Grid, index: int) returns (r: Result<seq<int>>)
    requires Square(g)
    ensures r.Err? <==> index < 0 || index >= 16
    ensures r.Err? ==> r.msg == IndexError
    ensures r.Ok? ==> |r.value| == 16
    ensures r.Ok? ==> forall k :: 0 <= k < 16 ==> r.value[k] == g[(index + k) % 16][k]
  {
    if index < 0 || index >= 16 {
      return Err(IndexError);
    }
    var result: seq<int> := [];
    var row := index;
    var col := 0;
    while row < 16
      invariant index <= row <= 16 && col == row - index && |result| == col
      invariant forall k :: 0 <= k < |result| ==> result[k] == g[index + k][k]
    {
      result := result + [g[row][col]];
      row := row + 1;
      col := col + 1;
    }
    row := 0;
    col := 16 - index;
    while col < 16
      invariant 16 - index <= col <= 16 && row == col - (16 - index) && |result| == col
      invariant forall k :: 0 <= k < 16 - index ==> result[k] == g[index + k][k]
      invariant forall k :: 16 - index <= k < col ==> result[k] == g[k - (16 - index)][k]
    {
      result := result + [g[row][col]];
      row := row + 1;
      col := col + 1;
    }
    forall k | 0 <= k < 16
      ensures result[k] == g[(index + k) % 16][k]
    {
      if k < 16 - index {
        assert (index + k) % 16 == index + k;
      } else {
        assert (index + k) % 16 == k - (16 - index);
      }
    }
    return Ok(result);
  }

  /** The column read from row i is the column turned round by i: putting
      its last i entries first gives the column from the top. */
  lemma ColumnFromRotates(g: Grid, i: int)
    requires Square(g) && 0 <= i < 16
    ensures ColumnFrom(g, i)[16 - i..] + ColumnFrom(g, i)[..16 - i] == Column(g, i)
  {
    var s := ColumnFrom(g, i);
    forall j | 0 <= j < 16
      ensures (s[16 - i..] + s[..16 - i])[j] == g[j][i]
    {
      if j < i {
        assert (i + (16 - i + j)) % 16 == j;
      } else {
        assert (i + (j - i)) % 16 == j;
      }
    }
  }

  /** Every entry lies on exactly one diagonal: entry (r, c) is entry c of
      diagonal (r - c) mod 16, and of no other. */
  lemma DiagonalsCover(g: Grid, r: int, c: int, i: int)
    requires Square(g) && 0 <= r < 16 && 0 <= c < 16 && 0 <= i < 16
    ensures (i + c) % 16 == r <==> i == (r - c + 16) % 16
    ensures i == (r - c + 16) % 16 ==> DiagonalFrom(g, i)[c] == g[r][c]
  {
    if (i + c) % 16 == r {
      if i + c < 16 {
        assert r - c + 16 == i + 16;
      } else {
        assert r - c + 16 == i;
      }
    }
  }

  // ---------------------------------------------------------------------
  // findColumn

  /** Column c equals `arr` on the entries `arr` has (the first sixteen
      when it is longer). */
  predicate Matches(g: Grid, arr: seq<int>, c: int)
    requires Square(g) && 0 <= c < 16
  {
    forall j :: 0 <= j < 16 && j < |arr| ==> g[j][c] == arr[j]
  }

  /** The inner loop of `findColumn` on column i from row j: a mismatch
      empties the result and breaks, every other row appends its entry.
      Past the end of `arr` its entry is `undefined` and never counts as a
      mismatch. */
  function Inner(g: Grid, arr: seq<int>, i: int, j: nat, result: seq<int>): seq<int>
    requires Square(g) && 0 <= i < 16 && j <= 16
    decreases 16 - j
  {
    if j == 16 then result
    else if j < |arr| && g[j][i] != arr[j] then []
    else Inner(g, arr, i, j + 1, result + [g[j][i]])
  }

  /** Started empty, the inner loop gives the column when it matches and
      nothing otherwise. */
  lemma InnerResult(g: Grid, arr: seq<int>, i: int)
    requires Square(g) && 0 <= i < 16
    ensures Inner(g, arr, i, 0, []) == if Matches(g, arr, i) then Column(g, i) else []
  {
    InnerFrom(g, arr, i, 0);
  }

  lemma {:induction false} InnerFrom(g: Grid, arr: seq<int>, i: int, j: nat)
    requires Square(g) && 0 <= i < 16 && j <= 16
    ensures Inner(g, arr, i, j, Column(g, i)[..j]) ==
              if forall k :: j <= k < 16 && k < |arr| ==> g[k][i] == arr[k] then Column(g, i) else []
    decreases 16 - j
  {
    if j < 16 && !(j < |arr| && g[j][i] != arr[j]) {
      assert Column(g, i)[..j] + [g[j][i]] == Column(g, i)[..j + 1];
      InnerFrom(g, arr, i, j + 1);
    }
  }

  /** The outer loop of `findColumn` from column i: the length test at the
      top of each iteration returns the previous column once it has
      matched; past column 15 the loop ends with `null`. */
  function Outer(g: Grid, arr: seq<int>, i: nat, result: seq<int>): Option<(seq<int>, int)>
    requires Square(g) && i <= 16
    decreases 16 - i
  {
    if i == 16 then None
    else if |result| == 16 then Some((result, i - 1))
    else Outer(g, arr, i + 1, Inner(g, arr, i, 0, result))
  }

  /** `findColumn(arr)` as written. */
  function FindColumnAsWritten(g: Grid, arr: seq<int>): Option<(seq<int>, int)>
    requires Square(g)
  {
    Outer(g, arr, 0, [])
  }

  /** The loop with the length test after the inner loop, so that a match
      in the last column is returned too. */
  function OuterFixed(g: Grid, arr: seq<int>, i: nat, result: seq<int>): Option<(seq<int>, int)>
    requires Square(g) && i <= 16
    decreases 16 - i
  {
    if |result| == 16 then Some((result, i - 1))
    else if i == 16 then None
    else OuterFixed(g, arr, i + 1, Inner(g, arr, i, 0, result))
  }

  /** `findColumn(arr)` as intended: the first column that matches, with
      its index. */
  function FindColumn(g: Grid, arr: seq<int>): Option<(seq<int>, int)>
    requires Square(g)
  {
    OuterFixed(g, arr, 0, [])
  }

  /** The first matching column among the first n. */
  predicate FirstMatch(g: Grid, arr: seq<int>, c: int, n: int)
    requires Square(g)
  {
    0 <= c < n <= 16 && Matches(g, arr, c) && forall d :: 0 <= d < c ==> !Matches(g, arr, d)
  }

  lemma {:induction false} OuterSearch(g: Grid, arr: seq<int>, i: nat)
    requires Square(g) && i <= 16
    requires forall d :: 0 <= d < i - 1 ==> !Matches(g, arr, d)
    ensures var result := if i == 0 || !Matches(g, arr, i - 1) then [] else Column(g, i - 1);
            var r := Outer(g, arr, i, result);
            && (r.Some? ==> FirstMatch(g, arr, r.value.1, 15) && r.value.0 == Column(g, r.value.1))
            && (r.None? ==> forall d :: 0 <= d < 15 ==> !Matches(g, arr, d))
    decreases 16 - i
  {
    var result := if i == 0 || !Matches(g, arr, i - 1) then [] else Column(g, i - 1);
    if i < 16 && |result| != 16 {
      InnerResult(g, arr, i);
      OuterSearch(g, arr, i + 1);
    }
  }

  lemma {:induction false} OuterFixedSearch(g: Grid, arr: seq<int>, i: nat)
    requires Square(g) && i <= 16
    requires forall d :: 0 <= d < i - 1 ==> !Matches(g, arr, d)
    ensures var result := if i == 0 || !Matches(g, arr, i - 1) then [] else Column(g, i - 1);
            var r := OuterFixed(g, arr, i, result);
            && (r.Some? ==> FirstMatch(g, arr, r.value.1, 16) && r.value.0 == Column(g, r.value.1))
            && (r.None? ==> forall d :: 0 <= d < 16 ==> !Matches(g, arr, d))
    decreases 16 - i
  {
    var result := if i == 0 || !Matches(g, arr, i - 1) then [] else Column(g, i - 1);
    if |result| != 16 && i < 16 {
      InnerResult(g, arr, i);
      OuterFixedSearch(g, arr, i + 1);
    }
  }

  /** As written, `findColumn` gives the first matching column among
      columns 0 to 14 and `null` when none of those matches. */
  lemma FindColumnAsWrittenFirst(g: Grid, arr: seq<int>)
    requires Square(g)
    ensures FindColumnAsWritten(g, arr).Some? ==>
              FirstMatch(g, arr, FindColumnAsWritten(g, arr).value.1, 15)
              && FindColumnAsWritten(g, arr).value.0 == Column(g, FindColumnAsWritten(g, arr).value.1)
    ensures FindColumnAsWritten(g, arr).None? <==> forall d :: 0 <= d < 15 ==> !Matches(g, arr, d)
  {
    OuterSearch(g, arr, 0);
    if FindColumnAsWritten(g, arr).Some? {
      var c := FindColumnAsWritten(g, arr).value.1;
      assert Matches(g, arr, c);
    }
  }

  /** `findColumn` gives the first matching column and its index, and
      `null` exactly when no column matches. */
  lemma FindColumnFirst(g: Grid, arr: seq<int>)
    requires Square(g)
    ensures FindColumn(g, arr).Some? ==>
              FirstMatch(g, arr, FindColumn(g, arr).value.1, 16)
              && FindColumn(g, arr).value.0 == Column(g, FindColumn(g, arr).value.1)
    ensures FindColumn(g, arr).None? <==> forall d :: 0 <= d < 16 ==> !Matches(g, arr, d)
  {
    OuterFixedSearch(g, arr, 0);
    if FindColumn(g, arr).Some? {
      var c := FindColumn(g, arr).value.1;
      assert Matches(g, arr, c);
    }
  }

  /** The first matching column, when its index is known. */
  lemma FindColumnAt(g: Grid, arr: seq<int>, c: int)
    requires Square(g) && FirstMatch(g, arr, c, 16)
    ensures FindColumn(g, arr) == Some((Column(g, c), c))
  {
    FindColumnFirst(g, arr);
  }

  /** The two versions differ exactly when the only matching column is
      the last one. */
  lemma FindColumnDiffers(g: Grid, arr: seq<int>)
    requires Square(g)
    ensures FindColumnAsWritten(g, arr) != FindColumn(g, arr) <==>
              Matches(g, arr, 15) && forall d :: 0 <= d < 15 ==> !Matches(g, arr, d)
  {
    FindColumnAsWrittenFirst(g, arr);
    FindColumnFirst(g, arr);
    var r, s := FindColumnAsWritten(g, arr), FindColumn(g, arr);
    if r.Some? {
      assert Matches(g, arr, r.value.1);
    }
  }

  /** Zeros everywhere but in the last column, which holds ones. */
  const LastOnly: Grid := seq(16, r => seq(16, c => if c == 15 then 1 else 0))

  /** As written, `findColumn([1])` misses the only column that starts
      with 1, the last one; the corrected loop returns it. */
  lemma FindColumnMissesLast()
    ensures FindColumnAsWritten(LastOnly, [1]) == None
    ensures FindColumn(LastOnly, [1]) == Some((Column(LastOnly, 15), 15))
  {
    assert Square(LastOnly);
    assert Matches(LastOnly, [1], 15);
    forall d | 0 <= d < 15
      ensures !Matches(LastOnly, [1], d)
    {
      assert LastOnly[0][d] == 0;
    }
    FindColumnDiffers(LastOnly, [1]);
    FindColumnAt(LastOnly, [1], 15);
    FindColumnAsWrittenFirst(LastOnly, [1]);
  }

  // ---------------------------------------------------------------------
  // The logical functions f0, f5, f10 and f15

  /** `Number(!x)`: 1 for 0, 0 for every other number. */
  function Not(x: int): (y: int)
    ensures y == 0 || y == 1
    ensures (x == 0 || x == 1) ==> y == 1 - x
  {
    if x == 0 then 1 else 0
  }

  /** Row r of column `index` replaced by col[r], for every row. */
  function WriteColumn(g: Grid, index: int, col: seq<int>): (h: Grid)
    requires Square(g) && 0 <= index < 16 && |col| == 16
    ensures Square(h)
    ensures forall r :: 0 <= r < 16 ==> h[r][index] == col[r]
    ensures forall r, c :: 0 <= r < 16 && 0 <= c < 16 && c != index ==> h[r][c] == g[r][c]
  {
    seq(16, r requires 0 <= r < 16 => g[r][index := col[r]])
  }

  /** `f0(index)`: the column becomes zeros. */
  function F0(g: Grid, index: int): (h: Grid)
    requires Square(g) && 0 <= index < 16
    ensures Square(h) && forall r :: 0 <= r < 16 ==> h[r][index] == 0
    ensures forall r, c :: 0 <= r < 16 && 0 <= c < 16 && c != index ==> h[r][c] == g[r][c]
  {
    WriteColumn(g, index, seq(16, _ => 0))
  }

  /** `f15(index)`: the column becomes ones. */
  function F15(g: Grid, index: int): (h: Grid)
    requires Square(g) && 0 <= index < 16
    ensures Square(h) && forall r :: 0 <= r < 16 ==> h[r][index] == 1
    ensures forall r, c :: 0 <= r < 16 && 0 <= c < 16 && c != index ==> h[r][c] == g[r][c]
  {
    WriteColumn(g, index, seq(16, _ => 1))
  }

  /** `f5(index, col)`: column `col` is copied into column `index`. */
  function F5(g: Grid, index: int, col: int): (h: Grid)
    requires Square(g) && 0 <= index < 16 && 0 <= col < 16
    ensures Square(h) && forall r :: 0 <= r < 16 ==> h[r][index] == g[r][col]
    ensures forall r, c :: 0 <= r < 16 && 0 <= c < 16 && c != index ==> h[r][c] == g[r][c]
  {
    WriteColumn(g, index, Column(g, col))
  }

  /** `f10(index, col)`: the negation of column `col` is written into
      column `index`; each row reads before it writes, so `index == col`
      negates the column in place. */
  function F10(g: Grid, index: int, col: int): (h: Grid)
    requires Square(g) && 0 <= index < 16 && 0 <= col < 16
    ensures Square(h) && forall r :: 0 <= r < 16 ==> h[r][index] == Not(g[r][col])
    ensures forall r, c :: 0 <= r < 16 && 0 <= c < 16 && c != index ==> h[r][c] == g[r][c]
  {
    WriteColumn(g, index, seq(16, r requires 0 <= r < 16 => Not(g[r][col])))
  }

  /** Two grids with the same entries are the same grid. */
  lemma GridsEqual(g: Grid, h: Grid)
    requires Square(g) && Square(h)
    requires forall r, c :: 0 <= r < 16 && 0 <= c < 16 ==> g[r][c] == h[r][c]
    ensures g == h
  {
    forall r | 0 <= r < 16
      ensures g[r] == h[r]
    {
      assert forall c :: 0 <= c < 16 ==> g[r][c] == h[r][c];
    }
  }

  /** The four functions keep a matrix of 0s and 1s one. */
  lemma ColumnFunctionsKeepBinary(g: Grid, index: int, col: int)
    requires Square(g) && Binary(g) && 0 <= index < 16 && 0 <= col < 16
    ensures Binary(F0(g, index)) && Binary(F15(g, index))
    ensures Binary(F5(g, index, col)) && Binary(F10(g, index, col))
  {
  }

  /** Negating a column of 0s and 1s in place twice restores it. */
  lemma NegateTwice(g: Grid, index: int)
    requires Square(g) && Binary(g) && 0 <= index < 16
    ensures F10(F10(g, index, index), index, index) == g
  {
    GridsEqual(F10(F10(g, index, index), index, index), g);
  }

  /** Negating the zero column gives the ones column and the other way
      round. */
  lemma NegateConstants(g: Grid, index: int)
    requires Square(g) && 0 <= index < 16
    ensures F10(F0(g, index), index, index) == F15(g, index)
    ensures F10(F15(g, index), index, index) == F0(g, index)
  {
    GridsEqual(F10(F0(g, index), index, index), F15(g, index));
    GridsEqual(F10(F15(g, index), index, index), F0(g, index));
  }

  /** Setting a column to a constant twice is setting it once, and copying
      a column onto itself changes nothing. */
  lemma ColumnFunctionsSettle(g: Grid, index: int)
    requires Square(g) && 0 <= index < 16
    ensures F0(F0(g, index), index) == F0(g, index)
    ensures F15(F15(g, index), index) == F15(g, index)
    ensures F5(g, index, index) == g
  {
    GridsEqual(F0(F0(g, index), index), F0(g, index));
    GridsEqual(F15(F15(g, index), index), F15(g, index));
    GridsEqual(F5(g, index, index), g);
  }

  // ---------------------------------------------------------------------
  // addBinary and sum

  /** `n.toString(2)`: a minus sign in front of a negative number. */
  function IntText2(n: int): string
  {
    if n < 0 then "-" + ToString2(-n) else ToString2(n)
  }

  /** `n.toString()`. */
  function IntText(n: int): string
  {
    if n < 0 then "-" + Decimal(-n) else Decimal(n)
  }

  /** `xs.join('')` for a list of numbers. */
  function JoinNumbers(xs: seq<int>): string
  {
    Join(Texts(xs), "")
  }

  /** Each number as text. */
  function Texts(xs: seq<int>): (ts: seq<string>)
    ensures |ts| == |xs| && forall k :: 0 <= k < |xs| ==> ts[k] == IntText(xs[k])
  {
    seq(|xs|, k requires 0 <= k < |xs| => IntText(xs[k]))
  }

  /** The digit characters of a list of 0s and 1s (anything but 1 counts
      as 0). */
  function BitText(xs: seq<int>): (s: string)
    ensures |s| == |xs| && IsBits(s)
    ensures forall k :: 0 <= k < |xs| ==> Digit(s[k]) == (if xs[k] == 1 then 1 else 0)
  {
    seq(|xs|, k requires 0 <= k < |xs| => Char(xs[k]))
  }

  /** Joined, 0s and 1s give their digit characters. */
  lemma {:induction false} JoinBits(xs: seq<int>)
    requires forall k :: 0 <= k < |xs| ==> xs[k] == 0 || xs[k] == 1
    ensures JoinNumbers(xs) == BitText(xs)
  {
    if |xs| > 0 {
      assert IntText(xs[0]) == [Char(xs[0])];
    }
    if |xs| > 1 {
      JoinBits(xs[1..]);
      assert Texts(xs)[1..] == Texts(xs[1..]);
      assert BitText(xs) == [Char(xs[0])] + BitText(xs[1..]);
    }
  }

  /** The last k digits of a binary string denote its value modulo 2^k;
      a string shorter than k is its own last k digits. */
  lemma LowDigits(s: string, k: nat)
    requires IsBits(s)
    ensures IsBits(TakeLast(s, k)) && Value(TakeLast(s, k)) == Value(s) % Pow2(k)
  {
    if |s| <= k {
      ValueBound(s);
      PowGrows(|s|, k);
      assert TakeLast(s, k) == s;
      ModUnique(Value(s), Pow2(k), 0, Value(s));
    } else {
      assert TakeLast(s, k) == s[|s| - k..];
      SuffixValue(s, k);
    }
  }

  lemma {:induction false} SuffixValue(s: string, k: nat)
    requires IsBits(s) && k <= |s|
    ensures IsBits(s[|s| - k..]) && Value(s[|s| - k..]) == Value(s) % Pow2(k)
  {
    if k == 0 {
      assert s[|s| - k..] == [];
      ModUnique(Value(s), 1, Value(s), 0);
    } else {
      var n := |s| - 1;
      var t := s[..n];
      assert IsBits(t);
      SuffixValue(t, k - 1);
      assert t[|t| - (k - 1)..] == s[|s| - k..n];
      LastDigit(s, |s| - k);
      LastDigit(s, 0);
      assert s[0..] == s && s[0..n] == t;
      ModDouble(Value(t), Digit(s[n]), Pow2(k - 1), Value(s), Pow2(k));
    }
  }

  /** The digits of s from position i on are twice those up to the last
      one, plus the last one. */
  lemma LastDigit(s: string, i: nat)
    requires IsBits(s) && i < |s|
    ensures IsBits(s[i..])
    ensures Value(s[i..]) == 2 * Value(s[i..|s| - 1]) + Digit(s[|s| - 1])
  {
    var u := s[i..];
    assert u[..|u| - 1] == s[i..|s| - 1] && u[|u| - 1] == s[|s| - 1];
  }

  /** Powers of two grow with the exponent. */
  lemma {:induction false} PowGrows(a: nat, b: nat)
    requires a <= b
    ensures Pow2(a) <= Pow2(b)
    decreases b
  {
    if a < b {
      PowGrows(a, b - 1);
    }
  }

  /** `addBinary(a, b)`: both strings read with `parseInt(_, 2)`, the sum
      written in binary and cut to its last four characters; NaN when
      either string has no leading binary digit. */
  function AddBinary(a: string, b: string): (r: string)
    ensures ParseInt2(a).None? || ParseInt2(b).None? ==> r == "NaN"
  {
    AddParsed(ParseInt2(a), ParseInt2(b))
  }

  /** The rest of `addBinary` once both strings are read. */
  function AddParsed(x: Option<int>, y: Option<int>): (r: string)
    ensures x.None? || y.None? ==> r == "NaN"
  {
    // "NaN".slice(-4) is "NaN" itself
    if x.Some? && y.Some? then Last4(x.value + y.value) else "NaN"
  }

  /** `n.toString(2).slice(-4)`. */
  function Last4(n: int): string
  {
    TakeLast(IntText2(n), 4)
  }

  /** For two strings of binary digits whose values add up to n,
      `addBinary` gives n modulo 16, in four digits once n reaches 8 and
      in fewer below. */
  lemma AddBinaryValue(a: string, b: string, n: int)
    requires IsBits(a) && IsBits(b) && |a| > 0 && |b| > 0 && n == Value(a) + Value(b)
    ensures IsBits(AddBinary(a, b)) && 1 <= |AddBinary(a, b)| <= 4
    ensures Value(AddBinary(a, b)) == n % 16
    ensures n >= 8 ==> |AddBinary(a, b)| == 4
  {
    AddBinaryDigits(a, b, n);
    CutSum(n);
  }

  /** For binary digit strings `addBinary` cuts the binary text of the
      sum. */
  lemma AddBinaryDigits(a: string, b: string, n: int)
    requires IsBits(a) && IsBits(b) && |a| > 0 && |b| > 0 && n == Value(a) + Value(b)
    ensures n >= 0 && AddBinary(a, b) == Last4(n)
  {
    ParsedBits(a);
    ParsedBits(b);
    AddBothRead(ParseInt2(a), ParseInt2(b), n);
  }

  lemma AddBothRead(x: Option<int>, y: Option<int>, n: int)
    requires x.Some? && y.Some? && x.value + y.value == n
    ensures AddParsed(x, y) == Last4(n)
  {
  }

  /** `parseInt(s, 2)` reads a string of binary digits as its value. */
  lemma ParsedBits(s: string)
    requires IsBits(s) && |s| > 0
    ensures ParseInt2(s).Some? && ParseInt2(s).value == Value(s) >= 0
  {
  }

  /** The last four digits of n in binary denote n modulo 16, and there
      are four of them from 8 on. */
  lemma CutSum(n: nat)
    ensures IsBits(Last4(n)) && 1 <= |Last4(n)| <= 4 && Value(Last4(n)) == n % 16
    ensures n >= 8 ==> |Last4(n)| == 4
  {
    assert IntText2(n) == ToString2(n);
    CutFour(ToString2(n));
    if n >= 8 {
      FourWide(n);
    }
  }

  /** From 8 on, a number has at least four binary digits. */
  lemma FourWide(n: nat)
    requires n >= 8
    ensures |TakeLast(ToString2(n), 4)| == 4
  {
    var s := ToString2(n);
    ValueBound(s);
    if |s| < 4 {
      PowGrows(|s|, 3);
      assert false;
    }
  }

  /** The last four digits of a binary string denote its value modulo
      16. */
  lemma CutFour(s: string)
    requires IsBits(s) && |s| >= 1
    ensures IsBits(TakeLast(s, 4)) && 1 <= |TakeLast(s, 4)| <= 4
    ensures Value(TakeLast(s, 4)) == Value(s) % 16
  {
    LowDigits(s, 4);
    assert Pow2(4) == 16;
  }

  /** The unit test: 10 + 9 = 19, whose last four binary digits are
      0011. */
  lemma AddBinaryExample()
    ensures AddBinary("1010", "1001") == "0011"
  {
    Value4("1010");
    Value4("1001");
    Value4("0011");
    AddBinaryIs("1010", "1001", 19, "0011");
  }

  /** Four digits of the right value are the result, from a sum of 8 on. */
  lemma AddBinaryIs(a: string, b: string, n: int, t: string)
    requires IsBits(a) && IsBits(b) && |a| > 0 && |b| > 0 && n == Value(a) + Value(b) >= 8
    requires IsBits(t) && |t| == 4 && Value(t) == n % 16
    ensures AddBinary(a, b) == t
  {
    AddBinaryValue(a, b, n);
    BitsUnique(AddBinary(a, b), t);
  }

  /** `sum(arr)`: the column `findColumn(arr)` gives, turned into text by
      `SumText`; the matrix is not changed. With no matching column among
      the first fifteen, `findColumn` gives `null`, and reading its `.arr`
      raises a TypeError. */
  function Sum(g: Grid, arr: seq<int>): (r: Result<string>)
    requires Square(g)
  {
    FindColumnAsWrittenFirst(g, arr);
    match FindColumnAsWritten(g, arr)
    case None => Err(NullError)
    case Some((col, _)) => Ok(SumText(col))
  }

  /** `sum(arr)` over the corrected `findColumn`, which also finds a match
      in the last column. */
  function SumFixed(g: Grid, arr: seq<int>): (r: Result<string>)
    requires Square(g)
  {
    FindColumnFirst(g, arr);
    match FindColumn(g, arr)
    case None => Err(NullError)
    case Some((col, _)) => Ok(SumText(col))
  }

  /** A column cut into the fields V (entries 0-2), A (3-6) and B (7-10),
      returned as V, A, B, '0' and `addBinary(A, B)`. */
  function SumText(col: seq<int>): string
    requires |col| == 16
  {
    var a := JoinNumbers(col[3..7]);
    var b := JoinNumbers(col[7..11]);
    JoinNumbers(col[..3]) + a + b + "0" + AddBinary(a, b)
  }

  /** `sum` fails, with the TypeError, exactly when none of columns 0 to
      14 matches. */
  lemma SumFails(g: Grid, arr: seq<int>)
    requires Square(g)
    ensures Sum(g, arr).Err? <==> forall d :: 0 <= d < 15 ==> !Matches(g, arr, d)
    ensures Sum(g, arr).Err? ==> Sum(g, arr).msg == NullError
  {
    FindColumnAsWrittenFirst(g, arr);
  }

  /** Otherwise it gives the text of the first matching column. */
  lemma SumFirst(g: Grid, arr: seq<int>, c: int)
    requires Square(g) && FirstMatch(g, arr, c, 15)
    ensures Sum(g, arr) == Ok(SumText(Column(g, c)))
  {
    FindColumnAsWrittenFirst(g, arr);
    var r := FindColumnAsWritten(g, arr);
    assert r.Some?;
    FirstMatchUnique(g, arr, c, r.value.1);
  }

  /** There is only one first matching column. */
  lemma FirstMatchUnique(g: Grid, arr: seq<int>, c: int, d: int)
    requires Square(g) && FirstMatch(g, arr, c, 16) && FirstMatch(g, arr, d, 16)
    ensures c == d
  {
  }

  /** The corrected `sum` fails exactly when no column matches. */
  lemma SumFixedFails(g: Grid, arr: seq<int>)
    requires Square(g)
    ensures SumFixed(g, arr).Err? <==> forall d :: 0 <= d < 16 ==> !Matches(g, arr, d)
    ensures SumFixed(g, arr).Err? ==> SumFixed(g, arr).msg == NullError
  {
    FindColumnFirst(g, arr);
  }

  /** Otherwise it gives the text of the first matching column, the
      last one included. */
  lemma SumFixedFirst(g: Grid, arr: seq<int>, c: int)
    requires Square(g) && FirstMatch(g, arr, c, 16)
    ensures SumFixed(g, arr) == Ok(SumText(Column(g, c)))
  {
    FindColumnAt(g, arr, c);
  }

  /** The two agree unless the only matching column is the last; on the
      matrix whose last column alone starts with 1, `sum([1])` as written
      throws and the corrected one sums that column. */
  lemma SumMissesLast()
    ensures Sum(LastOnly, [1]) == Err(NullError)
    ensures SumFixed(LastOnly, [1]) == Ok(SumText(Column(LastOnly, 15)))
  {
    FindColumnMissesLast();
  }

  /** For a column of 0s and 1s the text is the first eleven entries as
      digits, a '0', and `addBinary` of fields A and B, which is one to
      four binary digits (see `AddBinaryValue` for their value). */
  lemma SumTextFields(col: seq<int>)
    requires |col| == 16 && forall k :: 0 <= k < 16 ==> col[k] == 0 || col[k] == 1
    ensures var s := SumText(col);
            && 13 <= |s| <= 16 && s[..11] == BitText(col[..11]) && s[11] == '0'
            && s[12..] == AddBinary(BitText(col[3..7]), BitText(col[7..11]))
  {
    var a, b := BitText(col[3..7]), BitText(col[7..11]);
    SumTextShape(col);
    AddBinaryValue(a, b, Value(a) + Value(b));
    Pieces(BitText(col[..11]), AddBinary(a, b));
  }

  /** The text is the digits of the first eleven entries, a '0', and the
      sum of the fields. */
  lemma SumTextShape(col: seq<int>)
    requires |col| == 16 && forall k :: 0 <= k < 16 ==> col[k] == 0 || col[k] == 1
    ensures SumText(col) == BitText(col[..11]) + "0" + AddBinary(BitText(col[3..7]), BitText(col[7..11]))
  {
    JoinBits(col[..3]);
    JoinBits(col[3..7]);
    JoinBits(col[7..11]);
    assert BitText(col[..3]) + BitText(col[3..7]) + BitText(col[7..11]) == BitText(col[..11]);
  }

  lemma Pieces(p: string, t: string)
    ensures var s := p + "0" + t;
            |s| == |p| + 1 + |t| && s[..|p|] == p && s[|p|] == '0' && s[|p| + 1..] == t
  {
  }
}

=== FILE: object_file.dfy ===
/** The object-file reader and the edge filter of the 3D viewer
    (`load_object_from_file` and `draw_object` in giis/lab4.py). A file is
    its list of lines; number parsing is a parameter that may fail, and a
    failure anywhere makes the whole load fail, as the `except` does. */
module ObjectFile {
  import opened Outcomes
  import opened Bresenham

  /** Python's `str.isspace` characters, which `strip` and `split` remove. */
  predicate IsSpace(c: char)
  {
    var n := c as int;
    (9 <= n <= 13) || (28 <= n <= 32) || n == 0x85 || n == 0xA0 || n == 0x1680
    || (0x2000 <= n <= 0x200A) || n == 0x2028 || n == 0x2029 || n == 0x202F
    || n == 0x205F || n == 0x3000
  }

  /** `s.lstrip()`. */
  function TrimLeft(s: string): (r: string)
    ensures |r| <= |s| && r == s[|s| - |r|..]
    ensures r == [] || !IsSpace(r[0])
    ensures forall i :: 0 <= i < |s| - |r| ==> IsSpace(s[i])
  {
    if |s| > 0 && IsSpace(s[0]) then TrimLeft(s[1..]) else s
  }

  /** `s.rstrip()`. */
  function TrimRight(s: string): (r: string)
    ensures |r| <= |s| && r == s[..|r|]
    ensures r == [] || !IsSpace(r[|r| - 1])
    ensures forall i :: |r| <= i < |s| ==> IsSpace(s[i])
  {
    if |s| > 0 && IsSpace(s[|s| - 1]) then TrimRight(s[..|s| - 1]) else s
  }

  /** `s.strip()`: no white space at either end, and only white space
      removed. */
  function Strip(s: string): (r: string)
    ensures r == [] || (!IsSpace(r[0]) && !IsSpace(r[|r| - 1]))
  {
    TrimRight(TrimLeft(s))
  }

  /** The first token of `s` (which starts with a non-space) and the rest
      after it. */
  function TakeToken(s: string): (r: (string, string))
    ensures |r.0| + |r.1| == |s| && s == r.0 + r.1
    ensures forall i :: 0 <= i < |r.0| ==> !IsSpace(r.0[i])
    ensures r.1 == [] || IsSpace(r.1[0])
    ensures |s| > 0 && !IsSpace(s[0]) ==> |r.0| > 0
  {
    if |s| == 0 || IsSpace(s[0]) then ([], s)
    else
      var (t, rest) := TakeToken(s[1..]);
      ([s[0]] + t, rest)
  }

  /** A run of one or more non-space characters. */
  predicate Token(t: string)
  {
    |t| > 0 && forall i :: 0 <= i < |t| ==> !IsSpace(t[i])
  }

  /** The characters of `s` that are not white space, in order. */
  function NonSpace(s: string): string
  {
    if |s| == 0 then [] else (if IsSpace(s[0]) then [] else [s[0]]) + NonSpace(s[1..])
  }

  lemma {:induction false} NonSpaceAppend(a: string, b: string)
    ensures NonSpace(a + b) == NonSpace(a) + NonSpace(b)
  {
    if |a| > 0 {
      NonSpaceAppend(a[1..], b);
      assert (a + b)[1..] == a[1..] + b;
    } else {
      assert a + b == b;
    }
  }

  lemma {:induction false} NonSpaceOfSpaces(s: string)
    requires forall i :: 0 <= i < |s| ==> IsSpace(s[i])
    ensures NonSpace(s) == []
  {
    if |s| > 0 {
      NonSpaceOfSpaces(s[1..]);
    }
  }

  lemma {:induction false} NonSpaceOfToken(t: string)
    requires forall i :: 0 <= i < |t| ==> !IsSpace(t[i])
    ensures NonSpace(t) == t
  {
    if |t| > 0 {
      NonSpaceOfToken(t[1..]);
    }
  }

  /** The concatenation of a list of strings. */
  function Concat(ts: seq<string>): string
  {
    if |ts| == 0 then [] else ts[0] + Concat(ts[1..])
  }

  /** `s.split()`: the maximal runs of non-space characters, in order. The
      tokens are non-empty and hold no white space, there are none exactly
      when `s` is all white space, and together they are the non-space
      characters of `s`. */
  function Split(s: string): (r: seq<string>)
    ensures forall k :: 0 <= k < |r| ==> Token(r[k])
    ensures r == [] <==> forall i :: 0 <= i < |s| ==> IsSpace(s[i])
    ensures Concat(r) == NonSpace(s)
    decreases |s|
  {
    var t := TrimLeft(s);
    if |t| == 0 then
      TrimLeftNonSpace(s);
      []
    else
      var (tok, rest) := TakeToken(t);
      var tail := Split(rest);
      SplitCons(s, tok, rest, tail);
      [tok] + tail
  }

  /** One step of `Split`: the first token of what `lstrip` leaves, then
      the tokens of the rest. */
  lemma SplitCons(s: string, tok: string, rest: string, tail: seq<string>)
    requires |TrimLeft(s)| > 0 && TakeToken(TrimLeft(s)) == (tok, rest)
    requires forall k :: 0 <= k < |tail| ==> Token(tail[k])
    requires Concat(tail) == NonSpace(rest)
    ensures forall k :: 0 <= k < |[tok] + tail| ==> Token(([tok] + tail)[k])
    ensures exists i :: 0 <= i < |s| && !IsSpace(s[i])
    ensures Concat([tok] + tail) == NonSpace(s)
  {
    var t := TrimLeft(s);
    assert Token(tok);
    forall k | 0 <= k < |[tok] + tail|
      ensures Token(([tok] + tail)[k])
    {
      if k > 0 {
        assert ([tok] + tail)[k] == tail[k - 1];
      }
    }
    assert !IsSpace(s[|s| - |t|]);
    TrimLeftNonSpace(s);
    assert ([tok] + tail)[1..] == tail;
    NonSpaceAppend(tok, rest);
    NonSpaceOfToken(tok);
  }

  /** `lstrip` removes no non-space character. */
  lemma TrimLeftNonSpace(s: string)
    ensures NonSpace(TrimLeft(s)) == NonSpace(s)
  {
    var t := TrimLeft(s);
    var p := s[..|s| - |t|];
    assert s == p + t;
    assert forall i :: 0 <= i < |p| ==> IsSpace(p[i]) by {
      forall i | 0 <= i < |p|
        ensures IsSpace(p[i])
      {
        assert p[i] == s[i];
      }
    }
    SpacesFirst(s, p, t);
  }

  /** Leading white space adds nothing to the non-space characters. */
  lemma SpacesFirst(s: string, p: string, t: string)
    requires s == p + t && forall i :: 0 <= i < |p| ==> IsSpace(p[i])
    ensures NonSpace(s) == NonSpace(t)
  {
    NonSpaceAppend(p, t);
    NonSpaceOfSpaces(p);
  }

  /** ASCII `lower()`; no other character lowers to a letter of "edges". */
  function Lower(c: char): char
  {
    if 'A' <= c <= 'Z' then (c as int + 32) as char else c
  }

  /** `line.lower() == 'edges'`. */
  predicate IsEdgesMarker(line: string)
  {
    |line| == 5 && forall i :: 0 <= i < 5 ==> Lower(line[i]) == "edges"[i]
  }

  /** What the reader makes of one stripped line. */
  datatype LineKind = Skip | Marker | Fields(parts: seq<string>)

  function Classify(raw: string): (k: LineKind)
    ensures k.Skip? <==> Strip(raw) == [] || Strip(raw)[0] == '#'
    ensures k.Marker? <==> !k.Skip? && IsEdgesMarker(Strip(raw))
  {
    var line := Strip(raw);
    if |line| == 0 || line[0] == '#' then Skip
    else if IsEdgesMarker(line) then Marker
    else Fields(Split(line))
  }

  /** A homogeneous vertex `[x, y, z, 1.0]`. */
  datatype Vertex = Vertex(x: real, y: real, z: real, w: real)

  datatype Model = Model(vertices: seq<Vertex>, edges: seq<(int, int)>)

  /** What one line contributes in vertex mode: a vertex for exactly three
      fields, nothing for other field counts, blank lines and comments;
      `None` when a field does not parse. */
  function LineVertices(k: LineKind, parseFloat: string -> Option<real>): (r: Option<seq<Vertex>>)
    ensures r.Some? ==> |r.value| <= 1
    ensures r.Some? && |r.value| == 1 ==> r.value[0].w == 1.0
    ensures !k.Fields? || |k.parts| != 3 ==> r == Some([])
  {
    match k
    case Fields(parts) =>
      if |parts| != 3 then Some([])
      else
        (match (parseFloat(parts[0]), parseFloat(parts[1]), parseFloat(parts[2]))
         case (Some(x), Some(y), Some(z)) => Some([Vertex(x, y, z, 1.0)])
         case _ => None)
    case _ => Some([])
  }

  /** What one line contributes in edge mode: an index pair for exactly
      two fields, nothing for other field counts, blank lines, comments and
      further markers; `None` when a field does not parse. */
  function LineEdges(k: LineKind, parseInt: string -> Option<int>): (r: Option<seq<(int, int)>>)
    ensures r.Some? ==> |r.value| <= 1
    ensures !k.Fields? || |k.parts| != 2 ==> r == Some([])
  {
    match k
    case Fields(parts) =>
      if |parts| != 2 then Some([])
      else
        (match (parseInt(parts[0]), parseInt(parts[1]))
         case (Some(a), Some(b)) => Some([(a, b)])
         case _ => None)
    case _ => Some([])
  }

  /** `a + b` when both are present. */
  function Cat<T>(a: Option<seq<T>>, b: Option<seq<T>>): (r: Option<seq<T>>)
    ensures r.Some? <==> a.Some? && b.Some?
  {
    if a.Some? && b.Some? then Some(a.value + b.value) else None
  }

  lemma CatAssoc<T>(a: Option<seq<T>>, b: Option<seq<T>>, c: Option<seq<T>>)
    ensures Cat(Cat(a, b), c) == Cat(a, Cat(b, c))
  {
    if a.Some? && b.Some? && c.Some? {
      assert a.value + b.value + c.value == a.value + (b.value + c.value);
    }
  }

  lemma CatEmpty<T>(a: Option<seq<T>>)
    ensures Cat(a, Some([])) == a && Cat(Some([]), a) == a
  {
    if a.Some? {
      assert a.value + [] == a.value && [] + a.value == a.value;
    }
  }

  /** The file's lines as the reader sees them. */
  function Kinds(file: seq<string>): (ks: seq<LineKind>)
    ensures |ks| == |file|
    ensures forall k :: 0 <= k < |file| ==> ks[k] == Classify(file[k])
  {
    seq(|file|, k requires 0 <= k < |file| => Classify(file[k]))
  }

  /** The `for line in f` loop from line `i`, in vertex mode or not, with
      what has been read so far. */
  function Load(lines: seq<LineKind>, i: nat, readingVertices: bool, acc: Model,
                parseFloat: string -> Option<real>, parseInt: string -> Option<int>): Option<Model>
    requires i <= |lines|
    decreases |lines| - i
  {
    if i == |lines| then Some(acc)
    else if lines[i].Marker? then Load(lines, i + 1, false, acc, parseFloat, parseInt)
    else if readingVertices then
      match LineVertices(lines[i], parseFloat)
      case None => None
      case Some(vs) => Load(lines, i + 1, true, acc.(vertices := acc.vertices + vs), parseFloat, parseInt)
    else
      match LineEdges(lines[i], parseInt)
      case None => None
      case Some(es) => Load(lines, i + 1, false, acc.(edges := acc.edges + es), parseFloat, parseInt)
  }

  /** `load_object_from_file` on the file's lines: `None` stands for the
      `(None, None)` of the `except` branch. */
  function LoadObject(file: seq<string>, parseFloat: string -> Option<real>, parseInt: string -> Option<int>): Option<Model>
  {
    LoadKinds(Kinds(file), parseFloat, parseInt)
  }

  /** The loop over already classified lines, from the start in vertex
      mode. */
  function LoadKinds(lines: seq<LineKind>, parseFloat: string -> Option<real>, parseInt: string -> Option<int>): Option<Model>
  {
    Load(lines, 0, true, Model([], []), parseFloat, parseInt)
  }

  // ---------------------------------------------------------------------
  // The same reading stated per section: the lines before the first
  // marker give the vertices, the lines after it the edges.

  /** The index of the first marker line at or after `i`, or `|lines|`. */
  function FirstMarker(lines: seq<LineKind>, i: nat): (m: nat)
    requires i <= |lines|
    ensures i <= m <= |lines|
    ensures forall j :: i <= j < m ==> !lines[j].Marker?
    ensures m < |lines| ==> lines[m].Marker?
    decreases |lines| - i
  {
    if i == |lines| || lines[i].Marker? then i else FirstMarker(lines, i + 1)
  }

  /** The vertices of lines `i..j` read in vertex mode. */
  function VertexSection(lines: seq<LineKind>, i: nat, j: nat, parseFloat: string -> Option<real>): Option<seq<Vertex>>
    requires i <= j <= |lines|
    decreases j - i
  {
    if i == j then Some([]) else Cat(VertexSection(lines, i, j - 1, parseFloat), LineVertices(lines[j - 1], parseFloat))
  }

  /** The edges of lines `i..j` read in edge mode. */
  function EdgeSection(lines: seq<LineKind>, i: nat, j: nat, parseInt: string -> Option<int>): Option<seq<(int, int)>>
    requires i <= j <= |lines|
    decreases j - i
  {
    if i == j then Some([]) else Cat(EdgeSection(lines, i, j - 1, parseInt), LineEdges(lines[j - 1], parseInt))
  }

  /** Sections extend one line at a time from the front as well. */
  lemma {:induction false} VertexSectionFront(lines: seq<LineKind>, i: nat, j: nat, parseFloat: string -> Option<real>)
    requires i < j <= |lines|
    ensures VertexSection(lines, i, j, parseFloat) ==
            Cat(LineVertices(lines[i], parseFloat), VertexSection(lines, i + 1, j, parseFloat))
    decreases j - i
  {
    var a := LineVertices(lines[i], parseFloat);
    if j - 1 > i {
      VertexSectionFront(lines, i, j - 1, parseFloat);
      CatAssoc(a, VertexSection(lines, i + 1, j - 1, parseFloat), LineVertices(lines[j - 1], parseFloat));
    } else {
      CatEmpty(a);
    }
  }

  lemma {:induction false} EdgeSectionFront(lines: seq<LineKind>, i: nat, j: nat, parseInt: string -> Option<int>)
    requires i < j <= |lines|
    ensures EdgeSection(lines, i, j, parseInt) ==
            Cat(LineEdges(lines[i], parseInt), EdgeSection(lines, i + 1, j, parseInt))
    decreases j - i
  {
    var a := LineEdges(lines[i], parseInt);
    if j - 1 > i {
      EdgeSectionFront(lines, i, j - 1, parseInt);
      CatAssoc(a, EdgeSection(lines, i + 1, j - 1, parseInt), LineEdges(lines[j - 1], parseInt));
    } else {
      CatEmpty(a);
    }
  }

  /** In edge mode the rest of the file is one edge section; markers there
      change nothing. */
  lemma {:induction false} LoadEdgeMode(lines: seq<LineKind>, i: nat, acc: Model,
                                        parseFloat: string -> Option<real>, parseInt: string -> Option<int>)
    requires i <= |lines|
    ensures var es := EdgeSection(lines, i, |lines|, parseInt);
            Load(lines, i, false, acc, parseFloat, parseInt) ==
            if es.Some? then Some(acc.(edges := acc.edges + es.value)) else None
    decreases |lines| - i
  {
    if i < |lines| {
      EdgeSectionFront(lines, i, |lines|, parseInt);
      var here := LineEdges(lines[i], parseInt);
      var rest := EdgeSection(lines, i + 1, |lines|, parseInt);
      if lines[i].Marker? {
        LoadEdgeMode(lines, i + 1, acc, parseFloat, parseInt);
        CatEmpty(rest);
      } else if here.Some? {
        LoadEdgeMode(lines, i + 1, acc.(edges := acc.edges + here.value), parseFloat, parseInt);
        if rest.Some? {
          assert acc.edges + here.value + rest.value == acc.edges + (here.value + rest.value);
        }
      }
    } else {
      assert acc.(edges := acc.edges + []) == acc;
    }
  }

  /** In vertex mode the lines up to the first marker are one vertex
      section, and the rest is read in edge mode. */
  lemma {:induction false} LoadVertexMode(lines: seq<LineKind>, i: nat, acc: Model,
                                          parseFloat: string -> Option<real>, parseInt: string -> Option<int>)
    requires i <= |lines|
    ensures var m := FirstMarker(lines, i);
            var vs := VertexSection(lines, i, m, parseFloat);
            Load(lines, i, true, acc, parseFloat, parseInt) ==
            if vs.None? then None
            else if m == |lines| then Some(acc.(vertices := acc.vertices + vs.value))
            else Load(lines, m + 1, false, acc.(vertices := acc.vertices + vs.value), parseFloat, parseInt)
    decreases |lines| - i
  {
    var m := FirstMarker(lines, i);
    if i == |lines| || m == i {
      assert acc.(vertices := acc.vertices + []) == acc;
    } else {
      VertexSectionFront(lines, i, m, parseFloat);
      assert FirstMarker(lines, i + 1) == m;
      var here := LineVertices(lines[i], parseFloat);
      var rest := VertexSection(lines, i + 1, m, parseFloat);
      if here.Some? {
        LoadVertexMode(lines, i + 1, acc.(vertices := acc.vertices + here.value), parseFloat, parseInt);
        if rest.Some? {
          assert acc.vertices + here.value + rest.value == acc.vertices + (here.value + rest.value);
        }
      }
    }
  }

  /** The reader in one statement: the first line reading "edges" in any
      case ends the vertex section for good; the lines before it give the
      vertices of their three-field lines, those after it the index pairs
      of their two-field lines, each in file order, with blank and `#`
      lines ignored; and a field that does not parse fails the whole
      load. */
  lemma LoadBySections(lines: seq<LineKind>, parseFloat: string -> Option<real>, parseInt: string -> Option<int>)
    ensures var m := FirstMarker(lines, 0);
            var vs := VertexSection(lines, 0, m, parseFloat);
            var es := if m == |lines| then Some([]) else EdgeSection(lines, m + 1, |lines|, parseInt);
            LoadKinds(lines, parseFloat, parseInt) ==
            if vs.Some? && es.Some? then Some(Model(vs.value, es.value)) else None
  {
    var m := FirstMarker(lines, 0);
    LoadVertexMode(lines, 0, Model([], []), parseFloat, parseInt);
    var vs := VertexSection(lines, 0, m, parseFloat);
    if vs.Some? {
      assert Model([], []).(vertices := [] + vs.value) == Model(vs.value, []);
      if m < |lines| {
        LoadEdgeMode(lines, m + 1, Model(vs.value, []), parseFloat, parseInt);
        var es := EdgeSection(lines, m + 1, |lines|, parseInt);
        if es.Some? {
          assert Model(vs.value, []).(edges := [] + es.value) == Model(vs.value, es.value);
        }
      }
    }
  }

  // ---------------------------------------------------------------------
  // draw_object

  /** What `draw_object` draws: a dot per projected vertex when there are
      no edges, otherwise one segment per edge. */
  datatype Drawing = Dots(points: seq<Point>) | Segments(lines: seq<(Point, Point)>)

  predicate InRange(n: int, e: (int, int))
  {
    0 <= e.0 < n && 0 <= e.1 < n
  }

  /** The edges whose two indices both fall inside the vertex list, in
      order. */
  function DrawableEdges(n: int, edges: seq<(int, int)>): (r: seq<(int, int)>)
    ensures forall e :: e in r <==> e in edges && InRange(n, e)
    ensures forall k :: 0 <= k < |r| ==> InRange(n, r[k])
    ensures |r| <= |edges|
  {
    if |edges| == 0 then []
    else
      var rest := DrawableEdges(n, edges[1..]);
      assert forall e :: e in edges <==> e == edges[0] || e in edges[1..];
      if InRange(n, edges[0]) then [edges[0]] + rest else rest
  }

  /** `draw_object`: without edges every vertex is a dot; with edges every
      edge with both ends in range becomes a segment between its
      projected vertices, in order, and the others are skipped. */
  function DrawObject(points: seq<Point>, edges: seq<(int, int)>): (d: Drawing)
    ensures edges == [] <==> d.Dots?
    ensures d.Dots? ==> d.points == points
    ensures d.Segments? ==>
              forall s :: s in d.lines <==>
                exists e :: e in edges && InRange(|points|, e) && s == (points[e.0], points[e.1])
  {
    if edges == [] then Dots(points)
    else
      var es := DrawableEdges(|points|, edges);
      var segs := seq(|es|, k requires 0 <= k < |es| => (points[es[k].0], points[es[k].1]));
      assert forall s :: s in segs <==> exists e :: e in es && s == (points[e.0], points[e.1]) by {
        forall s | s in segs
          ensures exists e :: e in es && s == (points[e.0], points[e.1])
        {
          var k :| 0 <= k < |segs| && segs[k] == s;
          assert es[k] in es;
        }
        forall s | exists e :: e in es && s == (points[e.0], points[e.1])
          ensures s in segs
        {
          var e :| e in es && s == (points[e.0], points[e.1]);
          var k :| 0 <= k < |es| && es[k] == e;
          assert segs[k] == s;
        }
      }
      Segments(segs)
  }
}

=== FILE: outcomes.dfy ===
/** Option and error-carrying results used across the model. An `Err` stands
    for an error dialog, an exception or an early `return` with a message. */
module Outcomes {

  datatype Option<T> = None | Some(value: T)

  datatype Result<T> = Ok(value: T) | Err(msg: string)
}

=== FILE: scanline_ael.dfy ===
/** The active-edge-list scanline filler (`_scanline_ael_debug` in
    giis/6/main6.py) as a resumable generator, in the same shape as
    `ScanlineOel`: `Step` runs from one `yield` to the next, `None` is
    StopIteration, and `Run` drains it. */
module ScanlineAel {
  import opened Bresenham
  import opened Outcomes
  import opened Sorting
  import opened Canvas
  import opened EdgeTable
  import Oel = ScanlineOel

  /** One edge record `{'y_max', 'x_current', 'slope_inv'}` of the edge
      table and of the active list. */
  datatype Live = Live(yMax: int, x: real, slope: Slope)

  /** The record of edge `e` while the scan is at row `y`. */
  function LiveAt(y: int): Edge -> Live
  {
    (e: Edge) => Live(e.yMax, XAt(e, y), e.slope)
  }

  /** The record the edge table stores: x at the upper vertex. */
  function Entry(e: Edge): Live
  {
    Live(e.yMax, e.xAtYMin as real, e.slope)
  }

  function StartsAt(y: int): Edge -> bool
  {
    (e: Edge) => e.yMin == y
  }

  /** Bucket `ET[y]`, empty when `y` is not a key. */
  function EtAt(et: map<int, seq<Live>>, y: int): seq<Live>
  {
    if y in et then et[y] else []
  }

  /** Appends an edge's record to the bucket of its `y_min`, creating the
      bucket if needed. */
  function AddEntry(et: map<int, seq<Live>>, e: Edge): (r: map<int, seq<Live>>)
    ensures r.Keys == et.Keys + {e.yMin}
    ensures EtAt(r, e.yMin) == EtAt(et, e.yMin) + [Entry(e)]
    ensures forall y :: y != e.yMin ==> EtAt(r, y) == EtAt(et, y)
  {
    et[e.yMin := EtAt(et, e.yMin) + [Entry(e)]]
  }

  /** The edge table `ET`, built by appending the edges in side order. */
  function EtOf(edges: seq<Edge>): map<int, seq<Live>>
  {
    if |edges| == 0 then map[] else AddEntry(EtOf(edges[..|edges| - 1]), edges[|edges| - 1])
  }

  /** Bucket `y` holds the records of the edges starting at row `y`, in side
      order. */
  lemma {:induction false} EtOfBuckets(edges: seq<Edge>, y: int)
    ensures EtAt(EtOf(edges), y) == Map(Entry, Filter(StartsAt(y), edges))
    decreases |edges|
  {
    if |edges| > 0 {
      var n := |edges|;
      var init, last := edges[..n - 1], edges[n - 1];
      EtOfBuckets(init, y);
      assert edges == init + [last];
      var tail := Filter(StartsAt(y), [last]);
      assert tail == if last.yMin == y then [last] else [] by {
        assert [last][1..] == [];
      }
      FilterConcat(StartsAt(y), init, [last]);
      MapConcat(Entry, Filter(StartsAt(y), init), tail);
      assert Map(Entry, tail) == if last.yMin == y then [Entry(last)] else [];
    }
  }

  /** The table is empty exactly when there is no edge (`if not ET`). */
  lemma EtOfEmpty(edges: seq<Edge>)
    ensures EtOf(edges) == map[] <==> |edges| == 0
  {
    if |edges| > 0 {
      assert edges[|edges| - 1].yMin in EtOf(edges);
    }
  }

  /** The stored record is the edge's record at its first row. */
  lemma EntryIsFirstRow(e: Edge)
    ensures Entry(e) == LiveAt(e.yMin)(e)
  {
  }

  /** Step 5 of a row: `x_current += slope_inv` unless the edge is vertical. */
  function Bump(l: Live): Live
  {
    match l.slope
    case Vertical => l
    case Inverse(q) => l.(x := l.x + q)
  }

  /** Advancing a record by one row gives the record of the next row. */
  lemma BumpLiveAt(y: int, e: Edge)
    ensures Bump(LiveAt(y)(e)) == LiveAt(y + 1)(e)
  {
    match e.slope
    case Vertical =>
    case Inverse(q) =>
      assert (y + 1 - e.yMin) as real * q == (y - e.yMin) as real * q + q;
  }

  /** The records kept by step 1: those with `y_max > y`. */
  function Alive(y: int): Live -> bool
  {
    (l: Live) => l.yMax > y
  }

  function LiveLe(a: Live, b: Live): bool
  {
    a.x <= b.x
  }

  /** `AEL.sort(key=lambda edge: edge['x_current'])`. */
  function SortLive(s: seq<Live>): (r: seq<Live>)
    ensures SortedBy(r, LiveLe) && multiset(r) == multiset(s)
  {
    assert TotalPreorder(LiveLe);
    SortSpec(s, LiveLe);
    Sort(s, LiveLe)
  }

  /** `round(edge['x_current'])`. */
  function RoundX(l: Live): int
  {
    RoundHalfEven(l.x)
  }

  /** The span loop `for i in range(0, len(AEL) - 1, 2)` from pair index `j`. */
  function FillPairs(filled: set<Point>, y: int, xs: seq<int>, j: nat): (r: set<Point>)
    requires j % 2 == 0
    ensures r == filled + PairsFrom(y, xs, j)
    decreases |xs| - j
  {
    if j + 1 < |xs| then
      PairsFromSplit(y, xs, j);
      FillPairs(DrawRange(filled, y, xs[j], xs[j + 1]), y, xs, j + 2)
    else
      PairsFromDone(y, xs, j);
      filled
  }

  datatype Phase =
    | Start(vs: seq<Point>)
      /** after "Show ET"; `minY`, `maxY` are `min_scanline_poly`, `max_scanline_poly` */
    | EtShown(et: map<int, seq<Live>>, minY: int, maxY: int)
      /** after showing row `y` with an empty active list */
    | RowEmpty(et: map<int, seq<Live>>, maxY: int, y: int)
      /** after showing row `y`'s active list sorted by x */
    | RowSorted(et: map<int, seq<Live>>, maxY: int, y: int, ael: seq<Live>)
      /** after filling row `y`'s spans */
    | RowFilled(et: map<int, seq<Live>>, maxY: int, y: int, ael: seq<Live>)

  /** The generator's resume point plus the pixels it has drawn so far. */
  datatype Gen = Gen(phase: Phase, filled: set<Point>)

  predicate Valid(g: Gen)
  {
    match g.phase
    case Start(_) => true
    case EtShown(_, _, _) => true
    case RowEmpty(_, maxY, y) => y < maxY
    case RowSorted(_, maxY, y, _) => y < maxY
    case RowFilled(_, maxY, y, _) => y < maxY
  }

  /** The creation of the generator by `start_fill`, which clears the fill. */
  function Init(vs: seq<Point>): Gen
  {
    Gen(Start(vs), {})
  }

  function Stage(g: Gen): nat
  {
    match g.phase
    case Start(_) => 2
    case EtShown(_, _, _) => 1
    case _ => 0
  }

  function RowsLeft(g: Gen): nat
  {
    match g.phase
    case RowEmpty(_, maxY, y) => if y < maxY then maxY - y else 0
    case RowSorted(_, maxY, y, _) => if y < maxY then maxY - y else 0
    case RowFilled(_, maxY, y, _) => if y < maxY then maxY - y else 0
    case _ => 0
  }

  /** Within a row, the sorted list is shown before the spans are filled. */
  function RowRank(g: Gen): nat
  {
    if g.phase.RowSorted? then 1 else 0
  }

  /** `g'` comes strictly after `g` in the lexicographic progress order. */
  predicate Precedes(g': Gen, g: Gen)
  {
    Stage(g') < Stage(g)
    || (Stage(g') == Stage(g) && RowsLeft(g') < RowsLeft(g))
    || (Stage(g') == Stage(g) && RowsLeft(g') == RowsLeft(g) && RowRank(g') < RowRank(g))
  }

  /** One iteration of `for y in range(min_scanline_poly, max_scanline_poly)`
      up to its first `yield`: drop the expired records, append `ET[y]`, and
      show either the empty row or the list sorted by x. */
  function RowFrom(et: map<int, seq<Live>>, maxY: int, y: int, ael: seq<Live>, filled: set<Point>): (r: Option<Gen>)
    ensures r.None? <==> y >= maxY
    ensures r.Some? ==> Valid(r.value) && r.value.filled == filled
    ensures r.Some? ==> var n := Filter(Alive(y), ael) + EtAt(et, y);
              && (r.value.phase.RowEmpty? <==> |n| == 0)
              && (r.value.phase == RowEmpty(et, maxY, y) || r.value.phase.RowSorted?)
              && (r.value.phase.RowSorted? ==>
                    && r.value.phase == RowSorted(et, maxY, y, r.value.phase.ael)
                    && SortedBy(r.value.phase.ael, LiveLe)
                    && multiset(r.value.phase.ael) == multiset(n))
  {
    if y >= maxY then None
    else
      var n := Filter(Alive(y), ael) + EtAt(et, y);
      if |n| == 0 then Some(Gen(RowEmpty(et, maxY, y), filled))
      else Some(Gen(RowSorted(et, maxY, y, SortLive(n)), filled))
  }

  /** The first `next()`: fewer than three vertices or no edge left after
      dropping the horizontal ones stops the generator; otherwise the edge
      table is shown. */
  function Begin(vs: seq<Point>, filled: set<Point>): (r: Option<Gen>)
    ensures r.Some? ==> r.value.phase.EtShown? && r.value.filled == filled
  {
    if |vs| < 3 then None
    else
      var edges := BuildEdges(vs);
      var et := EtOf(edges);
      EtOfEmpty(edges);
      if et == map[] then None
      else Some(Gen(EtShown(et, MinYMin(edges), MaxYMax(edges)), filled))
  }

  /** One `next()` on the generator. */
  function Step(g: Gen): (r: Option<Gen>)
    requires Valid(g)
    ensures r.Some? ==> Valid(r.value) && Precedes(r.value, g)
    ensures r.Some? ==> g.filled <= r.value.filled
  {
    match g.phase
    case Start(vs) => Begin(vs, g.filled)
    case EtShown(et, minY, maxY) =>
      RowFrom(et, maxY, minY, [], g.filled)
    case RowEmpty(et, maxY, y) =>
      RowFrom(et, maxY, y + 1, [], g.filled)
    case RowSorted(et, maxY, y, ael) =>
      Some(Gen(RowFilled(et, maxY, y, ael), FillPairs(g.filled, y, Map(RoundX, ael), 0)))
    case RowFilled(et, maxY, y, ael) =>
      Advance(et, maxY, y, ael, g.filled)
  }

  /** The end of a row: every record advances by its slope and the next
      row begins. */
  function Advance(et: map<int, seq<Live>>, maxY: int, y: int, ael: seq<Live>, filled: set<Point>): Option<Gen>
  {
    RowFrom(et, maxY, y + 1, Map(Bump, ael), filled)
  }

  /** `for _ in generator: pass`: the pixels drawn once it is exhausted. */
  function Run(g: Gen): set<Point>
    requires Valid(g)
    decreases Stage(g), RowsLeft(g), RowRank(g)
  {
    match Step(g)
    case None => g.filled
    case Some(g') => Run(g')
  }

  // ---------------------------------------------------------------------
  // The invariant relating the generator's state to the polygon's edges.

  ghost predicate WellFormed(edges: seq<Edge>)
  {
    forall k :: 0 <= k < |edges| ==> edges[k].yMin < edges[k].yMax
  }

  ghost predicate Table(edges: seq<Edge>, et: map<int, seq<Live>>, maxY: int)
  {
    |edges| > 0 && WellFormed(edges) && et == EtOf(edges) && maxY == MaxYMax(edges)
  }

  /** The records of the edges crossing row `y`, in side order. */
  function Active(edges: seq<Edge>, y: int): seq<Live>
  {
    Map(LiveAt(y), Filter(ActiveAt(y), edges))
  }

  /** The records carried into row `y`: those of row `y - 1`, advanced. */
  function Carried(edges: seq<Edge>, y: int): seq<Live>
  {
    Map(LiveAt(y), Filter(ActiveAt(y - 1), edges))
  }

  ghost predicate Inv(g: Gen, edges: seq<Edge>)
  {
    match g.phase
    case Start(vs) => edges == BuildEdges(vs)
    case EtShown(et, minY, maxY) => Table(edges, et, maxY) && minY == MinYMin(edges)
    case RowEmpty(et, maxY, y) => Table(edges, et, maxY) && Filter(ActiveAt(y), edges) == []
    case RowSorted(et, maxY, y, ael) =>
      Table(edges, et, maxY) && SortedBy(ael, LiveLe) && multiset(ael) == multiset(Active(edges, y))
    case RowFilled(et, maxY, y, ael) =>
      Table(edges, et, maxY) && SortedBy(ael, LiveLe) && multiset(ael) == multiset(Active(edges, y))
  }

  /** The target pixels of the rows from `y0` on. */
  ghost function Rows(edges: seq<Edge>, y0: int): set<Point>
  {
    set p | p in Pixels && p.y >= y0 && InSpans(SortInts(RowXs(edges, p.y)), p.x)
  }

  /** Everything the generator will still draw from resume point `g`. */
  ghost function Pending(g: Gen, edges: seq<Edge>): set<Point>
  {
    match g.phase
    case Start(vs) => ScanTarget(vs)
    case EtShown(_, minY, _) => Rows(edges, minY)
    case RowEmpty(_, _, y) => Rows(edges, y + 1)
    case RowSorted(_, _, y, _) => Rows(edges, y)
    case RowFilled(_, _, y, _) => Rows(edges, y + 1)
  }

  // ---------------------------------------------------------------------
  // Facts about rows.

  lemma NoSpans()
    ensures SortInts([]) == []
    ensures forall x :: !InSpans([], x)
  {
  }

  /** Row `y` contributes its pairs, the later rows the rest. */
  lemma RowsSplit(edges: seq<Edge>, y: int)
    ensures Rows(edges, y) == PairsFrom(y, SortInts(RowXs(edges, y)), 0) + Rows(edges, y + 1)
  {
    var xs := SortInts(RowXs(edges, y));
    forall p
      ensures p in Rows(edges, y) <==> p in PairsFrom(y, xs, 0) + Rows(edges, y + 1)
    {
      PairsFromFirst(y, xs, p);
    }
  }

  /** A row no edge crosses contributes nothing. */
  lemma RowsSkip(edges: seq<Edge>, y: int)
    requires Filter(ActiveAt(y), edges) == []
    ensures Rows(edges, y) == Rows(edges, y + 1)
  {
    RowsSplit(edges, y);
    NoSpans();
    PairsFromDone(y, SortInts(RowXs(edges, y)), 0);
  }

  /** No row from `max y_max` on contributes anything. */
  lemma RowsBeyond(edges: seq<Edge>, y: int)
    requires |edges| > 0 && y >= MaxYMax(edges)
    ensures Rows(edges, y) == {}
  {
    NoSpans();
    forall p | p in Rows(edges, y)
      ensures false
    {
      RowOutsideRange(edges, p.y);
    }
  }

  /** Starting at `min y_min` loses no row. */
  lemma RowsFromMin(edges: seq<Edge>)
    requires |edges| > 0
    ensures Rows(edges, MinYMin(edges)) == ScanSpec(edges)
  {
    NoSpans();
    forall p | p in ScanSpec(edges)
      ensures p.y >= MinYMin(edges)
    {
      if p.y < MinYMin(edges) {
        RowOutsideRange(edges, p.y);
      }
    }
  }

  /** Without a non-horizontal edge nothing is to be filled. */
  lemma ScanSpecEmpty()
    ensures ScanSpec([]) == {}
  {
    NoSpans();
    forall y
      ensures RowXs([], y) == []
    {
    }
  }

  // ---------------------------------------------------------------------
  // Facts about the active list.

  /** Nothing is carried into the first row. */
  lemma CarriedFirst(edges: seq<Edge>)
    requires |edges| > 0
    ensures Carried(edges, MinYMin(edges)) == []
  {
    FilterNone(ActiveAt(MinYMin(edges) - 1), edges);
  }

  /** Steps 1 and 2 of a row: dropping the expired records and appending
      `ET[y]` leaves exactly the records of the edges crossing row `y`, up to
      order. */
  lemma Rebuilt(edges: seq<Edge>, y: int, ael: seq<Live>)
    requires WellFormed(edges)
    requires multiset(ael) == multiset(Carried(edges, y))
    ensures multiset(Filter(Alive(y), ael) + EtAt(EtOf(edges), y)) == multiset(Active(edges, y))
  {
    var f := LiveAt(y);
    var before := Filter(ActiveAt(y - 1), edges);
    var stays := (e: Edge) => e.yMin < y < e.yMax;
    var through := (e: Edge) => e.yMax > y;
    FilterPerm(Alive(y), ael, Carried(edges, y));
    FilterMap(Alive(y), f, through, before);
    FilterFilter(through, ActiveAt(y - 1), stays, edges);
    var kept := Filter(stays, edges);
    var starting := Filter(StartsAt(y), edges);
    EtOfBuckets(edges, y);
    MapExt(Entry, f, starting);
    MapConcat(f, kept, starting);
    FilterUnion(stays, StartsAt(y), ActiveAt(y), edges);
    MapPerm(f, kept + starting, Filter(ActiveAt(y), edges));
  }

  /** Step 5 of a row turns row `y`'s records into those carried into row
      `y + 1`. */
  lemma BumpCarried(edges: seq<Edge>, y: int, ael: seq<Live>)
    requires multiset(ael) == multiset(Active(edges, y))
    ensures multiset(Map(Bump, ael)) == multiset(Carried(edges, y + 1))
  {
    var now := Filter(ActiveAt(y), edges);
    MapPerm(Bump, ael, Active(edges, y));
    forall k | 0 <= k < |now|
      ensures Bump(LiveAt(y)(now[k])) == LiveAt(y + 1)(now[k])
    {
      BumpLiveAt(y, now[k]);
    }
    MapMap(Bump, LiveAt(y), LiveAt(y + 1), now);
    assert ActiveAt(y + 1 - 1) == ActiveAt(y);
  }

  /** Rounding the x-sorted active list gives row `y`'s sorted rounded
      intersections: `active_xs` is what the ordered-edge-list filler would
      pair up for this row. */
  lemma ActiveXs(edges: seq<Edge>, y: int, ael: seq<Live>)
    requires SortedBy(ael, LiveLe) && multiset(ael) == multiset(Active(edges, y))
    ensures Map(RoundX, ael) == SortInts(RowXs(edges, y))
  {
    var xs := Map(RoundX, ael);
    forall i, j | 0 <= i < j < |xs|
      ensures IntLe(xs[i], xs[j])
    {
      MapIndex(RoundX, ael, i);
      MapIndex(RoundX, ael, j);
      assert LiveLe(ael[i], ael[j]);
      RoundMonotone(ael[i].x, ael[j].x);
    }
    MapPerm(RoundX, ael, Active(edges, y));
    MapMap(RoundX, LiveAt(y), RoundedXAt(y), Filter(ActiveAt(y), edges));
    SortedIntsUnique(xs, SortInts(RowXs(edges, y)));
  }

  lemma EmptyActive(edges: seq<Edge>, y: int)
    requires multiset(Active(edges, y)) == multiset{}
    ensures Filter(ActiveAt(y), edges) == []
  {
    assert |Active(edges, y)| == 0;
  }

  ghost predicate RowFromOk(edges: seq<Edge>, r: Option<Gen>, y: int, filled: set<Point>)
  {
    && (r.None? ==> Rows(edges, y) == {})
    && (r.Some? ==> Inv(r.value, edges) && r.value.filled + Pending(r.value, edges) == filled + Rows(edges, y))
  }

  /** From the top of row `y` the generator draws exactly the rows from `y`. */
  lemma RowFromPending(edges: seq<Edge>, et: map<int, seq<Live>>, maxY: int, y: int, ael: seq<Live>, filled: set<Point>)
    requires Table(edges, et, maxY)
    requires multiset(ael) == multiset(Carried(edges, y))
    ensures RowFromOk(edges, RowFrom(et, maxY, y, ael, filled), y, filled)
  {
    if y >= maxY {
      RowsBeyond(edges, y);
    } else if |Filter(Alive(y), ael) + EtAt(et, y)| == 0 {
      RowFromEmpty(edges, et, maxY, y, ael, filled);
    } else {
      RowFromSorted(edges, et, maxY, y, ael, filled);
    }
  }

  /** A row with no active edge is skipped. */
  lemma RowFromEmpty(edges: seq<Edge>, et: map<int, seq<Live>>, maxY: int, y: int, ael: seq<Live>, filled: set<Point>)
    requires Table(edges, et, maxY) && y < maxY
    requires multiset(ael) == multiset(Carried(edges, y))
    requires |Filter(Alive(y), ael) + EtAt(et, y)| == 0
    ensures RowFromOk(edges, RowFrom(et, maxY, y, ael, filled), y, filled)
  {
    Rebuilt(edges, y, ael);
    EmptyActive(edges, y);
    RowsSkip(edges, y);
  }

  /** A row with active edges sorts them and then fills. */
  lemma RowFromSorted(edges: seq<Edge>, et: map<int, seq<Live>>, maxY: int, y: int, ael: seq<Live>, filled: set<Point>)
    requires Table(edges, et, maxY) && y < maxY
    requires multiset(ael) == multiset(Carried(edges, y))
    requires |Filter(Alive(y), ael) + EtAt(et, y)| > 0
    ensures RowFromOk(edges, RowFrom(et, maxY, y, ael, filled), y, filled)
  {
    Rebuilt(edges, y, ael);
  }

  // ---------------------------------------------------------------------
  // One step at a time.

  ghost predicate StepOk(g: Gen, edges: seq<Edge>)
    requires Valid(g)
  {
    && (Step(g).None? ==> Pending(g, edges) <= g.filled)
    && (Step(g).Some? ==> Inv(Step(g).value, edges)
                          && Step(g).value.filled + Pending(Step(g).value, edges) == g.filled + Pending(g, edges))
  }

  lemma StepStart(g: Gen, edges: seq<Edge>)
    requires g.phase.Start? && Inv(g, edges)
    ensures StepOk(g, edges)
  {
    var vs := g.phase.vs;
    if |vs| < 3 {
      assert Step(g).None? && ScanTarget(vs) == {};
    } else {
      EtOfEmpty(edges);
      if |edges| == 0 {
        StepNoEdges(g);
      } else {
        StepShowEt(g, edges);
      }
    }
  }

  lemma StepNoEdges(g: Gen)
    requires g.phase.Start? && |g.phase.vs| >= 3 && |BuildEdges(g.phase.vs)| == 0
    ensures Step(g).None? && ScanTarget(g.phase.vs) == {}
  {
    EtOfEmpty([]);
    ScanSpecEmpty();
  }

  lemma StepShowEt(g: Gen, edges: seq<Edge>)
    requires g.phase.Start? && |g.phase.vs| >= 3 && edges == BuildEdges(g.phase.vs) && |edges| > 0
    ensures Step(g).Some? && Inv(Step(g).value, edges)
    ensures Step(g).value.filled == g.filled && Pending(Step(g).value, edges) == ScanTarget(g.phase.vs)
  {
    var g' := StartStep(g, edges);
    ShownFacts(g.phase.vs, edges, g');
  }

  /** The table just shown meets the invariant, with the whole target
      still to draw. */
  lemma ShownFacts(vs: seq<Point>, edges: seq<Edge>, g: Gen)
    requires |vs| >= 3 && edges == BuildEdges(vs) && |edges| > 0
    requires g.phase == EtShown(EtOf(edges), MinYMin(edges), MaxYMax(edges))
    ensures Inv(g, edges) && Pending(g, edges) == ScanTarget(vs)
  {
    BuiltWellFormed(vs, edges);
    ShownParts(g, edges);
    RowsFromMin(edges);
  }

  lemma BuiltWellFormed(vs: seq<Point>, edges: seq<Edge>)
    requires edges == BuildEdges(vs)
    ensures WellFormed(edges)
  {
  }

  lemma ShownParts(g: Gen, edges: seq<Edge>)
    requires |edges| > 0 && WellFormed(edges)
    requires g.phase == EtShown(EtOf(edges), MinYMin(edges), MaxYMax(edges))
    ensures Inv(g, edges) && Pending(g, edges) == Rows(edges, MinYMin(edges))
  {
    assert Table(edges, EtOf(edges), MaxYMax(edges));
  }

  /** From the start with some edge the generator shows the edge table. */
  lemma StartStep(g: Gen, edges: seq<Edge>) returns (g': Gen)
    requires g.phase.Start? && |g.phase.vs| >= 3 && edges == BuildEdges(g.phase.vs) && |edges| > 0
    ensures g' == Gen(EtShown(EtOf(edges), MinYMin(edges), MaxYMax(edges)), g.filled)
    ensures Step(g) == Some(g')
  {
    EtOfEmpty(edges);
    g' := Gen(EtShown(EtOf(edges), MinYMin(edges), MaxYMax(edges)), g.filled);
    var r := Step(g);
    assert r == Some(g');
  }

  lemma StepEtShown(g: Gen, edges: seq<Edge>)
    requires g.phase.EtShown? && Inv(g, edges)
    ensures StepOk(g, edges)
  {
    CarriedFirst(edges);
    RowFromPending(edges, g.phase.et, g.phase.maxY, g.phase.minY, [], g.filled);
  }

  lemma StepRowEmpty(g: Gen, edges: seq<Edge>)
    requires Valid(g) && g.phase.RowEmpty? && Inv(g, edges)
    ensures StepOk(g, edges)
  {
    var RowEmpty(et, maxY, y) := g.phase;
    EmptyParts(g, edges, et, maxY, y);
    AfterEmptyRow(edges, et, maxY, y, g.filled);
    StepByRowFrom(g, edges, y + 1);
  }

  /** From the row after one with no active edge the generator draws the
      rows from there on, starting with an empty list. */
  lemma AfterEmptyRow(edges: seq<Edge>, et: map<int, seq<Live>>, maxY: int, y: int, filled: set<Point>)
    requires Table(edges, et, maxY) && Filter(ActiveAt(y), edges) == []
    ensures RowFromOk(edges, RowFrom(et, maxY, y + 1, [], filled), y + 1, filled)
  {
    NothingCarried(edges, y);
    RowFromPending(edges, et, maxY, y + 1, [], filled);
  }

  /** After a row with no active edge nothing is carried into the next. */
  lemma NothingCarried(edges: seq<Edge>, y: int)
    requires Filter(ActiveAt(y), edges) == []
    ensures Carried(edges, y + 1) == []
  {
    assert ActiveAt(y + 1 - 1) == ActiveAt(y);
  }

  lemma EmptyParts(g: Gen, edges: seq<Edge>, et: map<int, seq<Live>>, maxY: int, y: int)
    requires Valid(g) && g.phase == RowEmpty(et, maxY, y) && Inv(g, edges)
    ensures Table(edges, et, maxY) && Filter(ActiveAt(y), edges) == []
    ensures Step(g) == RowFrom(et, maxY, y + 1, [], g.filled)
    ensures Pending(g, edges) == Rows(edges, y + 1)
  {
    StepEmpty(g, et, maxY, y);
  }

  lemma StepEmpty(g: Gen, et: map<int, seq<Live>>, maxY: int, y: int)
    requires Valid(g) && g.phase == RowEmpty(et, maxY, y)
    ensures Step(g) == RowFrom(et, maxY, y + 1, [], g.filled)
  {
    var r := Step(g);
    assert r == RowFrom(et, maxY, y + 1, [], g.filled);
  }

  /** A step that resumes at the top of row `y` with nothing left over from
      its own row is one where RowFrom's promise is the step's. */
  lemma StepByRowFrom(g: Gen, edges: seq<Edge>, y: int)
    requires Valid(g) && Pending(g, edges) == Rows(edges, y)
    requires RowFromOk(edges, Step(g), y, g.filled)
    ensures StepOk(g, edges)
  {
  }

  lemma StepRowSorted(g: Gen, edges: seq<Edge>)
    requires Valid(g) && g.phase.RowSorted? && Inv(g, edges)
    ensures StepOk(g, edges)
  {
    ActiveXs(edges, g.phase.y, g.phase.ael);
    RowsSplit(edges, g.phase.y);
  }

  lemma StepRowFilled(g: Gen, edges: seq<Edge>)
    requires Valid(g) && g.phase.RowFilled? && Inv(g, edges)
    ensures StepOk(g, edges)
  {
    var RowFilled(et, maxY, y, ael) := g.phase;
    FilledParts(g, edges, et, maxY, y, ael);
    AdvancePending(edges, et, maxY, y, ael, g.filled);
    StepByRowFrom(g, edges, y + 1);
  }

  /** From the end of row `y` the generator draws exactly the rows after it. */
  lemma AdvancePending(edges: seq<Edge>, et: map<int, seq<Live>>, maxY: int, y: int, ael: seq<Live>, filled: set<Point>)
    requires Table(edges, et, maxY) && multiset(ael) == multiset(Active(edges, y))
    ensures RowFromOk(edges, Advance(et, maxY, y, ael, filled), y + 1, filled)
  {
    BumpCarried(edges, y, ael);
    RowFromPending(edges, et, maxY, y + 1, Map(Bump, ael), filled);
  }

  lemma FilledParts(g: Gen, edges: seq<Edge>, et: map<int, seq<Live>>, maxY: int, y: int, ael: seq<Live>)
    requires Valid(g) && g.phase == RowFilled(et, maxY, y, ael) && Inv(g, edges)
    ensures Table(edges, et, maxY) && multiset(ael) == multiset(Active(edges, y))
    ensures Step(g) == Advance(et, maxY, y, ael, g.filled)
    ensures Pending(g, edges) == Rows(edges, y + 1)
  {
    assert g == Gen(RowFilled(et, maxY, y, ael), g.filled);
    StepFilled(et, maxY, y, ael, g.filled);
  }

  lemma StepFilled(et: map<int, seq<Live>>, maxY: int, y: int, ael: seq<Live>, filled: set<Point>)
    requires y < maxY
    ensures Step(Gen(RowFilled(et, maxY, y, ael), filled)) == Advance(et, maxY, y, ael, filled)
  {
  }

  /** One step keeps "drawn so far + still to draw" fixed, and the generator
      stops only when nothing is left to draw. */
  lemma StepPending(g: Gen, edges: seq<Edge>)
    requires Valid(g) && Inv(g, edges)
    ensures StepOk(g, edges)
  {
    match g.phase
    case Start(_) => StepStart(g, edges);
    case EtShown(_, _, _) => StepEtShown(g, edges);
    case RowEmpty(_, _, _) => StepRowEmpty(g, edges);
    case RowSorted(_, _, _, _) => StepRowSorted(g, edges);
    case RowFilled(_, _, _, _) => StepRowFilled(g, edges);
  }

  /** Draining the generator draws exactly what was pending. */
  lemma {:induction false} RunPending(g: Gen, edges: seq<Edge>)
    requires Valid(g) && Inv(g, edges)
    ensures Run(g) == g.filled + Pending(g, edges)
    decreases Stage(g), RowsLeft(g), RowRank(g)
  {
    StepPending(g, edges);
    match Step(g)
    case None =>
    case Some(g') =>
      RunPending(g', edges);
  }

  /** The active-edge-list filler, run to completion on a fresh fill, draws
      exactly the canvas pixels inside the pairs of every row's sorted
      rounded intersections. */
  lemma RunFillsScanTarget(vs: seq<Point>)
    ensures Run(Init(vs)) == ScanTarget(vs)
  {
    RunPending(Init(vs), BuildEdges(vs));
  }

  /** Both scanline fillers, run to completion, fill the same pixels. */
  lemma ScanlinesAgree(vs: seq<Point>)
    ensures Run(Init(vs)) == Oel.Run(Oel.Init(vs))
  {
    RunFillsScanTarget(vs);
    Oel.RunFillsScanTarget(vs);
  }
}

=== FILE: scanline_oel.dfy ===
/** The ordered-edge-list scanline filler (`_scanline_ordered_edge_list_debug`
    in giis/6/main6.py) as a resumable generator: `Step` runs from one `yield`
    to the next, `None` is StopIteration, and `Run` drains it like
    `for _ in gen: pass`. */
module ScanlineOel {
  import opened Bresenham
  import opened Outcomes
  import opened Sorting
  import opened Canvas
  import opened EdgeTable

  /** One `(y, x)` tuple of `all_intersections`. */
  datatype Hit = Hit(y: int, x: int)

  /** Python's tuple order: by y, then by x. */
  function HitLe(a: Hit, b: Hit): bool
  {
    a.y < b.y || (a.y == b.y && a.x <= b.x)
  }

  lemma HitLeTotal()
    ensures TotalPreorder(HitLe)
  {
  }

  /** `all_intersections.sort()`. */
  function SortHits(hs: seq<Hit>): (r: seq<Hit>)
    ensures SortedBy(r, HitLe) && multiset(r) == multiset(hs)
  {
    HitLeTotal();
    SortSpec(hs, HitLe);
    Sort(hs, HitLe)
  }

  function HitOn(y: int): int -> Hit
  {
    (x: int) => Hit(y, x)
  }

  function XOf(h: Hit): int
  {
    h.x
  }

  function OnRow(y: int): Hit -> bool
  {
    (h: Hit) => h.y == y
  }

  /** The x values recorded for row `y`, in list order. */
  function XsAt(hs: seq<Hit>, y: int): seq<int>
  {
    Map(XOf, Filter(OnRow(y), hs))
  }

  /** The intersections of rows `y .. maxY - 1`, row by row and, within a
      row, in edge order. */
  function HitsFrom(edges: seq<Edge>, y: int, maxY: int): seq<Hit>
    decreases maxY - y
  {
    if y >= maxY then [] else Map(HitOn(y), RowXs(edges, y)) + HitsFrom(edges, y + 1, maxY)
  }

  predicate SortedByY(hs: seq<Hit>)
  {
    forall a, b :: 0 <= a < b < |hs| ==> hs[a].y <= hs[b].y
  }

  datatype Phase =
    | Start(vs: seq<Point>)
      /** after "Show Edges" */
    | EdgesShown(edges: seq<Edge>)
      /** after the raw intersections */
    | RawShown(raw: seq<Hit>)
      /** after the sort */
    | SortedShown(hits: seq<Hit>)
      /** after showing row `cy`'s sorted intersections `xs`; `i` is the list
          position that closed the row (`|hits|` for the last row) */
    | RowShown(hits: seq<Hit>, i: nat, cy: int, xs: seq<int>)
      /** after filling the pair starting at `xs[j]` */
    | PairFilled(hits: seq<Hit>, i: nat, cy: int, xs: seq<int>, j: nat)

  /** The generator's resume point plus the pixels it has drawn so far. */
  datatype Gen = Gen(phase: Phase, filled: set<Point>)

  predicate Valid(g: Gen)
  {
    match g.phase
    case Start(_) => true
    case EdgesShown(edges) => |edges| > 0
    case RawShown(_) => true
    case SortedShown(hits) => SortedByY(hits)
    case RowShown(hits, i, _, _) => SortedByY(hits) && i <= |hits|
    case PairFilled(hits, i, _, xs, j) => SortedByY(hits) && i <= |hits| && j + 1 < |xs| && j % 2 == 0
  }

  /** The creation of the generator by `start_fill`, which clears the fill. */
  function Init(vs: seq<Point>): Gen
  {
    Gen(Start(vs), {})
  }

  function Stage(g: Gen): nat
  {
    match g.phase
    case Start(_) => 5
    case EdgesShown(_) => 4
    case RawShown(_) => 3
    case SortedShown(_) => 2
    case RowShown(_, _, _, _) => 1
    case PairFilled(_, _, _, _, _) => 1
  }

  function Remaining(g: Gen): nat
  {
    match g.phase
    case RowShown(hits, i, _, _) => if i <= |hits| then |hits| - i else 0
    case PairFilled(hits, i, _, _, _) => if i <= |hits| then |hits| - i else 0
    case _ => 0
  }

  function PairsLeft(g: Gen): nat
  {
    match g.phase
    case RowShown(_, _, _, xs) => |xs| + 2
    case PairFilled(_, _, _, xs, j) => if j <= |xs| then |xs| - j else 0
    case _ => 0
  }

  /** `g'` comes strictly after `g` in the lexicographic progress order. */
  predicate Precedes(g': Gen, g: Gen)
  {
    Stage(g') < Stage(g)
    || (Stage(g') == Stage(g) && Remaining(g') < Remaining(g))
    || (Stage(g') == Stage(g) && Remaining(g') == Remaining(g) && PairsLeft(g') < PairsLeft(g))
  }

  /** The grouping loop from list position `i`, with `cy` the current row and
      `act` its x values so far, up to the next `yield` (a row shown). */
  function Scan(hits: seq<Hit>, i: nat, cy: int, act: seq<int>, filled: set<Point>): (r: Option<Gen>)
    requires i <= |hits|
    ensures r.Some? ==> r.value.filled == filled
    ensures r.Some? ==> r.value.phase.RowShown? && i <= r.value.phase.i <= |hits|
    ensures r.Some? ==> r.value.phase.hits == hits
    decreases |hits| - i
  {
    if i == |hits| then
      if |act| > 0 then Some(Gen(RowShown(hits, i, cy, SortInts(act)), filled)) else None
    else if hits[i].y != cy then
      if |act| > 0 then Some(Gen(RowShown(hits, i, cy, SortInts(act)), filled))
      else Scan(hits, i + 1, hits[i].y, [hits[i].x], filled)
    else Scan(hits, i + 1, cy, act + [hits[i].x], filled)
  }

  /** The pair loop of row `cy` from pair index `j`; once the pairs are done,
      the row is closed and grouping resumes after position `i`. */
  function Pairs(hits: seq<Hit>, i: nat, cy: int, xs: seq<int>, j: nat, filled: set<Point>): (r: Option<Gen>)
    requires i <= |hits|
  {
    if j + 1 < |xs| then
      Some(Gen(PairFilled(hits, i, cy, xs, j), DrawRange(filled, cy, xs[j], xs[j + 1])))
    else if i < |hits| then
      Scan(hits, i + 1, hits[i].y, [hits[i].x], filled)
    else None
  }

  /** One `next()` on the generator. */
  function Step(g: Gen): (r: Option<Gen>)
    requires Valid(g)
    ensures r.Some? ==> Valid(r.value) && Precedes(r.value, g)
    ensures r.Some? ==> g.filled <= r.value.filled
  {
    match g.phase
    case Start(vs) =>
      if |vs| < 3 then None
      else
        var edges := BuildEdges(vs);
        if |edges| == 0 then None else Some(Gen(EdgesShown(edges), g.filled))
    case EdgesShown(edges) =>
      Some(Gen(RawShown(HitsFrom(edges, MinYMin(edges), MaxYMax(edges))), g.filled))
    case RawShown(raw) =>
      var hits := SortHits(raw);
      SortedHitsByY(hits);
      Some(Gen(SortedShown(hits), g.filled))
    case SortedShown(hits) =>
      Scan(hits, 0, -1, [], g.filled)
    case RowShown(hits, i, cy, xs) =>
      Pairs(hits, i, cy, xs, 0, g.filled)
    case PairFilled(hits, i, cy, xs, j) =>
      Pairs(hits, i, cy, xs, j + 2, g.filled)
  }

  lemma SortedHitsByY(hs: seq<Hit>)
    requires SortedBy(hs, HitLe)
    ensures SortedByY(hs)
  {
    forall a, b | 0 <= a < b < |hs|
      ensures hs[a].y <= hs[b].y
    {
      assert HitLe(hs[a], hs[b]);
    }
  }

  /** `for _ in generator: pass`: the pixels drawn once it is exhausted. */
  function Run(g: Gen): set<Point>
    requires Valid(g)
    decreases Stage(g), Remaining(g), PairsLeft(g)
  {
    match Step(g)
    case None => g.filled
    case Some(g') => Run(g')
  }

  // ---------------------------------------------------------------------
  // What remains to be drawn from each resume point.

  /** The x values of row `y` still to be drawn: `act` if `y` is the current
      row, plus those of the list from position `i`. */
  function Pend(hits: seq<Hit>, i: nat, cy: int, act: seq<int>, y: int): seq<int>
    requires i <= |hits|
  {
    (if y == cy then act else []) + XsAt(hits[i..], y)
  }

  ghost function GroupTarget(hits: seq<Hit>, i: nat, cy: int, act: seq<int>): set<Point>
    requires i <= |hits|
  {
    set p | p in Pixels && InSpans(SortInts(Pend(hits, i, cy, act, p.y)), p.x)
  }

  ghost function RowsTarget(hits: seq<Hit>): set<Point>
  {
    set p | p in Pixels && InSpans(SortInts(XsAt(hits, p.y)), p.x)
  }

  ghost function RestTarget(hits: seq<Hit>, i: nat): set<Point>
  {
    if i < |hits| then GroupTarget(hits, i + 1, hits[i].y, [hits[i].x]) else {}
  }

  /** Everything the generator will still draw from resume point `g`. */
  ghost function Pending(g: Gen): set<Point>
    requires Valid(g)
  {
    match g.phase
    case Start(vs) => ScanTarget(vs)
    case EdgesShown(edges) => ScanSpec(edges)
    case RawShown(raw) => RowsTarget(raw)
    case SortedShown(hits) => RowsTarget(hits)
    case RowShown(hits, i, cy, xs) => PairsFrom(cy, xs, 0) + RestTarget(hits, i)
    case PairFilled(hits, i, cy, xs, j) => PairsFrom(cy, xs, j + 2) + RestTarget(hits, i)
  }

  // ---------------------------------------------------------------------
  // Facts about the per-row x lists.

  lemma XsAtSplit(hits: seq<Hit>, i: nat, y: int)
    requires i < |hits|
    ensures XsAt(hits[i..], y) == (if hits[i].y == y then [hits[i].x] else []) + XsAt(hits[i + 1..], y)
  {
    assert hits[i..][1..] == hits[i + 1..];
  }

  lemma XsAtAbsent(hs: seq<Hit>, y: int)
    requires forall k :: 0 <= k < |hs| ==> hs[k].y != y
    ensures XsAt(hs, y) == []
  {
    FilterNone(OnRow(y), hs);
  }

  /** Sorting the list only permutes each row's x values. */
  lemma XsAtPerm(a: seq<Hit>, b: seq<Hit>, y: int)
    requires multiset(a) == multiset(b)
    ensures SortInts(XsAt(a, y)) == SortInts(XsAt(b, y))
  {
    FilterPerm(OnRow(y), a, b);
    MapPerm(XOf, Filter(OnRow(y), a), Filter(OnRow(y), b));
    SortIntsPerm(XsAt(a, y), XsAt(b, y));
  }

  /** The hits generated for row `y'` contribute to row `y` exactly when
      `y == y'`, and then they are that row's rounded intersections. */
  lemma XsAtRow(edges: seq<Edge>, y': int, y: int)
    ensures XsAt(Map(HitOn(y'), RowXs(edges, y')), y) == if y == y' then RowXs(edges, y) else []
  {
    var xs := RowXs(edges, y');
    var hs := Map(HitOn(y'), xs);
    forall k | 0 <= k < |hs|
      ensures hs[k] == Hit(y', xs[k])
    {
      MapIndex(HitOn(y'), xs, k);
    }
    if y == y' {
      FilterAll(OnRow(y), hs);
      var r := Map(XOf, hs);
      forall k | 0 <= k < |r|
        ensures r[k] == xs[k]
      {
        MapIndex(XOf, hs, k);
      }
    } else {
      FilterNone(OnRow(y), hs);
    }
  }

  /** The raw list holds, for every row, exactly that row's intersections. */
  lemma {:induction false} XsAtHitsFrom(edges: seq<Edge>, y0: int, maxY: int, y: int)
    ensures XsAt(HitsFrom(edges, y0, maxY), y) == if y0 <= y < maxY then RowXs(edges, y) else []
    decreases maxY - y0
  {
    if y0 < maxY {
      var head := Map(HitOn(y0), RowXs(edges, y0));
      var tail := HitsFrom(edges, y0 + 1, maxY);
      XsAtHitsFrom(edges, y0 + 1, maxY, y);
      FilterConcat(OnRow(y), head, tail);
      MapConcat(XOf, Filter(OnRow(y), head), Filter(OnRow(y), tail));
      XsAtRow(edges, y0, y);
    }
  }

  lemma RawTarget(edges: seq<Edge>)
    requires |edges| > 0
    ensures RowsTarget(HitsFrom(edges, MinYMin(edges), MaxYMax(edges))) == ScanSpec(edges)
  {
    var raw := HitsFrom(edges, MinYMin(edges), MaxYMax(edges));
    forall y
      ensures XsAt(raw, y) == RowXs(edges, y)
    {
      XsAtHitsFrom(edges, MinYMin(edges), MaxYMax(edges), y);
      if !(MinYMin(edges) <= y < MaxYMax(edges)) {
        RowOutsideRange(edges, y);
      }
    }
  }

  lemma SortedTarget(raw: seq<Hit>)
    ensures RowsTarget(SortHits(raw)) == RowsTarget(raw)
  {
    forall y
      ensures SortInts(XsAt(SortHits(raw), y)) == SortInts(XsAt(raw, y))
    {
      XsAtPerm(SortHits(raw), raw, y);
    }
  }

  lemma GroupTargetEq(h1: seq<Hit>, i1: nat, c1: int, a1: seq<int>,
                      h2: seq<Hit>, i2: nat, c2: int, a2: seq<int>)
    requires i1 <= |h1| && i2 <= |h2|
    requires forall y :: Pend(h1, i1, c1, a1, y) == Pend(h2, i2, c2, a2, y)
    ensures GroupTarget(h1, i1, c1, a1) == GroupTarget(h2, i2, c2, a2)
  {
    forall p
      ensures p in GroupTarget(h1, i1, c1, a1) <==> p in GroupTarget(h2, i2, c2, a2)
    {
      assert Pend(h1, i1, c1, a1, p.y) == Pend(h2, i2, c2, a2, p.y);
    }
  }

  lemma SortIntsEmpty()
    ensures SortInts([]) == []
  {
  }

  /** Per pixel: a row closed at position `i` contributes the pairs of its
      sorted x values, and the rows after it contribute what follows. */
  lemma CloseRowAt(hits: seq<Hit>, i: nat, cy: int, act: seq<int>, p: Point)
    requires SortedByY(hits) && i <= |hits|
    requires forall k :: i <= k < |hits| ==> hits[k].y > cy
    ensures p in GroupTarget(hits, i, cy, act) <==> p in PairsFrom(cy, SortInts(act), 0) + RestTarget(hits, i)
  {
    PairsFromFirst(cy, SortInts(act), p);
    SortIntsEmpty();
    XsAtAbsent(hits[i..], cy);
    var own := Pend(hits, i, cy, act, p.y);
    if i < |hits| {
      var later := Pend(hits, i + 1, hits[i].y, [hits[i].x], p.y);
      XsAtSplit(hits, i, p.y);
      if p.y == cy {
        XsAtAbsent(hits[i + 1..], cy);
        assert later == [];
        assert own == act;
      } else {
        assert later == own;
      }
    } else {
      assert hits[i..] == [];
      assert own == (if p.y == cy then act else []);
    }
  }

  lemma CloseRow(hits: seq<Hit>, i: nat, cy: int, act: seq<int>)
    requires SortedByY(hits) && i <= |hits|
    requires forall k :: i <= k < |hits| ==> hits[k].y > cy
    ensures GroupTarget(hits, i, cy, act) == PairsFrom(cy, SortInts(act), 0) + RestTarget(hits, i)
  {
    forall p
      ensures p in GroupTarget(hits, i, cy, act) <==> p in PairsFrom(cy, SortInts(act), 0) + RestTarget(hits, i)
    {
      CloseRowAt(hits, i, cy, act, p);
    }
  }

  /** Appending an x value of the current row to `act` moves it from the
      list to the group without changing what is left to draw. */
  lemma SameRow(hits: seq<Hit>, i: nat, cy: int, act: seq<int>)
    requires i < |hits| && hits[i].y == cy
    ensures GroupTarget(hits, i + 1, cy, act + [hits[i].x]) == GroupTarget(hits, i, cy, act)
  {
    forall y
      ensures Pend(hits, i + 1, cy, act + [hits[i].x], y) == Pend(hits, i, cy, act, y)
    {
      SameRowAt(hits, i, cy, act, y);
    }
    GroupTargetEq(hits, i + 1, cy, act + [hits[i].x], hits, i, cy, act);
  }

  /** SameRow for the x values of one row `y`. */
  lemma SameRowAt(hits: seq<Hit>, i: nat, cy: int, act: seq<int>, y: int)
    requires i < |hits| && hits[i].y == cy
    ensures Pend(hits, i + 1, cy, act + [hits[i].x], y) == Pend(hits, i, cy, act, y)
  {
    XsAtSplit(hits, i, y);
    var rest := XsAt(hits[i + 1..], y);
    if y == cy {
      assert (act + [hits[i].x]) + rest == act + ([hits[i].x] + rest);
    } else {
      assert XsAt(hits[i..], y) == rest;
    }
  }

  /** With nothing collected yet, starting a new row at position `i` does not
      change what is left to draw. */
  lemma NewRow(hits: seq<Hit>, i: nat, cy: int)
    requires i < |hits|
    ensures GroupTarget(hits, i + 1, hits[i].y, [hits[i].x]) == GroupTarget(hits, i, cy, [])
  {
    forall y
      ensures Pend(hits, i + 1, hits[i].y, [hits[i].x], y) == Pend(hits, i, cy, [], y)
    {
      XsAtSplit(hits, i, y);
    }
    GroupTargetEq(hits, i + 1, hits[i].y, [hits[i].x], hits, i, cy, []);
  }

  lemma NothingLeft(hits: seq<Hit>, cy: int)
    ensures GroupTarget(hits, |hits|, cy, []) == {}
  {
    assert hits[|hits|..] == [];
    forall y
      ensures Pend(hits, |hits|, cy, [], y) == []
    {
    }
    SortIntsEmpty();
  }

  /** What grouping from position `i` leaves to draw equals the target of
      that grouping state. */
  ghost predicate ScanOk(hits: seq<Hit>, i: nat, cy: int, act: seq<int>, filled: set<Point>)
    requires i <= |hits|
  {
    var r := Scan(hits, i, cy, act, filled);
    && (r.None? ==> GroupTarget(hits, i, cy, act) == {})
    && (r.Some? ==> Valid(r.value) && Pending(r.value) == GroupTarget(hits, i, cy, act))
  }

  lemma ScanClose(hits: seq<Hit>, i: nat, cy: int, act: seq<int>, filled: set<Point>)
    requires SortedByY(hits) && i <= |hits| && |act| > 0
    requires forall k :: i <= k < |hits| ==> hits[k].y >= cy
    requires i < |hits| ==> hits[i].y != cy
    ensures ScanOk(hits, i, cy, act, filled)
  {
    CloseRow(hits, i, cy, act);
  }

  lemma ScanEnd(hits: seq<Hit>, cy: int, filled: set<Point>)
    ensures ScanOk(hits, |hits|, cy, [], filled)
  {
    NothingLeft(hits, cy);
  }

  lemma ScanNew(hits: seq<Hit>, i: nat, cy: int, filled: set<Point>)
    requires i < |hits| && hits[i].y != cy
    requires ScanOk(hits, i + 1, hits[i].y, [hits[i].x], filled)
    ensures ScanOk(hits, i, cy, [], filled)
  {
    NewRow(hits, i, cy);
  }

  lemma ScanSame(hits: seq<Hit>, i: nat, cy: int, act: seq<int>, filled: set<Point>)
    requires i < |hits| && hits[i].y == cy
    requires ScanOk(hits, i + 1, cy, act + [hits[i].x], filled)
    ensures ScanOk(hits, i, cy, act, filled)
  {
    SameRow(hits, i, cy, act);
  }

  lemma {:induction false} ScanPending(hits: seq<Hit>, i: nat, cy: int, act: seq<int>, filled: set<Point>)
    requires SortedByY(hits) && i <= |hits|
    requires |act| > 0 ==> forall k :: i <= k < |hits| ==> hits[k].y >= cy
    ensures ScanOk(hits, i, cy, act, filled)
    decreases |hits| - i
  {
    if i == |hits| {
      if |act| > 0 {
        ScanClose(hits, i, cy, act, filled);
      } else {
        ScanEnd(hits, cy, filled);
      }
    } else if hits[i].y != cy {
      if |act| > 0 {
        ScanClose(hits, i, cy, act, filled);
      } else {
        ScanPending(hits, i + 1, hits[i].y, [hits[i].x], filled);
        ScanNew(hits, i, cy, filled);
      }
    } else {
      ScanPending(hits, i + 1, cy, act + [hits[i].x], filled);
      ScanSame(hits, i, cy, act, filled);
    }
  }

  ghost predicate PairsOk(hits: seq<Hit>, i: nat, cy: int, xs: seq<int>, j: nat, filled: set<Point>)
    requires i <= |hits|
  {
    var r := Pairs(hits, i, cy, xs, j, filled);
    && (r.None? ==> PairsFrom(cy, xs, j) + RestTarget(hits, i) == {})
    && (r.Some? ==> (&& Valid(r.value) && filled <= r.value.filled
                     && r.value.filled + Pending(r.value) == filled + PairsFrom(cy, xs, j) + RestTarget(hits, i)))
  }

  lemma PairsFill(hits: seq<Hit>, i: nat, cy: int, xs: seq<int>, j: nat, filled: set<Point>)
    requires SortedByY(hits) && i <= |hits| && j % 2 == 0 && j + 1 < |xs|
    ensures PairsOk(hits, i, cy, xs, j, filled)
  {
    PairsFromSplit(cy, xs, j);
  }

  lemma PairsNext(hits: seq<Hit>, i: nat, cy: int, xs: seq<int>, j: nat, filled: set<Point>)
    requires SortedByY(hits) && i < |hits| && j + 1 >= |xs|
    ensures PairsOk(hits, i, cy, xs, j, filled)
  {
    PairsFromDone(cy, xs, j);
    ScanPending(hits, i + 1, hits[i].y, [hits[i].x], filled);
  }

  lemma PairsLast(hits: seq<Hit>, cy: int, xs: seq<int>, j: nat, filled: set<Point>)
    requires j + 1 >= |xs|
    ensures PairsOk(hits, |hits|, cy, xs, j, filled)
  {
    PairsFromDone(cy, xs, j);
  }

  lemma PairsPending(hits: seq<Hit>, i: nat, cy: int, xs: seq<int>, j: nat, filled: set<Point>)
    requires SortedByY(hits) && i <= |hits| && j % 2 == 0
    ensures PairsOk(hits, i, cy, xs, j, filled)
  {
    if j + 1 < |xs| {
      PairsFill(hits, i, cy, xs, j, filled);
    } else if i < |hits| {
      PairsNext(hits, i, cy, xs, j, filled);
    } else {
      PairsLast(hits, cy, xs, j, filled);
    }
  }

  lemma SortedShownPending(hits: seq<Hit>, filled: set<Point>)
    requires SortedByY(hits)
    ensures var r := Scan(hits, 0, -1, [], filled);
            && (r.None? ==> RowsTarget(hits) == {})
            && (r.Some? ==> Valid(r.value) && Pending(r.value) == RowsTarget(hits))
  {
    ScanPending(hits, 0, -1, [], filled);
    StartTarget(hits);
  }

  /** Before the first row nothing is collected: the grouping's target is
      the rows' target. */
  lemma StartTarget(hits: seq<Hit>)
    ensures GroupTarget(hits, 0, -1, []) == RowsTarget(hits)
  {
    assert hits[0..] == hits;
    forall p
      ensures p in GroupTarget(hits, 0, -1, []) <==> p in RowsTarget(hits)
    {
      assert Pend(hits, 0, -1, [], p.y) == XsAt(hits, p.y);
    }
  }

  ghost predicate StepOk(g: Gen)
    requires Valid(g)
  {
    && (Step(g).None? ==> Pending(g) <= g.filled)
    && (Step(g).Some? ==> Step(g).value.filled + Pending(Step(g).value) == g.filled + Pending(g))
  }

  lemma StepStart(g: Gen)
    requires g.phase.Start?
    ensures StepOk(g)
  {
    if |g.phase.vs| >= 3 && |BuildEdges(g.phase.vs)| == 0 {
      SortIntsEmpty();
    }
  }

  lemma StepEdges(g: Gen)
    requires Valid(g) && g.phase.EdgesShown?
    ensures StepOk(g)
  {
    RawTarget(g.phase.edges);
  }

  lemma StepRaw(g: Gen)
    requires g.phase.RawShown?
    ensures StepOk(g)
  {
    SortedTarget(g.phase.raw);
  }

  lemma StepSorted(g: Gen)
    requires Valid(g) && g.phase.SortedShown?
    ensures StepOk(g)
  {
    SortedShownPending(g.phase.hits, g.filled);
  }

  lemma StepRow(g: Gen)
    requires Valid(g) && g.phase.RowShown?
    ensures StepOk(g)
  {
    PairsPending(g.phase.hits, g.phase.i, g.phase.cy, g.phase.xs, 0, g.filled);
  }

  lemma StepPair(g: Gen)
    requires Valid(g) && g.phase.PairFilled?
    ensures StepOk(g)
  {
    PairsPending(g.phase.hits, g.phase.i, g.phase.cy, g.phase.xs, g.phase.j + 2, g.filled);
  }

  /** One step keeps "drawn so far + still to draw" fixed, and the generator
      stops only when nothing is left to draw. */
  lemma StepPending(g: Gen)
    requires Valid(g)
    ensures StepOk(g)
  {
    match g.phase
    case Start(_) => StepStart(g);
    case EdgesShown(_) => StepEdges(g);
    case RawShown(_) => StepRaw(g);
    case SortedShown(_) => StepSorted(g);
    case RowShown(_, _, _, _) => StepRow(g);
    case PairFilled(_, _, _, _, _) => StepPair(g);
  }

  /** Draining the generator draws exactly what was pending. */
  lemma {:induction false} RunPending(g: Gen)
    requires Valid(g)
    ensures Run(g) == g.filled + Pending(g)
    decreases Stage(g), Remaining(g), PairsLeft(g)
  {
    StepPending(g);
    match Step(g)
    case None =>
    case Some(g') =>
      RunPending(g');
  }

  /** The ordered-edge-list filler, run to completion on a fresh fill, draws
      exactly the canvas pixels inside the pairs `[x_2j, x_2j+1)` of every
      row's sorted rounded intersections, and nothing for fewer than three
      vertices or without a non-horizontal edge. */
  lemma RunFillsScanTarget(vs: seq<Point>)
    ensures Run(Init(vs)) == ScanTarget(vs)
  {
    RunPending(Init(vs));
  }

  /** An odd trailing intersection pairs with nothing: dropping it leaves
      the filled spans unchanged. */
  lemma OddTrailingDropped(xs: seq<int>, z: int, x: int)
    requires |xs| % 2 == 0
    ensures InSpans(xs + [z], x) <==> InSpans(xs, x)
  {
    var ys := xs + [z];
    if InSpans(ys, x) {
      var j :| 0 <= j < |ys| - 1 && j % 2 == 0 && ys[j] <= x < ys[j + 1];
      assert j + 1 < |xs|;
      assert xs[j] <= x < xs[j + 1];
    }
    if InSpans(xs, x) {
      var j :| 0 <= j < |xs| - 1 && j % 2 == 0 && xs[j] <= x < xs[j + 1];
      assert ys[j] <= x < ys[j + 1];
    }
  }
}

=== FILE: seed_fill_simple.dfy ===
/** The pixel-stack seed fill (`_seed_fill_simple_debug` in giis/6/main6.py)
    as a resumable generator: `Step` runs from one `yield` to the next,
    `None` is StopIteration, and `Run` drains it. */
module SeedFillSimple {
  import opened Bresenham
  import opened Outcomes
  import opened Canvas
  import opened SeedPixels

  datatype Phase =
    | Start(seed: Point)
      /** at the head of `while stack:` */
    | Loop(stack: seq<Point>)
      /** after "Popped": `q` came off the top of the stack */
    | Popped(stack: seq<Point>, q: Point)
      /** after "Show filled pixel" */
    | Filled(stack: seq<Point>, q: Point)

  /** The generator's resume point, the boundary set it reads and the
      pixels it has drawn so far. */
  datatype Gen = Gen(boundary: set<Point>, phase: Phase, filled: set<Point>)

  /** The creation of the generator by `start_fill`, which clears the fill. */
  function Init(boundary: set<Point>, seed: Point): Gen
  {
    Gen(boundary, Start(seed), {})
  }

  /** The neighbour loop: each of `ns` in turn is appended when it is valid
      and not already on the stack. */
  function PushAll(boundary: set<Point>, filled: set<Point>, stack: seq<Point>, ns: seq<Point>): (r: seq<Point>)
    ensures |stack| <= |r| && r[..|stack|] == stack
    ensures forall i :: |stack| <= i < |r| ==>
              r[i] in ns && ValidSeed(boundary, filled, r[i]) && r[i] !in stack
    ensures forall i :: 0 <= i < |ns| && ValidSeed(boundary, filled, ns[i]) ==> ns[i] in r
    ensures NoDup(stack) ==> NoDup(r)
    decreases |ns|
  {
    if |ns| == 0 then stack
    else
      var n := ns[0];
      var s := if ValidSeed(boundary, filled, n) && n !in stack then stack + [n] else stack;
      var r := PushAll(boundary, filled, s, ns[1..]);
      assert r[..|stack|] == s[..|stack|];
      assert forall i :: 1 <= i < |ns| ==> ns[i] == ns[1..][i - 1];
      assert forall i :: |stack| <= i < |s| ==> s[i] == n;
      assert s == r[..|s|];
      assert n in s ==> n in r by {
        if n in s {
          var k :| 0 <= k < |s| && s[k] == n;
          assert r[k] == n;
        }
      }
      r
  }

  /** `2 * unfilled` lowered by one on the transitions that fill. */
  function Unfilled(g: Gen): nat
  {
    2 * |Pixels - g.filled| + (if g.phase.Start? || g.phase.Filled? then 1 else 0)
  }

  /** The stack size, counting a popped pixel that is still being handled. */
  function Pending(g: Gen): nat
  {
    match g.phase
    case Loop(stack) => |stack|
    case Popped(stack, _) => |stack| + 1
    case _ => 0
  }

  function Rank(g: Gen): nat
  {
    if g.phase.Loop? then 1 else 0
  }

  /** `g'` comes strictly after `g` in the lexicographic progress order. */
  predicate Precedes(g': Gen, g: Gen)
  {
    Unfilled(g') < Unfilled(g)
    || (Unfilled(g') == Unfilled(g) && Pending(g') < Pending(g))
    || (Unfilled(g') == Unfilled(g) && Pending(g') == Pending(g) && Rank(g') < Rank(g))
  }

  /** One `next()` on the generator. It stops at once for a seed on the
      boundary or off the canvas; otherwise a step fills at most one pixel,
      the popped one, and only when it is valid. */
  function Step(g: Gen): (r: Option<Gen>)
    ensures g.phase.Start? ==> (r.None? <==> !Open(g.boundary, g.phase.seed))
    ensures r.Some? ==> r.value.boundary == g.boundary && g.filled <= r.value.filled
    ensures r.Some? ==> Precedes(r.value, g)
    ensures r.Some? && r.value.filled != g.filled ==>
              && g.phase.Popped? && ValidSeed(g.boundary, g.filled, g.phase.q)
              && r.value.filled == g.filled + {g.phase.q}
  {
    match g.phase
    case Start(seed) =>
      if seed in g.boundary then None
      else if !InCanvas(seed) then None
      else Some(g.(phase := Loop([seed])))
    case Loop(stack) =>
      if |stack| == 0 then None
      else Some(g.(phase := Popped(stack[..|stack| - 1], stack[|stack| - 1])))
    case Popped(stack, q) =>
      if ValidSeed(g.boundary, g.filled, q) then
        UnfilledShrinks(g.filled, {q}, q);
        Some(g.(phase := Filled(stack, q), filled := DrawPixel(g.filled, q)))
      else Some(g.(phase := Loop(stack)))
    case Filled(stack, q) =>
      Some(g.(phase := Loop(PushAll(g.boundary, g.filled, stack, Neighbours(q)))))
  }

  /** `for _ in generator: pass`: the pixels drawn once it is exhausted. */
  function Run(g: Gen): set<Point>
    decreases Unfilled(g), Pending(g), Rank(g)
  {
    match Step(g)
    case None => g.filled
    case Some(g') => Run(g')
  }

  // ---------------------------------------------------------------------
  // Completeness: the fill ends closed under open 4-neighbours.

  /** Every open neighbour of a filled pixel (other than those in `skip`) is
      filled or still waiting in `pend`. */
  ghost predicate Frontier(boundary: set<Point>, filled: set<Point>, pend: seq<Point>, skip: set<Point>)
  {
    forall p, n :: p in filled && p !in skip && Adjacent(p, n) && Open(boundary, n) ==> n in filled || n in pend
  }

  ghost predicate Inv(g: Gen, seed: Point)
  {
    var b, f := g.boundary, g.filled;
    match g.phase
    case Start(s) => s == seed && f == {}
    case Loop(stack) =>
      Open(b, seed) && AllOpen(b, f) && Frontier(b, f, stack, {}) && (seed in f || seed in stack)
    case Popped(stack, q) =>
      Open(b, seed) && AllOpen(b, f) && Frontier(b, f, stack + [q], {})
      && (seed in f || seed in stack || seed == q)
    case Filled(stack, q) =>
      Open(b, seed) && AllOpen(b, f) && q in f && Frontier(b, f, stack, {q})
      && (seed in f || seed in stack)
  }

  /** What a finished fill satisfies: only open pixels; nothing for a seed
      that is not open; otherwise the seed and every open neighbour of a
      filled pixel. */
  ghost predicate Final(boundary: set<Point>, seed: Point, filled: set<Point>)
  {
    && AllOpen(boundary, filled)
    && (!Open(boundary, seed) ==> filled == {})
    && (Open(boundary, seed) ==> seed in filled && Closed(boundary, filled))
  }

  lemma StepLoopInv(g: Gen, seed: Point)
    requires g.phase.Loop? && Inv(g, seed)
    ensures Step(g).None? ==> Final(g.boundary, seed, g.filled)
    ensures Step(g).Some? ==> Inv(Step(g).value, seed)
  {
    var stack := g.phase.stack;
    if |stack| > 0 {
      assert stack == stack[..|stack| - 1] + [stack[|stack| - 1]];
    }
  }

  lemma StepPoppedInv(g: Gen, seed: Point)
    requires g.phase.Popped? && Inv(g, seed)
    ensures Step(g).Some? && Inv(Step(g).value, seed)
  {
    var b, f, stack, q := g.boundary, g.filled, g.phase.stack, g.phase.q;
    if ValidSeed(b, f, q) {
      var f' := f + {q};
      forall p, n | p in f' && p !in {q} && Adjacent(p, n) && Open(b, n)
        ensures n in f' || n in stack
      {
        assert n in f || n in stack + [q];
      }
    } else {
      forall p, n | p in f && Adjacent(p, n) && Open(b, n)
        ensures n in f || n in stack
      {
        assert n in f || n in stack + [q];
      }
    }
  }

  lemma StepFilledInv(g: Gen, seed: Point)
    requires g.phase.Filled? && Inv(g, seed)
    ensures Step(g).Some? && Inv(Step(g).value, seed)
  {
    var b, f, stack, q := g.boundary, g.filled, g.phase.stack, g.phase.q;
    var s' := PushAll(b, f, stack, Neighbours(q));
    forall p, n | p in f && Adjacent(p, n) && Open(b, n)
      ensures n in f || n in s'
    {
      if p == q {
        NeighboursAdjacent(q, n);
        var i :| 0 <= i < 4 && Neighbours(q)[i] == n;
      } else {
        assert n in f || n in stack;
        if n in stack {
          var i :| 0 <= i < |stack| && stack[i] == n;
          assert s'[i] == n;
        }
      }
    }
    if seed in stack {
      var i :| 0 <= i < |stack| && stack[i] == seed;
      assert s'[i] == seed;
    }
  }

  lemma StepInv(g: Gen, seed: Point)
    requires Inv(g, seed)
    ensures Step(g).None? ==> Final(g.boundary, seed, g.filled)
    ensures Step(g).Some? ==> Inv(Step(g).value, seed)
  {
    match g.phase
    case Start(_) =>
    case Loop(_) => StepLoopInv(g, seed);
    case Popped(_, _) => StepPoppedInv(g, seed);
    case Filled(_, _) => StepFilledInv(g, seed);
  }

  lemma {:induction false} RunFinal(g: Gen, seed: Point)
    requires Inv(g, seed)
    ensures Final(g.boundary, seed, Run(g))
    decreases Unfilled(g), Pending(g), Rank(g)
  {
    StepInv(g, seed);
    match Step(g)
    case None =>
    case Some(g') => RunFinal(g', seed);
  }

  // ---------------------------------------------------------------------
  // Soundness: the fill stays inside every closed region holding the seed.

  ghost predicate Within(g: Gen, s: set<Point>)
  {
    && g.filled <= s
    && match g.phase
       case Start(seed) => seed in s
       case Loop(stack) => forall x :: x in stack ==> x in s
       case Popped(stack, q) => q in s && forall x :: x in stack ==> x in s
       case Filled(stack, q) => q in s && forall x :: x in stack ==> x in s
  }

  lemma StepWithin(g: Gen, s: set<Point>)
    requires Closed(g.boundary, s) && Within(g, s)
    ensures Step(g).Some? ==> Within(Step(g).value, s)
  {
    match g.phase
    case Start(_) =>
    case Loop(stack) =>
      if |stack| > 0 {
        assert stack[|stack| - 1] in stack;
        forall x | x in stack[..|stack| - 1]
          ensures x in s
        {
          assert x in stack;
        }
      }
    case Popped(_, _) =>
    case Filled(stack, q) =>
      var s' := PushAll(g.boundary, g.filled, stack, Neighbours(q));
      forall x | x in s'
        ensures x in s
      {
        var i :| 0 <= i < |s'| && s'[i] == x;
        if i < |stack| {
          assert x == stack[i];
        } else {
          NeighboursAdjacent(q, x);
        }
      }
  }

  lemma {:induction false} RunWithin(g: Gen, s: set<Point>)
    requires Closed(g.boundary, s) && Within(g, s)
    ensures Run(g) <= s
    decreases Unfilled(g), Pending(g), Rank(g)
  {
    StepWithin(g, s);
    match Step(g)
    case None =>
    case Some(g') => RunWithin(g', s);
  }

  /** Run to completion, the simple seed fill covers only canvas pixels off
      the boundary, covers nothing for a seed on the boundary or off the
      canvas, and otherwise covers the seed and is closed under open
      4-neighbours. */
  lemma FillIsClosedRegion(boundary: set<Point>, seed: Point)
    ensures Final(boundary, seed, Run(Init(boundary, seed)))
  {
    RunFinal(Init(boundary, seed), seed);
  }

  /** ... and it is the least such region: any region that holds the seed
      and admits every open neighbour of its members contains the fill.
      With `FillIsClosedRegion` this makes the fill exactly the pixels
      4-connected to the seed through open pixels. */
  lemma FillIsLeast(boundary: set<Point>, seed: Point, s: set<Point>)
    requires seed in s && Closed(boundary, s)
    ensures Run(Init(boundary, seed)) <= s
  {
    RunWithin(Init(boundary, seed), s);
  }
}

=== FILE: seed_fill_span.dfy ===
/** The span-stack seed fill (`_scanline_seed_fill_debug` in
    giis/6/main6.py) as a resumable generator: `Step` runs from one `yield`
    to the next, `None` is StopIteration, and `Run` drains it. */
module SeedFillSpan {
  import opened Bresenham
  import opened Outcomes
  import opened Canvas
  import opened SeedPixels

  datatype Phase =
    | Start(seed: Point)
      /** at the head of `while stack:` */
    | Loop(stack: seq<Point>)
      /** after "Popped seed": `c` came off the top of the stack */
    | Popped(stack: seq<Point>, c: Point)
      /** after "Show identified span" `[xl, xr]` on row `c.y` */
    | Spanned(stack: seq<Point>, c: Point, xl: int, xr: int)
      /** after "Show filled span" */
    | SpanFilled(stack: seq<Point>, c: Point, xl: int, xr: int)

  /** The generator's resume point, the boundary set it reads and the
      pixels it has drawn so far. */
  datatype Gen = Gen(boundary: set<Point>, phase: Phase, filled: set<Point>)

  /** The creation of the generator by `start_fill`, which clears the fill. */
  function Init(boundary: set<Point>, seed: Point): Gen
  {
    Gen(boundary, Start(seed), {})
  }

  /** `while valid(x_left - 1, y): x_left -= 1`: the span reaches left over
      valid pixels and stops before the first invalid one. */
  function ExtendLeft(b: set<Point>, f: set<Point>, x: int, y: int): (r: int)
    ensures r <= x
    ensures forall k {:trigger ValidSeed(b, f, Point(k, y))} :: r <= k < x ==> ValidSeed(b, f, Point(k, y))
    ensures !ValidSeed(b, f, Point(r - 1, y))
    decreases if x > 0 then x else 0
  {
    if ValidSeed(b, f, Point(x - 1, y)) then ExtendLeft(b, f, x - 1, y) else x
  }

  /** `while valid(x_right + 1, y): x_right += 1`. */
  function ExtendRight(b: set<Point>, f: set<Point>, x: int, y: int): (r: int)
    ensures x <= r
    ensures forall k {:trigger ValidSeed(b, f, Point(k, y))} :: x < k <= r ==> ValidSeed(b, f, Point(k, y))
    ensures !ValidSeed(b, f, Point(r + 1, y))
    decreases if x < Width then Width - x else 0
  {
    if ValidSeed(b, f, Point(x + 1, y)) then ExtendRight(b, f, x + 1, y) else x
  }

  /** The span loop: every valid pixel of row `y` in `[x, xr]` is drawn;
      drawing one pixel does not change the validity of another. */
  function FillSpan(b: set<Point>, f: set<Point>, y: int, x: int, xr: int): (r: set<Point>)
    ensures forall p :: p in r <==> p in f || (p.y == y && x <= p.x <= xr && ValidSeed(b, f, p))
    decreases xr - x + 1
  {
    if x > xr then f
    else
      var p := Point(x, y);
      var f' := if ValidSeed(b, f, p) then DrawPixel(f, p) else f;
      FillSpan(b, f', y, x + 1, xr)
  }

  /** The validity test of row `y`, as a predicate on columns. The seed
      search only ever asks about one row, so it is stated over this. */
  function RowValid(b: set<Point>, f: set<Point>, y: int): int -> bool
  {
    k => ValidSeed(b, f, Point(k, y))
  }

  /** The rightmost pixel of a run within the window ending at `xr`: valid,
      and either at the window's edge or followed by an invalid pixel. */
  predicate RunEnd(v: int -> bool, xr: int, e: int)
  {
    v(e) && (e == xr || !v(e + 1))
  }

  /** `while x_scan <= x_right and not valid: x_scan += 1`. */
  function SkipInvalid(v: int -> bool, x: int, xr: int): (r: int)
    requires x <= xr + 1
    ensures x <= r <= xr + 1
    ensures r <= xr ==> v(r)
    ensures forall k :: x <= k < r ==> !v(k)
    decreases xr - x + 1
  {
    if x <= xr && !v(x) then SkipInvalid(v, x + 1, xr) else x
  }

  /** The inner loop over a valid run; returns `seed_candidate_x`, its last
      pixel within the window. */
  function ScanRun(v: int -> bool, x: int, xr: int): (r: int)
    requires x <= xr && v(x)
    ensures x <= r <= xr && RunEnd(v, xr, r)
    ensures forall k :: x < k <= r ==> v(k)
    decreases xr - x
  {
    if x + 1 <= xr && v(x + 1) then ScanRun(v, x + 1, xr) else x
  }

  /** The `x_scan` loop from `x` to `xr`: the rightmost pixel of every valid
      run in the window, left to right (`RowSeedsOrdered`). */
  function RowSeeds(v: int -> bool, x: int, xr: int): (r: seq<int>)
    ensures forall i :: 0 <= i < |r| ==> x <= r[i] <= xr
    decreases xr - x + 1
  {
    if x > xr then []
    else
      var s := SkipInvalid(v, x, xr);
      if s > xr then []
      else
        var e := ScanRun(v, s, xr);
        [e] + RowSeeds(v, e + 2, xr)
  }

  /** One round of the scan: the first run's end, then the rest of the
      window after the invalid pixel that ends it. */
  lemma RowSeedsUnfold(v: int -> bool, x: int, xr: int)
    requires x <= xr && SkipInvalid(v, x, xr) <= xr
    ensures var e := ScanRun(v, SkipInvalid(v, x, xr), xr);
            RowSeeds(v, x, xr) == [e] + RowSeeds(v, e + 2, xr)
  {
  }

  /** The scan finds only rightmost pixels of valid runs. */
  lemma {:induction false} RowSeedsSound(v: int -> bool, x: int, xr: int)
    ensures var r := RowSeeds(v, x, xr);
            forall i :: 0 <= i < |r| ==> RunEnd(v, xr, r[i])
    decreases xr - x + 1
  {
    if x <= xr && SkipInvalid(v, x, xr) <= xr {
      var e := ScanRun(v, SkipInvalid(v, x, xr), xr);
      RowSeedsSound(v, e + 2, xr);
      RowSeedsUnfold(v, x, xr);
      var r := RowSeeds(v, x, xr);
      forall i | 0 <= i < |r|
        ensures RunEnd(v, xr, r[i])
      {
        if i > 0 {
          assert r[i] == RowSeeds(v, e + 2, xr)[i - 1];
        }
      }
    }
  }

  /** The seeds of a row come left to right, at least two pixels apart. */
  lemma {:induction false} RowSeedsOrdered(v: int -> bool, x: int, xr: int)
    ensures var r := RowSeeds(v, x, xr);
            forall i, j :: 0 <= i < j < |r| ==> r[i] + 1 < r[j]
    decreases xr - x + 1
  {
    if x <= xr && SkipInvalid(v, x, xr) <= xr {
      var e := ScanRun(v, SkipInvalid(v, x, xr), xr);
      RowSeedsOrdered(v, e + 2, xr);
      RowSeedsUnfold(v, x, xr);
    }
  }

  /** Two run ends in one window are the same pixel or at least two apart. */
  lemma RunEndsApart(v: int -> bool, s: int, xr: int, k: int)
    requires s <= k <= xr && RunEnd(v, xr, k) && v(s)
    ensures var e := ScanRun(v, s, xr); k == e || e + 1 < k
  {
  }

  /** The scan misses no run: every rightmost pixel of a run in the window
      is found. */
  lemma {:induction false} RowSeedsComplete(v: int -> bool, x: int, xr: int, k: int)
    requires x <= k <= xr && RunEnd(v, xr, k)
    ensures k in RowSeeds(v, x, xr)
    decreases xr - x + 1
  {
    var e := FirstRunEnd(v, x, xr, k);
    var rest := RowSeeds(v, e + 2, xr);
    if k != e {
      RowSeedsComplete(v, e + 2, xr, k);
      InTail(e, rest, k);
    }
  }

  /** The first run end the scan finds is the given run end `k` or lies
      at least two pixels left of it. */
  lemma FirstRunEnd(v: int -> bool, x: int, xr: int, k: int) returns (e: int)
    requires x <= k <= xr && RunEnd(v, xr, k)
    ensures x <= e && (k == e || e + 2 <= k)
    ensures RowSeeds(v, x, xr) == [e] + RowSeeds(v, e + 2, xr)
  {
    var s := SkipInvalid(v, x, xr);
    assert x <= k < s ==> !v(k);
    e := ScanRun(v, s, xr);
    RunEndsApart(v, s, xr, k);
    RowSeedsUnfold(v, x, xr);
  }

  lemma InTail(e: int, rest: seq<int>, k: int)
    requires k in rest
    ensures k in [e] + rest
  {
    var i :| 0 <= i < |rest| && rest[i] == k;
    assert ([e] + rest)[i + 1] == k;
  }

  /** `if seed not in stack: stack.append(seed)` for the seeds `xs` of row
      `y` in turn. */
  function PushNew(stack: seq<Point>, y: int, xs: seq<int>): (r: seq<Point>)
    ensures |stack| <= |r| && r[..|stack|] == stack
    ensures forall i :: |stack| <= i < |r| ==> r[i].y == y && r[i].x in xs && r[i] !in stack
    ensures forall i :: 0 <= i < |xs| ==> Point(xs[i], y) in r
    ensures NoDup(stack) ==> NoDup(r)
    decreases |xs|
  {
    if |xs| == 0 then stack
    else
      var p := Point(xs[0], y);
      var s := if p in stack then stack else stack + [p];
      var r := PushNew(s, y, xs[1..]);
      assert r[..|stack|] == s[..|stack|];
      assert forall i :: 1 <= i < |xs| ==> xs[i] == xs[1..][i - 1];
      assert s == r[..|s|];
      assert p in r by {
        PrefixKeeps(s, r, p);
      }
      r
  }

  /** The seed search of one row: the scan pushes as it goes, and since
      pushing changes neither the pixel map nor the window, that is the
      same as scanning first and then pushing the run ends in order. */
  function SeedRow(b: set<Point>, f: set<Point>, y: int, x: int, xr: int, stack: seq<Point>): (r: seq<Point>)
    ensures |stack| <= |r| && r[..|stack|] == stack
    ensures forall i :: |stack| <= i < |r| ==> r[i].y == y && x <= r[i].x <= xr
    ensures NoDup(stack) ==> NoDup(r)
  {
    var xs := RowSeeds(RowValid(b, f, y), x, xr);
    var r := PushNew(stack, y, xs);
    forall i | |stack| <= i < |r|
      ensures x <= r[i].x <= xr
    {
      var j :| 0 <= j < |xs| && xs[j] == r[i].x;
    }
    r
  }

  /** Only rightmost pixels of valid runs are pushed. */
  lemma SeedRowSound(b: set<Point>, f: set<Point>, y: int, x: int, xr: int, stack: seq<Point>)
    ensures var r := SeedRow(b, f, y, x, xr, stack);
            forall i :: |stack| <= i < |r| ==>
              RunEnd(RowValid(b, f, y), xr, r[i].x) && ValidSeed(b, f, r[i])
  {
    var v := RowValid(b, f, y);
    var xs := RowSeeds(v, x, xr);
    RowSeedsSound(v, x, xr);
    assert forall i :: 0 <= i < |RowSeeds(v, x, xr)| ==> RunEnd(v, xr, RowSeeds(v, x, xr)[i]);
    var r := PushNew(stack, y, xs);
    forall i | |stack| <= i < |r|
      ensures RunEnd(v, xr, r[i].x) && ValidSeed(b, f, r[i])
    {
      var j :| 0 <= j < |xs| && xs[j] == r[i].x;
      assert r[i] == Point(r[i].x, y);
    }
  }

  /** Every run ending in the window gets its rightmost pixel on the stack. */
  lemma SeedRowComplete(b: set<Point>, f: set<Point>, y: int, x: int, xr: int, stack: seq<Point>, k: int)
    requires x <= k <= xr && RunEnd(RowValid(b, f, y), xr, k)
    ensures Point(k, y) in SeedRow(b, f, y, x, xr, stack)
  {
    var xs := RowSeeds(RowValid(b, f, y), x, xr);
    RowSeedsComplete(RowValid(b, f, y), x, xr, k);
    var i :| 0 <= i < |xs| && xs[i] == k;
  }

  /** `r` is `stack` with valid pixels of row `y` in `[xl, xr]` appended. */
  ghost predicate AppendsRow(b: set<Point>, f: set<Point>, stack: seq<Point>, r: seq<Point>, y: int, xl: int, xr: int)
  {
    && |stack| <= |r| && r[..|stack|] == stack
    && forall i :: |stack| <= i < |r| ==> r[i].y == y && xl <= r[i].x <= xr && ValidSeed(b, f, r[i])
  }

  /** The seed search of row `y`, skipped when the row is off the canvas. */
  function SearchRow(b: set<Point>, f: set<Point>, y: int, xl: int, xr: int, stack: seq<Point>): (r: seq<Point>)
    ensures AppendsRow(b, f, stack, r, y, xl, xr)
    ensures NoDup(stack) ==> NoDup(r)
  {
    if 0 <= y < Height then
      SeedRowSound(b, f, y, xl, xr, stack);
      SeedRow(b, f, y, xl, xr, stack)
    else stack
  }

  /** The seed search on the rows above and below. */
  function PushSeeds(b: set<Point>, f: set<Point>, y: int, xl: int, xr: int, stack: seq<Point>): (r: seq<Point>)
  {
    SearchRow(b, f, y + 1, xl, xr, SearchRow(b, f, y - 1, xl, xr, stack))
  }

  /** Appending to the row above, then to the row below. */
  lemma AppendsBoth(b: set<Point>, f: set<Point>, stack: seq<Point>, s1: seq<Point>, r: seq<Point>, y: int, xl: int, xr: int)
    requires AppendsRow(b, f, stack, s1, y - 1, xl, xr)
    requires AppendsRow(b, f, s1, r, y + 1, xl, xr)
    ensures |stack| <= |r| && r[..|stack|] == stack
    ensures forall i :: |stack| <= i < |r| ==>
              (r[i].y == y - 1 || r[i].y == y + 1) && xl <= r[i].x <= xr && ValidSeed(b, f, r[i])
  {
    assert r[..|stack|] == s1[..|stack|];
    forall i | |stack| <= i < |r|
      ensures (r[i].y == y - 1 || r[i].y == y + 1) && xl <= r[i].x <= xr && ValidSeed(b, f, r[i])
    {
      if i < |s1| {
        assert r[i] == s1[i];
      }
    }
  }

  /** The stack only grows at its end, never gets a pixel it already holds,
      and only gets valid pixels of the window on the rows above and
      below. */
  lemma PushSeedsShape(b: set<Point>, f: set<Point>, y: int, xl: int, xr: int, stack: seq<Point>)
    ensures var r := PushSeeds(b, f, y, xl, xr, stack);
            && |stack| <= |r| && r[..|stack|] == stack
            && (forall i :: |stack| <= i < |r| ==>
                  (r[i].y == y - 1 || r[i].y == y + 1) && xl <= r[i].x <= xr
                  && ValidSeed(b, f, r[i]))
            && (NoDup(stack) ==> NoDup(r))
  {
    var s1 := SearchRow(b, f, y - 1, xl, xr, stack);
    AppendsBoth(b, f, stack, s1, SearchRow(b, f, y + 1, xl, xr, s1), y, xl, xr);
  }

  lemma PushSeedsAbove(b: set<Point>, f: set<Point>, y: int, xl: int, xr: int, stack: seq<Point>, k: int)
    requires 0 <= y - 1 < Height && xl <= k <= xr && RunEnd(RowValid(b, f, y - 1), xr, k)
    ensures Point(k, y - 1) in PushSeeds(b, f, y, xl, xr, stack)
  {
    var s1 := SearchRow(b, f, y - 1, xl, xr, stack);
    SeedRowComplete(b, f, y - 1, xl, xr, stack, k);
    PrefixKeeps(s1, SearchRow(b, f, y + 1, xl, xr, s1), Point(k, y - 1));
  }

  lemma PushSeedsBelow(b: set<Point>, f: set<Point>, y: int, xl: int, xr: int, stack: seq<Point>, k: int)
    requires 0 <= y + 1 < Height && xl <= k <= xr && RunEnd(RowValid(b, f, y + 1), xr, k)
    ensures Point(k, y + 1) in PushSeeds(b, f, y, xl, xr, stack)
  {
    SeedRowComplete(b, f, y + 1, xl, xr, SearchRow(b, f, y - 1, xl, xr, stack), k);
  }

  /** Every run ending in the window on an adjacent canvas row gets a seed. */
  lemma PushSeedsComplete(b: set<Point>, f: set<Point>, y: int, xl: int, xr: int, stack: seq<Point>, p: Point)
    requires p.y == y - 1 || p.y == y + 1
    requires xl <= p.x <= xr && RunEnd(RowValid(b, f, p.y), xr, p.x)
    ensures p in PushSeeds(b, f, y, xl, xr, stack)
  {
    assert p == Point(p.x, p.y);
    assert ValidSeed(b, f, Point(p.x, p.y));
    if p.y == y - 1 {
      PushSeedsAbove(b, f, y, xl, xr, stack, p.x);
    } else {
      PushSeedsBelow(b, f, y, xl, xr, stack, p.x);
    }
  }

  /** The phase-specific facts `Step` relies on: the popped pixel lies in
      its span, and after the span is filled it is no longer valid. */
  predicate Valid(g: Gen)
  {
    match g.phase
    case Spanned(_, c, xl, xr) => xl <= c.x <= xr
    case SpanFilled(_, c, xl, xr) => xl <= c.x <= xr && !ValidSeed(g.boundary, g.filled, c)
    case _ => true
  }

  /** The number of entries that are no longer valid. */
  function Dead(b: set<Point>, f: set<Point>, s: seq<Point>): nat
  {
    if |s| == 0 then 0
    else Dead(b, f, s[..|s| - 1]) + (if ValidSeed(b, f, s[|s| - 1]) then 0 else 1)
  }

  /** Appending valid entries adds no dead ones. */
  lemma {:induction false} DeadAppendValid(b: set<Point>, f: set<Point>, s: seq<Point>, r: seq<Point>)
    requires |s| <= |r| && r[..|s|] == s
    requires forall i :: |s| <= i < |r| ==> ValidSeed(b, f, r[i])
    ensures Dead(b, f, r) == Dead(b, f, s)
    decreases |r|
  {
    if |r| > |s| {
      var r' := r[..|r| - 1];
      assert r'[..|s|] == s;
      DeadAppendValid(b, f, s, r');
    } else {
      assert r == s;
    }
  }

  function Stage(g: Gen): nat
  {
    if g.phase.Start? then 1 else 0
  }

  function Unfilled(g: Gen): nat
  {
    |Pixels - g.filled|
  }

  /** The stack entries, counting the popped pixel that is being handled. */
  function Entries(g: Gen): seq<Point>
  {
    match g.phase
    case Start(_) => []
    case Loop(stack) => stack
    case Popped(stack, c) => stack + [c]
    case Spanned(stack, c, _, _) => stack + [c]
    case SpanFilled(stack, c, _, _) => stack + [c]
  }

  function DeadEntries(g: Gen): nat
  {
    Dead(g.boundary, g.filled, Entries(g))
  }

  function Rank(g: Gen): nat
  {
    match g.phase
    case Loop(_) => 3
    case Popped(_, _) => 2
    case Spanned(_, _, _, _) => 1
    case _ => 0
  }

  /** `g'` comes strictly after `g` in the lexicographic progress order:
      a pop either fills a pixel or retires an entry that is no longer
      valid, and pushes only valid entries. */
  predicate Precedes(g': Gen, g: Gen)
  {
    Stage(g') < Stage(g)
    || (Stage(g') == Stage(g) && Unfilled(g') < Unfilled(g))
    || (Stage(g') == Stage(g) && Unfilled(g') == Unfilled(g) && DeadEntries(g') < DeadEntries(g))
    || (Stage(g') == Stage(g) && Unfilled(g') == Unfilled(g) && DeadEntries(g') == DeadEntries(g)
        && Rank(g') < Rank(g))
  }

  function FillStep(g: Gen): (r: Gen)
    requires g.phase.Spanned? && Valid(g)
    ensures Valid(r) && Precedes(r, g)
    ensures forall p :: p in r.filled <==>
              p in g.filled || (p.y == g.phase.c.y && g.phase.xl <= p.x <= g.phase.xr && ValidSeed(g.boundary, g.filled, p))
  {
    var b, f, c, xl, xr := g.boundary, g.filled, g.phase.c, g.phase.xl, g.phase.xr;
    var r := g.(phase := SpanFilled(g.phase.stack, c, xl, xr), filled := FillSpan(b, f, c.y, xl, xr));
    FillProgress(g, r);
    r
  }

  /** Filling the span fills the popped pixel if it was still valid, and
      either fills something or changes nothing but the phase. */
  lemma FillProgress(g: Gen, r: Gen)
    requires g.phase.Spanned? && Valid(g)
    requires r == g.(phase := SpanFilled(g.phase.stack, g.phase.c, g.phase.xl, g.phase.xr),
                     filled := FillSpan(g.boundary, g.filled, g.phase.c.y, g.phase.xl, g.phase.xr))
    ensures Valid(r) && Precedes(r, g)
  {
    var f, f', c := g.filled, r.filled, g.phase.c;
    assert c == Point(c.x, c.y);
    if f' != f {
      assert f <= f';
      var q :| q in f' && q !in f;
      UnfilledShrinks(f, f', q);
      assert f + f' == f';
    } else {
      assert Entries(r) == Entries(g);
    }
  }

  function SeedStep(g: Gen): (r: Gen)
    requires g.phase.SpanFilled? && Valid(g)
    ensures Valid(r) && Precedes(r, g)
  {
    var b, f, c, xl, xr, stack := g.boundary, g.filled, g.phase.c, g.phase.xl, g.phase.xr, g.phase.stack;
    var s' := PushSeeds(b, f, c.y, xl, xr, stack);
    PushSeedsShape(b, f, c.y, xl, xr, stack);
    DeadAppendValid(b, f, stack, s');
    assert (stack + [c])[..|stack|] == stack;
    g.(phase := Loop(s'))
  }

  /** One `next()` on the generator. It stops at once for a seed on the
      boundary or off the canvas, and it only ever draws valid pixels. */
  function Step(g: Gen): (r: Option<Gen>)
    requires Valid(g)
    ensures g.phase.Start? ==> (r.None? <==> !Open(g.boundary, g.phase.seed))
    ensures r.Some? ==> Valid(r.value) && Precedes(r.value, g)
    ensures r.Some? ==> r.value.boundary == g.boundary && g.filled <= r.value.filled
    ensures r.Some? ==> forall p :: p in r.value.filled && p !in g.filled ==> ValidSeed(g.boundary, g.filled, p)
  {
    match g.phase
    case Start(seed) =>
      if seed in g.boundary then None
      else if !InCanvas(seed) then None
      else Some(g.(phase := Loop([seed])))
    case Loop(stack) =>
      if |stack| == 0 then None
      else
        var n := |stack|;
        assert stack == stack[..n - 1] + [stack[n - 1]];
        Some(g.(phase := Popped(stack[..n - 1], stack[n - 1])))
    case Popped(stack, c) =>
      var xl := ExtendLeft(g.boundary, g.filled, c.x, c.y);
      var xr := ExtendRight(g.boundary, g.filled, c.x, c.y);
      Some(g.(phase := Spanned(stack, c, xl, xr)))
    case Spanned(_, _, _, _) =>
      Some(FillStep(g))
    case SpanFilled(_, _, _, _) =>
      Some(SeedStep(g))
  }

  /** `for _ in generator: pass`: the pixels drawn once it is exhausted. */
  function Run(g: Gen): set<Point>
    requires Valid(g)
    decreases Stage(g), Unfilled(g), DeadEntries(g), Rank(g)
  {
    match Step(g)
    case None => g.filled
    case Some(g') => Run(g')
  }

  // ---------------------------------------------------------------------
  // Soundness: the fill stays inside every closed region holding the seed.

  /** Walking left from a member of a closed region over open pixels stays
      in the region. */
  lemma {:induction false} ChainLeft(b: set<Point>, s: set<Point>, y: int, l: int, x: int)
    requires Closed(b, s) && Point(x, y) in s && l <= x
    requires forall k :: l <= k < x ==> Open(b, Point(k, y))
    ensures forall k :: l <= k <= x ==> Point(k, y) in s
    decreases x - l
  {
    if l < x {
      assert Adjacent(Point(x, y), Point(x - 1, y));
      ChainLeft(b, s, y, l, x - 1);
    }
  }

  lemma {:induction false} ChainRight(b: set<Point>, s: set<Point>, y: int, x: int, r: int)
    requires Closed(b, s) && Point(x, y) in s && x <= r
    requires forall k :: x < k <= r ==> Open(b, Point(k, y))
    ensures forall k :: x <= k <= r ==> Point(k, y) in s
    decreases r - x
  {
    if x < r {
      assert Adjacent(Point(x, y), Point(x + 1, y));
      ChainRight(b, s, y, x + 1, r);
    }
  }

  ghost predicate InRegion(stack: seq<Point>, s: set<Point>)
  {
    forall x :: x in stack ==> x in s
  }

  /** The span of row `y` from `xl` to `xr` lies in `s`. */
  ghost predicate SpanIn(y: int, xl: int, xr: int, s: set<Point>)
  {
    forall k :: xl <= k <= xr ==> Point(k, y) in s
  }

  ghost predicate Within(g: Gen, s: set<Point>)
  {
    && g.filled <= s
    && match g.phase
       case Start(seed) => seed in s
       case Loop(stack) => InRegion(stack, s)
       case Popped(stack, c) => InRegion(stack, s) && c in s
       case Spanned(stack, c, xl, xr) => InRegion(stack, s) && SpanIn(c.y, xl, xr, s)
       case SpanFilled(stack, c, xl, xr) => InRegion(stack, s) && SpanIn(c.y, xl, xr, s)
  }

  lemma StepPoppedWithin(g: Gen, s: set<Point>)
    requires Closed(g.boundary, s) && Within(g, s) && g.phase.Popped?
    ensures Step(g).Some? && Within(Step(g).value, s)
  {
    var b, f, c := g.boundary, g.filled, g.phase.c;
    var xl := ExtendLeft(b, f, c.x, c.y);
    var xr := ExtendRight(b, f, c.x, c.y);
    assert c == Point(c.x, c.y);
    forall k | xl <= k < c.x
      ensures Open(b, Point(k, c.y))
    {
      assert ValidSeed(b, f, Point(k, c.y));
    }
    forall k | c.x < k <= xr
      ensures Open(b, Point(k, c.y))
    {
      assert ValidSeed(b, f, Point(k, c.y));
    }
    ChainLeft(b, s, c.y, xl, c.x);
    ChainRight(b, s, c.y, c.x, xr);
  }

  lemma StepSeedWithin(g: Gen, s: set<Point>)
    requires Closed(g.boundary, s) && Within(g, s) && g.phase.SpanFilled? && Valid(g)
    ensures Step(g).Some? && Within(Step(g).value, s)
  {
    var b, f, c, xl, xr, stack := g.boundary, g.filled, g.phase.c, g.phase.xl, g.phase.xr, g.phase.stack;
    var s' := PushSeeds(b, f, c.y, xl, xr, stack);
    PushSeedsShape(b, f, c.y, xl, xr, stack);
    forall x | x in s'
      ensures x in s
    {
      var i :| 0 <= i < |s'| && s'[i] == x;
      if i < |stack| {
        assert x == stack[i];
      } else {
        assert Point(x.x, c.y) in s;
        assert Adjacent(Point(x.x, c.y), x);
      }
    }
  }

  lemma StepWithin(g: Gen, s: set<Point>)
    requires Closed(g.boundary, s) && Within(g, s) && Valid(g)
    ensures Step(g).Some? ==> Within(Step(g).value, s)
  {
    match g.phase
    case Start(_) =>
    case Loop(stack) =>
      if |stack| > 0 {
        assert stack[|stack| - 1] in stack;
        forall x | x in stack[..|stack| - 1]
          ensures x in s
        {
          assert x in stack;
        }
      }
    case Popped(_, _) => StepPoppedWithin(g, s);
    case Spanned(_, _, _, _) =>
    case SpanFilled(_, _, _, _) => StepSeedWithin(g, s);
  }

  lemma {:induction false} RunWithin(g: Gen, s: set<Point>)
    requires Closed(g.boundary, s) && Within(g, s) && Valid(g)
    ensures Run(g) <= s
    decreases Stage(g), Unfilled(g), DeadEntries(g), Rank(g)
  {
    StepWithin(g, s);
    match Step(g)
    case None =>
    case Some(g') => RunWithin(g', s);
  }

  /** Run to completion, the span seed fill stays inside every region that
      holds the seed and admits every open neighbour of its members: it
      never leaks out of the seed's 4-connected region. */
  lemma FillIsContained(boundary: set<Point>, seed: Point, s: set<Point>)
    requires seed in s && Closed(boundary, s)
    ensures Run(Init(boundary, seed)) <= s
  {
    RunWithin(Init(boundary, seed), s);
  }

  // ---------------------------------------------------------------------
  // The seed itself, and only open pixels, get filled.

  ghost predicate SeedInv(g: Gen, seed: Point)
  {
    var b, f := g.boundary, g.filled;
    && AllOpen(b, f)
    && match g.phase
       case Start(s) => s == seed && f == {}
       case Loop(stack) => Open(b, seed) && (seed in f || (f == {} && stack == [seed]))
       case Popped(stack, c) => Open(b, seed) && (seed in f || (f == {} && c == seed))
       case Spanned(stack, c, _, _) => Open(b, seed) && (seed in f || (f == {} && c == seed))
       case SpanFilled(_, _, _, _) => Open(b, seed) && seed in f
  }

  lemma StepSeedInv(g: Gen, seed: Point)
    requires Valid(g) && SeedInv(g, seed)
    ensures Step(g).None? ==> AllOpen(g.boundary, g.filled)
                              && (Open(g.boundary, seed) <==> seed in g.filled)
    ensures Step(g).Some? ==> SeedInv(Step(g).value, seed)
  {
    match g.phase
    case Start(_) =>
    case Loop(stack) =>
      if |stack| > 0 && g.filled == {} && stack == [seed] {
        assert stack[..0] == [];
      }
    case Popped(_, _) =>
    case Spanned(_, c, _, _) =>
      assert c == Point(c.x, c.y);
    case SpanFilled(_, _, _, _) =>
  }

  lemma {:induction false} RunSeedInv(g: Gen, seed: Point)
    requires Valid(g) && SeedInv(g, seed)
    ensures AllOpen(g.boundary, Run(g)) && (Open(g.boundary, seed) <==> seed in Run(g))
    decreases Stage(g), Unfilled(g), DeadEntries(g), Rank(g)
  {
    StepSeedInv(g, seed);
    match Step(g)
    case None =>
    case Some(g') => RunSeedInv(g', seed);
  }

  /** Run to completion, the span seed fill covers only canvas pixels off
      the boundary; it covers the seed when the seed is open, and nothing
      at all when the seed is on the boundary or off the canvas. */
  lemma FillOpenFromSeed(boundary: set<Point>, seed: Point)
    ensures var r := Run(Init(boundary, seed));
            && AllOpen(boundary, r)
            && (Open(boundary, seed) <==> seed in r)
            && (!Open(boundary, seed) ==> r == {})
  {
    RunSeedInv(Init(boundary, seed), seed);
  }
}

=== FILE: seed_pixels.dfy ===
/** What both seed fillers of giis/6/main6.py share: the pixel test
    `_is_pixel_valid_for_seed`, 4-adjacency, and the region a seed fill is
    meant to cover. */
module SeedPixels {
  import opened Bresenham
  import opened Canvas

  /** A pixel a seed fill may ever enter: on the canvas and not on the
      polygon's boundary. */
  predicate Open(boundary: set<Point>, p: Point)
  {
    InCanvas(p) && p !in boundary
  }

  /** `_is_pixel_valid_for_seed`: open and not yet filled. The pixel map and
      the per-run set of filled pixels are both emptied before a fill and
      both receive every pixel the seed fillers draw, so one set stands for
      both. */
  predicate ValidSeed(boundary: set<Point>, filled: set<Point>, p: Point)
  {
    Open(boundary, p) && p !in filled
  }

  /** A pixel that is valid stays valid when less is filled. */
  lemma ValidAntitone(boundary: set<Point>, f1: set<Point>, f2: set<Point>, p: Point)
    requires f1 <= f2 && ValidSeed(boundary, f2, p)
    ensures ValidSeed(boundary, f1, p)
  {
  }

  /** 4-connectivity. */
  predicate Adjacent(p: Point, n: Point)
  {
    (p.x == n.x && (n.y == p.y - 1 || n.y == p.y + 1))
    || (p.y == n.y && (n.x == p.x - 1 || n.x == p.x + 1))
  }

  /** The neighbours of the simple seed fill, in the order it tries them:
      above, below, left, right. */
  function Neighbours(q: Point): (r: seq<Point>)
    ensures |r| == 4
  {
    [Point(q.x, q.y - 1), Point(q.x, q.y + 1), Point(q.x - 1, q.y), Point(q.x + 1, q.y)]
  }

  /** The four neighbours are exactly the 4-adjacent pixels. */
  lemma NeighboursAdjacent(p: Point, n: Point)
    ensures n in Neighbours(p) <==> Adjacent(p, n)
  {
    if Adjacent(p, n) {
      assert n == Point(n.x, n.y);
    }
  }

  lemma AdjacentSymmetric(p: Point, n: Point)
    ensures Adjacent(p, n) <==> Adjacent(n, p)
  {
  }

  /** `S` admits every open 4-neighbour of its members: a region no 4-step
      through open pixels can leave. */
  ghost predicate Closed(boundary: set<Point>, s: set<Point>)
  {
    forall p, n :: p in s && Adjacent(p, n) && Open(boundary, n) ==> n in s
  }

  predicate NoDup(s: seq<Point>)
  {
    forall i, j :: 0 <= i < j < |s| ==> s[i] != s[j]
  }

  /** A stack that grows only at its end keeps what it held. */
  lemma PrefixKeeps(s: seq<Point>, r: seq<Point>, p: Point)
    requires |s| <= |r| && r[..|s|] == s && p in s
    ensures p in r
  {
    var i :| 0 <= i < |s| && s[i] == p;
    assert r[i] == p;
  }

  /** Every pixel of `s` is open. */
  ghost predicate AllOpen(boundary: set<Point>, s: set<Point>)
  {
    forall p :: p in s ==> Open(boundary, p)
  }
}

=== FILE: sorting.dfy ===
/** Sequence helpers shared by the scanline fillers: a stable insertion sort
    standing in for Python's `list.sort`, plus map and filter with the
    permutation facts the fill proofs need. */
module Sorting {

  ghost predicate TotalPreorder<T(!new)>(le: (T, T) -> bool)
  {
    && (forall a, b :: le(a, b) || le(b, a))
    && (forall a, b, c :: le(a, b) && le(b, c) ==> le(a, c))
  }

  predicate SortedBy<T>(s: seq<T>, le: (T, T) -> bool)
  {
    forall i, j :: 0 <= i < j < |s| ==> le(s[i], s[j])
  }

  /** Inserts `x` in front of the first element it is not after. */
  function Insert<T>(x: T, s: seq<T>, le: (T, T) -> bool): seq<T>
  {
    if |s| == 0 then [x]
    else if le(x, s[0]) then [x] + s
    else [s[0]] + Insert(x, s[1..], le)
  }

  /** Stable insertion sort (Python's `sorted` / `list.sort` on the same order). */
  function Sort<T>(s: seq<T>, le: (T, T) -> bool): seq<T>
  {
    if |s| == 0 then [] else Insert(s[0], Sort(s[1..], le), le)
  }

  /** Every element of `s` comes after `a`. */
  predicate LowerBound<T>(a: T, s: seq<T>, le: (T, T) -> bool)
  {
    forall k :: 0 <= k < |s| ==> le(a, s[k])
  }

  lemma {:induction false} InsertBound<T>(a: T, x: T, s: seq<T>, le: (T, T) -> bool)
    requires LowerBound(a, s, le) && le(a, x)
    ensures LowerBound(a, Insert(x, s, le), le)
    decreases |s|
  {
    if |s| > 0 && !le(x, s[0]) {
      InsertBound(a, x, s[1..], le);
      var r := Insert(x, s, le);
      forall k | 0 <= k < |r|
        ensures le(a, r[k])
      {
        if k > 0 {
          assert r[k] == Insert(x, s[1..], le)[k - 1];
        }
      }
    }
  }

  lemma {:induction false} InsertSpec<T(!new)>(x: T, s: seq<T>, le: (T, T) -> bool)
    requires TotalPreorder(le)
    requires SortedBy(s, le)
    ensures SortedBy(Insert(x, s, le), le)
    ensures multiset(Insert(x, s, le)) == multiset(s) + multiset{x}
    decreases |s|
  {
    if |s| == 0 {
    } else if le(x, s[0]) {
      InsertFront(x, s, le);
    } else {
      assert le(s[0], x);
      SortedTail(s, le);
      InsertSpec(x, s[1..], le);
      InsertBound(s[0], x, s[1..], le);
      ConsSorted(s[0], Insert(x, s[1..], le), le);
      assert s == [s[0]] + s[1..];
    }
  }

  /** The tail of a sorted sequence is sorted and comes after its head. */
  lemma SortedTail<T>(s: seq<T>, le: (T, T) -> bool)
    requires SortedBy(s, le) && |s| > 0
    ensures SortedBy(s[1..], le) && LowerBound(s[0], s[1..], le)
  {
    forall i, j | 0 <= i < j < |s[1..]|
      ensures le(s[1..][i], s[1..][j])
    {
      assert s[1..][i] == s[i + 1] && s[1..][j] == s[j + 1];
    }
    forall k | 0 <= k < |s[1..]|
      ensures le(s[0], s[1..][k])
    {
      assert s[1..][k] == s[k + 1];
    }
  }

  /** A lower bound of a sorted sequence can head it. */
  lemma ConsSorted<T>(a: T, rest: seq<T>, le: (T, T) -> bool)
    requires SortedBy(rest, le) && LowerBound(a, rest, le)
    ensures SortedBy([a] + rest, le)
  {
    var r := [a] + rest;
    forall i, j | 0 <= i < j < |r|
      ensures le(r[i], r[j])
    {
      if i == 0 {
        assert r[j] == rest[j - 1];
      } else {
        assert r[i] == rest[i - 1] && r[j] == rest[j - 1];
      }
    }
  }

  /** Inserting in front of the first element keeps the order. */
  lemma InsertFront<T(!new)>(x: T, s: seq<T>, le: (T, T) -> bool)
    requires TotalPreorder(le) && SortedBy(s, le) && |s| > 0 && le(x, s[0])
    ensures SortedBy([x] + s, le)
  {
    forall k | 0 <= k < |s|
      ensures le(x, s[k])
    {
      if k > 0 {
        assert le(s[0], s[k]);
      }
    }
    ConsSorted(x, s, le);
  }

  /** `Sort` returns a sorted permutation of its input. */
  lemma {:induction false} SortSpec<T(!new)>(s: seq<T>, le: (T, T) -> bool)
    requires TotalPreorder(le)
    ensures SortedBy(Sort(s, le), le)
    ensures multiset(Sort(s, le)) == multiset(s)
    decreases |s|
  {
    if |s| > 0 {
      SortSpec(s[1..], le);
      InsertSpec(s[0], Sort(s[1..], le), le);
      assert s == [s[0]] + s[1..];
    }
  }

  function IntLe(a: int, b: int): bool
  {
    a <= b
  }

  lemma IntLeTotal()
    ensures TotalPreorder(IntLe)
  {
  }

  /** Python's `sorted` on a list of integers. */
  function SortInts(s: seq<int>): (r: seq<int>)
    ensures SortedBy(r, IntLe) && multiset(r) == multiset(s)
  {
    IntLeTotal();
    SortSpec(s, IntLe);
    Sort(s, IntLe)
  }

  /** The head of an ascending sequence is its least element. */
  lemma SortedHeadLeast(a: seq<int>, v: int)
    requires SortedBy(a, IntLe) && v in multiset(a)
    ensures a[0] <= v
  {
    var i :| 0 <= i < |a| && a[i] == v;
    if i > 0 {
      assert IntLe(a[0], a[i]);
    }
  }

  /** Two ascending integer sequences holding the same multiset are equal. */
  lemma {:induction false} SortedIntsUnique(a: seq<int>, b: seq<int>)
    requires SortedBy(a, IntLe) && SortedBy(b, IntLe)
    requires multiset(a) == multiset(b)
    ensures a == b
    decreases |a|
  {
    assert |b| == |multiset(b)| == |multiset(a)| == |a|;
    if |a| > 0 {
      SameHeads(a, b);
      SortedTail(a, IntLe);
      SortedTail(b, IntLe);
      SortedIntsUnique(a[1..], b[1..]);
      assert a == [a[0]] + a[1..] && b == [b[0]] + b[1..];
    }
  }

  /** Ascending integer sequences holding the same multiset start alike and
      their tails hold the same multiset. */
  lemma SameHeads(a: seq<int>, b: seq<int>)
    requires SortedBy(a, IntLe) && SortedBy(b, IntLe)
    requires multiset(a) == multiset(b) && |a| > 0 && |b| > 0
    ensures a[0] == b[0] && multiset(a[1..]) == multiset(b[1..])
  {
    assert a[0] in multiset(a) && b[0] in multiset(b);
    SortedHeadLeast(a, b[0]);
    SortedHeadLeast(b, a[0]);
    RemoveAt(a, 0);
    RemoveAt(b, 0);
    assert a[..0] + a[1..] == a[1..] && b[..0] + b[1..] == b[1..];
    Cancel(multiset(a[1..]), multiset(b[1..]), a[0]);
  }

  /** Sorting integers depends only on the multiset of the input. */
  lemma SortIntsPerm(a: seq<int>, b: seq<int>)
    requires multiset(a) == multiset(b)
    ensures SortInts(a) == SortInts(b)
  {
    SortedIntsUnique(SortInts(a), SortInts(b));
  }

  function Map<A, B>(f: A -> B, s: seq<A>): (r: seq<B>)
    ensures |r| == |s|
  {
    if |s| == 0 then [] else [f(s[0])] + Map(f, s[1..])
  }

  function Filter<A>(p: A -> bool, s: seq<A>): (r: seq<A>)
    ensures |r| <= |s|
    ensures forall i :: 0 <= i < |r| ==> r[i] in s && p(r[i])
    ensures forall i :: 0 <= i < |s| && p(s[i]) ==> s[i] in r
  {
    if |s| == 0 then []
    else if p(s[0]) then [s[0]] + Filter(p, s[1..])
    else Filter(p, s[1..])
  }

  lemma {:induction false} MapIndex<A, B>(f: A -> B, s: seq<A>, i: int)
    requires 0 <= i < |s|
    ensures Map(f, s)[i] == f(s[i])
    decreases |s|
  {
    if i > 0 {
      MapIndex(f, s[1..], i - 1);
    }
  }

  lemma {:induction false} MapConcat<A, B>(f: A -> B, s: seq<A>, t: seq<A>)
    ensures Map(f, s + t) == Map(f, s) + Map(f, t)
    decreases |s|
  {
    if |s| > 0 {
      assert (s + t)[1..] == s[1..] + t;
      MapConcat(f, s[1..], t);
    } else {
      assert s + t == t;
    }
  }

  lemma {:induction false} FilterConcat<A>(p: A -> bool, s: seq<A>, t: seq<A>)
    ensures Filter(p, s + t) == Filter(p, s) + Filter(p, t)
    decreases |s|
  {
    if |s| > 0 {
      assert (s + t)[1..] == s[1..] + t;
      FilterConcat(p, s[1..], t);
    } else {
      assert s + t == t;
    }
  }

  lemma MultisetMid<A>(a: seq<A>, x: A, b: seq<A>)
    ensures multiset(a + [x] + b) == multiset(a + b) + multiset{x}
  {
  }

  /** Removing the element at index `k`. */
  lemma RemoveAt<A>(t: seq<A>, k: int)
    requires 0 <= k < |t|
    ensures multiset(t) == multiset(t[..k] + t[k + 1..]) + multiset{t[k]}
  {
    assert t == t[..k] + [t[k]] + t[k + 1..];
    MultisetMid(t[..k], t[k], t[k + 1..]);
  }

  lemma MapSplitAt<A, B>(f: A -> B, t: seq<A>, k: int)
    requires 0 <= k < |t|
    ensures Map(f, t) == Map(f, t[..k]) + [f(t[k])] + Map(f, t[k + 1..])
  {
    var l, x, r := t[..k], t[k], t[k + 1..];
    assert t == l + ([x] + r) by {
      assert t == t[..k] + t[k..];
      assert t[k..] == [x] + r;
    }
    MapConcat(f, l, [x] + r);
    MapCons(f, x, r);
    Regroup(Map(f, l), f(x), Map(f, r));
  }

  lemma MapCons<A, B>(f: A -> B, x: A, r: seq<A>)
    ensures Map(f, [x] + r) == [f(x)] + Map(f, r)
  {
    assert ([x] + r)[1..] == r;
  }

  lemma Regroup<B>(a: seq<B>, y: B, b: seq<B>)
    ensures a + ([y] + b) == a + [y] + b
  {
  }

  lemma MapRemoveAt<A, B>(f: A -> B, t: seq<A>, k: int)
    requires 0 <= k < |t|
    ensures multiset(Map(f, t)) == multiset(Map(f, t[..k] + t[k + 1..])) + multiset{f(t[k])}
  {
    MapSplitAt(f, t, k);
    MapConcat(f, t[..k], t[k + 1..]);
    MultisetMid(Map(f, t[..k]), f(t[k]), Map(f, t[k + 1..]));
  }

  lemma Cancel<A>(m: multiset<A>, n: multiset<A>, x: A)
    requires m + multiset{x} == n + multiset{x}
    ensures m == n
  {
    assert m == (m + multiset{x}) - multiset{x};
    assert n == (n + multiset{x}) - multiset{x};
  }

  /** Mapping a permutation gives a permutation. */
  lemma {:induction false} MapPerm<A, B>(f: A -> B, s: seq<A>, t: seq<A>)
    requires multiset(s) == multiset(t)
    ensures multiset(Map(f, s)) == multiset(Map(f, t))
    decreases |s|
  {
    if |s| == 0 {
      assert |t| == |multiset(t)| == 0;
    } else {
      var a := s[0];
      assert a in multiset(t);
      var k :| 0 <= k < |t| && t[k] == a;
      var t' := t[..k] + t[k + 1..];
      RemoveAt(t, k);
      RemoveAt(s, 0);
      assert s[..0] + s[1..] == s[1..];
      Cancel(multiset(s[1..]), multiset(t'), a);
      MapPerm(f, s[1..], t');
      MapRemoveAt(f, t, k);
      MapRemoveAt(f, s, 0);
    }
  }

  lemma {:induction false} FilterCount<A>(p: A -> bool, s: seq<A>, x: A)
    ensures multiset(Filter(p, s))[x] == if p(x) then multiset(s)[x] else 0
    decreases |s|
  {
    if |s| > 0 {
      FilterCount(p, s[1..], x);
      assert s == [s[0]] + s[1..];
    }
  }

  /** Filtering a permutation gives a permutation. */
  lemma FilterPerm<A>(p: A -> bool, s: seq<A>, t: seq<A>)
    requires multiset(s) == multiset(t)
    ensures multiset(Filter(p, s)) == multiset(Filter(p, t))
  {
    forall x
      ensures multiset(Filter(p, s))[x] == multiset(Filter(p, t))[x]
    {
      FilterCount(p, s, x);
      FilterCount(p, t, x);
    }
  }

  /** Filtering keeps a sequence whose elements all pass. */
  lemma {:induction false} FilterAll<A>(p: A -> bool, s: seq<A>)
    requires forall k :: 0 <= k < |s| ==> p(s[k])
    ensures Filter(p, s) == s
    decreases |s|
  {
    if |s| > 0 {
      FilterAll(p, s[1..]);
    }
  }

  /** Filtering empties a sequence none of whose elements passes. */
  lemma FilterNone<A>(p: A -> bool, s: seq<A>)
    requires forall k :: 0 <= k < |s| ==> !p(s[k])
    ensures Filter(p, s) == []
  {
    var r := Filter(p, s);
    if |r| > 0 {
      var k :| 0 <= k < |s| && s[k] == r[0];
    }
  }

  /** Filtering with pointwise-equal predicates gives the same result. */
  lemma {:induction false} FilterExt<A>(p: A -> bool, q: A -> bool, s: seq<A>)
    requires forall k :: 0 <= k < |s| ==> p(s[k]) == q(s[k])
    ensures Filter(p, s) == Filter(q, s)
    decreases |s|
  {
    if |s| > 0 {
      FilterExt(p, q, s[1..]);
    }
  }

  /** Mapping with pointwise-equal functions gives the same result. */
  lemma {:induction false} MapExt<A, B>(f: A -> B, g: A -> B, s: seq<A>)
    requires forall k :: 0 <= k < |s| ==> f(s[k]) == g(s[k])
    ensures Map(f, s) == Map(g, s)
    decreases |s|
  {
    if |s| > 0 {
      MapExt(f, g, s[1..]);
    }
  }

  /** Mapping twice is mapping the composition. */
  lemma {:induction false} MapMap<A, B, C>(f: B -> C, g: A -> B, h: A -> C, s: seq<A>)
    requires forall k :: 0 <= k < |s| ==> f(g(s[k])) == h(s[k])
    ensures Map(f, Map(g, s)) == Map(h, s)
    decreases |s|
  {
    if |s| > 0 {
      MapMap(f, g, h, s[1..]);
    }
  }

  /** Filtering after mapping is mapping after filtering by the pulled-back
      predicate. */
  lemma {:induction false} FilterMap<A, B>(p: B -> bool, f: A -> B, q: A -> bool, s: seq<A>)
    requires forall k :: 0 <= k < |s| ==> p(f(s[k])) == q(s[k])
    ensures Filter(p, Map(f, s)) == Map(f, Filter(q, s))
    decreases |s|
  {
    if |s| > 0 {
      FilterMap(p, f, q, s[1..]);
    }
  }

  /** Filtering twice is filtering by the conjunction. */
  lemma {:induction false} FilterFilter<A>(p: A -> bool, q: A -> bool, pq: A -> bool, s: seq<A>)
    requires forall k :: 0 <= k < |s| ==> pq(s[k]) == (p(s[k]) && q(s[k]))
    ensures Filter(p, Filter(q, s)) == Filter(pq, s)
    decreases |s|
  {
    if |s| > 0 {
      FilterFilter(p, q, pq, s[1..]);
    }
  }

  /** Filtering by a disjunction of two exclusive predicates collects the
      same elements as filtering by each and concatenating. */
  lemma FilterUnion<A>(p: A -> bool, q: A -> bool, pq: A -> bool, s: seq<A>)
    requires forall k :: 0 <= k < |s| ==> pq(s[k]) == (p(s[k]) || q(s[k]))
    requires forall k :: 0 <= k < |s| ==> !(p(s[k]) && q(s[k]))
    ensures multiset(Filter(p, s) + Filter(q, s)) == multiset(Filter(pq, s))
  {
    forall x
      ensures multiset(Filter(p, s) + Filter(q, s))[x] == multiset(Filter(pq, s))[x]
    {
      FilterCount(p, s, x);
      FilterCount(q, s, x);
      FilterCount(pq, s, x);
      if x in s {
        var k :| 0 <= k < |s| && s[k] == x;
      } else {
        assert multiset(s)[x] == 0;
      }
    }
  }
}

=== FILE: truth_table.dfy ===
/** The truth table of a Boolean expression and its canonical forms (the
    `Logical` class of aois_lab_2/lab2.js): the character operators, the
    enumeration of rows, the perfect disjunctive and conjunctive normal
    forms (SDNF and SKNF), their number forms and the index form. The
    string-rewriting evaluator that produces the F column is left as a
    parameter. */
module TruthTable {
  import opened Outcomes
  import opened BinaryCodes
  import opened JsText

  // ---------------------------------------------------------------------
  // Operators on the characters '0' and '1'

  /** A truth value as a character. */
  function Truth(b: bool): (c: char)
    ensures IsBit(c) && (c == '1' <==> b)
  {
    if b then '1' else '0'
  }

  /** `and(a, b)`. */
  function And(a: char, b: char): (r: char)
    requires IsBit(a) && IsBit(b)
    ensures IsBit(r) && (r == '1' <==> a == '1' && b == '1')
  {
    if Digit(a) != 0 && Digit(b) != 0 then '1' else '0'
  }

  /** `or(a, b)`. */
  function Or(a: char, b: char): (r: char)
    requires IsBit(a) && IsBit(b)
    ensures IsBit(r) && (r == '0' <==> a == '0' && b == '0')
  {
    if Digit(a) == 0 && Digit(b) == 0 then '0' else '1'
  }

  /** `not(a)`. */
  function Not(a: char): (r: char)
    requires IsBit(a)
    ensures IsBit(r) && r != a
  {
    if Digit(a) != 0 then '0' else '1'
  }

  /** `equals(a, b)`: the numbers compared. */
  function Equals(a: char, b: char): (r: char)
    requires IsBit(a) && IsBit(b)
    ensures IsBit(r) && (r == '1' <==> a == b)
  {
    Truth(Digit(a) == Digit(b))
  }

  /** `impl(a, b)`: the characters compared, `a <= b`. */
  function Impl(a: char, b: char): (r: char)
    requires IsBit(a) && IsBit(b)
    ensures IsBit(r) && (r == '0' <==> a == '1' && b == '0')
  {
    Truth(a <= b)
  }

  /** Implication is a disjunction with the premise negated. */
  lemma ImplIsOrNot(a: char, b: char)
    requires IsBit(a) && IsBit(b)
    ensures Impl(a, b) == Or(Not(a), b)
  {
  }

  /** Equivalence is implication both ways. */
  lemma EqualsIsBothImpl(a: char, b: char)
    requires IsBit(a) && IsBit(b)
    ensures Equals(a, b) == And(Impl(a, b), Impl(b, a))
  {
  }

  /** The binary operators `check` hands out. */
  datatype Op = AndOp | OrOp | EqualsOp | ImplOp

  /** `check(elem)`: the operator for '&', '|', '~' and '>', nothing
      (`undefined`) for any other character. */
  function Check(elem: char): (r: Option<Op>)
    ensures r.Some? <==> elem in "&|~>"
  {
    match elem
    case '&' => Some(AndOp)
    case '|' => Some(OrOp)
    case '~' => Some(EqualsOp)
    case '>' => Some(ImplOp)
    case _ => None
  }

  function Apply(op: Op, a: char, b: char): (r: char)
    requires IsBit(a) && IsBit(b)
    ensures IsBit(r)
  {
    match op
    case AndOp => And(a, b)
    case OrOp => Or(a, b)
    case EqualsOp => Equals(a, b)
    case ImplOp => Impl(a, b)
  }

  /** Each operator character applies its own truth table. */
  lemma CheckTables(a: char, b: char)
    requires IsBit(a) && IsBit(b)
    ensures Check('&').Some? && (Apply(Check('&').value, a, b) == '1' <==> a == '1' && b == '1')
    ensures Check('|').Some? && (Apply(Check('|').value, a, b) == '1' <==> a == '1' || b == '1')
    ensures Check('~').Some? && (Apply(Check('~').value, a, b) == '1' <==> a == b)
    ensures Check('>').Some? && (Apply(Check('>').value, a, b) == '1' <==> (a == '1' ==> b == '1'))
  {
  }

  // ---------------------------------------------------------------------
  // Variables and rows

  predicate IsVariable(c: char)
  {
    'a' <= c <= 'z'
  }

  /** The position of the first occurrence of c in s. */
  function First(s: string, c: char): (k: nat)
    requires c in s
    ensures k < |s| && s[k] == c && c !in s[..k]
  {
    if s[0] == c then 0 else 1 + First(s[1..], c)
  }

  /** `Array.from(new Set(exp.match(/[a-z]/g)))`: the distinct lower-case
      letters of the expression, in order of first appearance. */
  function Variables(exp: string): (vs: seq<char>)
    ensures forall k :: 0 <= k < |vs| ==> IsVariable(vs[k]) && vs[k] in exp
    ensures forall c :: c in exp && IsVariable(c) ==> c in vs
    ensures forall i, j :: 0 <= i < j < |vs| ==> vs[i] != vs[j]
  {
    if |exp| == 0 then []
    else
      var vs := Variables(exp[..|exp| - 1]);
      var c := exp[|exp| - 1];
      assert exp == exp[..|exp| - 1] + [c];
      if IsVariable(c) && c !in vs then vs + [c] else vs
  }

  /** The variables come in the order of their first appearance. */
  lemma {:induction false} VariablesInOrder(exp: string)
    ensures InFirstOrder(exp, Variables(exp))
  {
    if |exp| > 0 {
      var init, c := exp[..|exp| - 1], exp[|exp| - 1];
      VariablesInOrder(init);
      var vs, ws := Variables(init), Variables(exp);
      assert InFirstOrder(init, vs);
      assert exp == init + [c];
      var added := IsVariable(c) && c !in vs;
      assert ws == if added then vs + [c] else vs;
      forall i, j | 0 <= i < j < |ws|
        ensures First(exp, ws[i]) < First(exp, ws[j])
      {
        if j < |vs| {
          assert ws[i] == vs[i] && ws[j] == vs[j];
          assert First(init, vs[i]) < First(init, vs[j]);
          FirstOfPrefix(init, [c], vs[i]);
          FirstOfPrefix(init, [c], vs[j]);
        } else {
          assert added && j == |vs| && c !in init;
          assert ws[i] == vs[i] && ws[j] == c;
          FirstOfNew(init, c, vs[i]);
        }
      }
    }
  }

  /** The characters of vs, all in s, in the order of their first
      occurrences in s. */
  predicate InFirstOrder(s: string, vs: seq<char>)
  {
    && (forall k :: 0 <= k < |vs| ==> vs[k] in s)
    && forall i, j :: 0 <= i < j < |vs| ==> First(s, vs[i]) < First(s, vs[j])
  }

  /** A character new to the text comes after every old one. */
  lemma FirstOfNew(s: string, c: char, d: char)
    requires d in s && c !in s
    ensures First(s + [c], d) < First(s + [c], c)
  {
    FirstOfPrefix(s, [c], d);
    assert (s + [c])[..|s|] == s;
  }

  /** A character's first occurrence does not move when text is appended. */
  lemma {:induction false} FirstOfPrefix(s: string, t: string, c: char)
    requires c in s
    ensures First(s + t, c) == First(s, c) < |s|
  {
    if s[0] != c {
      assert (s + t)[1..] == s[1..] + t;
      FirstOfPrefix(s[1..], t, c);
    }
  }

  /** `i >> j` for a non-negative i: j halvings. */
  function Shr(i: nat, j: nat): nat
  {
    if j == 0 then i else Shr(i, j - 1) / 2
  }

  lemma {:induction false} ShrHalf(i: nat, j: nat)
    ensures Shr(i, j + 1) == Shr(i / 2, j)
  {
    if j > 0 {
      ShrHalf(i, j - 1);
    }
  }

  /** Row i of the table for n variables: `(i >> j) & 1` for j from n - 1
      down to 0, the bits of i, most significant first. */
  function Row(n: nat, i: nat): (row: seq<int>)
    ensures |row| == n
    ensures forall k :: 0 <= k < n ==> row[k] == Shr(i, n - 1 - k) % 2
  {
    seq(n, k requires 0 <= k < n => Shr(i, n - 1 - k) % 2)
  }

  /** The number a row of bits denotes, most significant first. */
  function RowValue(row: seq<int>): int
  {
    if |row| == 0 then 0 else 2 * RowValue(row[..|row| - 1]) + row[|row| - 1]
  }

  predicate IsBitRow(row: seq<int>)
  {
    forall k :: 0 <= k < |row| ==> row[k] == 0 || row[k] == 1
  }

  /** Dropping the last bit of row i gives row i / 2 of one variable less. */
  lemma RowInit(n: nat, i: nat)
    requires n > 0
    ensures Row(n, i)[..n - 1] == Row(n - 1, i / 2)
    ensures Row(n, i)[n - 1] == i % 2
  {
    forall k | 0 <= k < n - 1
      ensures Row(n, i)[k] == Row(n - 1, i / 2)[k]
    {
      ShrHalf(i, n - 2 - k);
    }
  }

  /** Row i holds the bits of i: reading it back gives i. */
  lemma {:induction false} RowRoundTrip(n: nat, i: nat)
    requires i < Pow2(n)
    ensures IsBitRow(Row(n, i)) && RowValue(Row(n, i)) == i
  {
    if n > 0 {
      RowInit(n, i);
      RowRoundTrip(n - 1, i / 2);
    }
  }

  /** Every row of bits is the row of the number it denotes, so the table
      lists every assignment of the variables. */
  lemma {:induction false} ValueRoundTrip(row: seq<int>)
    requires IsBitRow(row)
    ensures 0 <= RowValue(row) < Pow2(|row|)
    ensures Row(|row|, RowValue(row)) == row
  {
    var n := |row|;
    if n > 0 {
      var init := row[..n - 1];
      ValueRoundTrip(init);
      var v := RowValue(row);
      assert v / 2 == RowValue(init) && v % 2 == row[n - 1];
      RowInit(n, v);
    }
  }

  /** Rows of different numbers differ. */
  lemma RowsDistinct(n: nat, i: nat, j: nat)
    requires i < Pow2(n) && j < Pow2(n) && i != j
    ensures Row(n, i) != Row(n, j)
  {
    RowRoundTrip(n, i);
    RowRoundTrip(n, j);
  }

  // ---------------------------------------------------------------------
  // The table

  /** A table line: the variable bits and the value of F. */
  datatype Line = Line(bits: seq<int>, f: int)

  /** `doTable`: `2^n` lines for the n variables of the expression, line i
      holding the bits of i and F as the evaluator computes it on them. */
  function Table(exp: string, eval: seq<int> -> bool): (m: seq<Line>)
    ensures var n := |Variables(exp)|;
            |m| == Pow2(n)
            && forall i :: 0 <= i < |m| ==>
                 m[i].bits == Row(n, i) && RowValue(m[i].bits) == i
                 && m[i].f == (if eval(m[i].bits) then 1 else 0)
  {
    var n := |Variables(exp)|;
    var m := seq(Pow2(n), i requires 0 <= i < Pow2(n) => Line(Row(n, i), if eval(Row(n, i)) then 1 else 0));
    forall i | 0 <= i < |m|
      ensures RowValue(m[i].bits) == i
    {
      RowRoundTrip(n, i);
    }
    m
  }

  /** The forms read F at index 3 and name the variables from "abcde", so
      they take lines of three variables; F is 0 or 1. */
  predicate ThreeVariableLines(m: seq<Line>)
  {
    forall i :: 0 <= i < |m| ==> |m[i].bits| == 3 && IsBitRow(m[i].bits) && (m[i].f == 0 || m[i].f == 1)
  }

  /** Equal assignments have equal F, as in any truth table. */
  predicate Functional(m: seq<Line>)
  {
    forall i, j :: 0 <= i < |m| && 0 <= j < |m| && m[i].bits == m[j].bits ==> m[i].f == m[j].f
  }

  /** A table of an expression with three variables meets what the forms
      need. */
  lemma TableOfThree(exp: string, eval: seq<int> -> bool)
    requires |Variables(exp)| == 3
    ensures ThreeVariableLines(Table(exp, eval)) && Functional(Table(exp, eval))
  {
    var m := Table(exp, eval);
    forall i | 0 <= i < |m|
      ensures IsBitRow(m[i].bits)
    {
      RowRoundTrip(3, i);
    }
  }

  // ---------------------------------------------------------------------
  // SDNF and SKNF

  /** A variable, possibly negated. */
  datatype Literal = Literal(name: char, negated: bool)

  const Names: string := "abcde"

  /** The term for one line: variable k named `Names[k]`, negated where
      its bit is 0 (`negateOne` false, a minterm) or where it is 1
      (`negateOne` true, a maxterm). */
  function Term(bits: seq<int>, negateOne: bool): (t: seq<Literal>)
    requires |bits| <= 5
    ensures |t| == |bits|
    ensures forall k :: 0 <= k < |bits| ==> t[k] == Literal(Names[k], (bits[k] == 1) == negateOne)
  {
    seq(|bits|, k requires 0 <= k < |bits| => Literal(Names[k], (bits[k] == 1) == negateOne))
  }

  /** The terms of the lines whose F equals `f`, in line order. */
  function Terms(m: seq<Line>, f: int, negateOne: bool): (ts: seq<seq<Literal>>)
    requires ThreeVariableLines(m)
    ensures forall t :: t in ts <==> exists i :: 0 <= i < |m| && m[i].f == f && t == Term(m[i].bits, negateOne)
  {
    if |m| == 0 then []
    else
      var rest := Terms(m[1..], f, negateOne);
      assert forall i :: 0 < i < |m| ==> m[i] == m[1..][i - 1];
      if m[0].f == f then [Term(m[0].bits, negateOne)] + rest else rest
  }

  /** A literal is true under an assignment of bits to a, b, c, ... */
  predicate LiteralHolds(l: Literal, bits: seq<int>)
  {
    var k := l.name as int - 'a' as int;
    0 <= k < |bits| && ((bits[k] == 1) != l.negated)
  }

  predicate ConjunctionHolds(t: seq<Literal>, bits: seq<int>)
  {
    forall l :: l in t ==> LiteralHolds(l, bits)
  }

  predicate DisjunctionHolds(t: seq<Literal>, bits: seq<int>)
  {
    exists l :: l in t && LiteralHolds(l, bits)
  }

  /** A minterm is true exactly at its own line's assignment. */
  lemma MintermExact(bits: seq<int>, at: seq<int>)
    requires |bits| == 3 && |at| == 3 && IsBitRow(bits) && IsBitRow(at)
    ensures ConjunctionHolds(Term(bits, false), at) <==> bits == at
  {
    var t := Term(bits, false);
    if ConjunctionHolds(t, at) {
      forall k | 0 <= k < 3
        ensures bits[k] == at[k]
      {
        assert t[k] in t;
        assert LiteralHolds(t[k], at);
        assert Names[k] as int - 'a' as int == k;
      }
    }
    if bits == at {
      forall l | l in t
        ensures LiteralHolds(l, at)
      {
        var k :| 0 <= k < 3 && t[k] == l;
        assert Names[k] as int - 'a' as int == k;
      }
    }
  }

  /** A maxterm is false exactly at its own line's assignment. */
  lemma MaxtermExact(bits: seq<int>, at: seq<int>)
    requires |bits| == 3 && |at| == 3 && IsBitRow(bits) && IsBitRow(at)
    ensures !DisjunctionHolds(Term(bits, true), at) <==> bits == at
  {
    var t := Term(bits, true);
    if !DisjunctionHolds(t, at) {
      forall k | 0 <= k < 3
        ensures bits[k] == at[k]
      {
        assert t[k] in t;
        assert !LiteralHolds(t[k], at);
        assert Names[k] as int - 'a' as int == k;
      }
    }
    if bits == at {
      forall l | l in t
        ensures !LiteralHolds(l, at)
      {
        var k :| 0 <= k < 3 && t[k] == l;
        assert Names[k] as int - 'a' as int == k;
      }
    }
  }

  /** The SDNF is true exactly on the lines where F is 1. */
  lemma SdnfMeaning(m: seq<Line>, i: nat)
    requires ThreeVariableLines(m) && Functional(m) && i < |m|
    ensures (exists t :: t in Terms(m, 1, false) && ConjunctionHolds(t, m[i].bits)) <==> m[i].f == 1
  {
    var ts := Terms(m, 1, false);
    if m[i].f == 1 {
      MintermExact(m[i].bits, m[i].bits);
      assert Term(m[i].bits, false) in ts;
    }
    if exists t :: t in ts && ConjunctionHolds(t, m[i].bits) {
      var t :| t in ts && ConjunctionHolds(t, m[i].bits);
      var j :| 0 <= j < |m| && m[j].f == 1 && t == Term(m[j].bits, false);
      MintermExact(m[j].bits, m[i].bits);
    }
  }

  /** The SKNF is false exactly on the lines where F is 0. */
  lemma SknfMeaning(m: seq<Line>, i: nat)
    requires ThreeVariableLines(m) && Functional(m) && i < |m|
    ensures (forall t :: t in Terms(m, 0, true) ==> DisjunctionHolds(t, m[i].bits)) <==> m[i].f == 1
  {
    var ts := Terms(m, 0, true);
    if m[i].f == 0 {
      MaxtermExact(m[i].bits, m[i].bits);
      assert Term(m[i].bits, true) in ts;
    } else {
      forall t | t in ts
        ensures DisjunctionHolds(t, m[i].bits)
      {
        var j :| 0 <= j < |m| && m[j].f == 0 && t == Term(m[j].bits, true);
        MaxtermExact(m[j].bits, m[i].bits);
      }
    }
  }

  // ---------------------------------------------------------------------
  // The forms as text

  function LiteralText(l: Literal): string
  {
    (if l.negated then "!" else "") + [l.name]
  }

  /** One term: its literals joined by `sep` inside parentheses. */
  function TermText(t: seq<Literal>, sep: string): string
  {
    "(" + Join(seq(|t|, k requires 0 <= k < |t| => LiteralText(t[k])), sep) + ")"
  }

  function TermTexts(ts: seq<seq<Literal>>, sep: string): (r: seq<string>)
    ensures |r| == |ts| && forall k :: 0 <= k < |ts| ==> r[k] == TermText(ts[k], sep)
  {
    seq(|ts|, k requires 0 <= k < |ts| => TermText(ts[k], sep))
  }

  /** `doSDNF`: a ' | (' and the minterm of each line with F = 1, then
      the first three characters dropped; the terms joined by ' | ', each
      with its literals joined by ' & '. */
  function Sdnf(m: seq<Line>): (r: string)
    requires ThreeVariableLines(m)
    ensures r == Join(TermTexts(Terms(m, 1, false), " & "), " | ")
  {
    var texts := TermTexts(Terms(m, 1, false), " & ");
    PrefixedJoin(texts, " | ");
    SliceFrom(Prefixed(texts, " | "), 3)
  }

  /** `doSKNF`: the maxterms of the lines with F = 0, literals joined by
      ' | ', terms by ' & '. */
  function Sknf(m: seq<Line>): (r: string)
    requires ThreeVariableLines(m)
    ensures r == Join(TermTexts(Terms(m, 0, true), " | "), " & ")
  {
    var texts := TermTexts(Terms(m, 0, true), " | ");
    PrefixedJoin(texts, " & ");
    SliceFrom(Prefixed(texts, " & "), 3)
  }

  // ---------------------------------------------------------------------
  // Number forms and the index form

  /** The indices of the lines whose F equals f, ascending. */
  function Indices(m: seq<Line>, f: int, from: nat): (r: seq<nat>)
    requires from <= |m|
    ensures forall k :: 0 <= k < |r| ==> from <= r[k] < |m| && m[r[k]].f == f
    ensures forall i :: from <= i < |m| && m[i].f == f ==> i in r
    ensures forall a, b :: 0 <= a < b < |r| ==> r[a] < r[b]
    decreases |m| - from
  {
    if from == |m| then []
    else
      var rest := Indices(m, f, from + 1);
      if m[from].f == f then [from] + rest else rest
  }

  /** The number forms of SDNF and SKNF split the line indices between
      them: every line is in exactly one. */
  lemma NumberFormsPartition(m: seq<Line>, i: nat)
    requires ThreeVariableLines(m) && i < |m|
    ensures (i in Indices(m, 1, 0)) != (i in Indices(m, 0, 0))
  {
    var ones, zeros := Indices(m, 1, 0), Indices(m, 0, 0);
    if i in ones {
      var k :| 0 <= k < |ones| && ones[k] == i;
    }
    if i in zeros {
      var k :| 0 <= k < |zeros| && zeros[k] == i;
    }
  }

  /** `doNumberFormSDNF` and `doNumberFormSKNF`: '(' and each index with
      ', ', the last two characters cut, then `tail`. With no index the
      cut leaves nothing of '(' either. */
  function NumberForm(idx: seq<nat>, tail: string): (r: string)
    ensures |idx| == 0 ==> r == ") " + tail
    ensures |idx| > 0 ==> r == "(" + Join(DecimalTexts(idx), ", ") + ") " + tail
  {
    var acc := "(" + Suffixed(DecimalTexts(idx), ", ");
    SuffixedJoin(DecimalTexts(idx), ", ");
    var cut := if |acc| >= 2 then acc[..|acc| - 2] else "";
    cut + ") " + tail
  }

  function DecimalTexts(idx: seq<nat>): (r: seq<string>)
    ensures |r| == |idx| && forall k :: 0 <= k < |idx| ==> r[k] == Decimal(idx[k])
  {
    seq(|idx|, k requires 0 <= k < |idx| => Decimal(idx[k]))
  }

  /** `doNumberFormSDNF`: the numbers of the lines with F = 1, ascending,
      in parentheses and followed by '&'. */
  function NumberFormSdnf(m: seq<Line>): (r: string)
    requires ThreeVariableLines(m)
    ensures |Indices(m, 1, 0)| == 0 ==> r == ") &"
    ensures |Indices(m, 1, 0)| > 0 ==> r == "(" + Join(DecimalTexts(Indices(m, 1, 0)), ", ") + ") &"
  {
    NumberForm(Indices(m, 1, 0), "&")
  }

  /** `doNumberFormSKNF`: the numbers of the lines with F = 0, followed by
      '|'. */
  function NumberFormSknf(m: seq<Line>): (r: string)
    requires ThreeVariableLines(m)
    ensures |Indices(m, 0, 0)| == 0 ==> r == ") |"
    ensures |Indices(m, 0, 0)| > 0 ==> r == "(" + Join(DecimalTexts(Indices(m, 0, 0)), ", ") + ") |"
  {
    NumberForm(Indices(m, 0, 0), "|")
  }

  /** The table of '(a|b)~(!c)': F is 1 on lines 1, 2, 4 and 6. */
  const SampleLines: seq<Line> :=
    [Line([0, 0, 0], 0), Line([0, 0, 1], 1), Line([0, 1, 0], 1), Line([0, 1, 1], 0),
     Line([1, 0, 0], 1), Line([1, 0, 1], 0), Line([1, 1, 0], 1), Line([1, 1, 1], 0)]

  /** One step of `Indices`: line `from` comes first when its F matches. */
  lemma IndicesStep(m: seq<Line>, f: int, from: nat)
    requires from < |m|
    ensures Indices(m, f, from) == (if m[from].f == f then [from] else []) + Indices(m, f, from + 1)
  {
  }

  /** The F column of the sample read from line `from` on. */
  lemma SampleFrom(from: nat, ones: seq<nat>, zeros: seq<nat>)
    requires from < 8
    requires Indices(SampleLines, 1, from + 1) == ones && Indices(SampleLines, 0, from + 1) == zeros
    ensures SampleLines[from].f == 1 ==> Indices(SampleLines, 1, from) == [from] + ones && Indices(SampleLines, 0, from) == zeros
    ensures SampleLines[from].f == 0 ==> Indices(SampleLines, 1, from) == ones && Indices(SampleLines, 0, from) == [from] + zeros
  {
    IndicesStep(SampleLines, 1, from);
    IndicesStep(SampleLines, 0, from);
  }

  lemma SampleFromSix()
    ensures Indices(SampleLines, 1, 6) == [6] && Indices(SampleLines, 0, 6) == [7]
  {
    assert SampleLines[7].f == 0 && SampleLines[6].f == 1;
    SampleFrom(7, [], []);
    SampleFrom(6, [], [7]);
  }

  lemma SampleFromFour()
    ensures Indices(SampleLines, 1, 4) == [4, 6] && Indices(SampleLines, 0, 4) == [5, 7]
  {
    SampleFromSix();
    assert SampleLines[5].f == 0 && SampleLines[4].f == 1;
    SampleFrom(5, [6], [7]);
    SampleFrom(4, [6], [5, 7]);
  }

  lemma SampleFromTwo()
    ensures Indices(SampleLines, 1, 2) == [2, 4, 6] && Indices(SampleLines, 0, 2) == [3, 5, 7]
  {
    SampleFromFour();
    assert SampleLines[3].f == 0 && SampleLines[2].f == 1;
    SampleFrom(3, [4, 6], [5, 7]);
    SampleFrom(2, [4, 6], [3, 5, 7]);
  }

  /** Lines 1, 2, 4 and 6 of the sample have F = 1, the others F = 0. */
  lemma SampleIndices()
    ensures Indices(SampleLines, 1, 0) == [1, 2, 4, 6]
    ensures Indices(SampleLines, 0, 0) == [0, 3, 5, 7]
  {
    SampleFromOne();
    assert SampleLines[0].f == 0;
    SampleFrom(0, [1, 2, 4, 6], [3, 5, 7]);
    assert [0] + [3, 5, 7] == [0, 3, 5, 7];
  }

  lemma SampleFromOne()
    ensures Indices(SampleLines, 1, 1) == [1, 2, 4, 6] && Indices(SampleLines, 0, 1) == [3, 5, 7]
  {
    SampleFromTwo();
    assert SampleLines[1].f == 1;
    SampleFrom(1, [2, 4, 6], [3, 5, 7]);
    assert [1] + [2, 4, 6] == [1, 2, 4, 6];
  }

  /** The indices of the sample's ones as text. */
  lemma OnesIndexText()
    ensures Join(DecimalTexts([1, 2, 4, 6]), ", ") == "1, 2, 4, 6"
  {
    JoinFour(DecimalTexts([1, 2, 4, 6]), ", ");
  }

  /** The indices of the sample's zeros as text. */
  lemma ZerosIndexText()
    ensures Join(DecimalTexts([0, 3, 5, 7]), ", ") == "0, 3, 5, 7"
  {
    JoinFour(DecimalTexts([0, 3, 5, 7]), ", ");
  }

  /** Any table whose ones are on lines 1, 2, 4 and 6 has this SDNF number form. */
  lemma SdnfOfOnes(m: seq<Line>)
    requires ThreeVariableLines(m) && Indices(m, 1, 0) == [1, 2, 4, 6]
    ensures NumberFormSdnf(m) == "(1, 2, 4, 6) &"
  {
    OnesIndexText();
    assert "(" + "1, 2, 4, 6" + ") &" == "(1, 2, 4, 6) &";
  }

  /** Any table whose zeros are on lines 0, 3, 5 and 7 has this SKNF number form. */
  lemma SknfOfZeros(m: seq<Line>)
    requires ThreeVariableLines(m) && Indices(m, 0, 0) == [0, 3, 5, 7]
    ensures NumberFormSknf(m) == "(0, 3, 5, 7) |"
  {
    ZerosIndexText();
    assert "(" + "0, 3, 5, 7" + ") |" == "(0, 3, 5, 7) |";
  }

  /** The sample is a table of three variables. */
  lemma SampleIsThreeVariable()
    ensures ThreeVariableLines(SampleLines)
  {
    forall i | 0 <= i < |SampleLines|
      ensures |SampleLines[i].bits| == 3 && IsBitRow(SampleLines[i].bits)
    {
    }
  }

  /** The SDNF number form the unit tests expect for '(a|b)~(!c)'. */
  lemma SampleNumberFormSdnf()
    ensures ThreeVariableLines(SampleLines)
    ensures NumberFormSdnf(SampleLines) == "(1, 2, 4, 6) &"
  {
    SampleIsThreeVariable();
    SampleIndices();
    SdnfOfOnes(SampleLines);
  }

  /** The SKNF number form the unit tests expect for '(a|b)~(!c)'. */
  lemma SampleNumberFormSknf()
    ensures ThreeVariableLines(SampleLines)
    ensures NumberFormSknf(SampleLines) == "(0, 3, 5, 7) |"
  {
    SampleIsThreeVariable();
    SampleIndices();
    SknfOfZeros(SampleLines);
  }

  /** The F column as digits. */
  function FDigits(m: seq<Line>): (s: string)
    requires ThreeVariableLines(m)
    ensures |s| == |m| && IsBits(s)
    ensures forall i :: 0 <= i < |m| ==> Digit(s[i]) == m[i].f
  {
    seq(|m|, i requires 0 <= i < |m| => Truth(m[i].f == 1))
  }

  /** `doIndexForm`: the F column read as a binary number, line 0 most
      significant; NaN (`None`) for a table without lines. */
  function IndexForm(m: seq<Line>): (r: Option<int>)
    requires ThreeVariableLines(m)
    ensures |m| > 0 ==> r == Some(Value(FDigits(m)))
  {
    ParseInt2(FDigits(m))
  }

  /** The digits of the index form, as a row of as many bits as there are
      lines, are the F column again. */
  lemma IndexFormRoundTrip(m: seq<Line>)
    requires ThreeVariableLines(m) && |m| > 0
    ensures IndexForm(m).Some? && 0 <= IndexForm(m).value < Pow2(|m|)
    ensures forall i :: 0 <= i < |m| ==> Row(|m|, IndexForm(m).value)[i] == m[i].f
  {
    var fs := seq(|m|, i requires 0 <= i < |m| => m[i].f);
    DigitsRowValue(FDigits(m), fs);
    assert IsBitRow(fs);
    ValueRoundTrip(fs);
  }

  /** A digit string and the row of its digits denote the same number. */
  lemma {:induction false} DigitsRowValue(s: string, row: seq<int>)
    requires |s| == |row| && forall i :: 0 <= i < |s| ==> Digit(s[i]) == row[i]
    ensures Value(s) == RowValue(row)
  {
    if |s| > 0 {
      DigitsRowValue(s[..|s| - 1], row[..|row| - 1]);
    }
  }
}
